=== FILE: README.md ===
# pomar component trees in Dafny

pomar builds component trees (max-trees and min-trees) of grey-level images
and computes attributes of their nodes incrementally. This project models
the core of that library and proves properties of the model:

- **Points and pixel indexers.** `Point` arithmetic. The four pixel
  indexers map coordinates to row-major indices under an out-of-bounds
  policy: nearest border, default value, mirror image or exception.
  `pixel` converts back.
- **Adjacency.** The translating adjacency lists the neighbours of a pixel
  by adding a set of translations. The 4- and 8-adjacency are two such
  sets. The table of all neighbour lists is the graph the tree builder
  walks.
- **Index sorting.** `Sort.hpp` has a stable counting sort in increasing
  and in decreasing order for the low-size integer types, and a comparison
  sort otherwise. `maxTreeSort`/`minTreeSort` pick between them.
  `MaxTreeSorter` is the sorter the builder uses.
- **The union-find builder** (`CTBuilder`). It visits pixels from the
  largest value to the smallest. It links each pixel to the roots of its
  already-visited neighbours, using `findRoot` with path compression. It
  then canonizes the parent array so that every parent is a level root.
- **The compact tree** (`CTree`):
  - `createNodes` turns the canonical parent array into nodes numbered
    root first;
  - `transverse` visits them from the last id to the root;
  - `reconstructNode` collects the pixels of a component;
  - `convetToVector` gives the image back.
- **`AttributeCollection`.** An append-only table of per-node arrays, with
  a map from attribute type to array position.
- **The incremental attribute framework.** Each computer pushes its arrays
  in `setUp`. During the traversal, at each node, every computer runs
  `preProcess`, then `merge` into the parent, then `postProcess`.
  Computers run in push order.
- **The computers.** The node counter of the framework's tests and the area
  computer. The bit-quad computer adds the five counters of each pixel,
  read from a decision table indexed by the base-3 code of the pixel's
  comparisons with its 8 neighbours. Its attribute-from-quads computers
  evaluate area, continuous area, perimeter, continuous perimeter and Euler
  number from the summed counters.

## Modules

| file | module |
|---|---|
| point.dfy | `Point2D` |
| c_arith.dfy | `CArith` (C++ truncating division and remainder) |
| pixel_indexer.dfy | `PixelIndexing` |
| adjacency.dfy | `AdjacencyByTranslating` |
| grid_adjacency.dfy | `GridAdjacency` |
| perm.dfy | `Permutations` |
| rank.dfy | `StableRank` |
| sort.dfy | `IndexSort` |
| union_find.dfy | `UnionFind` |
| parent_forest.dfy | `ParentForest` (the union-find parent array as a forest, and connected sets) |
| ct_builder.dfy | `TreeBuilder` |
| ctree.dfy | `CompactTree` |
| create_nodes.dfy | `NodeCreation` |
| components.dfy | `ThresholdComponents` (the nodes as connected components of threshold sets) |
| build.dfy | `TreeBuild` |
| subtree_sums.dfy | `SubtreeSums` |
| attribute_collection.dfy | `AttributeStore` |
| quads.dfy | `QuadsCounting` |
| attribute_ops.dfy | `AttributeOps` |
| attribute_computer.dfy | `IncrementalAttributes` |
| hooks.dfy | `ComputerHooks` |
| hook_columns.dfy | `HookColumns` |
| incremental_run.dfy | `IncrementalRun` |
| run_results.dfy | `RunResults` |
| reference_tree.dfy | `ReferenceTree` |
| reference_run.dfy | `ReferenceRun` |

## Model

| member | source | states |
|---|---|---|
| Point2D.CompoundFormsAgree | include/pomar/Math/Point.hpp:95-172 | `+=`, `-=`, `*=` and `/=` give the same point as the binary `+`, `-`, `*` and `/`. |
| Point2D.IsEqualIffSame | include/pomar/Math/Point.hpp:142-146 | `isEqual` and `==` hold exactly when both coordinates agree. |
| Point2D.SumSubInverse | include/pomar/Math/Point.hpp:130-140 | Subtracting the point just added gives the original point back, and the other way round; addition commutes. |
| Point2D.MultDistributes | include/pomar/Math/Point.hpp:81-86 | Scaling a sum of points equals the sum of the scaled points. |
| Point2D.DivTruncates | include/pomar/Math/Point.hpp:103-108 | Division truncates toward zero: each quotient times the divisor is no larger in magnitude than the coordinate, and the remainder is smaller in magnitude than the divisor. |
| Point2D.MultDivRoundTrip | include/pomar/Math/Point.hpp:81-108 | Multiplying by a non-zero factor and then dividing by it gives the original point. |
| Point2D.ReferenceArithmetic | test/src/Math/Point.cpp:6-67 | The library's point scenario on (3,4) and (-2,5): the sum, difference, product, quotient and equality it expects. |
| CArith.CDivModSpec | include/pomar/Math/Point.hpp:103-108 | C++ `/` and `%`: `a == b*q + r`, with the remainder smaller than the divisor in magnitude and of the sign of `a`. |
| PixelIndexing.WrapInRange | src/Core/PixelIndexer.cpp:57-64 | The mirror wrap-around always lands in `[0, size)` and leaves in-range coordinates alone. |
| PixelIndexing.IndexXY | src/Core/PixelIndexer.cpp:22-84 | All policies agree on in-bounds points. Out of bounds: the exception policy fails exactly there, the default policy answers its value, and nearest-border and mirror answer a valid index. |
| PixelIndexing.IndexP | include/pomar/Core/PixelIndexer.hpp:27 | `index(p)` maps every valid flat index to itself. |
| PixelIndexing.InBoundsIndexAgrees | src/Core/PixelIndexer.cpp:22-84 | For an in-bounds point every policy answers `width*y + x`, a valid index. |
| PixelIndexing.NearestBorderIsNearest | src/Core/PixelIndexer.cpp:22-31 | The clamped coordinates are at least as close to the point as any other in-bounds coordinates. |
| PixelIndexing.MirrorIsEuclideanWrap | src/Core/PixelIndexer.cpp:57-64 | The mirror policy equals the Euclidean remainder in both coordinates. |
| PixelIndexing.IndexPIdentity | include/pomar/Core/PixelIndexer.hpp:27 | `index(p)` is the identity on valid indices. |
| PixelIndexing.PixelSquareRoundTrip | src/Core/PixelIndexer.cpp:11-15 | On square images, `pixel` as written gives the cell that `index` maps back to `p`, for every policy and valid index, except the default-value indexer's own default `d`. |
| PixelIndexing.PixelSquareAgrees | src/Core/PixelIndexer.cpp:11-50 | On square images, `pixel` as written and the corrected `pixel` agree. |
| PixelIndexing.PixelDividesByHeight | src/Core/PixelIndexer.cpp:11-15 | On a 3x2 image, `pixel(5)` as written gives the row 2, outside the image. The corrected `pixel` gives (2, 1). |
| PixelIndexing.PixelFixed | src/Core/PixelIndexer.cpp:11-50 | The corrected `pixel` splits a valid index into `(p % width, p / width)` for every policy. The one exception is the default-value indexer at its own default `d`, which answers `(d, d)`. |
| PixelIndexing.PixelFixedRoundTrip | src/Core/PixelIndexer.cpp:11-50 | The corrected `pixel` of a valid index is an in-bounds cell that `index` maps back to the same index, for every policy except the default-value indexer at its own default. |
| PixelIndexing.IndexPixelFixedRoundTrip | src/Core/PixelIndexer.cpp:11-50 | The corrected `pixel` inverts `index` on in-bounds cells, for every policy except the default-value indexer on the cell whose index is its default. |
| PixelIndexing.ReferenceIndexing | test/src/Core/PixelIndexer.cpp:7-129 | The library's indexer scenarios for all four policies. |
| AdjacencyByTranslating.Neighbours | src/AdjacencyRelation/AdjacencyByTranslating.cpp:15-35 | One entry per translation. Each entry is the sentinel or a valid pixel index. |
| AdjacencyByTranslating.NeighbourListInRange | src/AdjacencyRelation/AdjacencyByTranslating.cpp:15-35 | Every neighbour-list entry is the sentinel or a pixel of the image. |
| AdjacencyByTranslating.InGridFromSound | src/AdjacencyRelation/AdjacencyByTranslating.cpp:15-35 | Every listed neighbour is an in-grid translate of the pixel. |
| AdjacencyByTranslating.InGridFromComplete | src/AdjacencyRelation/AdjacencyByTranslating.cpp:15-35 | Every in-grid translate of the pixel is listed. |
| AdjacencyByTranslating.NeighbourListMembership | src/AdjacencyRelation/AdjacencyByTranslating.cpp:15-35 | An index is listed exactly when it is the row-major index of an in-grid translate of the pixel. |
| AdjacencyByTranslating.NeighbourSymmetric | src/AdjacencyRelation/AdjacencyByTranslating.cpp:15-49 | With translations closed under negation, `q` neighbours `p` exactly when `p` neighbours `q`. |
| AdjacencyByTranslating.StandardSetsSymmetric | src/AdjacencyRelation/AdjacencyByTranslating.cpp:37-49 | The 4- and 8-translation sets are closed under negation. |
| AdjacencyByTranslating.ReferenceNeighboursLineMiddle | test/src/AdjacencyRelation/AdjacencyByTranslating2D.cpp:8-35 | The line scenario: the neighbours of a middle pixel. |
| AdjacencyByTranslating.ReferenceNeighbours8Centre | test/src/AdjacencyRelation/AdjacencyByTranslating2D.cpp:42-86 | The 8-adjacency scenario: the neighbours of the centre pixel. |
| AdjacencyByTranslating.ReferenceNeighbours4Centre | test/src/AdjacencyRelation/AdjacencyByTranslating2D.cpp:89-124 | The 4-adjacency scenario: the neighbours of the centre pixel. |
| GridAdjacency.TableValid | src/AdjacencyRelation/AdjacencyByTranslating.cpp:15-35 | The table of all neighbour lists holds only valid pixels and the sentinel. |
| GridAdjacency.TableSymmetric | src/AdjacencyRelation/AdjacencyByTranslating.cpp:15-35 | With translations closed under negation, the table is symmetric. |
| GridAdjacency.TableConnected | src/AdjacencyRelation/AdjacencyByTranslating.cpp:15-35 | With the four unit steps among the translations, every set closed under the table that holds a pixel holds the whole grid. |
| GridAdjacency.StandardTablesReady | src/AdjacencyRelation/AdjacencyByTranslating.cpp:37-49 | The 4- and 8-adjacency of every non-empty image are valid, symmetric and connected, which is what the builder's theorem needs. |
| IndexSort.ReferenceLowSizeTypes | include/pomar/Core/Sort.hpp:42-49 | `isLowSizeType` holds for the seven integer types and fails for `long`, `unsigned long`, `float` and `double`. |
| IndexSort.MaxValue | include/pomar/Core/Sort.hpp:66 | Every low-size type has a positive maximum. |
| IndexSort.CounterHoldsEveryValue | include/pomar/Core/Sort.hpp:66-67 | The counter `maxValue + 1` has one slot per value exactly when the type is neither `int` nor `unsigned int`. For `unsigned int` it is empty; for `int` the addition overflows. |
| IndexSort.RunningSumGuardNeverFails | include/pomar/ComponentTree/CTBuilder.hpp:212-213 | The guard `i <= maxValue` fails for some `int` value of `i` exactly for the narrow types. For `int` and `unsigned int` the loop never ends. |
| IndexSort.CountKeys | include/pomar/Core/Sort.hpp:70-71 | Slot `k` of the counter is the number of elements with key `k`. |
| IndexSort.RunningSums | include/pomar/Core/Sort.hpp:73-75 | After the prefix sums, slot `k` is the number of elements with key at most `k`. |
| IndexSort.PlaceBackwards | include/pomar/Core/Sort.hpp:77-78 | The backward scan puts every element at its stable rank. |
| IndexSort.CountingSortIndex | include/pomar/Core/Sort.hpp:63-81 | The counting sort returns the stable ascending order of its keys. |
| StableRank.StableOrderCharacterised | include/pomar/Core/Sort.hpp:63-81 | The stable order is a stable ascending sort, and it is the only one. |
| IndexSort.ComplementOrder | include/pomar/Core/Sort.hpp:83-101 | Ascending on the keys `maxValue - v[i]` means non-increasing on `v`, with the same stability. |
| IndexSort.StlSortIndex | include/pomar/Core/Sort.hpp:51-61 | The comparison sort returns a permutation of the indices ordered by the comparison. |
| IndexSort.IncreasingCountingSortIndex | include/pomar/Core/Sort.hpp:63-81 | The increasing counting sort returns a stable non-decreasing permutation, namely the stable ascending order. |
| IndexSort.DecreasingCountingSortIndex | include/pomar/Core/Sort.hpp:83-101 | The decreasing counting sort returns a stable non-increasing permutation, namely the stable order of the complemented keys. |
| IndexSort.MaxTreeSort | include/pomar/ComponentTree/CTSorter.hpp:30-36 | `maxTreeSort` returns a non-decreasing permutation, stable for the low-size types. |
| IndexSort.MinTreeSort | include/pomar/ComponentTree/CTSorter.hpp:39-45 | `minTreeSort` returns a non-increasing permutation, stable for the low-size types. |
| IndexSort.MaxTreeSorterSortAsWritten | include/pomar/ComponentTree/CTBuilder.hpp:187-219 | `MaxTreeSorter::sort` as written is always a permutation. The counting path is stable and non-increasing; the fallback is the `<` comparison sort. |
| IndexSort.MaxTreeSorterSort | include/pomar/ComponentTree/CTBuilder.hpp:187-219 | With the fallback comparison `>`, both paths are non-increasing permutations, and the counting path is stable. |
| IndexSort.MaxTreeSorterPathsDisagree | include/pomar/ComponentTree/CTBuilder.hpp:190-194 | On `[0, 1]` the fallback as written is not non-increasing, while the counting path gives `[1, 0]`. |
| IndexSort.ReferenceIncreasing | test/src/Core/Sort.cpp:27-59 | The library's increasing scenario: `[2,5,3,0,2,3,0,3]` sorts to `[3,6,0,4,2,5,7,1]`. |
| IndexSort.ReferenceDecreasing | test/src/ComponentTree/CTSorter.cpp:6-44 | The decreasing scenario gives `[1,2,5,7,0,4,3,6]`, through the complemented and through the negated keys alike. |
| UnionFind.FindRoot | include/pomar/ComponentTree/CTBuilder.hpp:162-170 | `findRoot` returns the root of `x`. Path compression points every node on the path at it and leaves the rest of the forest alone. |
| UnionFind.FindRootPreservesRoots | src/ComponentTree/CTBuilder.cpp:5-10 | Path compression keeps the visited set, the self-loops and the root of every visited element. |
| UnionFind.LinkRoot | include/pomar/ComponentTree/CTBuilder.hpp:149-151 | Linking root `r` under `p` keeps a forest and re-roots exactly the elements whose root was `r`. |
| TreeBuilder.LinkNeighbour | include/pomar/ComponentTree/CTBuilder.hpp:147-152 | One neighbour step keeps the linking invariant over one more neighbour. |
| TreeBuilder.LinkNeighbours | include/pomar/ComponentTree/CTBuilder.hpp:146-153 | After the neighbour loop, every visited neighbour's tree hangs under `p`. The visited set and other trees are unchanged, and parents change only to `p`. |
| TreeBuilder.UnionFindParents | include/pomar/ComponentTree/CTBuilder.hpp:134-154 | Every parent comes later in the processing order. With a symmetric connected adjacency, the last element is the only root. Every neighbour processed no later than an element lies in that element's subtree, and every subtree is connected. |
| ParentForest.LinkReaches | include/pomar/ComponentTree/CTBuilder.hpp:149-151 | Hanging root `r` under root `p` makes `p` reach what reached `r`, and changes no other reach. |
| ParentForest.SubtreeAfterLink | include/pomar/ComponentTree/CTBuilder.hpp:149-151 | After the link, the subtree of `p` is the union of the two subtrees and every other subtree is unchanged. |
| ParentForest.JoinConnected | include/pomar/ComponentTree/CTBuilder.hpp:147-152 | Two connected sets joined by a pair of neighbours form one connected set. |
| ParentForest.ExtendReaches | include/pomar/ComponentTree/CTBuilder.hpp:145 | Making the newly processed element its own parent changes no reach to an element processed earlier. |
| ParentForest.SubtreeAfterExtend | include/pomar/ComponentTree/CTBuilder.hpp:145 | After that, the new element's subtree is itself alone, and every earlier subtree is unchanged. |
| TreeBuilder.TracksCompressed | include/pomar/ComponentTree/CTBuilder.hpp:162-170 | Path compression changes only `zpar`: `parent` still reaches each visited element's `zpar` root, and its subtrees stay connected. |
| TreeBuilder.TracksLinked | include/pomar/ComponentTree/CTBuilder.hpp:149-151 | Linking a neighbour's root under `p` in both arrays keeps that tracking. |
| TreeBuilder.TracksStart | include/pomar/ComponentTree/CTBuilder.hpp:144-145 | Marking the next element as its own parent in both arrays keeps the tracking and the edges already covered. |
| TreeBuilder.EdgesUpAfterVisit | include/pomar/ComponentTree/CTBuilder.hpp:146-153 | After the neighbour loop, every already processed neighbour of `p` is in the subtree of `p`. |
| TreeBuilder.SingleTree | include/pomar/ComponentTree/CTBuilder.hpp:143-154 | After all elements are visited over a connected symmetric adjacency, the last processed element is the only self-parent. |
| TreeBuilder.TreeClosed | include/pomar/ComponentTree/CTBuilder.hpp:143-154 | Each union-find tree is closed under the adjacency once every element is visited. |
| TreeBuilder.CanonizeTree | include/pomar/ComponentTree/CTBuilder.hpp:173-183 | After canonization every parent is a level root and still comes later. Roots stay roots, and each new parent is an ancestor at the old parent's level. |
| TreeBuilder.CanonizeSelf | include/pomar/ComponentTree/CTBuilder.hpp:177-182 | One canonization step makes the element's parent a level root without changing its level or root status. |
| ThresholdComponents.OrderedMonotone | include/pomar/ComponentTree/CTBuilder.hpp:141-143 | Processing in an order sorted by the comparison never meets a value beyond one already processed. |
| ThresholdComponents.SubtreeComponent | include/pomar/ComponentTree/CTBuilder.hpp:143-154 | The union-find subtree of an element whose parent has another value is the connected component of that value's threshold set that contains the element. |
| ThresholdComponents.CanonReaches | include/pomar/ComponentTree/CTBuilder.hpp:173-183 | Below a level root, the canonical parents and the union-find parents reach the same elements. |
| ThresholdComponents.NodeReaches | include/pomar/ComponentTree/CTree.hpp:156-190 | A pixel's node lies below node `k` exactly when the pixel reaches node `k`'s level root through the canonical parents. |
| ThresholdComponents.ReconstructIsSubtree | include/pomar/ComponentTree/CTree.hpp:194-211 | `reconstructNode(k)` holds exactly the union-find subtree of node `k`'s level root. |
| ThresholdComponents.ComponentUnique | include/pomar/ComponentTree/CTBuilder.hpp:143-154 | Two threshold components of the same level that share a pixel are equal. |
| ThresholdComponents.NodeComponent | include/pomar/ComponentTree/CTree.hpp:194-211 | Every node reconstructs a connected component of the threshold set of its level. |
| ThresholdComponents.ElementComponent | include/pomar/ComponentTree/CTree.hpp:185-211 | The component of a pixel's own value that contains the pixel is the reconstruction of the pixel's node. |
| ThresholdComponents.TreeComponents | include/pomar/ComponentTree/CTBuilder.hpp:130-159 | The nodes of the compacted tree are exactly the threshold components, in both directions. |
| TreeBuild.BuildWithOrder | include/pomar/ComponentTree/CTBuilder.hpp:130-159 | The built tree is well formed and holds the image. If the order is sorted by a comparison, every node-to-parent step is ordered by it, and the nodes are exactly the connected components of the threshold sets in that direction. |
| TreeBuild.ParentsOrdered | include/pomar/ComponentTree/CTBuilder.hpp:141-154 | Along a monotone processing order, no parent compares before its child. |
| TreeBuild.RefTreeLevelsOrdered | include/pomar/ComponentTree/CTree.hpp:156-183 | Ordered element parents give ordered node levels. |
| TreeBuild.BuildAndFlatten | include/pomar/ComponentTree/CTree.hpp:214-224 | Building a tree and converting it back to a vector gives the image. |
| TreeBuild.BuildTreeAsWritten | include/pomar/ComponentTree/CTBuilder.hpp:81-98 | An invalid tree type gives `invalid_argument`. Both valid types build the same tree, holding the image, because `MinTree` also uses `MaxTreeSorter`. For the types the sorter counts it is a max-tree, with upper-threshold components as nodes. For `bool`, `long`, `unsigned long`, `float` and `double`, the `<` fallback makes it a min-tree, with lower-threshold components as nodes. |
| TreeBuild.BuildTree | include/pomar/ComponentTree/CTBuilder.hpp:81-98 | With the min-tree order for `MinTree`: the max-tree has non-increasing levels from each node up, and its nodes are the components of the upper threshold sets. The min-tree has non-decreasing levels and lower-threshold components as nodes. |
| TreeBuild.MinTreeAsWrittenIsMaxTree | include/pomar/ComponentTree/CTBuilder.hpp:91-95 | On any image with two distinct values, a tree ordered as a max-tree is not ordered as a min-tree. |
| CompactTree.Transverse | include/pomar/ComponentTree/CTree.hpp:137-142 | The traversal visits every node once, each child before its parent, and the root last. |
| CompactTree.ReconstructMembers | include/pomar/ComponentTree/CTree.hpp:194-211 | `reconstructNode(a)` holds exactly the pixels whose node is `a` or a descendant of `a`. |
| CompactTree.ReconstructDistinct | include/pomar/ComponentTree/CTree.hpp:194-211 | `reconstructNode` lists no pixel twice. |
| CompactTree.RootReconstructIsPermutation | include/pomar/ComponentTree/CTree.hpp:194-211 | Reconstructing the root gives every pixel of the image exactly once. |
| CompactTree.SiblingsDisjoint | include/pomar/ComponentTree/CTree.hpp:172-183 | No node is a descendant of two different children of the same node. |
| CompactTree.ConvertToVector | include/pomar/ComponentTree/CTree.hpp:214-224 | Every pixel gets the level of its node. |
| NodeCreation.CollectLevelRoots | include/pomar/ComponentTree/CTree.hpp:156-160 | The scan collects the level roots in reverse processing order. |
| NodeCreation.LevelRootsListed | include/pomar/ComponentTree/CTree.hpp:156-160 | For a compactable parent array, the level roots come root first. Each appears after its parent's level root, in decreasing processing rank. |
| NodeCreation.LinkNode | include/pomar/ComponentTree/CTree.hpp:172-183 | One step creates node `i`, links it to its parent's node and records it as a child, keeping the linking invariant. |
| NodeCreation.LinkNodes | include/pomar/ComponentTree/CTree.hpp:162-183 | All level roots become nodes, linked to their parents' nodes. |
| NodeCreation.AttachElements | include/pomar/ComponentTree/CTree.hpp:185-190 | Attaching the remaining pixels to their parents' nodes completes the reference tree. |
| NodeCreation.CreateNodes | include/pomar/ComponentTree/CTree.hpp:145-191 | `createNodes` builds a well-formed tree with one node per level root, and each pixel's node has the pixel's level. |
| NodeCreation.RefTreeWellFormed | include/pomar/ComponentTree/CTree.hpp:145-191 | The tree `createNodes` builds is well formed: the node numbering and the parent/child links agree, and the pixels are partitioned among the nodes. |
| NodeCreation.RefTreeLevels | include/pomar/ComponentTree/CTree.hpp:145-191 | Every pixel's node has that pixel's value as its level. |
| NodeCreation.RefTreeFollowsParents | include/pomar/ComponentTree/CTree.hpp:145-191 | A non-level-root shares its parent's node. A level root's node hangs under its parent's node. There is one node per level root. |
| SubtreeSums.RunColumnTotals | include/pomar/Attribute/AttributeComputer.hpp:151-164 | Adding a weight per node and merging each node into its parent, in traversal order, leaves every node's subtree total. |
| SubtreeSums.TotalIsSumOverReconstruct | include/pomar/ComponentTree/CTree.hpp:194-211 | A node's subtree total of per-pixel weights is the sum of the weights over the pixels `reconstructNode` lists. |
| SubtreeSums.SubtreeNodesMembers | include/pomar/ComponentTree/CTree.hpp:194-211 | The subtree of `k` lists each of its descendants exactly once. |
| SubtreeSums.TotalCountsNodes | test/src/Attribute/AttributeComputer.cpp:31-43 | Summing one per node over a subtree counts the subtree's nodes. This is what the tests' node counter computes. |
| AttributeStore.Empty | src/Attribute/AttributeCollection.cpp:5-7 | A new collection has no arrays and no types, and its next position is 0. |
| AttributeStore.Push | src/Attribute/AttributeCollection.cpp:19-24 | `push` appends a zero array, maps the type to the new position and advances the next position. |
| AttributeStore.AttrIndex | include/pomar/Attribute/AttributeCollection.hpp:35 | `attrIndex` answers the position recorded for the type. For an unknown type it inserts and answers 0. The arrays never change. |
| AttributeStore.Set | src/Attribute/AttributeCollection.cpp:26-29 | `set` changes exactly the one cell. |
| AttributeStore.Add | src/Attribute/AttributeCollection.cpp:9-12 | `attrs[a][id] += d` changes exactly the one cell, by `d`. |
| AttributeStore.Clear | src/Attribute/AttributeCollection.cpp:31-35 | `clear` as written empties the map and the arrays and keeps the next position. |
| AttributeStore.ClearFixed | src/Attribute/AttributeCollection.cpp:31-35 | The corrected `clear` leaves a collection equal to a new one. |
| AttributeStore.CountedPreserved | src/Attribute/AttributeCollection.cpp:19-35 | `push`, `attrIndex`, `set` and the corrected `clear` keep the next position equal to the number of arrays. |
| AttributeStore.ClearBreaksCounted | src/Attribute/AttributeCollection.cpp:31-35 | `clear` as written breaks that invariant once anything was pushed. |
| AttributeStore.PushAllPositions | src/Attribute/AttributeCollection.cpp:19-24 | Distinct types pushed in order get consecutive positions, each with a fresh zero array. Earlier arrays and map entries are kept. |
| AttributeStore.RepushKeepsOldArray | src/Attribute/AttributeCollection.cpp:19-24 | Pushing a type twice moves its map entry to the new array and leaves the old array in place. |
| AttributeStore.SetThenGet | src/Attribute/AttributeCollection.cpp:9-29 | `get` and `operator[]` read back what `set` wrote, and every other cell is unchanged. |
| AttributeStore.PushThenAttrIndex | src/Attribute/AttributeCollection.cpp:19-24 | `attrIndex` after `push` answers the pushed position without changing the collection. For an unpushed type it answers 0. |
| AttributeStore.ReferencePushOrder | test/src/Attribute/AttributeCollection.cpp:7-16 | After pushing AREA and PERIMETER, they are at positions 0 and 1. |
| AttributeStore.ReferenceClearThenPush | test/src/Attribute/AttributeCollection.cpp:17-23 | After `clear` and one push, `clear` as written puts PERIMETER at 2 while the table holds one array. The corrected `clear` gives 0, as the test expects. |
| IncrementalAttributes.NewQuadsComputer | include/pomar/Attribute/AttributeComputerQuads.hpp:169-192 | The bit-quad computer keeps its attribute-from-quads computers in the order given. |
| IncrementalAttributes.CountersPushed | include/pomar/Attribute/AttributeComputerQuads.hpp:200-205 | The five counters Q1, Q2, QD, Q3, Q4 get the next five positions. |
| IncrementalAttributes.SubsSetUpTable | include/pomar/Attribute/AttributeComputerQuads.hpp:207-210 | Each attribute-from-quads computer pushes its type after the counters, in order. |
| IncrementalAttributes.SubsSetUpRecords | include/pomar/Attribute/AttributeComputerQuads.hpp:324-333 | Each attribute-from-quads computer records the counter positions, its own array position and the connectivity. |
| IncrementalAttributes.QuadsSetUpTable | include/pomar/Attribute/AttributeComputerQuads.hpp:194-214 | The bit-quad `setUp` pushes the counters and then the attribute types, in that order. |
| IncrementalAttributes.SetUpPushes | include/pomar/Attribute/AttributeComputerBasic.hpp:42-47 | Every computer's `setUp` pushes its types and records the positions they got. |
| IncrementalAttributes.SetUpAllTable | include/pomar/Attribute/AttributeComputer.hpp:189-194 | The collection's `setUp` pushes the types of all computers in push order. |
| IncrementalAttributes.SetUpAllColumns | include/pomar/Attribute/AttributeComputer.hpp:189-194 | Each computer's arrays come right after those of the computers pushed before it. |
| ComputerHooks.ElementOpsShape | include/pomar/Attribute/AttributeComputerQuads.hpp:216-225 | `preProcess` of the bit-quad computer makes five additions per pixel of the node, into the node's own counter cells. |
| ComputerHooks.HookOpsShape | include/pomar/Attribute/AttributeComputerQuads.hpp:216-241 | Each hook writes only the node's cells or its parent's cells of the computer's own arrays. |
| ComputerHooks.CollectionOpOwner | include/pomar/Attribute/AttributeComputer.hpp:196-218 | Every write of the collection's hooks belongs to one of its computers. |
| ComputerHooks.PostPhase | include/pomar/Attribute/AttributeComputerQuads.hpp:236-241 | `postProcess` only writes formula cells, and reads only counter cells. |
| HookColumns.PreColumnOne | include/pomar/Attribute/AttributeComputerBasic.hpp:49-54 | The area and test `preProcess` add the node's own weight to the node's cell. |
| HookColumns.PreColumnQuads | include/pomar/Attribute/AttributeComputerQuads.hpp:216-225 | The bit-quad `preProcess` adds, to each counter, the sum of that counter over the node's own pixels. |
| HookColumns.MergeColumn | include/pomar/Attribute/AttributeComputerBasic.hpp:56-61 | `merge` adds the node's value to its parent's value, in every accumulated array. |
| HookColumns.FormulaHooks | include/pomar/Attribute/AttributeComputerQuads.hpp:236-241 | An attribute-from-quads array is written only by `postProcess`, with its formula. |
| IncrementalRun.Run | include/pomar/Attribute/AttributeComputer.hpp:220-227 | `compute` keeps the collection's bookkeeping and sizes and adds one array per pushed type. |
| IncrementalRun.RunTable | include/pomar/Attribute/AttributeComputer.hpp:189-227 | The arrays present before are untouched, and the map is the one the pushes give. |
| IncrementalRun.DoCompute | include/pomar/Attribute/AttributeComputer.hpp:151-164 | The loop version of `doCompute` computes the same collection as the functional run. |
| IncrementalRun.TraversalAccum | include/pomar/Attribute/AttributeComputer.hpp:155-162 | Each accumulated array after the traversal is the subtree sum of its per-node weights. |
| IncrementalRun.TraversalKeepsPrefix | include/pomar/Attribute/AttributeComputer.hpp:151-164 | The traversal never writes arrays that no computer owns. |
| RunResults.RunAccumulates | include/pomar/Attribute/AttributeComputer.hpp:151-164 | After `compute`, the arrays hold: for the node counter, the node count of each subtree; for the area computer, each component's pixel count; for the bit-quad counters, each counter summed over the component's pixels. |
| RunResults.RunFormulas | include/pomar/Attribute/AttributeComputerQuads.hpp:216-241 | Each attribute-from-quads array holds, at every node, its formula evaluated on the counters summed over the node's component. |
| RunResults.AreaWeights | include/pomar/Attribute/AttributeComputerBasic.hpp:49-54 | The area weight of a node, its own pixel count, is the sum of one per pixel over its own pixels. |
| QuadsCounting.Digit | include/pomar/Attribute/AttributeComputerQuads.hpp:278-281 | The digit is 0 exactly when the neighbour is lower, 2 exactly when it is greater, and 1 otherwise. |
| QuadsCounting.Base3RoundTrip | include/pomar/Attribute/AttributeComputerQuads.hpp:284 | Reading base-3 digits as a number and splitting it back gives the digits. |
| QuadsCounting.ToBase3RoundTrip | include/pomar/Attribute/AttributeComputerQuads.hpp:284 | Splitting a number into base-3 digits and reading them back gives the number. |
| QuadsCounting.Pow3Window | include/pomar/Attribute/AttributeComputerQuads.hpp:167 | The decision table has one row per 8-digit code: 3^8 = 6561. |
| QuadsCounting.NeighbourIndex | include/pomar/Attribute/AttributeComputerQuads.hpp:271-277 | A non-negative neighbour index is an in-bounds translate of the pixel's cell. |
| QuadsCounting.NeighbourIndexIsNeighbour | include/pomar/Attribute/AttributeComputerQuads.hpp:271-277 | The corrected neighbour lookup gives the row-major index of the translated cell when it is in the image, and `-1` otherwise. |
| QuadsCounting.NeighbourIndexAsWritten | include/pomar/Attribute/AttributeComputerQuads.hpp:273 | The lookup as written, through `pixel` as written, gives an in-bounds translate or a negative index. |
| QuadsCounting.NeighbourIndexSquare | include/pomar/Attribute/AttributeComputerQuads.hpp:273 | On square images the lookup as written and the corrected lookup agree. |
| QuadsCounting.NeighbourIndexAsWrittenMisses | include/pomar/Attribute/AttributeComputerQuads.hpp:273 | On a 3x2 image the lookup as written sees no upper-left neighbour of pixel 5, which is pixel 1. |
| QuadsCounting.Coding | include/pomar/Attribute/AttributeComputerQuads.hpp:271-282 | The code has one base-3 digit per window position, comparing the pixel with that neighbour. |
| QuadsCounting.CodeIndex | include/pomar/Attribute/AttributeComputerQuads.hpp:284-285 | The code is a valid row of the decision table. |
| QuadsCounting.CodeIndexDecodes | include/pomar/Attribute/AttributeComputerQuads.hpp:274-285 | Splitting the table row index into base-3 digits gives the neighbourhood's comparison digits. |
| QuadsCounting.FlatNeighbourhoodCode | include/pomar/Attribute/AttributeComputerQuads.hpp:274-284 | A pixel whose 8 neighbours all exist and share its value has all digits 1, which is code 3280. |
| QuadsCounting.CornerOutsideDigits | include/pomar/Attribute/AttributeComputerQuads.hpp:288-308 | For the top-left pixel, the five window positions outside the image read as lower (max-tree) or greater (min-tree). |
| QuadsCounting.OutsideDigit | include/pomar/Attribute/AttributeComputerQuads.hpp:288-308 | Every window position outside the image reads as lower in a max-tree and as greater in a min-tree. |
| QuadsCounting.Contribution | include/pomar/Attribute/AttributeComputerQuads.hpp:219-224 | Each pixel's counters are differences of two table bytes, and `Q4` is one byte, so all lie within ±255 and `Q4` is non-negative. |
| QuadsCounting.FormulaAdditive | include/pomar/Attribute/AttributeComputerQuads.hpp:336-372 | Every formula is linear in the counters, so the formula of summed counters is the sum of the formulas. |
| QuadsCounting.EulerConnectivityGap | include/pomar/Attribute/AttributeComputerQuads.hpp:363-372 | The 4-connected and 8-connected Euler numbers differ by exactly `QD`. |
| QuadsCounting.ReferenceMaxTreeAttributes | test/src/Attribute/AttributeComputerQuads.cpp:117-166 | The 6x6 max-tree scenario: the areas, perimeters, Euler numbers and continuous areas the library expects follow from the hand-counted bit-quad counters of each node. |
| QuadsCounting.ReferenceMinTreeAttributes | test/src/Attribute/AttributeComputerQuads.cpp:173-222 | The same for the 6x6 min-tree scenario: its expected values follow from the hand-counted bit-quad counters of each node. |
| ReferenceTree.ReferenceSortedIsCountingOrder | include/pomar/ComponentTree/CTBuilder.hpp:198-219 | The max-tree counting sort of the 3x3 test image as `unsigned char` values is `[6,2,5,8,0,3,4,1,7]`. |
| ReferenceTree.ReferenceMaxOrderSorted | test/src/Attribute/AttributeComputer.cpp:71-72 | `[6,5,8,2,3,0,4,7,1]` is a non-increasing order of the test image. |
| ReferenceTree.ReferenceCompactable | test/src/Attribute/AttributeComputer.cpp:71-72 | The tests' parent array is one `createNodes` accepts along that non-increasing order. |
| ReferenceTree.ReferenceMaxOrderLevelRoots | include/pomar/ComponentTree/CTree.hpp:156-160 | Along that order the level roots are `[1,4,0,2,6]`, root first. |
| ReferenceTree.AscendingOrderNotCompactable | test/src/Attribute/AttributeComputer.cpp:73-78 | Along any non-decreasing order (the tests' `std::sort` with `<`), `createNodes` takes pixel 6 as the root, although its parent is 0. The parent array is not compactable along that order. |
| ReferenceTree.AscendingLevelRoots | include/pomar/ComponentTree/CTree.hpp:156-177 | Along the stable non-decreasing order the level roots are `[6,2,0,4,1]`, and the second, 2, needs the node of its parent 4 before 4 has one. |
| ReferenceTree.ReferenceCompactTree | test/src/Attribute/AttributeComputer.cpp:71-72 | The compact tree of the attribute tests' hand-written parent array has the five nodes, levels, parents and children the builder test expects. Its nodes list their pixels in another order than `build`'s tree. |
| ReferenceTree.ReferenceReconstruct | test/src/ComponentTree/MaxTreeBuilder.cpp:51-55 | `reconstructNode(1)` of the hand-written array's tree lists the pixels `{0,2,3,4,5,6,8}`. |
| ReferenceTree.CreateReferenceTree | test/src/Attribute/AttributeComputer.cpp:71-80 | `createNodes` on the attribute tests' hand-written parent array, along a non-increasing order, gives that well-formed five-node tree. |
| ReferenceTree.BuiltCompactable | include/pomar/ComponentTree/CTBuilder.hpp:143-183 | The canonical array `[3,7,8,4,7,8,3,7,4]` of the builder run on the 3x3 image is one `createNodes` accepts along the counting order `[6,2,5,8,0,3,4,1,7]`. |
| ReferenceTree.BuiltLevelRoots | include/pomar/ComponentTree/CTree.hpp:156-160 | Along that order its level roots are `[7,4,3,8,6]`, root first. |
| ReferenceTree.BuiltCompactTree | test/src/ComponentTree/MaxTreeBuilder.cpp:24-50 | Its compact tree has five nodes of levels `[0,1,2,3,7]`, parents `[-1,0,1,1,2]` and children `[[1],[2,3],[4],[],[]]`. |
| ReferenceTree.BuiltTraversal | test/src/ComponentTree/MaxTreeBuilder.cpp:27-36 | `transverse` meets levels `7,3,2,1,0` holding `1,3,2,1,2` pixels. |
| ReferenceTree.BuiltReconstruct | test/src/ComponentTree/MaxTreeBuilder.cpp:51-55 | `reconstructNode(1)` gives `[4,3,0,6,8,2,5]`, which sorted is `{0,2,3,4,5,6,8}`. |
| ReferenceTree.CreateBuiltTree | test/src/ComponentTree/MaxTreeBuilder.cpp:9-55 | `createNodes` on the builder's canonical array along the counting order gives the tree the builder test checks: well formed, five nodes, and that reconstruction. |
| ReferenceRun.CounterThenAreaAll | test/src/Attribute/AttributeComputer.cpp:82-95 | A node counter followed by an area computer on an empty collection leaves exactly the subtree sizes and the component sizes. |
| ReferenceRun.ReferenceAreas | test/src/Attribute/BasicAttributeComputer.cpp:19-26 | The component sizes of the reference tree are `[9,7,3,3,1]`. |
| ReferenceRun.ReferenceRunResults | test/src/Attribute/AttributeComputer.cpp:69-96 | `compute` on the reference tree leaves `[5,4,2,1,1]` under TEST_ATTRIBUTE at 0 and `[9,7,3,3,1]` under AREA at 1. |

## Left out

- **Integer widths.** Values and indices are unbounded integers. The modelled cases where the source's width matters are the counter of the counting sorts and the running-sum loop. `CounterHoldsEveryValue` and `RunningSumGuardNeverFails` state those.
- IndexSort.IncreasingCountingSortIndex: requires values in `[0, maxValue]` and a positive maximum. The source asks for a counter of `maxValue + 1` slots. For `int` that addition overflows, and for `unsigned int` it wraps to an empty counter. A negative `char` or `short` indexes the counter out of bounds. None of these is modelled beyond `CounterHoldsEveryValue`.
- IndexSort.DecreasingCountingSortIndex: the same counter-size caveat. Negative values index outside the counter, which is not modelled.
- IndexSort.MaxTreeSort: for `int` and `unsigned int` it returns the counting order, which the source cannot produce (counter overflow). It also requires values in range for the low-size types, which the source does not check.
- IndexSort.MinTreeSort: the same caveats as `MaxTreeSort`.
- IndexSort.MaxTreeSorterSortAsWritten: `MaxTreeSorter::countingSort` for `int` and `unsigned int` has the same counter problem. Its running-sum loop never ends (`RunningSumGuardNeverFails`). The model returns the counting order there and requires values in range.
- IndexSort.StlSortIndex: chosen as the stable order of the comparison. `std::sort` is not stable, so the source may order equal values differently. Only the ordering and the permutation are promised.
- TreeBuild.BuildWithOrder: requires a symmetric, connected adjacency. The source accepts any adjacency. On a disconnected one its union-find leaves several self-parent roots. `createNodes` then still gives every later self-parent root `p` a node `i` of its own (CTree.hpp:172-183). It sets `_cmap[p] = i` before it looks up the node of `parent[p] == p`, so the parent node it finds is node `i` itself. The node's parent is then read from the `_id` of a default-constructed `CTNode`, which is never initialised (CTree.hpp:59-61). Node `i` is also recorded as its own child, so `reconstructNode(i)` recurses without end. For example, two pixels with no neighbours and values `[5,3]` give the parent array `[0,1]` and the level roots `[1,0]`, and node 1 gets the children `[1]`. That case is not modelled. `GridAdjacency.StandardTablesReady` discharges the requirement for the 4- and 8-adjacency of every non-empty image.
- TreeBuild.BuildAndFlatten: the same adjacency requirement as `BuildWithOrder`.
- TreeBuilder.UnionFindParents: the single-root conclusion is stated only for a symmetric, connected adjacency.
- ReferenceTree.CreateReferenceTree: runs `createNodes` on the attribute tests' hand-written parent array `[4,1,4,0,1,2,0,1,2]` along the non-increasing order `[6,5,8,2,3,0,4,7,1]`. No sorter of the library produces that order, and `build` does not produce that array. The tree matches the builder test only in node count, levels, parents, children and node map. Its nodes list their pixels in another order than `build`'s tree (node 0 holds `[1,7]`, where `build` gives `[7,1]`). The tree the builder test checks is `ReferenceTree.CreateBuiltTree`.
- ReferenceTree.CreateBuiltTree: the canonical array `[3,7,8,4,7,8,3,7,4]` is the result of `build` on the 3x3 image along the counting order, traced by hand. No proof runs the union-find on that image: the proofs start from the array. `TreeBuild.BuildWithOrder` proves in general that the nodes of the built tree are the threshold components, which fixes the node sets but not the order of the pixels within a node.
- QuadsCounting.NeighbourIndex: uses the corrected `pixel` (divide by width), not the `pixel` as written that `counting` calls (see Findings). The as-written lookup is `NeighbourIndexAsWritten`, which agrees on square images (`NeighbourIndexSquare`). The run results are stated for the corrected lookup.
- QuadsCounting.Counting: the decision table is a parameter (`dt`) constrained only by `ValidTable`: 6561 rows of 9 bytes. `readDT` reads four files from a resource directory. That file I/O, and the failure when a file is missing or short, are not modelled, and neither are the table contents.
- QuadsCounting.ReferenceMaxTreeAttributes: the counters of each node are supplied by hand. The test states only the attribute values, and the decision table is a parameter, so no proof derives these counters from `Counting` on the 6x6 image. The same holds for `QuadsCounting.ReferenceMinTreeAttributes`.
- QuadsCounting.QCPerimeter: `double` arithmetic becomes exact `real` arithmetic, including the `/ 1.41`, so rounding is not modelled. All attribute values are `real`.
- **The `initializer_list` constructor.** `IncrementalAttributeComputerCollection`'s `initializer_list` constructor ignores its argument and leaves the collection empty. The model builds collections only by pushing.
- **Collection `push` and `clear`.** The collection's `push` and `clear` are sequence append and the empty sequence. The run takes the sequence of computers directly.
- IncrementalAttributes.NewQuadsComputer: attribute-from-quads computers are held by `shared_ptr` in the source. Sharing one between two bit-quad computers would let the second `setUp` overwrite the first's recorded positions. The model gives each computer its own copy.
- **Closed computer set.** `Computer` is a closed datatype: the node counter, the area computer and the bit-quad computer. The CRTP wrappers (`toIncrementalAttributeComputer`, `AttributeComputer::compute` on a new collection) are `Run` on `Empty()`. Computers defined elsewhere are not modelled.
- **Compile errors.** `build` for `MinTree` names `CTBuilder<T>` and `buildWithSorter`, which do not exist (CTBuilder.hpp:93-94). `STLsort` compares `vertices` rather than `elements` (CTBuilder.hpp:228). The quads header spells `QUADS_CONTINUOS_AREA`/`_PERIMETER` (AttributeComputerQuads.hpp:53, 73) while the enumeration has other names. The model takes the evident meaning: `MaxTreeSorter` with `build`, `elements`, and the two continuous types.
- **Duplicate `findRoot`.** `findRoot` is defined both in CTBuilder.hpp and in CTBuilder.cpp with the same body, which would be a duplicate definition at link time. The model has one `FindRoot`.
- **`prune`.** `prune` (CTree.hpp:227-250) is unfinished: it fills local tables and changes copies of nodes, with no effect on the tree.
- **Exceptions.** Exception messages are not modelled. Out-of-bounds indexing is the `OutOfBoundsError` outcome; an invalid tree type is `InvalidArgument`.
- **Other point types.** `Point2D` models the integer instantiation `IPoint2D` with unbounded coordinates. The unsigned instantiations `ULPoint2D`, `UIPoint2D` and `UCPoint2D` (Point.hpp:70-75) wrap around modulo their width when a result falls below zero. `CPoint2D` and `LPoint2D` have other widths. The floating `FPoint2D` and `DPoint2D` (Point.hpp:76-77) divide without truncation and round. None of these is modelled: the lemmas about `Point2D` hold for the integer point only.
- **Empty images.** Pixel indexers and adjacencies require width and height of at least 1. The source does not check this; with a zero size its division by width is undefined.
- **Other headers.** `MorphologicalTree`, `MorphologicalTreeBuilder`, `ComponentGraph`, the `Image2DAdjacencyRelationByTranslating` variant and `CTMeta` beyond width and height are not part of this model.

## Findings

| source | as written | input that shows it | evidently intended | confidence | as-written member | corrected member |
|---|---|---|---|---|---|---|
| include/pomar/ComponentTree/CTBuilder.hpp:194 | The fallback of `MaxTreeSorter::sort` compares `v1 < v2`, giving non-decreasing order. The builder then processes the smallest value first, so the tree is a min-tree (`TreeBuild.BuildTreeAsWritten`), not a max-tree. | values `[0, 1]` of a type without the counting path (`long`, `float`, `double`, `bool`): fallback gives `[0, 1]`, the counting path's order would be `[1, 0]` | compare `v1 > v2`, so both paths give the non-increasing order | high; not executed | IndexSort.MaxTreeSorterPathsDisagree | IndexSort.MaxTreeSorterSort |
| include/pomar/ComponentTree/CTBuilder.hpp:91-95 | The `MinTree` case also instantiates `MaxTreeSorter`, so a "min-tree" is the same tree as the max-tree: a max-tree for the types the sorter counts. | any image with two distinct values of a counted type, e.g. `[0, 1]` as `unsigned char` | sort non-increasing for `MaxTree` and non-decreasing for `MinTree` | high; not executed | TreeBuild.MinTreeAsWrittenIsMaxTree | TreeBuild.BuildTree |
| src/Core/PixelIndexer.cpp:14 | `pixel` computes the row as `index / height` (also at lines 46-50). | 3x2 image, `pixel(5)` gives `(2, 2)`, outside the image, instead of `(2, 1)` | `index / width` | high; not executed | PixelIndexing.PixelDividesByHeight | PixelIndexing.PixelFixedRoundTrip |
| include/pomar/Attribute/AttributeComputerQuads.hpp:273 | `counting` locates each neighbour through `pixel` as written, so on non-square images it reads the wrong neighbours. | 3x2 image, pixel 5, window position `(-1,-1)`: the lookup gives `-1`, but pixel 1 is that neighbour | locate the neighbour from `(p % width, p / width)` | high; not executed | QuadsCounting.NeighbourIndexAsWrittenMisses | QuadsCounting.NeighbourIndexIsNeighbour |
| src/Attribute/AttributeCollection.cpp:31-35 | `clear` empties the map and arrays but keeps `_nextIndex`, so the next `push` records a stale position. | push AREA and PERIMETER, `clear`, push PERIMETER: `attrIndex(PERIMETER)` is 2 with one array; the test at test/src/Attribute/AttributeCollection.cpp:17-22 expects 0 | reset `_nextIndex` to 0 | high; not executed | AttributeStore.ReferenceClearThenPush | AttributeStore.CountedPreserved |
| test/src/Attribute/AttributeComputer.cpp:73-76 | The attribute tests (also test/src/Attribute/BasicAttributeComputer.cpp:12-15) sort the indices with `elements[i1] < elements[i2]`. Along that order `createNodes` takes pixel 6 as the root, and its second level root, 2, reads `_cmap[parent[2]]` while still unset (`-1`) at CTree.hpp:177. | image `[2,0,3,2,1,3,7,0,3]`, parent array `[4,1,4,0,1,2,0,1,2]`, stable ascending order `[1,7,4,0,3,2,5,8,6]` | a non-increasing order, as the max-tree builder uses, e.g. `[6,5,8,2,3,0,4,7,1]` | high; not executed | ReferenceTree.AscendingLevelRoots | ReferenceTree.ReferenceCompactable |

=== FILE: adjacency.dfy ===
/**
 * Adjacency by translation on a `width x height` grid: the neighbours of a
 * vertex are the in-grid cells reached by adding each translation vector to
 * the vertex's cell.  The answer always has one slot per translation; the
 * in-grid neighbours are packed at the front and the remaining slots hold
 * `NoAdjacentIndex`.
 */
module AdjacencyByTranslating {
  import opened CArith
  import opened Point2D

  /** The value marking a slot without a neighbour. */
  const NoAdjacentIndex := -1

  /** The 4-connected cross, in the order the neighbours are reported. */
  const Cross: seq<Point> := [Point(-1, 0), Point(0, -1), Point(1, 0), Point(0, 1)]

  /** The 8-connected square, in the order the neighbours are reported. */
  const Square: seq<Point> :=
    [Point(-1, -1), Point(0, -1), Point(1, -1), Point(1, 0),
     Point(1, 1), Point(0, 1), Point(-1, 1), Point(-1, 0)]

  datatype Translating = Translating(width: int, height: int, t: seq<Point>)

  function CreateAdjacency4(width: int, height: int): Translating {
    Translating(width, height, Cross)
  }

  function CreateAdjacency8(width: int, height: int): Translating {
    Translating(width, height, Square)
  }

  /** The cell of vertex `id`: `(id % width, id / width)` with C++ division. */
  function Cell(w: int, id: int): Point
    requires w >= 1
  {
    Point(CMod(id, w), CDiv(id, w))
  }

  predicate InGrid(w: int, h: int, q: Point) {
    0 <= q.x < w && 0 <= q.y < h
  }

  /** The row-major index of a cell. */
  function Flat(w: int, q: Point): int {
    q.y * w + q.x
  }

  /** The in-grid translates `c + t[i]` of `c` for `i` from `k` on, as row-major indices, in the order of `t`. */
  function InGridFrom(w: int, h: int, c: Point, t: seq<Point>, k: int): (r: seq<int>)
    requires 0 <= k <= |t|
    ensures |r| <= |t| - k
    decreases |t| - k
  {
    if k == |t| then []
    else
      var q := Point(c.x + t[k].x, c.y + t[k].y);
      (if InGrid(w, h, q) then [q.y * w + q.x] else []) + InGridFrom(w, h, c, t, k + 1)
  }

  /** The in-grid translates of `c`, in the order of `t`. */
  function InGridIndices(w: int, h: int, c: Point, t: seq<Point>): seq<int> {
    InGridFrom(w, h, c, t, 0)
  }

  function Padding(n: nat): seq<int> {
    seq(n, _ => NoAdjacentIndex)
  }

  /** The reference answer of `neighbours(id)`. */
  function NeighbourList(adj: Translating, id: int): seq<int>
    requires adj.width >= 1
  {
    var ns := InGridIndices(adj.width, adj.height, Cell(adj.width, id), adj.t);
    ns + Padding(|adj.t| - |ns|)
  }

  /**
   * `neighbours(id)`: resets every slot to `NoAdjacentIndex`, then writes the
   * in-grid translates one after another from the front.
   */
  method Neighbours(adj: Translating, id: int) returns (ns: seq<int>)
    requires adj.width >= 1
    ensures ns == NeighbourList(adj, id)
    ensures |ns| == |adj.t|
    ensures forall k :: 0 <= k < |ns| ==>
              ns[k] == NoAdjacentIndex || 0 <= ns[k] < adj.width * adj.height
  {
    var w, h := adj.width, adj.height;
    var c := Cell(w, id);
    var a := new int[|adj.t|](_ => NoAdjacentIndex);
    var j := 0;
    for i := 0 to |adj.t|
      invariant 0 <= j <= i
      invariant j + |InGridFrom(w, h, c, adj.t, i)| <= |adj.t|
      invariant a[..j] + InGridFrom(w, h, c, adj.t, i) == InGridIndices(w, h, c, adj.t)
      invariant forall k :: j <= k < a.Length ==> a[k] == NoAdjacentIndex
    {
      var q := Sum(c, adj.t[i]);
      ghost var done, rest := a[..j], InGridFrom(w, h, c, adj.t, i + 1);
      ghost var v := if InGrid(w, h, q) then [Flat(w, q)] else [];
      assert (done + v) + rest == InGridIndices(w, h, c, adj.t) by {
        assert InGridFrom(w, h, c, adj.t, i) == v + rest;
        PackStep(done, v, rest, InGridIndices(w, h, c, adj.t));
      }
      if q.x >= 0 && q.x < w && q.y >= 0 && q.y < h {
        a[j] := q.y * w + q.x;
        assert a[..j + 1] == done + v;
        j := j + 1;
      } else {
        assert a[..j] == done + v;
      }
    }
    ns := a[..];
    ghost var l := InGridIndices(w, h, c, adj.t);
    assert ns[..j] == l;
    PadTo(l, |adj.t|, ns);
    NeighbourListInRange(adj, id);
  }

  /** Moving the next packed block from the unread part to the written part. */
  lemma {:induction false} PackStep(done: seq<int>, v: seq<int>, rest: seq<int>, whole: seq<int>)
    requires done + (v + rest) == whole
    ensures (done + v) + rest == whole
  {
    assert (done + v) + rest == done + (v + rest);
  }

  /** Every slot of `neighbours(id)` is a sentinel or a valid vertex. */
  lemma {:induction false} NeighbourListInRange(adj: Translating, id: int)
    requires adj.width >= 1
    ensures forall k :: 0 <= k < |NeighbourList(adj, id)| ==>
              NeighbourList(adj, id)[k] == NoAdjacentIndex || 0 <= NeighbourList(adj, id)[k] < adj.width * adj.height
  {
    var w, h, c := adj.width, adj.height, Cell(adj.width, id);
    var l := InGridIndices(w, h, c, adj.t);
    var ns := NeighbourList(adj, id);
    InGridFromInRange(w, h, c, adj.t, 0);
    forall k | 0 <= k < |ns|
      ensures ns[k] == NoAdjacentIndex || 0 <= ns[k] < w * h
    {
      if k < |l| {
        assert ns[k] == l[k] && l[k] in l;
      } else {
        assert ns[k] == Padding(|adj.t| - |l|)[k - |l|];
      }
    }
  }

  /** Every reported neighbour is a valid vertex. */
  lemma {:induction false} InGridFromInRange(w: int, h: int, c: Point, t: seq<Point>, k: int)
    requires w >= 1 && 0 <= k <= |t|
    ensures forall x :: x in InGridFrom(w, h, c, t, k) ==> 0 <= x < w * h
    decreases |t| - k
  {
    if k < |t| {
      InGridFromInRange(w, h, c, t, k + 1);
      var q := Sum(c, t[k]);
      if InGrid(w, h, q) {
        RowMajorInRange(w, h, q.x, q.y);
      }
    }
  }

  /** Every reported neighbour is an in-grid translate of the vertex's cell; `i` names the translation. */
  lemma {:induction false} InGridFromSound(w: int, h: int, c: Point, t: seq<Point>, k: int, x: int) returns (i: int)
    requires 0 <= k <= |t| && x in InGridFrom(w, h, c, t, k)
    ensures k <= i < |t| && InGrid(w, h, Sum(c, t[i])) && x == Flat(w, Sum(c, t[i]))
    decreases |t| - k
  {
    var q := Sum(c, t[k]);
    if InGrid(w, h, q) && x == Flat(w, q) {
      i := k;
    } else {
      i := InGridFromSound(w, h, c, t, k + 1, x);
    }
  }

  /** Every in-grid translate of the vertex's cell is reported. */
  lemma {:induction false} InGridFromComplete(w: int, h: int, c: Point, t: seq<Point>, k: int, i: int)
    requires 0 <= k <= i < |t| && InGrid(w, h, Sum(c, t[i]))
    ensures Flat(w, Sum(c, t[i])) in InGridFrom(w, h, c, t, k)
    decreases |t| - k
  {
    if k < i {
      InGridFromComplete(w, h, c, t, k + 1, i);
    }
  }

  /** A neighbour reported by `neighbours(id)` comes from the translation `i`. */
  lemma {:induction false} NeighbourIndex(adj: Translating, id: int, x: int) returns (i: int)
    requires adj.width >= 1 && x != NoAdjacentIndex && x in NeighbourList(adj, id)
    ensures 0 <= i < |adj.t| && InGrid(adj.width, adj.height, Sum(Cell(adj.width, id), adj.t[i]))
    ensures x == Flat(adj.width, Sum(Cell(adj.width, id), adj.t[i]))
  {
    var w, h, c := adj.width, adj.height, Cell(adj.width, id);
    var ns := InGridIndices(w, h, c, adj.t);
    assert x in ns;
    i := InGridFromSound(w, h, c, adj.t, 0, x);
  }

  /** An in-grid translate by `adj.t[i]` is reported by `neighbours(id)`. */
  lemma {:induction false} IndexNeighbour(adj: Translating, id: int, i: int)
    requires adj.width >= 1 && 0 <= i < |adj.t|
    requires InGrid(adj.width, adj.height, Sum(Cell(adj.width, id), adj.t[i]))
    ensures Flat(adj.width, Sum(Cell(adj.width, id), adj.t[i])) in NeighbourList(adj, id)
  {
    InGridFromComplete(adj.width, adj.height, Cell(adj.width, id), adj.t, 0, i);
  }

  /** The non-sentinel slots of `neighbours(id)` are exactly the in-grid translates. */
  lemma {:induction false} NeighbourListMembership(adj: Translating, id: int, x: int)
    requires adj.width >= 1 && x != NoAdjacentIndex
    ensures x in NeighbourList(adj, id) <==>
              exists i :: 0 <= i < |adj.t| && InGrid(adj.width, adj.height, Sum(Cell(adj.width, id), adj.t[i]))
                && x == Flat(adj.width, Sum(Cell(adj.width, id), adj.t[i]))
  {
    var w, h, c := adj.width, adj.height, Cell(adj.width, id);
    if x in NeighbourList(adj, id) {
      var i := NeighbourIndex(adj, id, x);
    }
    if exists i :: 0 <= i < |adj.t| && InGrid(w, h, Sum(c, adj.t[i])) && x == Flat(w, Sum(c, adj.t[i])) {
      var i :| 0 <= i < |adj.t| && InGrid(w, h, Sum(c, adj.t[i])) && x == Flat(w, Sum(c, adj.t[i]));
      IndexNeighbour(adj, id, i);
    }
  }

  /** A translation set that contains the opposite of each of its vectors. */
  predicate ClosedUnderNegation(t: seq<Point>) {
    forall i :: 0 <= i < |t| ==> Point(-t[i].x, -t[i].y) in t
  }

  /** The cross and the square are both symmetric. */
  lemma StandardSetsSymmetric()
    ensures ClosedUnderNegation(Cross)
    ensures ClosedUnderNegation(Square)
  {
  }

  /** Translating by a vector and then by its opposite returns to the start. */
  lemma {:induction false} TranslateBack(a: Point, d: Point)
    ensures Sum(Sum(a, d), Point(-d.x, -d.y)) == a
  {
  }

  /** In a symmetric translation set some vector `t[k]` leads back from each translate. */
  lemma {:induction false} StepBack(t: seq<Point>, a: Point, i: int) returns (k: int)
    requires ClosedUnderNegation(t) && 0 <= i < |t|
    ensures 0 <= k < |t| && Sum(Sum(a, t[i]), t[k]) == a
  {
    var d := t[i];
    assert Point(-d.x, -d.y) in t;
    k :| 0 <= k < |t| && t[k] == Point(-d.x, -d.y);
    TranslateBack(a, d);
  }

  /** A valid vertex's cell is in the grid and flattens back to the vertex. */
  lemma {:induction false} CellFlat(w: int, h: int, p: int)
    requires w >= 1 && 0 <= p < w * h
    ensures InGrid(w, h, Cell(w, p)) && Flat(w, Cell(w, p)) == p
  {
    IndexSplit(w, h, p);
    CDivModNonNegative(p, w);
  }

  /** Flattening an in-grid cell and taking its cell again gives the cell back. */
  lemma {:induction false} FlatCell(w: int, h: int, q: Point)
    requires w >= 1 && InGrid(w, h, q)
    ensures Cell(w, Flat(w, q)) == q
  {
    assert Flat(w, q) == w * q.y + q.x;
    CDivModRowMajor(w, q.y, q.x);
  }

  /**
   * With a symmetric translation set the relation is symmetric: if `q` is a
   * neighbour of `p` then `p` is a neighbour of `q`.
   */
  lemma {:induction false} NeighbourSymmetric(adj: Translating, p: int, q: int)
    requires adj.width >= 1 && ClosedUnderNegation(adj.t)
    requires 0 <= p < adj.width * adj.height
    requires q != NoAdjacentIndex && q in NeighbourList(adj, p)
    ensures p in NeighbourList(adj, q)
  {
    var w, h := adj.width, adj.height;
    var cp := Cell(w, p);
    var i := NeighbourIndex(adj, p, q);
    var cq := Sum(cp, adj.t[i]);
    assert Cell(w, q) == cq by { FlatCell(w, h, cq); }
    var k := StepBack(adj.t, cp, i);
    assert InGrid(w, h, cp) && Flat(w, cp) == p by { CellFlat(w, h, p); }
    IndexNeighbour(adj, q, k);
  }

  /** The in-grid translates of the two reference cells of a 3x1 line. */
  lemma LineFilters()
    ensures InGridIndices(3, 1, Point(1, 0), [Point(-1, 0), Point(1, 0)]) == [0, 2]
    ensures InGridIndices(3, 1, Point(2, 0), [Point(-1, 0), Point(1, 0)]) == [1]
  {
  }

  /** The in-grid 8-neighbours of the centre of a 3x3 grid: all eight, in the order of the square. */
  lemma SquareFilterCentre()
    ensures InGridIndices(3, 3, Point(1, 1), Square) == [0, 1, 2, 5, 8, 7, 6, 3]
  {
  }

  /** The in-grid 8-neighbours of the top-left corner of a 3x3 grid. */
  lemma SquareFilterTopLeft()
    ensures InGridIndices(3, 3, Point(0, 0), Square) == [1, 4, 3]
  {
  }

  /** The in-grid 8-neighbours of the bottom-right corner of a 3x3 grid. */
  lemma SquareFilterBottomRight()
    ensures InGridIndices(3, 3, Point(2, 2), Square) == [4, 5, 7]
  {
  }

  /** The in-grid 4-neighbours of the centre and two corners of a 3x3 grid. */
  lemma CrossFilters()
    ensures InGridIndices(3, 3, Point(1, 1), Cross) == [3, 1, 5, 7]
    ensures InGridIndices(3, 3, Point(0, 0), Cross) == [1, 3]
    ensures InGridIndices(3, 3, Point(2, 2), Cross) == [7, 5]
  {
  }

  /** A packed prefix followed by sentinels, as a whole list. */
  lemma {:induction false} PadTo(l: seq<int>, n: nat, r: seq<int>)
    requires |l| <= n && |r| == n && r[..|l|] == l
    requires forall k :: |l| <= k < n ==> r[k] == NoAdjacentIndex
    ensures l + Padding(n - |l|) == r
  {
  }

  /** The reference neighbourhood of the middle of a 3x1 grid with translations (-1,0) and (1,0). */
  lemma ReferenceNeighboursLineMiddle()
    ensures NeighbourList(Translating(3, 1, [Point(-1, 0), Point(1, 0)]), 1) == [0, 2]
  {
    var c := Cell(3, 1);
    var l := InGridIndices(3, 1, c, [Point(-1, 0), Point(1, 0)]);
    assert l == [0, 2] by { ReferenceCells(); LineFilters(); }
    assert l + Padding(2 - |l|) == [0, 2] by { PadTo(l, 2, [0, 2]); }
  }

  /** The reference neighbourhood of the right end of a 3x1 grid with translations (-1,0) and (1,0). */
  lemma ReferenceNeighboursLineEnd()
    ensures NeighbourList(Translating(3, 1, [Point(-1, 0), Point(1, 0)]), 2) == [1, -1]
  {
    var c := Cell(3, 2);
    var l := InGridIndices(3, 1, c, [Point(-1, 0), Point(1, 0)]);
    assert l == [1] by { ReferenceCells(); LineFilters(); }
    assert l + Padding(2 - |l|) == [1, -1] by { PadTo(l, 2, [1, -1]); }
  }

  /** The reference 8-neighbourhood of the centre of a 3x3 grid. */
  lemma ReferenceNeighbours8Centre()
    ensures NeighbourList(CreateAdjacency8(3, 3), 4) == [0, 1, 2, 5, 8, 7, 6, 3]
  {
    var c := Cell(3, 4);
    var l := InGridIndices(3, 3, c, Square);
    assert l == [0, 1, 2, 5, 8, 7, 6, 3] by { ReferenceCells(); SquareFilterCentre(); }
    assert l + Padding(8 - |l|) == [0, 1, 2, 5, 8, 7, 6, 3] by { PadTo(l, 8, [0, 1, 2, 5, 8, 7, 6, 3]); }
  }

  /** The reference 8-neighbourhood of the top-left corner of a 3x3 grid. */
  lemma ReferenceNeighbours8TopLeft()
    ensures NeighbourList(CreateAdjacency8(3, 3), 0) == [1, 4, 3, -1, -1, -1, -1, -1]
  {
    var c := Cell(3, 0);
    var l := InGridIndices(3, 3, c, Square);
    assert l == [1, 4, 3] by { ReferenceCells(); SquareFilterTopLeft(); }
    assert l + Padding(8 - |l|) == [1, 4, 3, -1, -1, -1, -1, -1] by { PadTo(l, 8, [1, 4, 3, -1, -1, -1, -1, -1]); }
  }

  /** The reference 8-neighbourhood of the bottom-right corner of a 3x3 grid. */
  lemma ReferenceNeighbours8BottomRight()
    ensures NeighbourList(CreateAdjacency8(3, 3), 8) == [4, 5, 7, -1, -1, -1, -1, -1]
  {
    var c := Cell(3, 8);
    var l := InGridIndices(3, 3, c, Square);
    assert l == [4, 5, 7] by { ReferenceCells(); SquareFilterBottomRight(); }
    assert l + Padding(8 - |l|) == [4, 5, 7, -1, -1, -1, -1, -1] by { PadTo(l, 8, [4, 5, 7, -1, -1, -1, -1, -1]); }
  }

  /** The reference 4-neighbourhood of the centre of a 3x3 grid. */
  lemma ReferenceNeighbours4Centre()
    ensures NeighbourList(CreateAdjacency4(3, 3), 4) == [3, 1, 5, 7]
  {
    var c := Cell(3, 4);
    var l := InGridIndices(3, 3, c, Cross);
    assert l == [3, 1, 5, 7] by { ReferenceCells(); CrossFilters(); }
    assert l + Padding(4 - |l|) == [3, 1, 5, 7] by { PadTo(l, 4, [3, 1, 5, 7]); }
  }

  /** The reference 4-neighbourhood of the top-left corner of a 3x3 grid. */
  lemma ReferenceNeighbours4TopLeft()
    ensures NeighbourList(CreateAdjacency4(3, 3), 0) == [1, 3, -1, -1]
  {
    var c := Cell(3, 0);
    var l := InGridIndices(3, 3, c, Cross);
    assert l == [1, 3] by { ReferenceCells(); CrossFilters(); }
    assert l + Padding(4 - |l|) == [1, 3, -1, -1] by { PadTo(l, 4, [1, 3, -1, -1]); }
  }

  /** The reference 4-neighbourhood of the bottom-right corner of a 3x3 grid. */
  lemma ReferenceNeighbours4BottomRight()
    ensures NeighbourList(CreateAdjacency4(3, 3), 8) == [7, 5, -1, -1]
  {
    var c := Cell(3, 8);
    var l := InGridIndices(3, 3, c, Cross);
    assert l == [7, 5] by { ReferenceCells(); CrossFilters(); }
    assert l + Padding(4 - |l|) == [7, 5, -1, -1] by { PadTo(l, 4, [7, 5, -1, -1]); }
  }

  /** The cells of the vertices the reference neighbourhoods look at. */
  lemma ReferenceCells()
    ensures Cell(3, 4) == Point(1, 1) && Cell(3, 0) == Point(0, 0) && Cell(3, 8) == Point(2, 2)
    ensures Cell(3, 1) == Point(1, 0) && Cell(3, 2) == Point(2, 0)
  {
  }
}

=== FILE: attribute_collection.dfy ===
/**
 * `AttributeCollection`: an append-only table of per-node attribute arrays,
 * with a map from attribute type to the position of the array holding it.
 */
module AttributeStore {

  /** `AttrType`: the attributes the computers produce. */
  datatype AttrType =
    | TestAttribute
    | Area | Perimeter
    | QuadsQ1 | QuadsQ2 | QuadsQ3 | QuadsQD | QuadsQ4 | QuadsQ1Dash
    | QuadsArea | QuadsPerimeter | QuadsEulerNumber
    | QuadsContinuousArea | QuadsContinuousPerimeter

  /**
   * The three private fields: the position the next pushed attribute gets,
   * the type-to-position map, and the arrays (`double` values as reals).
   */
  datatype AttributeCollection =
    AttributeCollection(nextIndex: int, attrIndex: map<AttrType, int>, values: seq<seq<real>>)

  /** The bookkeeping invariant: the next position is the number of arrays. */
  predicate Counted(c: AttributeCollection) {
    c.nextIndex == |c.values|
  }

  /** Every array holds one value per node of an `n`-node tree. */
  predicate Sized(c: AttributeCollection, n: int) {
    forall a :: 0 <= a < |c.values| ==> |c.values[a]| == n
  }

  /** Cell `(a, id)` exists. */
  predicate HasCell(c: AttributeCollection, a: int, id: int) {
    0 <= a < |c.values| && 0 <= id < |c.values[a]|
  }

  /** The default constructor: no arrays, next position 0. */
  function Empty(): (c: AttributeCollection)
    ensures Counted(c) && c.values == [] && c.attrIndex == map[]
  {
    AttributeCollection(0, map[], [])
  }

  /** `std::vector<double>(n, 0.0)`. */
  function Zeros(n: nat): (z: seq<real>)
    ensures |z| == n && forall i :: 0 <= i < n ==> z[i] == 0.0
  {
    seq(n, i => 0.0)
  }

  /** The answer of `attrIndex`, which may also change the collection. */
  datatype Lookup = Lookup(attrs: AttributeCollection, index: int)

  /**
   * `attrIndex(type)`: the map's `operator[]`, which inserts the default 0 for
   * a type that was never pushed and answers it.
   */
  function AttrIndex(c: AttributeCollection, ty: AttrType): (r: Lookup)
    ensures r.attrs.values == c.values && r.attrs.nextIndex == c.nextIndex
    ensures ty in r.attrs.attrIndex && r.attrs.attrIndex[ty] == r.index
    ensures r.attrs.attrIndex.Keys == c.attrIndex.Keys + {ty}
    ensures forall u :: u in c.attrIndex ==> r.attrs.attrIndex[u] == c.attrIndex[u]
    ensures ty !in c.attrIndex ==> r.index == 0
  {
    if ty in c.attrIndex then Lookup(c, c.attrIndex[ty])
    else Lookup(c.(attrIndex := c.attrIndex[ty := 0]), 0)
  }

  /**
   * `push(type, nNodes)`: maps `type` to the next position (replacing any
   * earlier entry), appends `nNodes` zeros and advances the next position.
   * The arrays already there are kept.
   */
  function Push(c: AttributeCollection, ty: AttrType, n: nat): (r: AttributeCollection)
    ensures |r.values| == |c.values| + 1 && r.values[..|c.values|] == c.values
    ensures r.values[|c.values|] == Zeros(n)
    ensures r.attrIndex.Keys == c.attrIndex.Keys + {ty} && r.attrIndex[ty] == c.nextIndex
    ensures forall u :: u in c.attrIndex && u != ty ==> r.attrIndex[u] == c.attrIndex[u]
    ensures r.nextIndex == c.nextIndex + 1
  {
    AttributeCollection(c.nextIndex + 1, c.attrIndex[ty := c.nextIndex], c.values + [Zeros(n)])
  }

  /** `operator[](attrIndex)`: the array at a position. */
  function Column(c: AttributeCollection, a: int): seq<real>
    requires 0 <= a < |c.values|
  {
    c.values[a]
  }

  /** `get(attrIndex, nodeId)`. */
  function Get(c: AttributeCollection, a: int, id: int): real
    requires HasCell(c, a, id)
  {
    c.values[a][id]
  }

  /** `set(attrIndex, nodeId, value)`: only that cell changes. */
  function Set(c: AttributeCollection, a: int, id: int, v: real): (r: AttributeCollection)
    requires HasCell(c, a, id)
    ensures r.nextIndex == c.nextIndex && r.attrIndex == c.attrIndex
    ensures |r.values| == |c.values|
    ensures forall b :: 0 <= b < |c.values| ==> |r.values[b]| == |c.values[b]|
    ensures forall b, j :: HasCell(c, b, j) ==> Get(r, b, j) == if b == a && j == id then v else Get(c, b, j)
  {
    c.(values := c.values[a := c.values[a][id := v]])
  }

  /** `attrs[attrIndex][nodeId] += delta`: a write through `operator[]`. */
  function Add(c: AttributeCollection, a: int, id: int, delta: real): (r: AttributeCollection)
    requires HasCell(c, a, id)
    ensures r.nextIndex == c.nextIndex && r.attrIndex == c.attrIndex
    ensures |r.values| == |c.values|
    ensures forall b :: 0 <= b < |c.values| ==> |r.values[b]| == |c.values[b]|
    ensures forall b, j :: HasCell(c, b, j) ==>
              Get(r, b, j) == if b == a && j == id then Get(c, b, j) + delta else Get(c, b, j)
  {
    Set(c, a, id, Get(c, a, id) + delta)
  }

  /** `clear()` as written: the map and the arrays are emptied, the next position is kept. */
  function Clear(c: AttributeCollection): (r: AttributeCollection)
    ensures r.values == [] && r.attrIndex == map[] && r.nextIndex == c.nextIndex
  {
    c.(attrIndex := map[], values := [])
  }

  /** `clear()` resetting the next position as well: the collection is as new. */
  function ClearFixed(c: AttributeCollection): (r: AttributeCollection)
    ensures r == Empty()
  {
    AttributeCollection(0, map[], [])
  }

  /** Pushing `types` in order, each with `n` zeros. */
  function PushAll(c: AttributeCollection, types: seq<AttrType>, n: nat): AttributeCollection
    decreases |types|
  {
    if types == [] then c else PushAll(Push(c, types[0], n), types[1..], n)
  }

  /** No type is pushed twice. */
  predicate DistinctTypes(types: seq<AttrType>) {
    forall i, j :: 0 <= i < j < |types| ==> types[i] != types[j]
  }

  /** `push`, `set`, `attrIndex` and the corrected `clear` keep the bookkeeping invariant. */
  lemma {:induction false} CountedPreserved(c: AttributeCollection, ty: AttrType, n: nat, a: int, id: int, v: real)
    requires Counted(c)
    ensures Counted(Push(c, ty, n))
    ensures Counted(AttrIndex(c, ty).attrs)
    ensures HasCell(c, a, id) ==> Counted(Set(c, a, id, v))
    ensures Counted(ClearFixed(c))
  {
  }

  /**
   * `clear` as written breaks the invariant as soon as something was pushed:
   * the next position stays beyond the (now empty) table.
   */
  lemma {:induction false} ClearBreaksCounted(c: AttributeCollection)
    requires Counted(c) && |c.values| > 0
    ensures !Counted(Clear(c))
  {
  }

  /**
   * Pushing distinct types into a counted collection gives them consecutive
   * positions in push order, each naming a fresh all-zero array of length `n`.
   */
  lemma {:induction false} PushAllPositions(c: AttributeCollection, types: seq<AttrType>, n: nat)
    requires Counted(c) && DistinctTypes(types)
    ensures Counted(PushAll(c, types, n))
    ensures |PushAll(c, types, n).values| == |c.values| + |types|
    ensures PushAll(c, types, n).values[..|c.values|] == c.values
    ensures forall i :: 0 <= i < |types| ==>
              types[i] in PushAll(c, types, n).attrIndex &&
              PushAll(c, types, n).attrIndex[types[i]] == |c.values| + i &&
              PushAll(c, types, n).values[|c.values| + i] == Zeros(n)
    ensures forall u :: u in c.attrIndex && u !in types ==>
              u in PushAll(c, types, n).attrIndex && PushAll(c, types, n).attrIndex[u] == c.attrIndex[u]
    decreases |types|
  {
    if types != [] {
      var c1 := Push(c, types[0], n);
      var rest := types[1..];
      assert DistinctTypes(rest) by {
        forall i, j | 0 <= i < j < |rest|
          ensures rest[i] != rest[j]
        {
          assert rest[i] == types[i + 1] && rest[j] == types[j + 1];
        }
      }
      PushAllPositions(c1, rest, n);
      var r := PushAll(c, types, n);
      assert r == PushAll(c1, rest, n);
      assert r.values[..|c.values|] == c.values by {
        assert r.values[..|c1.values|][..|c.values|] == r.values[..|c.values|];
      }
      forall i | 0 <= i < |types|
        ensures types[i] in r.attrIndex && r.attrIndex[types[i]] == |c.values| + i
        ensures r.values[|c.values| + i] == Zeros(n)
      {
        if i == 0 {
          assert types[0] !in rest by {
            forall j | 0 <= j < |rest|
              ensures rest[j] != types[0]
            {
              assert rest[j] == types[j + 1];
            }
          }
          assert r.values[|c.values|] == r.values[..|c1.values|][|c.values|];
        } else {
          assert types[i] == rest[i - 1];
        }
      }
      forall u | u in c.attrIndex && u !in types
        ensures u in r.attrIndex && r.attrIndex[u] == c.attrIndex[u]
      {
        assert u != types[0];
        assert u !in rest by {
          forall j | 0 <= j < |rest|
            ensures rest[j] != u
          {
            assert rest[j] == types[j + 1];
          }
        }
      }
    }
  }

  /**
   * Re-pushing a type moves its map entry to the new array while the earlier
   * array stays in the table.
   */
  lemma {:induction false} RepushKeepsOldArray(c: AttributeCollection, ty: AttrType, n: nat, m: nat)
    requires Counted(c)
    ensures var r := Push(Push(c, ty, n), ty, m);
      r.attrIndex[ty] == |c.values| + 1 && |r.values| == |c.values| + 2 && r.values[|c.values|] == Zeros(n)
  {
    var c1 := Push(c, ty, n);
    var r := Push(c1, ty, m);
    assert r.values[|c.values|] == r.values[..|c1.values|][|c.values|];
  }

  /** What `set` wrote, `get` and `operator[]` read back; no other cell changes. */
  lemma {:induction false} SetThenGet(c: AttributeCollection, a: int, id: int, v: real, b: int, j: int)
    requires HasCell(c, a, id) && HasCell(c, b, j)
    ensures Get(Set(c, a, id, v), a, id) == v && Column(Set(c, a, id, v), a)[id] == v
    ensures (b != a || j != id) ==> Get(Set(c, a, id, v), b, j) == Get(c, b, j)
  {
  }

  /**
   * The lookup answers the position `push` gave; for a type never pushed it
   * answers 0, whatever array sits there.
   */
  lemma {:induction false} PushThenAttrIndex(c: AttributeCollection, ty: AttrType, n: nat)
    requires Counted(c)
    ensures AttrIndex(Push(c, ty, n), ty).index == |c.values|
    ensures AttrIndex(Push(c, ty, n), ty).attrs == Push(c, ty, n)
    ensures AttrIndex(Empty(), ty).index == 0
  {
  }

  /** The test scenario: AREA then PERIMETER are at positions 0 and 1. */
  lemma ReferencePushOrder()
    ensures var c := Push(Push(Empty(), Area, 10), Perimeter, 10);
      AttrIndex(c, Area).index == 0 && AttrIndex(c, Perimeter).index == 1
  {
  }

  /**
   * After `clear` as written, pushing PERIMETER again maps it to position 2,
   * although the table holds a single array; the corrected `clear` gives 0.
   */
  lemma ReferenceClearThenPush()
    ensures var c := Push(Push(Empty(), Area, 10), Perimeter, 10);
      var asWritten := Push(Clear(c), Perimeter, 10);
      var fixed := Push(ClearFixed(c), Perimeter, 10);
      AttrIndex(asWritten, Perimeter).index == 2 && |asWritten.values| == 1 &&
      AttrIndex(fixed, Perimeter).index == 0 && |fixed.values| == 1
  {
  }
}

=== FILE: attribute_computer.dfy ===
/**
 * The incremental attribute computers and the driver that runs them: every
 * computer pushes its arrays in `setUp`, then the tree is traversed from
 * the last node id down to the root and, at each node, every computer's
 * `preProcess`, then (for a non-root) `merge` into the parent, then
 * `postProcess` run, computer after computer in push order.
 */
module IncrementalAttributes {
  import opened Permutations
  import opened CompactTree
  import opened PixelIndexing
  import opened AttributeStore
  import opened QuadsCounting
  import opened SubtreeSums
  import opened AttributeOps

  /** `CTMetaImage2D`: the size of the image the tree was built from. */
  datatype ImageMeta = ImageMeta(width: int, height: int)

  /** An attribute-from-quads computer: its kind and what its `setUp` records. */
  datatype QuadsSub = QuadsSub(kind: QAttrKind, cols: QuadCols, attrIdx: int, con: QConnectivity)

  /**
   * The incremental computers: the node counter of the framework's tests,
   * the area computer, and the bit-quad computer with its attribute-from-quads
   * computers. The fields that name array positions, `f` and `indexer` are the
   * ones `setUp` fills in; the decision table `dt` is what the constructor reads.
   */
  datatype Computer =
    | NodeCounter(index: int)
    | AreaComputer(index: int)
    | QuadsComputer(treeType: QTreeType, con: QConnectivity, dt: seq<seq<int>>, cols: QuadCols,
                    subs: seq<QuadsSub>, f: seq<int>, indexer: Indexer)

  /** `AttributeComputerQuads(treeType, con, resource, subs)`, with the table already read. */
  function NewQuadsComputer(tt: QTreeType, con: QConnectivity, dt: seq<seq<int>>, kinds: seq<QAttrKind>): (c: Computer)
    ensures c.QuadsComputer? && |c.subs| == |kinds|
    ensures forall s :: 0 <= s < |kinds| ==> c.subs[s].kind == kinds[s]
  {
    QuadsComputer(tt, con, dt, QuadCols(0, 0, 0, 0, 0),
                  seq(|kinds|, s requires 0 <= s < |kinds| => QuadsSub(kinds[s], QuadCols(0, 0, 0, 0, 0), 0, con)),
                  [], Indexer(1, 1, DefaultValue(DefaultIndex)))
  }

  /** The types a computer's `setUp` pushes, in order. */
  function PushedTypes(c: Computer): seq<AttrType> {
    match c
    case NodeCounter(_) => [TestAttribute]
    case AreaComputer(_) => [Area]
    case QuadsComputer(_, _, _, _, subs, _, _) => CounterTypes + SubTypes(subs)
  }

  const CounterTypes: seq<AttrType> := [QuadsQ1, QuadsQ2, QuadsQD, QuadsQ3, QuadsQ4]

  function SubTypes(subs: seq<QuadsSub>): (r: seq<AttrType>)
    ensures |r| == |subs| && forall s :: 0 <= s < |subs| ==> r[s] == KindType(subs[s].kind)
  {
    seq(|subs|, s requires 0 <= s < |subs| => KindType(subs[s].kind))
  }

  /** The positions of the arrays a computer writes, in the order of `PushedTypes`. */
  function Columns(c: Computer): (r: seq<int>)
    ensures |r| == |PushedTypes(c)|
  {
    match c
    case NodeCounter(i) => [i]
    case AreaComputer(i) => [i]
    case QuadsComputer(_, _, _, cols, subs, _, _) => QuadColList(cols) + SubColumns(subs)
  }

  function SubColumns(subs: seq<QuadsSub>): (r: seq<int>)
    ensures |r| == |subs| && forall s :: 0 <= s < |subs| ==> r[s] == subs[s].attrIdx
  {
    seq(|subs|, s requires 0 <= s < |subs| => subs[s].attrIdx)
  }

  /** The state `setUp` leaves: the computer with its fields filled in, and the table. */
  datatype Prepared = Prepared(comp: Computer, attrs: AttributeCollection)

  /** What `setUp` fills in besides array positions, and what it keeps. */
  predicate SetUpFields(c: Computer, r: Computer, t: CTree, meta: ImageMeta)
    requires c.QuadsComputer? ==> Partitioned(t)
  {
    match c
    case NodeCounter(_) => r.NodeCounter?
    case AreaComputer(_) => r.AreaComputer?
    case QuadsComputer(tt, con, dt, _, subs, _, _) =>
      r.QuadsComputer? && r.treeType == tt && r.con == con && r.dt == dt &&
      r.f == Levels(t) && r.indexer == Indexer(meta.width, meta.height, DefaultValue(DefaultIndex)) &&
      |r.subs| == |subs| &&
      forall s :: 0 <= s < |subs| ==>
        r.subs[s].kind == subs[s].kind && r.subs[s].cols == r.cols && r.subs[s].con == con
  }

  /** The five `attrIndex` lookups of the counters, in the order the source makes them. */
  function CountersLookup(a: AttributeCollection): (r: (QuadCols, AttributeCollection))
  {
    var l1 := AttrIndex(a, QuadsQ1);
    var l2 := AttrIndex(l1.attrs, QuadsQ2);
    var ld := AttrIndex(l2.attrs, QuadsQD);
    var l3 := AttrIndex(ld.attrs, QuadsQ3);
    var l4 := AttrIndex(l3.attrs, QuadsQ4);
    (QuadCols(l1.index, l2.index, ld.index, l3.index, l4.index), l4.attrs)
  }

  /** The type `attrIndex` finds at the positions `cols`. */
  predicate CountersAt(a: AttributeCollection, cols: QuadCols) {
    QuadsQ1 in a.attrIndex && a.attrIndex[QuadsQ1] == cols.p1 &&
    QuadsQ2 in a.attrIndex && a.attrIndex[QuadsQ2] == cols.p2 &&
    QuadsQD in a.attrIndex && a.attrIndex[QuadsQD] == cols.pd &&
    QuadsQ3 in a.attrIndex && a.attrIndex[QuadsQ3] == cols.p3 &&
    QuadsQ4 in a.attrIndex && a.attrIndex[QuadsQ4] == cols.p4
  }

  /** Looking up a pushed type changes nothing and answers its position. */
  lemma {:induction false} LookupPushed(a: AttributeCollection, ty: AttrType)
    requires ty in a.attrIndex
    ensures AttrIndex(a, ty) == Lookup(a, a.attrIndex[ty])
  {
  }

  /** Once the counters are pushed, the lookups find them and change nothing. */
  lemma {:induction false} CountersFound(a: AttributeCollection, cols: QuadCols)
    requires CountersAt(a, cols)
    ensures CountersLookup(a) == (cols, a)
  {
    LookupPushed(a, QuadsQ1);
    LookupPushed(a, QuadsQ2);
    LookupPushed(a, QuadsQD);
    LookupPushed(a, QuadsQ3);
    LookupPushed(a, QuadsQ4);
  }

  /** `AttributeFromQuadsComputer::setUp`: looks up the five counters and its own array. */
  function SubSetUp(s: QuadsSub, a: AttributeCollection, con: QConnectivity): (r: (QuadsSub, AttributeCollection))
  {
    var counters := CountersLookup(a);
    var lt := AttrIndex(counters.1, KindType(s.kind));
    (QuadsSub(s.kind, counters.0, lt.index, con), lt.attrs)
  }

  /** The loop of `AttributeComputerQuads::setUp` over the sub-computers: push the type, then set the sub up. */
  function SubsSetUp(subs: seq<QuadsSub>, a: AttributeCollection, n: nat, con: QConnectivity): (r: (seq<QuadsSub>, AttributeCollection))
    ensures |r.0| == |subs|
    decreases |subs|
  {
    if subs == [] then ([], a)
    else
      var first := SubSetUp(subs[0], Push(a, KindType(subs[0].kind), n), con);
      var rest := SubsSetUp(subs[1..], first.1, n, con);
      ([first.0] + rest.0, rest.1)
  }

  /**
   * A sub-computer pushed after the counters gets the next free position and
   * finds the five counters where the quad computer put them.
   */
  lemma {:induction false} SubSetUpStep(s: QuadsSub, a: AttributeCollection, n: nat, con: QConnectivity, cols: QuadCols)
    requires Counted(a) && CountersAt(a, cols)
    ensures var a0 := Push(a, KindType(s.kind), n);
      Counted(a0) && CountersAt(a0, cols) &&
      SubSetUp(s, a0, con) == (QuadsSub(s.kind, cols, |a.values|, con), a0)
  {
    var a0 := Push(a, KindType(s.kind), n);
    assert CountersAt(a0, cols);
    CountersFound(a0, cols);
    LookupPushed(a0, KindType(s.kind));
  }

  /** The sub-computers' loop pushes one array per sub-computer, in order. */
  lemma {:induction false} SubsSetUpTable(subs: seq<QuadsSub>, a: AttributeCollection, n: nat, con: QConnectivity, cols: QuadCols)
    requires Counted(a) && CountersAt(a, cols)
    ensures SubsSetUp(subs, a, n, con).1 == PushAll(a, SubTypes(subs), n)
    decreases |subs|
  {
    if subs != [] {
      SubSetUpStep(subs[0], a, n, con, cols);
      SubsSetUpTable(subs[1..], Push(a, KindType(subs[0].kind), n), n, con, cols);
      assert SubTypes(subs)[0] == KindType(subs[0].kind) && SubTypes(subs)[1..] == SubTypes(subs[1..]);
    }
  }

  /** The sub-computers after `setUp`: sub-computer `s` at position `b + s`, reading `cols`. */
  function SubRecords(subs: seq<QuadsSub>, cols: QuadCols, b: int, con: QConnectivity): (r: seq<QuadsSub>)
    ensures |r| == |subs|
    ensures forall s :: 0 <= s < |subs| ==> r[s] == QuadsSub(subs[s].kind, cols, b + s, con)
  {
    seq(|subs|, s requires 0 <= s < |subs| => QuadsSub(subs[s].kind, cols, b + s, con))
  }

  lemma {:induction false} SubRecordsCons(subs: seq<QuadsSub>, cols: QuadCols, b: int, con: QConnectivity)
    requires subs != []
    ensures SubRecords(subs, cols, b, con) == [QuadsSub(subs[0].kind, cols, b, con)] + SubRecords(subs[1..], cols, b + 1, con)
  {
    var rs := SubRecords(subs, cols, b, con);
    var tail := SubRecords(subs[1..], cols, b + 1, con);
    forall s | 0 <= s < |rs|
      ensures rs[s] == ([rs[0]] + tail)[s]
    {
      if s > 0 {
        assert subs[1..][s - 1] == subs[s];
      }
    }
  }

  /** Sub-computer `s` records the counters and the position `s` after the table's end. */
  lemma {:induction false} SubsSetUpRecords(subs: seq<QuadsSub>, a: AttributeCollection, n: nat, con: QConnectivity, cols: QuadCols)
    requires Counted(a) && CountersAt(a, cols)
    ensures SubsSetUp(subs, a, n, con).0 == SubRecords(subs, cols, |a.values|, con)
    decreases |subs|
  {
    if subs != [] {
      SubSetUpStep(subs[0], a, n, con, cols);
      var a0 := Push(a, KindType(subs[0].kind), n);
      SubsSetUpRecords(subs[1..], a0, n, con, cols);
      SubRecordsCons(subs, cols, |a.values|, con);
      assert SubsSetUp(subs, a, n, con).0 == [SubSetUp(subs[0], a0, con).0] + SubsSetUp(subs[1..], a0, n, con).0;
    }
  }

  /** Pushing two lists of types is pushing their concatenation. */
  lemma {:induction false} PushAllConcat(a: AttributeCollection, x: seq<AttrType>, y: seq<AttrType>, n: nat)
    ensures PushAll(a, x + y, n) == PushAll(PushAll(a, x, n), y, n)
    decreases |x|
  {
    if x != [] {
      assert (x + y)[0] == x[0] && (x + y)[1..] == x[1..] + y;
      PushAllConcat(Push(a, x[0], n), x[1..], y, n);
    } else {
      assert x + y == y;
    }
  }

  /**
   * `setUp(attrs, ct)` of each computer: push its arrays (one per node), then
   * record where `attrIndex` finds them; the bit-quad computer also takes the
   * tree's image and an out-of-image-answers-`-1` indexer of the tree's size.
   */
  function SetUp(c: Computer, a: AttributeCollection, t: CTree, meta: ImageMeta): (r: Prepared)
    requires c.QuadsComputer? ==> Partitioned(t)
  {
    var n := |t.nodes|;
    match c
    case NodeCounter(_) =>
      var l := AttrIndex(Push(a, TestAttribute, n), TestAttribute);
      Prepared(NodeCounter(l.index), l.attrs)
    case AreaComputer(_) =>
      var l := AttrIndex(Push(a, Area, n), Area);
      Prepared(AreaComputer(l.index), l.attrs)
    case QuadsComputer(_, _, _, _, _, _, _) => QuadsSetUp(c, a, t, meta)
  }

  /** `AttributeComputerQuads::setUp`. */
  function QuadsSetUp(c: Computer, a: AttributeCollection, t: CTree, meta: ImageMeta): (r: Prepared)
    requires c.QuadsComputer? && Partitioned(t)
  {
    var n := |t.nodes|;
    var counters := CountersLookup(PushAll(a, CounterTypes, n));
    var subs := SubsSetUp(c.subs, counters.1, n, c.con);
    Prepared(c.(cols := counters.0, subs := subs.0, f := Levels(t),
                indexer := Indexer(meta.width, meta.height, DefaultValue(DefaultIndex))), subs.1)
  }

  /** The counters land at the five positions after the table's end. */
  lemma {:induction false} CountersPushed(a: AttributeCollection, n: nat)
    requires Counted(a)
    ensures var b := |a.values|;
      Counted(PushAll(a, CounterTypes, n)) && |PushAll(a, CounterTypes, n).values| == b + 5 &&
      CountersAt(PushAll(a, CounterTypes, n), QuadCols(b, b + 1, b + 2, b + 3, b + 4))
  {
    var ts := CounterTypes;
    assert ts == [QuadsQ1, QuadsQ2, QuadsQD, QuadsQ3, QuadsQ4];
    assert DistinctTypes(ts);
    PushAllPositions(a, ts, n);
    var r := PushAll(a, ts, n);
    var b := |a.values|;
    assert r.attrIndex[ts[0]] == b && r.attrIndex[ts[1]] == b + 1 && r.attrIndex[ts[2]] == b + 2;
    assert r.attrIndex[ts[3]] == b + 3 && r.attrIndex[ts[4]] == b + 4;
  }

  /** The bit-quad computer's `setUp` pushes the counters, then one array per sub-computer. */
  lemma {:induction false} QuadsSetUpTable(c: Computer, a: AttributeCollection, t: CTree, meta: ImageMeta)
    requires Counted(a) && c.QuadsComputer? && Partitioned(t)
    ensures QuadsSetUp(c, a, t, meta).attrs == PushAll(a, PushedTypes(c), |t.nodes|)
  {
    var n := |t.nodes|;
    var b := |a.values|;
    var cols := QuadCols(b, b + 1, b + 2, b + 3, b + 4);
    CountersPushed(a, n);
    var a5 := PushAll(a, CounterTypes, n);
    CountersFound(a5, cols);
    SubsSetUpTable(c.subs, a5, n, c.con, cols);
    PushAllConcat(a, CounterTypes, SubTypes(c.subs), n);
  }

  /** The bit-quad computer after `setUp`: its record, and its arrays' positions. */
  function QuadsRecord(c: Computer, b: int, t: CTree, meta: ImageMeta): (r: Computer)
    requires c.QuadsComputer? && Partitioned(t)
  {
    var cols := QuadCols(b, b + 1, b + 2, b + 3, b + 4);
    c.(cols := cols,
       subs := SubRecords(c.subs, cols, b + 5, c.con),
       f := Levels(t), indexer := Indexer(meta.width, meta.height, DefaultValue(DefaultIndex)))
  }

  lemma {:induction false} QuadsSetUpRecord(c: Computer, a: AttributeCollection, t: CTree, meta: ImageMeta)
    requires Counted(a) && c.QuadsComputer? && Partitioned(t)
    ensures QuadsSetUp(c, a, t, meta).comp == QuadsRecord(c, |a.values|, t, meta)
  {
    var n := |t.nodes|;
    var b := |a.values|;
    var cols := QuadCols(b, b + 1, b + 2, b + 3, b + 4);
    CountersPushed(a, n);
    var a5 := PushAll(a, CounterTypes, n);
    CountersFound(a5, cols);
    SubsSetUpRecords(c.subs, a5, n, c.con, cols);
    var subs1 := SubsSetUp(c.subs, a5, n, c.con).0;
    assert QuadsSetUp(c, a, t, meta).comp ==
      c.(cols := cols, subs := subs1, f := Levels(t), indexer := Indexer(meta.width, meta.height, DefaultValue(DefaultIndex)));
  }

  /** The recorded positions are consecutive from `b`, in push order. */
  lemma {:induction false} QuadsRecordColumns(c: Computer, b: int, t: CTree, meta: ImageMeta)
    requires c.QuadsComputer? && Partitioned(t)
    ensures forall q :: 0 <= q < |PushedTypes(c)| ==> Columns(QuadsRecord(c, b, t, meta))[q] == b + q
    ensures SetUpFields(c, QuadsRecord(c, b, t, meta), t, meta)
  {
    var r := QuadsRecord(c, b, t, meta);
    var cs := Columns(r);
    assert cs == QuadColList(r.cols) + SubColumns(r.subs);
    assert QuadColList(r.cols) == [b, b + 1, b + 2, b + 3, b + 4];
    forall q | 0 <= q < |PushedTypes(c)|
      ensures cs[q] == b + q
    {
      if q < 5 {
        assert cs[q] == QuadColList(r.cols)[q];
      } else {
        assert cs[q] == SubColumns(r.subs)[q - 5] == r.subs[q - 5].attrIdx;
      }
    }
  }

  /**
   * `setUp` pushes exactly its types, in order, with a zero array per node each,
   * and the computer records the consecutive positions they get.
   */
  lemma {:induction false} SetUpPushes(c: Computer, a: AttributeCollection, t: CTree, meta: ImageMeta)
    requires Counted(a) && (c.QuadsComputer? ==> Partitioned(t))
    ensures SetUp(c, a, t, meta).attrs == PushAll(a, PushedTypes(c), |t.nodes|)
    ensures forall q :: 0 <= q < |PushedTypes(c)| ==> Columns(SetUp(c, a, t, meta).comp)[q] == |a.values| + q
    ensures SetUpFields(c, SetUp(c, a, t, meta).comp, t, meta)
  {
    if c.QuadsComputer? {
      QuadsSetUpTable(c, a, t, meta);
      QuadsSetUpRecord(c, a, t, meta);
      QuadsRecordColumns(c, |a.values|, t, meta);
    } else {
      assert PushAll(a, PushedTypes(c), |t.nodes|) == Push(a, PushedTypes(c)[0], |t.nodes|);
    }
  }
  /** The table after every computer's `setUp`, in push order. */
  datatype Setup = Setup(comps: seq<Computer>, attrs: AttributeCollection)

  /** The bit-quad computers need the tree's element map. */
  predicate TreeFor(cs: seq<Computer>, t: CTree) {
    forall i :: 0 <= i < |cs| && cs[i].QuadsComputer? ==> Partitioned(t)
  }

  /** `IncrementalAttributeComputerCollection::setUp`: every computer's `setUp`, in push order. */
  function SetUpAll(cs: seq<Computer>, a: AttributeCollection, t: CTree, meta: ImageMeta): (r: Setup)
    requires TreeFor(cs, t)
    ensures |r.comps| == |cs|
    decreases |cs|
  {
    if cs == [] then Setup([], a)
    else
      var p := SetUp(cs[0], a, t, meta);
      var rest := SetUpAll(cs[1..], p.attrs, t, meta);
      Setup([p.comp] + rest.comps, rest.attrs)
  }

  /** The types pushed by the computers `cs`, in order. */
  function AllPushedTypes(cs: seq<Computer>): seq<AttrType>
    decreases |cs|
  {
    if cs == [] then [] else PushedTypes(cs[0]) + AllPushedTypes(cs[1..])
  }

  /** The number of arrays computer `c` pushes. */
  function Width(c: Computer): nat {
    match c
    case NodeCounter(_) => 1
    case AreaComputer(_) => 1
    case QuadsComputer(_, _, _, _, subs, _, _) => 5 + |subs|
  }

  lemma WidthPushed(c: Computer)
    ensures Width(c) == |PushedTypes(c)|
  {
  }

  /** The number of arrays the computers before `cs[i]` push. */
  function Offset(cs: seq<Computer>, i: int): (o: nat)
    requires 0 <= i <= |cs|
  {
    if i == 0 then 0 else Offset(cs, i - 1) + Width(cs[i - 1])
  }

  lemma {:induction false} OffsetTail(cs: seq<Computer>, i: int)
    requires 0 < i <= |cs|
    ensures Offset(cs, i) == |PushedTypes(cs[0])| + Offset(cs[1..], i - 1)
  {
    WidthPushed(cs[0]);
    if i > 1 {
      OffsetTail(cs, i - 1);
    }
  }

  lemma {:induction false} OffsetAll(cs: seq<Computer>)
    ensures Offset(cs, |cs|) == |AllPushedTypes(cs)|
    decreases |cs|
  {
    if cs != [] {
      var tail := cs[1..];
      assert Offset(cs, |cs|) == |PushedTypes(cs[0])| + Offset(tail, |tail|) by { OffsetTail(cs, |cs|); }
      assert Offset(tail, |tail|) == |AllPushedTypes(tail)| by { OffsetAll(tail); }
      assert AllPushedTypes(cs) == PushedTypes(cs[0]) + AllPushedTypes(tail);
    }
  }

  /** What the next computer's `setUp` sees: a counted table, longer by the arrays pushed. */
  lemma {:induction false} SetUpShape(c: Computer, a: AttributeCollection, t: CTree, meta: ImageMeta)
    requires Counted(a) && (c.QuadsComputer? ==> Partitioned(t))
    ensures Counted(SetUp(c, a, t, meta).attrs)
    ensures |SetUp(c, a, t, meta).attrs.values| == |a.values| + |PushedTypes(c)|
    ensures |Columns(SetUp(c, a, t, meta).comp)| == |PushedTypes(c)|
    ensures forall q :: 0 <= q < |PushedTypes(c)| ==> Columns(SetUp(c, a, t, meta).comp)[q] == |a.values| + q
    ensures SetUpFields(c, SetUp(c, a, t, meta).comp, t, meta)
  {
    SetUpPushes(c, a, t, meta);
    PushAllLength(a, PushedTypes(c), |t.nodes|);
    if c.QuadsComputer? {
      assert |Columns(SetUp(c, a, t, meta).comp)| == 5 + |SetUp(c, a, t, meta).comp.subs|;
    }
  }

  lemma {:induction false} TreeForTail(cs: seq<Computer>, t: CTree)
    requires cs != [] && TreeFor(cs, t)
    ensures TreeFor(cs[1..], t)
  {
    forall i | 0 <= i < |cs[1..]| && cs[1..][i].QuadsComputer?
      ensures Partitioned(t)
    {
      assert cs[1..][i] == cs[i + 1];
    }
  }

  /** The collection's `setUp` pushes every computer's types, in push order. */
  lemma {:induction false} SetUpAllTable(cs: seq<Computer>, a: AttributeCollection, t: CTree, meta: ImageMeta)
    requires Counted(a) && TreeFor(cs, t)
    ensures SetUpAll(cs, a, t, meta).attrs == PushAll(a, AllPushedTypes(cs), |t.nodes|)
    decreases |cs|
  {
    if cs != [] {
      var n := |t.nodes|;
      var p := SetUp(cs[0], a, t, meta);
      SetUpPushes(cs[0], a, t, meta);
      PushAllLength(a, PushedTypes(cs[0]), n);
      TreeForTail(cs, t);
      SetUpAllTable(cs[1..], p.attrs, t, meta);
      PushAllConcat(a, PushedTypes(cs[0]), AllPushedTypes(cs[1..]), n);
    }
  }

  /** The set-up computer `r` owns the positions from `b` on, one per type `c` pushes. */
  predicate Placed(c: Computer, r: Computer, b: int) {
    |Columns(r)| == |PushedTypes(c)| && forall q :: 0 <= q < |PushedTypes(c)| ==> Columns(r)[q] == b + q
  }

  /** Each computer of `comps` owns the positions after those the computers before it own. */
  predicate PlacedAll(cs: seq<Computer>, comps: seq<Computer>, b: int)
    requires |comps| == |cs|
  {
    forall i :: 0 <= i < |cs| ==> Placed(cs[i], comps[i], b + Offset(cs, i))
  }

  lemma {:induction false} PlacedConsAt(cs: seq<Computer>, c: Computer, rest: seq<Computer>, b: int, i: int)
    requires 1 <= i < |cs| && |rest| == |cs| - 1
    requires Placed(cs[1..][i - 1], rest[i - 1], b + |PushedTypes(cs[0])| + Offset(cs[1..], i - 1))
    ensures Placed(cs[i], ([c] + rest)[i], b + Offset(cs, i))
  {
    assert ([c] + rest)[i] == rest[i - 1] && cs[1..][i - 1] == cs[i];
    OffsetTail(cs, i);
  }

  lemma {:induction false} PlacedCons(cs: seq<Computer>, c: Computer, rest: seq<Computer>, b: int)
    requires cs != [] && |rest| == |cs| - 1
    requires Placed(cs[0], c, b) && PlacedAll(cs[1..], rest, b + |PushedTypes(cs[0])|)
    ensures PlacedAll(cs, [c] + rest, b)
  {
    forall i | 1 <= i < |cs|
      ensures Placed(cs[i], ([c] + rest)[i], b + Offset(cs, i))
    {
      PlacedConsAt(cs, c, rest, b, i);
    }
  }

  /**
   * Computer `i` owns the consecutive positions after those of the computers
   * before it.
   */
  lemma {:induction false} SetUpAllColumns(cs: seq<Computer>, a: AttributeCollection, t: CTree, meta: ImageMeta)
    requires Counted(a) && TreeFor(cs, t)
    ensures PlacedAll(cs, SetUpAll(cs, a, t, meta).comps, |a.values|)
    decreases |cs|
  {
    if cs != [] {
      var p := SetUp(cs[0], a, t, meta);
      SetUpShape(cs[0], a, t, meta);
      TreeForTail(cs, t);
      SetUpAllColumns(cs[1..], p.attrs, t, meta);
      var rest := SetUpAll(cs[1..], p.attrs, t, meta);
      assert SetUpAll(cs, a, t, meta).comps == [p.comp] + rest.comps;
      PlacedCons(cs, p.comp, rest.comps, |a.values|);
    }
  }

  /** Each computer of `comps` is the set-up form of the computer at its index in `cs`. */
  predicate FieldsAll(cs: seq<Computer>, comps: seq<Computer>, t: CTree, meta: ImageMeta)
    requires |comps| == |cs| && TreeFor(cs, t)
  {
    forall i :: 0 <= i < |cs| ==> SetUpFields(cs[i], comps[i], t, meta)
  }

  lemma {:induction false} FieldsCons(cs: seq<Computer>, c: Computer, rest: seq<Computer>, t: CTree, meta: ImageMeta)
    requires cs != [] && |rest| == |cs| - 1 && TreeFor(cs, t) && TreeFor(cs[1..], t)
    requires SetUpFields(cs[0], c, t, meta) && FieldsAll(cs[1..], rest, t, meta)
    ensures FieldsAll(cs, [c] + rest, t, meta)
  {
    forall i | 1 <= i < |cs|
      ensures SetUpFields(cs[i], ([c] + rest)[i], t, meta)
    {
      assert ([c] + rest)[i] == rest[i - 1] && cs[1..][i - 1] == cs[i];
    }
  }

  /** Every computer's `setUp` fills in its fields. */
  lemma {:induction false} SetUpAllFields(cs: seq<Computer>, a: AttributeCollection, t: CTree, meta: ImageMeta)
    requires Counted(a) && TreeFor(cs, t)
    ensures FieldsAll(cs, SetUpAll(cs, a, t, meta).comps, t, meta)
    decreases |cs|
  {
    if cs != [] {
      var p := SetUp(cs[0], a, t, meta);
      SetUpShape(cs[0], a, t, meta);
      TreeForTail(cs, t);
      SetUpAllFields(cs[1..], p.attrs, t, meta);
      var rest := SetUpAll(cs[1..], p.attrs, t, meta);
      assert SetUpAll(cs, a, t, meta).comps == [p.comp] + rest.comps;
      FieldsCons(cs, p.comp, rest.comps, t, meta);
    }
  }


  /** Pushing `k` types appends `k` arrays and keeps the collection counted. */
  lemma {:induction false} PushAllLength(a: AttributeCollection, types: seq<AttrType>, n: nat)
    requires Counted(a)
    ensures Counted(PushAll(a, types, n)) && |PushAll(a, types, n).values| == |a.values| + |types|
    ensures PushAll(a, types, n).values[..|a.values|] == a.values
    ensures forall x :: |a.values| <= x < |PushAll(a, types, n).values| ==> PushAll(a, types, n).values[x] == Zeros(n)
    decreases |types|
  {
    if types != [] {
      var a1 := Push(a, types[0], n);
      PushAllLength(a1, types[1..], n);
      var r := PushAll(a, types, n);
      assert r.values[..|a.values|] == r.values[..|a1.values|][..|a.values|];
      assert r.values[|a.values|] == r.values[..|a1.values|][|a.values|];
    }
  }
}

=== FILE: attribute_ops.dfy ===
/**
 * The writes the attribute hooks make to an `AttributeCollection`, one cell
 * at a time: `attrs[col][id] += delta`, `attrs[col][parent] += attrs[col][node]`,
 * and `attrs[col][id] = formula(counters at id)`.  A hook is a list of such
 * writes; running a list is running its writes in order.
 */
module AttributeOps {
  import opened AttributeStore
  import opened QuadsCounting

  /** The positions of the five counters an attribute-from-quads computer reads. */
  datatype QuadCols = QuadCols(p1: int, p2: int, pd: int, p3: int, p4: int)

  function QuadColList(q: QuadCols): seq<int> {
    [q.p1, q.p2, q.pd, q.p3, q.p4]
  }

  /** One write to the table. */
  datatype Op =
    | AddOp(col: int, id: int, delta: real)
    | MergeOp(col: int, node: int, parent: int)
    | FormulaOp(col: int, id: int, kind: QAttrKind, con: QConnectivity, src: QuadCols)

  /** The write addresses cells of a table with `cols` arrays of `n` values. */
  predicate OpFits(op: Op, cols: int, n: int) {
    0 <= op.col < cols &&
    match op
    case AddOp(_, id, _) => 0 <= id < n
    case MergeOp(_, node, parent) => 0 <= node < n && 0 <= parent < n
    case FormulaOp(_, id, _, _, src) =>
      0 <= id < n && 0 <= src.p1 < cols && 0 <= src.p2 < cols && 0 <= src.pd < cols &&
      0 <= src.p3 < cols && 0 <= src.p4 < cols
  }

  predicate OpsFit(ops: seq<Op>, cols: int, n: int) {
    forall i :: 0 <= i < |ops| ==> OpFits(ops[i], cols, n)
  }

  /** The counters at node `id` read from the arrays `src`. */
  function QuadsAt(a: AttributeCollection, src: QuadCols, id: int): Quads
    requires 0 <= src.p1 < |a.values| && 0 <= src.p2 < |a.values| && 0 <= src.pd < |a.values|
    requires 0 <= src.p3 < |a.values| && 0 <= src.p4 < |a.values|
    requires Sized(a, |a.values[src.p1]|) && 0 <= id < |a.values[src.p1]|
  {
    Quads(a.values[src.p1][id], a.values[src.p2][id], a.values[src.pd][id],
          a.values[src.p3][id], a.values[src.p4][id])
  }

  /** Performing one write. */
  function Exec(a: AttributeCollection, op: Op, n: int): (r: AttributeCollection)
    requires Sized(a, n) && OpFits(op, |a.values|, n)
    ensures Sized(r, n) && |r.values| == |a.values|
    ensures r.nextIndex == a.nextIndex && r.attrIndex == a.attrIndex
  {
    match op
    case AddOp(col, id, delta) => Add(a, col, id, delta)
    case MergeOp(col, node, parent) => Add(a, col, parent, Get(a, col, node))
    case FormulaOp(col, id, kind, con, src) => Set(a, col, id, Formula(kind, con, QuadsAt(a, src, id)))
  }

  /** Performing the writes in order. */
  function ExecAll(a: AttributeCollection, ops: seq<Op>, n: int): (r: AttributeCollection)
    requires Sized(a, n) && OpsFit(ops, |a.values|, n)
    ensures Sized(r, n) && |r.values| == |a.values|
    ensures r.nextIndex == a.nextIndex && r.attrIndex == a.attrIndex
    decreases |ops|
  {
    if ops == [] then a else ExecAll(Exec(a, ops[0], n), ops[1..], n)
  }

  /** Running two lists back to back is running their concatenation. */
  lemma {:induction false} ExecAllConcat(a: AttributeCollection, ops1: seq<Op>, ops2: seq<Op>, n: int)
    requires Sized(a, n) && OpsFit(ops1, |a.values|, n) && OpsFit(ops2, |a.values|, n)
    ensures OpsFit(ops1 + ops2, |a.values|, n)
    ensures ExecAll(a, ops1 + ops2, n) == ExecAll(ExecAll(a, ops1, n), ops2, n)
    decreases |ops1|
  {
    if ops1 != [] {
      assert (ops1 + ops2)[0] == ops1[0] && (ops1 + ops2)[1..] == ops1[1..] + ops2;
      ExecAllConcat(Exec(a, ops1[0], n), ops1[1..], ops2, n);
    } else {
      assert ops1 + ops2 == ops2;
    }
  }

  /** The writes of `ops` that go to array `x`, in order. */
  function OnColumn(ops: seq<Op>, x: int): (r: seq<Op>)
    ensures forall i :: 0 <= i < |r| ==> r[i].col == x && r[i] in ops
    decreases |ops|
  {
    if ops == [] then [] else (if ops[0].col == x then [ops[0]] else []) + OnColumn(ops[1..], x)
  }

  lemma {:induction false} OnColumnConcat(ops1: seq<Op>, ops2: seq<Op>, x: int)
    ensures OnColumn(ops1 + ops2, x) == OnColumn(ops1, x) + OnColumn(ops2, x)
    decreases |ops1|
  {
    if ops1 != [] {
      assert (ops1 + ops2)[0] == ops1[0] && (ops1 + ops2)[1..] == ops1[1..] + ops2;
      OnColumnConcat(ops1[1..], ops2, x);
    } else {
      assert ops1 + ops2 == ops2;
    }
  }

  /** A list writing no cell of array `x`. */
  lemma {:induction false} OnColumnNone(ops: seq<Op>, x: int)
    requires forall i :: 0 <= i < |ops| ==> ops[i].col != x
    ensures OnColumn(ops, x) == []
    decreases |ops|
  {
    if ops != [] {
      OnColumnNone(ops[1..], x);
    }
  }

  /** The writes of several lists, one list after another. */
  function Flatten(parts: seq<seq<Op>>): seq<Op>
    decreases |parts|
  {
    if parts == [] then [] else parts[0] + Flatten(parts[1..])
  }

  /** Every write of the joined lists is a write of one of the lists. */
  lemma {:induction false} FlattenIndex(parts: seq<seq<Op>>, i: int) returns (k: int, m: int)
    requires 0 <= i < |Flatten(parts)|
    ensures 0 <= k < |parts| && 0 <= m < |parts[k]| && Flatten(parts)[i] == parts[k][m]
    decreases |parts|
  {
    assert parts != [];
    var tail := parts[1..];
    assert Flatten(parts) == parts[0] + Flatten(tail);
    if i < |parts[0]| {
      k, m := 0, i;
    } else {
      var k1, m1 := FlattenIndex(tail, i - |parts[0]|);
      k, m := k1 + 1, m1;
      assert tail[k1] == parts[k];
    }
  }

  /** Lists none of which writes array `x` join into one that does not either. */
  lemma {:induction false} FlattenNone(parts: seq<seq<Op>>, x: int)
    requires forall k :: 0 <= k < |parts| ==> OnColumn(parts[k], x) == []
    ensures OnColumn(Flatten(parts), x) == []
    decreases |parts|
  {
    if parts != [] {
      var tail := parts[1..];
      forall k | 0 <= k < |tail|
        ensures OnColumn(tail[k], x) == []
      {
        assert tail[k] == parts[k + 1];
      }
      FlattenNone(tail, x);
      OnColumnConcat(parts[0], Flatten(tail), x);
    }
  }

  /** When only list `i` writes array `x`, the joined lists write to `x` what list `i` does. */
  lemma {:induction false} FlattenOwn(parts: seq<seq<Op>>, i: int, x: int)
    requires 0 <= i < |parts|
    requires forall k :: 0 <= k < |parts| && k != i ==> OnColumn(parts[k], x) == []
    ensures OnColumn(Flatten(parts), x) == OnColumn(parts[i], x)
    decreases |parts|
  {
    var tail := parts[1..];
    OnColumnConcat(parts[0], Flatten(tail), x);
    if i == 0 {
      forall k | 0 <= k < |tail|
        ensures OnColumn(tail[k], x) == []
      {
        assert tail[k] == parts[k + 1];
      }
      FlattenNone(tail, x);
      assert OnColumn(parts[0], x) + [] == OnColumn(parts[0], x);
    } else {
      forall k | 0 <= k < |tail| && k != i - 1
        ensures OnColumn(tail[k], x) == []
      {
        assert tail[k] == parts[k + 1];
      }
      FlattenOwn(tail, i - 1, x);
      assert tail[i - 1] == parts[i];
      assert [] + OnColumn(Flatten(tail), x) == OnColumn(Flatten(tail), x);
    }
  }

  /** No formula write goes to array `x`: its writes depend on that array alone. */
  predicate Additive(ops: seq<Op>, x: int) {
    forall i :: 0 <= i < |ops| && ops[i].col == x ==> !ops[i].FormulaOp?
  }

  /** An additive write addressing cells of an array of `n` values. */
  predicate ColumnOpFits(op: Op, n: int) {
    match op
    case AddOp(_, id, _) => 0 <= id < n
    case MergeOp(_, node, parent) => 0 <= node < n && 0 <= parent < n
    case FormulaOp(_, _, _, _, _) => false
  }

  predicate ColumnOpsFit(ops: seq<Op>, n: int) {
    forall i :: 0 <= i < |ops| ==> ColumnOpFits(ops[i], n)
  }

  /** One additive write, performed on its array alone. */
  function StepOnColumn(col: seq<real>, op: Op): (r: seq<real>)
    requires ColumnOpFits(op, |col|)
    ensures |r| == |col|
  {
    match op
    case AddOp(_, id, delta) => col[id := col[id] + delta]
    case MergeOp(_, node, parent) => col[parent := col[parent] + col[node]]
  }

  /** The additive writes to one array, replayed on that array alone. */
  function RunOnColumn(col: seq<real>, ops: seq<Op>): (r: seq<real>)
    requires ColumnOpsFit(ops, |col|)
    ensures |r| == |col|
    decreases |ops|
  {
    if ops == [] then col
    else
      assert ColumnOpFits(ops[0], |col|);
      RunOnColumn(StepOnColumn(col, ops[0]), ops[1..])
  }

  /** One write, seen from array `x`. */
  lemma {:induction false} ExecOnColumn(a: AttributeCollection, op: Op, n: int, x: int)
    requires Sized(a, n) && OpFits(op, |a.values|, n) && 0 <= x < |a.values|
    requires op.col == x ==> !op.FormulaOp?
    ensures op.col == x ==> ColumnOpFits(op, n) && Exec(a, op, n).values[x] == StepOnColumn(a.values[x], op)
    ensures op.col != x ==> Exec(a, op, n).values[x] == a.values[x]
  {
  }

  /**
   * An array nobody writes by formula ends up as its own writes, replayed on
   * it alone, leave it: the other arrays play no part.
   */
  lemma {:induction false} ExecAllColumn(a: AttributeCollection, ops: seq<Op>, n: int, x: int)
    requires Sized(a, n) && OpsFit(ops, |a.values|, n) && 0 <= x < |a.values| && Additive(ops, x)
    ensures ColumnOpsFit(OnColumn(ops, x), n)
    ensures ExecAll(a, ops, n).values[x] == RunOnColumn(a.values[x], OnColumn(ops, x))
    decreases |ops|
  {
    if ops != [] {
      var b := Exec(a, ops[0], n);
      ExecOnColumn(a, ops[0], n, x);
      ExecAllColumn(b, ops[1..], n, x);
      var rest := OnColumn(ops[1..], x);
      if ops[0].col == x {
        assert OnColumn(ops, x) == [ops[0]] + rest;
        assert ([ops[0]] + rest)[1..] == rest;
      } else {
        assert OnColumn(ops, x) == rest;
      }
    }
  }

  /** An array that no write in `ops` addresses is left as it was. */
  lemma {:induction false} ExecAllUntouched(a: AttributeCollection, ops: seq<Op>, n: int, x: int)
    requires Sized(a, n) && OpsFit(ops, |a.values|, n) && 0 <= x < |a.values|
    requires forall i :: 0 <= i < |ops| ==> ops[i].col != x
    ensures ExecAll(a, ops, n).values[x] == a.values[x]
  {
    ExecAllColumn(a, ops, n, x);
    OnColumnNone(ops, x);
  }

  /** Replaying two lists of writes back to back on one array. */
  lemma {:induction false} RunOnColumnConcat(col: seq<real>, ops1: seq<Op>, ops2: seq<Op>)
    requires ColumnOpsFit(ops1, |col|) && ColumnOpsFit(ops2, |col|)
    ensures ColumnOpsFit(ops1 + ops2, |col|)
    ensures RunOnColumn(col, ops1 + ops2) == RunOnColumn(RunOnColumn(col, ops1), ops2)
    decreases |ops1|
  {
    if ops1 != [] {
      assert (ops1 + ops2)[0] == ops1[0] && (ops1 + ops2)[1..] == ops1[1..] + ops2;
      assert ColumnOpFits(ops1[0], |col|);
      RunOnColumnConcat(StepOnColumn(col, ops1[0]), ops1[1..], ops2);
    } else {
      assert ops1 + ops2 == ops2;
    }
  }

  /** A list is additive on array `x` when every write it makes to `x` is. */
  lemma {:induction false} AdditiveOnColumn(ops: seq<Op>, x: int)
    requires forall i :: 0 <= i < |OnColumn(ops, x)| ==> !OnColumn(ops, x)[i].FormulaOp?
    ensures Additive(ops, x)
    decreases |ops|
  {
    if ops != [] {
      var here := if ops[0].col == x then [ops[0]] else [];
      var rest := OnColumn(ops[1..], x);
      assert OnColumn(ops, x) == here + rest;
      forall i | 0 <= i < |rest|
        ensures !rest[i].FormulaOp?
      {
        assert rest[i] == OnColumn(ops, x)[|here| + i];
      }
      AdditiveOnColumn(ops[1..], x);
      if ops[0].col == x {
        assert OnColumn(ops, x)[0] == ops[0];
      }
      forall i | 1 <= i < |ops| && ops[i].col == x
        ensures !ops[i].FormulaOp?
      {
        assert ops[i] == ops[1..][i - 1];
      }
    }
  }

  /** Formula writes that never overwrite an array some formula write reads. */
  predicate FormulaPhase(fs: seq<Op>) {
    (forall i :: 0 <= i < |fs| ==> fs[i].FormulaOp?) &&
    forall i, j :: 0 <= i < |fs| && 0 <= j < |fs| ==> fs[i].col !in QuadColList(fs[j].src)
  }

  /**
   * The array `x` after the formula writes, each formula evaluated on the
   * counters of `b`.
   */
  function FormulaColumn(col: seq<real>, b: AttributeCollection, fs: seq<Op>, n: int, x: int): (r: seq<real>)
    requires Sized(b, n) && OpsFit(fs, |b.values|, n) && FormulaPhase(fs) && |col| == n
    ensures |r| == n
    decreases |fs|
  {
    if fs == [] then col
    else
      var f := fs[0];
      var c := if f.col == x then col[f.id := Formula(f.kind, f.con, QuadsAt(b, f.src, f.id))] else col;
      FormulaColumn(c, b, fs[1..], n, x)
  }

  /** The arrays `a` and `b` agree on every array a formula in `fs` reads. */
  predicate SourcesAgree(a: AttributeCollection, b: AttributeCollection, fs: seq<Op>)
    requires forall i :: 0 <= i < |fs| ==> fs[i].FormulaOp?
  {
    forall j, x :: 0 <= j < |fs| && x in QuadColList(fs[j].src) ==>
      0 <= x < |a.values| && 0 <= x < |b.values| && a.values[x] == b.values[x]
  }

  /** Counters read from agreeing arrays are the same counters. */
  lemma {:induction false} QuadsAtAgree(a: AttributeCollection, b: AttributeCollection, src: QuadCols, id: int, n: int)
    requires Sized(a, n) && Sized(b, n) && 0 <= id < n
    requires forall x :: x in QuadColList(src) ==> 0 <= x < |a.values| && 0 <= x < |b.values| && a.values[x] == b.values[x]
    ensures 0 <= src.p1 < |a.values| && 0 <= src.p2 < |a.values| && 0 <= src.pd < |a.values|
    ensures 0 <= src.p3 < |a.values| && 0 <= src.p4 < |a.values|
    ensures 0 <= src.p1 < |b.values| && 0 <= src.p2 < |b.values| && 0 <= src.pd < |b.values|
    ensures 0 <= src.p3 < |b.values| && 0 <= src.p4 < |b.values|
    ensures QuadsAt(a, src, id) == QuadsAt(b, src, id)
  {
    var l := QuadColList(src);
    assert src.p1 == l[0] && src.p2 == l[1] && src.pd == l[2] && src.p3 == l[3] && src.p4 == l[4];
    assert src.p1 in l && src.p2 in l && src.pd in l && src.p3 in l && src.p4 in l;
  }

  /** A formula write keeps the arrays the later formula writes read. */
  lemma {:induction false} SourcesAgreeStep(a: AttributeCollection, b: AttributeCollection, fs: seq<Op>, n: int)
    requires Sized(a, n) && Sized(b, n) && |a.values| == |b.values|
    requires OpsFit(fs, |a.values|, n) && FormulaPhase(fs) && SourcesAgree(a, b, fs) && fs != []
    ensures FormulaPhase(fs[1..]) && SourcesAgree(Exec(a, fs[0], n), b, fs[1..])
  {
    var a1 := Exec(a, fs[0], n);
    forall j, y | 0 <= j < |fs[1..]| && y in QuadColList(fs[1..][j].src)
      ensures 0 <= y < |a1.values| && a1.values[y] == b.values[y]
    {
      assert fs[1..][j] == fs[j + 1];
      assert fs[0].col != y;
    }
  }

  /**
   * A run of formula writes reads only counters none of them overwrites, so
   * every formula sees the counters as they were before the run.
   */
  lemma {:induction false} ExecFormulas(a: AttributeCollection, b: AttributeCollection, fs: seq<Op>, n: int, x: int)
    requires Sized(a, n) && Sized(b, n) && |a.values| == |b.values|
    requires OpsFit(fs, |a.values|, n) && FormulaPhase(fs) && SourcesAgree(a, b, fs)
    requires 0 <= x < |a.values|
    ensures ExecAll(a, fs, n).values[x] == FormulaColumn(a.values[x], b, fs, n, x)
    decreases |fs|
  {
    if fs != [] {
      var f := fs[0];
      assert f.FormulaOp?;
      QuadsAtAgree(a, b, f.src, f.id, n);
      SourcesAgreeStep(a, b, fs, n);
      ExecFormulas(Exec(a, f, n), b, fs[1..], n, x);
    }
  }

  /** Formula writes leave every array they do not address as it was. */
  lemma {:induction false} FormulaColumnUntouched(col: seq<real>, b: AttributeCollection, fs: seq<Op>, n: int, x: int)
    requires Sized(b, n) && OpsFit(fs, |b.values|, n) && FormulaPhase(fs) && |col| == n
    requires forall i :: 0 <= i < |fs| ==> fs[i].col != x
    ensures FormulaColumn(col, b, fs, n, x) == col
    decreases |fs|
  {
    if fs != [] {
      FormulaColumnUntouched(col, b, fs[1..], n, x);
    }
  }

  /** The one formula write `fs[i]` addressing array `x` sets cell `fs[i].id`. */
  lemma {:induction false} FormulaColumnOne(col: seq<real>, b: AttributeCollection, fs: seq<Op>, n: int, x: int, i: int)
    requires Sized(b, n) && OpsFit(fs, |b.values|, n) && FormulaPhase(fs) && |col| == n
    requires 0 <= i < |fs| && fs[i].col == x
    requires forall j :: 0 <= j < |fs| && j != i ==> fs[j].col != x
    ensures FormulaColumn(col, b, fs, n, x) ==
              col[fs[i].id := Formula(fs[i].kind, fs[i].con, QuadsAt(b, fs[i].src, fs[i].id))]
    decreases |fs|
  {
    var f := fs[0];
    if i == 0 {
      var c := col[f.id := Formula(f.kind, f.con, QuadsAt(b, f.src, f.id))];
      forall j | 0 <= j < |fs[1..]|
        ensures fs[1..][j].col != x
      {
        assert fs[1..][j] == fs[j + 1];
      }
      FormulaColumnUntouched(c, b, fs[1..], n, x);
    } else {
      forall j | 0 <= j < |fs[1..]| && j != i - 1
        ensures fs[1..][j].col != x
      {
        assert fs[1..][j] == fs[j + 1];
      }
      FormulaColumnOne(col, b, fs[1..], n, x, i - 1);
    }
  }

  /** Every write of `r` is one of `ops`. */
  predicate WritesOf(r: seq<Op>, ops: seq<Op>) {
    forall i :: 0 <= i < |r| ==> r[i] in ops
  }

  /** A selection of well-fitting formula writes is a well-fitting run of formula writes. */
  lemma {:induction false} FormulaPhaseSub(r: seq<Op>, fs: seq<Op>, cols: int, n: int)
    requires OpsFit(fs, cols, n) && FormulaPhase(fs) && WritesOf(r, fs)
    ensures OpsFit(r, cols, n) && FormulaPhase(r)
  {
    forall i | 0 <= i < |r|
      ensures OpFits(r[i], cols, n) && r[i].FormulaOp?
    {
      var k :| 0 <= k < |fs| && fs[k] == r[i];
    }
    forall i, j | 0 <= i < |r| && 0 <= j < |r|
      ensures r[i].col !in QuadColList(r[j].src)
    {
      var k1 :| 0 <= k1 < |fs| && fs[k1] == r[i];
      var k2 :| 0 <= k2 < |fs| && fs[k2] == r[j];
    }
  }

  /** The formula writes to other arrays play no part in array `x`. */
  lemma {:induction false} FormulaColumnOnColumn(col: seq<real>, b: AttributeCollection, fs: seq<Op>, n: int, x: int)
    requires Sized(b, n) && OpsFit(fs, |b.values|, n) && FormulaPhase(fs) && |col| == n
    ensures OpsFit(OnColumn(fs, x), |b.values|, n) && FormulaPhase(OnColumn(fs, x))
    ensures FormulaColumn(col, b, fs, n, x) == FormulaColumn(col, b, OnColumn(fs, x), n, x)
    decreases |fs|
  {
    FormulaPhaseSub(OnColumn(fs, x), fs, |b.values|, n);
    if fs != [] {
      var f := fs[0];
      var c := if f.col == x then col[f.id := Formula(f.kind, f.con, QuadsAt(b, f.src, f.id))] else col;
      FormulaPhaseSub(fs[1..], fs, |b.values|, n);
      FormulaColumnOnColumn(c, b, fs[1..], n, x);
      var rest := OnColumn(fs[1..], x);
      if f.col == x {
        assert OnColumn(fs, x) == [f] + rest;
        assert ([f] + rest)[0] == f && ([f] + rest)[1..] == rest;
      } else {
        assert OnColumn(fs, x) == rest;
      }
    }
  }

  /** A single formula write to array `x` sets one cell of it. */
  lemma {:induction false} FormulaColumnSingle(col: seq<real>, b: AttributeCollection, f: Op, n: int, x: int)
    requires Sized(b, n) && f.FormulaOp? && OpFits(f, |b.values|, n) && f.col !in QuadColList(f.src)
    requires |col| == n && f.col == x
    ensures OpsFit([f], |b.values|, n) && FormulaPhase([f])
    ensures FormulaColumn(col, b, [f], n, x) == col[f.id := Formula(f.kind, f.con, QuadsAt(b, f.src, f.id))]
  {
    assert [f][0] == f && [f][1..] == [];
  }

  /** A list writing nothing to array `x`, seen from `x`. */
  lemma {:induction false} OnColumnEmpty(ops: seq<Op>, x: int)
    requires OnColumn(ops, x) == []
    ensures forall i :: 0 <= i < |ops| ==> ops[i].col != x
    decreases |ops|
  {
    if ops != [] {
      OnColumnEmpty(ops[1..], x);
      forall i | 1 <= i < |ops|
        ensures ops[i].col != x
      {
        assert ops[i] == ops[1..][i - 1];
      }
    }
  }

  /** A list whose only write to array `x` is `ops[s]`, seen from `x`. */
  lemma {:induction false} OnColumnSingle(ops: seq<Op>, x: int, s: int)
    requires 0 <= s < |ops| && ops[s].col == x
    requires forall i :: 0 <= i < |ops| && i != s ==> ops[i].col != x
    ensures OnColumn(ops, x) == [ops[s]]
    decreases |ops|
  {
    if s == 0 {
      forall i | 0 <= i < |ops[1..]|
        ensures ops[1..][i].col != x
      {
        assert ops[1..][i] == ops[i + 1];
      }
      OnColumnNone(ops[1..], x);
    } else {
      forall i | 0 <= i < |ops[1..]| && i != s - 1
        ensures ops[1..][i].col != x
      {
        assert ops[1..][i] == ops[i + 1];
      }
      OnColumnSingle(ops[1..], x, s - 1);
    }
  }
}

=== FILE: build.dfy ===
/**
 * `CTBuilder::build`: sorting, union-find, canonisation and node creation
 * chained into a compact tree, and the dispatch on the tree type.
 */
module TreeBuild {
  import opened Permutations
  import opened IndexSort
  import opened TreeBuilder
  import opened CompactTree
  import opened NodeCreation
  import opened ThresholdComponents

  /** Every node other than the root has a level ordered after its parent's level by `c`. */
  predicate LevelsOrdered(t: CTree, c: Comparison)
    requires Shaped(t)
  {
    forall k :: 1 <= k < |t.nodes| ==> Cmp(c, t.nodes[k].level, t.nodes[t.nodes[k].parent].level)
  }

  /** Every element lies in a node of its own value. */
  predicate HoldsImage(t: CTree, elements: seq<int>) {
    |t.cmap| == |elements| && Partitioned(t) &&
    forall e :: 0 <= e < |elements| ==> t.nodes[t.cmap[e]].level == elements[e]
  }

  /**
   * `build(elements, adj, sorter)` with the sorter's order given: the parents
   * found by union-find are canonised and compacted.  On a connected symmetric
   * adjacency the result is a well-formed tree holding the image; when the
   * order sorts by `c` (non-increasing for a max-tree), every child node's
   * level lies beyond its parent's in the direction of `c`.
   */
  method BuildWithOrder(elements: seq<int>, adj: seq<seq<int>>, sortedIndices: seq<int>) returns (t: CTree)
    requires |elements| > 0 && ValidAdjacency(adj, |elements|) && Symmetric(adj) && Connected(adj)
    requires IsPermutation(sortedIndices, |elements|)
    ensures WellFormed(t) && HoldsImage(t, elements)
    ensures forall c :: OrderedBy(elements, sortedIndices, c) ==> LevelsOrdered(t, c)
    ensures forall c :: OrderedBy(elements, sortedIndices, c) ==> ComponentTreeOf(t, adj, elements, c)
  {
    var n := |elements|;
    ghost var rank := Positions(sortedIndices, n);
    var parent := UnionFindParents(adj, sortedIndices);
    var par := CanonizeTree(elements, sortedIndices, parent);
    t := CreateNodes(par, sortedIndices, elements);
    assert CanonOf(par, parent, elements, rank);
    forall c | OrderedBy(elements, sortedIndices, c)
      ensures LevelsOrdered(t, c) && ComponentTreeOf(t, adj, elements, c)
    {
      ParentsOrdered(elements, sortedIndices, rank, par, c);
      RefTreeLevelsOrdered(par, elements, LevelRoots(par, elements, sortedIndices), c);
      TreeComponents(adj, elements, parent, par, sortedIndices, c);
    }
  }

  /** With the elements sorted by `c`, no parent's value is ordered after its child's. */
  lemma {:induction false} ParentsOrdered(elements: seq<int>, s: seq<int>, rank: seq<int>, parent: seq<int>, c: Comparison)
    requires IsPermutation(s, |elements|) && rank == Positions(s, |elements|)
    requires ParentsLater(parent, rank) && OrderedBy(elements, s, c)
    ensures forall x :: 0 <= x < |parent| ==> !Cmp(c, elements[parent[x]], elements[x])
  {
    forall x | 0 <= x < |parent|
      ensures !Cmp(c, elements[parent[x]], elements[x])
    {
      if parent[x] != x {
        assert s[rank[x]] == x && s[rank[parent[x]]] == parent[x];
      }
    }
  }

  /**
   * A node other than the root is named after a level root whose parent has
   * another value; so with no parent ordered after its child, the child's
   * level is strictly ordered after its parent node's.
   */
  lemma {:induction false} RefTreeLevelsOrdered(parent: seq<int>, elements: seq<int>, slr: seq<int>, c: Comparison)
    requires RootsListed(parent, elements, slr)
    requires forall x :: 0 <= x < |parent| ==> !Cmp(c, elements[parent[x]], elements[x])
    ensures Shaped(RefTree(parent, elements, slr)) && LevelsOrdered(RefTree(parent, elements, slr), c)
  {
    RefTreeShaped(parent, elements, slr);
    var t := RefTree(parent, elements, slr);
    forall k | 1 <= k < |t.nodes|
      ensures Cmp(c, t.nodes[k].level, t.nodes[t.nodes[k].parent].level)
    {
      NodeOfLevelRoot(parent, elements, slr, k);
    }
  }

  /** `convetToVector` after `build` gives back the image. */
  method BuildAndFlatten(elements: seq<int>, adj: seq<seq<int>>, sortedIndices: seq<int>) returns (v: seq<int>)
    requires |elements| > 0 && ValidAdjacency(adj, |elements|) && Symmetric(adj) && Connected(adj)
    requires IsPermutation(sortedIndices, |elements|)
    ensures v == elements
  {
    var t := BuildWithOrder(elements, adj, sortedIndices);
    v := ConvertToVector(t);
  }

  /** The values of `CTBuilder::TreeType`. */
  const MaxTreeType := 0
  const MinTreeType := 1

  /** What `build(elements, adj, treeType)` gives: a tree, or the `invalid_argument` it throws. */
  datatype BuildOutcome = Built(tree: CTree) | InvalidArgument

  /**
   * `build(elements, adj, treeType)` as written: both enumerators sort with
   * `MaxTreeSorter`, so a `MinTree` request yields the same tree as a
   * `MaxTree` request; any other value throws.  That tree is a max-tree for
   * the types the sorter counts, and a min-tree for the others, whose
   * fallback comparison sort orders by `<`.
   */
  method BuildTreeAsWritten(elements: seq<int>, adj: seq<seq<int>>, treeType: int, ty: ScalarType)
    returns (r: BuildOutcome)
    requires |elements| > 0 && ValidAdjacency(adj, |elements|) && Symmetric(adj) && Connected(adj)
    requires MaxTreeSorterCounts(ty) ==> ValuesInRange(elements, MaxValue(ty))
    ensures treeType != MaxTreeType && treeType != MinTreeType <==> r == InvalidArgument
    ensures r.Built? ==> WellFormed(r.tree) && HoldsImage(r.tree, elements)
    ensures r.Built? && MaxTreeSorterCounts(ty) ==>
              LevelsOrdered(r.tree, Greater) && ComponentTreeOf(r.tree, adj, elements, Greater)
    ensures r.Built? && !MaxTreeSorterCounts(ty) ==>
              LevelsOrdered(r.tree, Less) && ComponentTreeOf(r.tree, adj, elements, Less)
  {
    if treeType == MaxTreeType || treeType == MinTreeType {
      var sortedIndices := MaxTreeSorterSortAsWritten(elements, ty);
      var t := BuildWithOrder(elements, adj, sortedIndices);
      r := Built(t);
    } else {
      r := InvalidArgument;
    }
  }

  /**
   * `build(elements, adj, treeType)` with a min-tree order for `MinTree`:
   * the max-tree has every child above its parent and its nodes are the
   * components of the upper threshold sets; the min-tree has every child
   * below its parent and its nodes are the components of the lower threshold
   * sets; for every element type.
   */
  method BuildTree(elements: seq<int>, adj: seq<seq<int>>, treeType: int, ty: ScalarType)
    returns (r: BuildOutcome)
    requires |elements| > 0 && ValidAdjacency(adj, |elements|) && Symmetric(adj) && Connected(adj)
    requires IsLowSizeType(ty) ==> ValuesInRange(elements, MaxValue(ty))
    ensures treeType != MaxTreeType && treeType != MinTreeType <==> r == InvalidArgument
    ensures r.Built? ==> WellFormed(r.tree) && HoldsImage(r.tree, elements)
    ensures treeType == MaxTreeType ==>
              r.Built? && LevelsOrdered(r.tree, Greater) && ComponentTreeOf(r.tree, adj, elements, Greater)
    ensures treeType == MinTreeType ==>
              r.Built? && LevelsOrdered(r.tree, Less) && ComponentTreeOf(r.tree, adj, elements, Less)
  {
    if treeType == MaxTreeType {
      var sortedIndices := MaxTreeSorterSort(elements, ty);
      var t := BuildWithOrder(elements, adj, sortedIndices);
      r := Built(t);
    } else if treeType == MinTreeType {
      // the non-decreasing order of `maxTreeSort` puts the largest value last, at the root
      var sortedIndices := MaxTreeSort(elements, ty);
      var t := BuildWithOrder(elements, adj, sortedIndices);
      r := Built(t);
    } else {
      r := InvalidArgument;
    }
  }

  /**
   * A tree holding two different values cannot be ordered both ways, so for
   * the types `MaxTreeSorter` counts, the tree `BuildTreeAsWritten` returns
   * for `MinTree` is never a min-tree once the image is not flat.
   */
  lemma {:induction false} MinTreeAsWrittenIsMaxTree(t: CTree, elements: seq<int>, a: int, b: int)
    requires WellFormed(t) && HoldsImage(t, elements)
    requires 0 <= a < |elements| && 0 <= b < |elements| && elements[a] != elements[b]
    requires LevelsOrdered(t, Greater)
    ensures !LevelsOrdered(t, Less)
  {
    var k := if t.cmap[a] != 0 then t.cmap[a] else t.cmap[b];
    assert k != 0;
  }
}

=== FILE: c_arith.dfy ===
/**
 * Integer arithmetic with the semantics of C++ `int` division and remainder.
 *
 * C++ `/` truncates toward zero and `%` takes the sign of the dividend, while
 * Dafny's `/` and `%` are Euclidean (the remainder is never negative).  Every
 * C++ division of the modelled code goes through `CDiv` / `CMod`.
 */
module CArith {

  function Abs(a: int): nat {
    if a < 0 then -a else a
  }

  /** C++ `a / b`: the quotient truncated toward zero. */
  function CDiv(a: int, b: int): int
    requires b != 0
  {
    if (a < 0) == (b < 0) then Abs(a) / Abs(b) else -(Abs(a) / Abs(b))
  }

  /** C++ `a % b`: the remainder left by `CDiv`, whose sign follows the dividend. */
  function CMod(a: int, b: int): int
    requires b != 0
  {
    a - b * CDiv(a, b)
  }

  /** `CDiv` truncates toward zero and `CMod` is the matching remainder. */
  lemma {:induction false} CDivModSpec(a: int, b: int)
    requires b != 0
    ensures Abs(b * CDiv(a, b)) <= Abs(a)
    ensures a == b * CDiv(a, b) + CMod(a, b)
    ensures Abs(CMod(a, b)) < Abs(b)
    ensures CMod(a, b) == 0 || (a < 0 <==> CMod(a, b) < 0)
  {
    var q0 := Abs(a) / Abs(b);
    EuclidNonNegative(Abs(a), Abs(b));
    SignedProduct(a, b, q0);
  }

  /** The product `b * q` of `CDiv` has the sign of the dividend and magnitude `|b| * q0`. */
  lemma {:induction false} SignedProduct(a: int, b: int, q0: int)
    requires b != 0
    ensures b * (if (a < 0) == (b < 0) then q0 else -q0)
         == (if a < 0 then -(Abs(b) * q0) else Abs(b) * q0)
  {
    if b < 0 {
      assert b * q0 == -(Abs(b) * q0);
      assert b * -q0 == Abs(b) * q0;
    }
  }

  /** Euclidean division of non-negative numbers, the building block of `CDiv`. */
  lemma {:induction false} EuclidNonNegative(a: nat, b: nat)
    requires b > 0
    ensures 0 <= b * (a / b) <= a < b * (a / b) + b
  {
  }

  /** On a non-negative dividend and a positive divisor, C++ and Dafny agree. */
  lemma {:induction false} CDivModNonNegative(a: int, b: int)
    requires a >= 0 && b > 0
    ensures CDiv(a, b) == a / b && CMod(a, b) == a % b
  {
  }

  /** Dividing a row-major index `b * y + x` by the row length recovers `(x, y)`. */
  lemma {:induction false} DivModRowMajor(b: int, y: int, x: int)
    requires b > 0 && 0 <= x < b
    ensures (b * y + x) / b == y
    ensures (b * y + x) % b == x
  {
    var a := b * y + x;
    var q := a / b;
    var r := a % b;
    assert a == b * q + r && 0 <= r < b;
    assert b * (y - q) == r - x;
    if y - q > 0 {
      assert b * (y - q) >= b by { MulMonotone(b, y - q); }
    } else if y - q < 0 {
      assert b * (q - y) >= b by { MulMonotone(b, q - y); }
    }
  }

  lemma {:induction false} MulMonotone(b: int, k: int)
    requires b > 0 && k >= 1
    ensures b * k >= b
  {
  }

  /** The C++ quotient and remainder of a row-major index, as used by the pixel indexers. */
  lemma {:induction false} CDivModRowMajor(b: int, y: int, x: int)
    requires b > 0 && 0 <= x < b && y >= 0
    ensures CDiv(b * y + x, b) == y
    ensures CMod(b * y + x, b) == x
  {
    DivModRowMajor(b, y, x);
    CDivModNonNegative(b * y + x, b);
  }

  /** A row-major index of an in-bounds cell lies in `[0, w * h)`. */
  lemma {:induction false} RowMajorInRange(w: int, h: int, x: int, y: int)
    requires 0 <= x < w && 0 <= y < h
    ensures 0 <= w * y + x < w * h
  {
    assert w * y <= w * (h - 1) by { MulLe(w, y, h - 1); }
  }

  lemma {:induction false} MulLe(w: int, a: int, b: int)
    requires w >= 0 && a <= b
    ensures w * a <= w * b
  {
  }

  /** Every index in `[0, w * h)` is the row-major index of an in-bounds cell. */
  lemma {:induction false} IndexSplit(w: int, h: int, p: int)
    requires w > 0 && 0 <= p < w * h
    ensures 0 <= p % w < w && 0 <= p / w < h
    ensures p == w * (p / w) + p % w
  {
    if p / w >= h {
      assert w * (p / w) >= w * h by { MulLe(w, h, p / w); }
    }
  }
}

=== FILE: components.dfy ===
/**
 * What the nodes of a built component tree are: the connected components of
 * the threshold sets of the image.  For a max-tree (`c == Greater`) the
 * threshold set of a level is the set of elements of that value or above; for
 * a min-tree (`c == Less`), of that value or below.  Each node's
 * reconstruction is the component of its level containing its elements, and
 * every such component is a node.
 */
module ThresholdComponents {
  import opened Permutations
  import opened IndexSort
  import opened TreeBuilder
  import opened CompactTree
  import opened NodeCreation
  import opened ParentForest

  /** The element `e` has the value `level` or one beyond it in the direction of `c`. */
  predicate InThreshold(elements: seq<int>, c: Comparison, level: int, e: int) {
    0 <= e < |elements| && !Cmp(c, level, elements[e])
  }

  /**
   * `s` is a connected component of the threshold set of `level`: a connected
   * set of elements of the threshold set, one of them of value `level`, that
   * holds every neighbour in the threshold set of each of its elements.
   */
  ghost predicate ThresholdComponent(adj: seq<seq<int>>, elements: seq<int>, c: Comparison, level: int, s: set<int>) {
    |adj| == |elements| &&
    (forall e :: e in s ==> InThreshold(elements, c, level, e)) &&
    (exists e :: e in s && 0 <= e < |elements| && elements[e] == level) &&
    ConnectedSet(adj, s) &&
    forall a, b :: a in s && Adjacent(adj, a, b) && InThreshold(elements, c, level, b) ==> b in s
  }

  /**
   * The nodes of `t` are exactly the threshold components of the image: each
   * node reconstructs the component of its level containing it, and the
   * component of an element's own value containing the element is the
   * reconstruction of the element's node.
   */
  ghost predicate ComponentTreeOf(t: CTree, adj: seq<seq<int>>, elements: seq<int>, c: Comparison)
    requires WellFormed(t) && |t.cmap| == |elements|
  {
    (forall k :: 0 <= k < |t.nodes| ==> ThresholdComponent(adj, elements, c, t.nodes[k].level, Members(Reconstruct(t, k)))) &&
    forall e, comp :: 0 <= e < |elements| && ThresholdComponent(adj, elements, c, elements[e], comp) && e in comp ==>
      comp == Members(Reconstruct(t, t.cmap[e]))
  }

  /** The elements listed in `xs`. */
  function Members(xs: seq<int>): set<int> {
    set x | x in xs
  }

  /** No element is beyond an element ranked before it: the values move against `c` along the ranks. */
  predicate Monotone(elements: seq<int>, rank: seq<int>, c: Comparison) {
    |rank| == |elements| &&
    forall u, w :: 0 <= u < |elements| && 0 <= w < |elements| && rank[u] <= rank[w] ==> !Cmp(c, elements[w], elements[u])
  }

  /**
   * The relation `canonizeTree` keeps between the union-find parents `parent`
   * and the canonical parents `par`: the same roots, and each canonical parent
   * an ancestor of the old parent with the same value.
   */
  predicate CanonOf(par: seq<int>, parent: seq<int>, elements: seq<int>, rank: seq<int>) {
    |elements| == |rank| && AllBelow(rank, |rank|) &&
    ParentsLater(parent, rank) && ParentsLater(par, rank) &&
    forall v :: 0 <= v < |par| ==>
      (par[v] == v <==> parent[v] == v) &&
      elements[par[v]] == elements[parent[v]] && AncestorOf(parent, rank, par[v], parent[v])
  }

  /** Sorting by `c` makes the values monotone along the ranks. */
  lemma {:induction false} OrderedMonotone(elements: seq<int>, s: seq<int>, c: Comparison)
    requires IsPermutation(s, |elements|) && OrderedBy(elements, s, c)
    ensures Monotone(elements, Positions(s, |elements|), c)
  {
    var rank := Positions(s, |elements|);
    forall u, w | 0 <= u < |elements| && 0 <= w < |elements| && rank[u] <= rank[w]
      ensures !Cmp(c, elements[w], elements[u])
    {
      assert s[rank[u]] == u && s[rank[w]] == w;
    }
  }

  /** `AncestorOf` is reaching through the parents. */
  lemma {:induction false} AncestorReaches(parent: seq<int>, rank: seq<int>, a: int, v: int)
    requires ParentsLater(parent, rank) && AllBelow(rank, |parent|) && 0 <= v < |parent|
    requires AncestorOf(parent, rank, a, v)
    ensures Reaches(parent, rank, v, a)
    decreases |parent| - rank[v]
  {
    if a != v {
      AncestorReaches(parent, rank, a, parent[v]);
    }
  }

  /** Once every element is visited, of two neighbours the earlier reaches the later. */
  lemma {:induction false} EdgeReaches(adj: seq<seq<int>>, parent: seq<int>, rank: seq<int>, a: int, b: int)
    requires EdgesUp(adj, parent, rank, |adj|) && Symmetric(adj) && Adjacent(adj, a, b) && rank[a] <= rank[b]
    ensures Reaches(parent, rank, a, b)
  {
  }

  /**
   * Above an element `x` whose parent has another value, everything `x`
   * reaches but `x` has a value strictly short of `x`'s.
   */
  lemma {:induction false} BelowLevelRoot(elements: seq<int>, parent: seq<int>, rank: seq<int>, c: Comparison, x: int, b: int)
    requires ParentsLater(parent, rank) && AllBelow(rank, |parent|) && |elements| == |parent|
    requires Monotone(elements, rank, c) && 0 <= x < |parent|
    requires parent[x] == x || Cmp(c, elements[x], elements[parent[x]])
    requires Reaches(parent, rank, x, b)
    ensures 0 <= b < |parent| && (x == b || Cmp(c, elements[x], elements[b]))
  {
    ReachesRank(parent, rank, x, b);
    if x != b {
      ReachesRank(parent, rank, parent[x], b);
    }
  }

  /**
   * The union-find subtree of an element `x` whose parent has another value is
   * the component of the threshold set of `x`'s value that contains `x`.
   */
  lemma {:induction false} SubtreeComponent(adj: seq<seq<int>>, elements: seq<int>, parent: seq<int>, rank: seq<int>,
                                            c: Comparison, x: int)
    requires Symmetric(adj) && EdgesUp(adj, parent, rank, |adj|) && ParentsLater(parent, rank)
    requires |elements| == |adj| && Monotone(elements, rank, c)
    requires 0 <= x < |adj| && ConnectedSet(adj, Subtree(parent, rank, x))
    requires parent[x] == x || Cmp(c, elements[x], elements[parent[x]])
    ensures ThresholdComponent(adj, elements, c, elements[x], Subtree(parent, rank, x))
  {
    var sub := Subtree(parent, rank, x);
    forall e | e in sub
      ensures InThreshold(elements, c, elements[x], e)
    {
      ReachesRank(parent, rank, e, x);
    }
    assert x in sub;
    forall a, b | a in sub && Adjacent(adj, a, b) && InThreshold(elements, c, elements[x], b)
      ensures b in sub
    {
      if rank[b] <= rank[a] {
        EdgeReaches(adj, parent, rank, b, a);
        ReachesTransitive(parent, rank, b, a, x);
      } else {
        EdgeReaches(adj, parent, rank, a, b);
        ReachesChain(parent, rank, a, x, b);
        if !Reaches(parent, rank, b, x) {
          BelowLevelRoot(elements, parent, rank, c, x, b);
          assert false;
        }
      }
    }
  }

  /**
   * An element `a` between an old parent `parent[v]` and the canonical parent
   * `par[v]` of the same value has that value, and so has its own parent: it
   * is not a level root.
   */
  lemma {:induction false} InsideRunNotLevelRoot(par: seq<int>, parent: seq<int>, elements: seq<int>, rank: seq<int>,
                                                 c: Comparison, v: int, a: int)
    requires CanonOf(par, parent, elements, rank) && Monotone(elements, rank, c)
    requires 0 <= v < |par| && parent[v] != v && 0 <= a < |par|
    requires Reaches(parent, rank, parent[v], a) && Reaches(parent, rank, a, par[v]) && a != par[v]
    ensures !IsLevelRoot(par, elements, a)
  {
    ReachesRank(parent, rank, parent[v], a);
    ReachesRank(parent, rank, parent[a], par[v]);
  }

  /** Below a level root, the canonical parents and the union-find parents reach the same elements. */
  lemma {:induction false} CanonReaches(par: seq<int>, parent: seq<int>, elements: seq<int>, rank: seq<int>,
                                        c: Comparison, a: int, v: int)
    requires CanonOf(par, parent, elements, rank) && Monotone(elements, rank, c)
    requires 0 <= a < |par| && IsLevelRoot(par, elements, a) && 0 <= v < |par|
    ensures Reaches(par, rank, v, a) <==> Reaches(parent, rank, v, a)
    decreases |par| - rank[v]
  {
    if v != a && par[v] != v {
      var q, r := parent[v], par[v];
      AncestorReaches(parent, rank, r, q);
      CanonReaches(par, parent, elements, rank, c, a, r);
      if Reaches(parent, rank, q, a) {
        ReachesChain(parent, rank, q, a, r);
        if !Reaches(parent, rank, r, a) {
          InsideRunNotLevelRoot(par, parent, elements, rank, c, v, a);
          assert false;
        }
      }
      if Reaches(parent, rank, r, a) {
        ReachesTransitive(parent, rank, q, r, a);
      }
    }
  }

  /** An element lies in the subtree of node `k` exactly when it reaches that node's level root. */
  lemma {:induction false} NodeReaches(par: seq<int>, elements: seq<int>, slr: seq<int>, rank: seq<int>, k: int, e: int)
    requires RootsListed(par, elements, slr) && ParentsLater(par, rank) && AllBelow(rank, |par|)
    requires 0 <= k < |slr| && 0 <= e < |par|
    ensures Shaped(RefTree(par, elements, slr))
    ensures Descendant(RefTree(par, elements, slr), RefTree(par, elements, slr).cmap[e], k) <==> Reaches(par, rank, e, slr[k])
    decreases |par| - rank[e]
  {
    var t := RefTree(par, elements, slr);
    RefTreeShaped(par, elements, slr);
    RefTreeFollowsParents(par, elements, slr);
    NodeOfLevelRoot(par, elements, slr, k);
    var j := t.cmap[e];
    if e != slr[k] {
      if !IsLevelRoot(par, elements, e) {
        NodeReaches(par, elements, slr, rank, k, par[e]);
      } else if par[e] == e {
        assert slr[j] == e;
        assert j == 0;
      } else {
        assert slr[j] == e;
        NodeReaches(par, elements, slr, rank, k, par[e]);
      }
    }
  }

  /** Two components of one threshold set that share an element are the same. */
  lemma {:induction false} ComponentUnique(adj: seq<seq<int>>, elements: seq<int>, c: Comparison, level: int,
                                           s1: set<int>, s2: set<int>, x: int)
    requires ThresholdComponent(adj, elements, c, level, s1) && ThresholdComponent(adj, elements, c, level, s2)
    requires x in s1 && x in s2
    ensures s1 == s2
  {
    var both := s1 * s2;
    assert x in both;
    assert ClosedIn(adj, both, s1);
    assert ClosedIn(adj, both, s2);
    assert s1 <= both && s2 <= both;
  }

  /** Node `k` reconstructs the union-find subtree of its level root. */
  lemma {:induction false} ReconstructIsSubtree(t: CTree, par: seq<int>, parent: seq<int>, elements: seq<int>,
                                                slr: seq<int>, rank: seq<int>, c: Comparison, k: int)
    requires CanonOf(par, parent, elements, rank) && Monotone(elements, rank, c)
    requires RootsListed(par, elements, slr) && 0 <= k < |slr| && t == RefTree(par, elements, slr)
    ensures Shaped(t) && Members(Reconstruct(t, k)) == Subtree(parent, rank, slr[k])
  {
    RefTreeWellFormed(par, elements, slr);
    assert |t.cmap| == |par|;
    var sub := Subtree(parent, rank, slr[k]);
    forall e | 0 <= e < |par|
      ensures e in sub <==> Descendant(t, t.cmap[e], k)
    {
      NodeReaches(par, elements, slr, rank, k, e);
      CanonReaches(par, parent, elements, rank, c, slr[k], e);
    }
    MembersAre(t, k, sub);
  }

  /** The reconstruction of node `k`, as a set, is any set holding exactly the elements of the nodes below `k`. */
  lemma {:induction false} MembersAre(t: CTree, k: int, sub: set<int>)
    requires WellFormed(t) && 0 <= k < |t.nodes|
    requires forall e :: e in sub ==> 0 <= e < |t.cmap|
    requires forall e :: 0 <= e < |t.cmap| ==> (e in sub <==> Descendant(t, t.cmap[e], k))
    ensures Members(Reconstruct(t, k)) == sub
  {
    ReconstructMembers(t, k);
  }

  /** A level root's union-find parent, when it has one, has a value strictly short of its own. */
  lemma {:induction false} LevelRootBeyondParent(par: seq<int>, parent: seq<int>, elements: seq<int>, rank: seq<int>,
                                                 c: Comparison, a: int)
    requires CanonOf(par, parent, elements, rank) && Monotone(elements, rank, c)
    requires 0 <= a < |par| && IsLevelRoot(par, elements, a)
    ensures parent[a] == a || Cmp(c, elements[a], elements[parent[a]])
  {
    if parent[a] != a {
      assert rank[a] <= rank[parent[a]];
    }
  }

  /**
   * Node `k` of the tree built from the canonical parents `par` reconstructs
   * the union-find subtree of its level root, which is the component of the
   * threshold set of its level containing it.
   */
  lemma {:induction false} NodeComponent(adj: seq<seq<int>>, elements: seq<int>, parent: seq<int>, par: seq<int>,
                                         slr: seq<int>, rank: seq<int>, c: Comparison, t: CTree, k: int)
    requires Symmetric(adj) && |adj| == |elements| && EdgesUp(adj, parent, rank, |adj|)
    requires forall x :: 0 <= x < |adj| ==> ConnectedSet(adj, Subtree(parent, rank, x))
    requires CanonOf(par, parent, elements, rank) && Monotone(elements, rank, c)
    requires RootsListed(par, elements, slr) && 0 <= k < |slr| && t == RefTree(par, elements, slr)
    ensures Shaped(t) && ThresholdComponent(adj, elements, c, t.nodes[k].level, Members(Reconstruct(t, k)))
  {
    ReconstructIsSubtree(t, par, parent, elements, slr, rank, c, k);
    NodeOfLevelRoot(par, elements, slr, k);
    LevelRootBeyondParent(par, parent, elements, rank, c, slr[k]);
    assert t.nodes[k].level == elements[slr[k]];
    SubtreeComponent(adj, elements, parent, rank, c, slr[k]);
  }

  /** The component of an element's own value containing it is the reconstruction of the element's node. */
  lemma {:induction false} ElementComponent(adj: seq<seq<int>>, elements: seq<int>, parent: seq<int>, par: seq<int>,
                                            slr: seq<int>, rank: seq<int>, c: Comparison, t: CTree, e: int, comp: set<int>)
    requires Symmetric(adj) && |adj| == |elements| && EdgesUp(adj, parent, rank, |adj|)
    requires forall x :: 0 <= x < |adj| ==> ConnectedSet(adj, Subtree(parent, rank, x))
    requires CanonOf(par, parent, elements, rank) && Monotone(elements, rank, c)
    requires RootsListed(par, elements, slr) && t == RefTree(par, elements, slr)
    requires 0 <= e < |elements| && ThresholdComponent(adj, elements, c, elements[e], comp) && e in comp
    ensures Shaped(t) && comp == Members(Reconstruct(t, t.cmap[e]))
  {
    OwnNode(t, par, elements, slr, e);
    var k := t.cmap[e];
    NodeComponent(adj, elements, parent, par, slr, rank, c, t, k);
    ComponentUnique(adj, elements, c, elements[e], comp, Members(Reconstruct(t, k)), e);
  }

  /** An element's own node has the element's value and reconstructs to a set holding it. */
  lemma {:induction false} OwnNode(t: CTree, par: seq<int>, elements: seq<int>, slr: seq<int>, e: int)
    requires RootsListed(par, elements, slr) && t == RefTree(par, elements, slr) && 0 <= e < |elements|
    ensures Shaped(t) && 0 <= t.cmap[e] < |t.nodes|
    ensures t.nodes[t.cmap[e]].level == elements[e] && e in Members(Reconstruct(t, t.cmap[e]))
  {
    RefTreeWellFormed(par, elements, slr);
    RefTreeLevels(par, elements, slr);
    var k := t.cmap[e];
    assert e in t.nodes[k].elementIndices;
    assert e in Reconstruct(t, k);
  }

  /**
   * The nodes of the tree are exactly the threshold components: every node
   * reconstructs the component of its level containing it, and the component
   * of an element's own value containing that element is the reconstruction
   * of the element's node.
   */
  lemma {:induction false} TreeComponents(adj: seq<seq<int>>, elements: seq<int>, parent: seq<int>, par: seq<int>,
                                          s: seq<int>, c: Comparison)
    requires Symmetric(adj) && |adj| == |elements| && IsPermutation(s, |elements|) && OrderedBy(elements, s, c)
    requires EdgesUp(adj, parent, Positions(s, |elements|), |adj|)
    requires forall x :: 0 <= x < |adj| ==> ConnectedSet(adj, Subtree(parent, Positions(s, |elements|), x))
    requires CanonOf(par, parent, elements, Positions(s, |elements|))
    requires RootsListed(par, elements, LevelRoots(par, elements, s))
    ensures WellFormed(RefTree(par, elements, LevelRoots(par, elements, s)))
    ensures |RefTree(par, elements, LevelRoots(par, elements, s)).cmap| == |elements|
    ensures ComponentTreeOf(RefTree(par, elements, LevelRoots(par, elements, s)), adj, elements, c)
  {
    var rank := Positions(s, |elements|);
    var slr := LevelRoots(par, elements, s);
    var t := RefTree(par, elements, slr);
    RefTreeWellFormed(par, elements, slr);
    OrderedMonotone(elements, s, c);
    forall k | 0 <= k < |t.nodes|
      ensures ThresholdComponent(adj, elements, c, t.nodes[k].level, Members(Reconstruct(t, k)))
    {
      NodeComponent(adj, elements, parent, par, slr, rank, c, t, k);
    }
    forall e, comp | 0 <= e < |elements| && ThresholdComponent(adj, elements, c, elements[e], comp) && e in comp
      ensures comp == Members(Reconstruct(t, t.cmap[e]))
    {
      ElementComponent(adj, elements, parent, par, slr, rank, c, t, e, comp);
    }
  }
}

=== FILE: create_nodes.dfy ===
/**
 * `createNodes`: compacting a canonical parent array into a `CTree`, one node
 * per level root.  The reference tree `RefTree` is defined declaratively from
 * the level roots; the three loops of the source are shown to build exactly it.
 */
module NodeCreation {
  import opened Permutations
  import opened TreeBuilder
  import opened CompactTree

  /** The marker `createNodes` writes in `_cmap` before an element has a node. */
  const Unassigned := -1

  /** A node as `_nodes.resize` leaves it: empty vectors (the scalar fields are overwritten later). */
  const Blank := CTNode(0, 0, 0, [], [])

  /**
   * What `createNodes` relies on: a non-empty image (it reads `front()`), a
   * permutation `s`, a parent array pointing later in `s` and canonised, with
   * the last element of `s` as its only root.
   */
  predicate Compactable(parent: seq<int>, elements: seq<int>, s: seq<int>) {
    var n := |elements|;
    n > 0 && |parent| == n && IsPermutation(s, n) &&
    ParentsLater(parent, Positions(s, n)) && Canonical(parent, elements) &&
    forall x :: 0 <= x < n ==> (parent[x] == x <==> x == s[n - 1])
  }

  /** The level roots among `s[i..]`, taken from the end of `s` backwards. */
  function LevelRootsFrom(parent: seq<int>, elements: seq<int>, s: seq<int>, i: int): seq<int>
    requires |parent| == |elements| && AllBelow(parent, |parent|) && AllBelow(s, |parent|) && 0 <= i <= |s|
    decreases |s| - i
  {
    if i == |s| then []
    else LevelRootsFrom(parent, elements, s, i + 1) + (if IsLevelRoot(parent, elements, s[i]) then [s[i]] else [])
  }

  /** `sortedLevelRoots`: the level roots met scanning `s` from its end. */
  function LevelRoots(parent: seq<int>, elements: seq<int>, s: seq<int>): seq<int>
    requires |parent| == |elements| && AllBelow(parent, |parent|) && AllBelow(s, |parent|)
  {
    LevelRootsFrom(parent, elements, s, 0)
  }

  /**
   * `parent[v]`, named so that the fact "every parent is a level root" is used
   * only where a proof asks for it.
   */
  function ParentOf(parent: seq<int>, v: int): int
    requires 0 <= v < |parent|
  {
    parent[v]
  }

  /**
   * `slr` lists every level root exactly once, the root first and every other
   * level root after the level root that is its parent.
   */
  predicate RootsListed(parent: seq<int>, elements: seq<int>, slr: seq<int>) {
    |parent| == |elements| && AllBelow(parent, |parent|) &&
    |slr| > 0 && Distinct(slr) && AllBelow(slr, |parent|) &&
    (forall x :: 0 <= x < |parent| ==> (x in slr <==> IsLevelRoot(parent, elements, x))) &&
    (forall v :: 0 <= v < |parent| ==> ParentOf(parent, v) in slr) &&
    parent[slr[0]] == slr[0] &&
    (forall k :: 0 < k < |slr| ==> parent[slr[k]] != slr[k]) &&
    forall j, k :: 0 <= j < |slr| && 0 < k < |slr| && slr[j] == parent[slr[k]] ==> j < k
  }

  lemma {:induction false} LevelRootsFromMembers(parent: seq<int>, elements: seq<int>, s: seq<int>, rank: seq<int>, i: int)
    requires |parent| == |elements| && AllBelow(parent, |parent|) && RanksOf(s, rank) && |s| == |parent|
    requires 0 <= i <= |s|
    ensures forall x :: x in LevelRootsFrom(parent, elements, s, i) <==>
              0 <= x < |s| && rank[x] >= i && IsLevelRoot(parent, elements, x)
    decreases |s| - i
  {
    if i < |s| {
      var tail := LevelRootsFrom(parent, elements, s, i + 1);
      assert forall x :: x in tail <==> 0 <= x < |s| && rank[x] >= i + 1 && IsLevelRoot(parent, elements, x) by {
        LevelRootsFromMembers(parent, elements, s, rank, i + 1);
      }
      forall x | 0 <= x < |s| && rank[x] >= i
        ensures rank[x] == i <==> x == s[i]
      {
      }
    }
  }

  /** Appending at most one element of rank `i` keeps ranks strictly decreasing. */
  lemma AppendLowerRank(tail: seq<int>, v: seq<int>, rank: seq<int>, i: int)
    requires AllBelow(tail, |rank|) && AllBelow(v, |rank|) && |v| <= 1
    requires forall a, b :: 0 <= a < b < |tail| ==> rank[tail[a]] > rank[tail[b]]
    requires forall a :: 0 <= a < |tail| ==> rank[tail[a]] > i
    requires forall a :: 0 <= a < |v| ==> rank[v[a]] == i
    ensures AllBelow(tail + v, |rank|)
    ensures forall a, b :: 0 <= a < b < |tail + v| ==> rank[(tail + v)[a]] > rank[(tail + v)[b]]
  {
  }

  lemma {:induction false} LevelRootsFromDecreasing(parent: seq<int>, elements: seq<int>, s: seq<int>, rank: seq<int>, i: int)
    requires |parent| == |elements| && AllBelow(parent, |parent|) && RanksOf(s, rank) && |s| == |parent|
    requires 0 <= i <= |s|
    ensures AllBelow(LevelRootsFrom(parent, elements, s, i), |rank|)
    ensures forall a, b :: 0 <= a < b < |LevelRootsFrom(parent, elements, s, i)| ==>
              rank[LevelRootsFrom(parent, elements, s, i)[a]] > rank[LevelRootsFrom(parent, elements, s, i)[b]]
    decreases |s| - i
  {
    if i < |s| {
      var tail := LevelRootsFrom(parent, elements, s, i + 1);
      var v := if IsLevelRoot(parent, elements, s[i]) then [s[i]] else [];
      assert forall a :: 0 <= a < |tail| ==> rank[tail[a]] >= i + 1 by {
        LevelRootsFromMembers(parent, elements, s, rank, i + 1);
        assert forall a :: 0 <= a < |tail| ==> tail[a] in tail;
      }
      LevelRootsFromDecreasing(parent, elements, s, rank, i + 1);
      AppendLowerRank(tail, v, rank, i);
    }
  }

  /**
   * The scan collects exactly the level roots, ordered by decreasing position
   * in `s`; so the root comes first and every parent before its children.
   */
  lemma {:induction false} LevelRootsListed(parent: seq<int>, elements: seq<int>, s: seq<int>, rank: seq<int>)
    requires |elements| > 0 && |parent| == |elements| && |s| == |parent| && RanksOf(s, rank)
    requires ParentsLater(parent, rank) && Canonical(parent, elements)
    requires forall x :: 0 <= x < |s| ==> (parent[x] == x <==> x == s[|s| - 1])
    ensures RootsListed(parent, elements, LevelRoots(parent, elements, s))
    ensures forall a, b :: 0 <= a < b < |LevelRoots(parent, elements, s)| ==>
              rank[LevelRoots(parent, elements, s)[a]] > rank[LevelRoots(parent, elements, s)[b]]
  {
    var slr := LevelRoots(parent, elements, s);
    LevelRootsOrdered(parent, elements, s, rank);
    ParentsAreLevelRoots(parent, elements, slr);
    LevelRootsRootFirst(parent, elements, s, rank, slr);
    forall j, k | 0 <= j < |slr| && 0 < k < |slr| && slr[j] == parent[slr[k]]
      ensures j < k
    {
    }
  }

  lemma {:induction false} LevelRootsOrdered(parent: seq<int>, elements: seq<int>, s: seq<int>, rank: seq<int>)
    requires |parent| == |elements| && |s| == |parent| && RanksOf(s, rank) && AllBelow(parent, |parent|)
    ensures forall x :: 0 <= x < |parent| ==> (x in LevelRoots(parent, elements, s) <==> IsLevelRoot(parent, elements, x))
    ensures AllBelow(LevelRoots(parent, elements, s), |parent|) && Distinct(LevelRoots(parent, elements, s))
    ensures forall a, b :: 0 <= a < b < |LevelRoots(parent, elements, s)| ==>
              rank[LevelRoots(parent, elements, s)[a]] > rank[LevelRoots(parent, elements, s)[b]]
  {
    var r := LevelRoots(parent, elements, s);
    LevelRootsFromMembers(parent, elements, s, rank, 0);
    LevelRootsFromDecreasing(parent, elements, s, rank, 0);
    assert forall a :: 0 <= a < |r| ==> r[a] in r;
  }

  lemma {:induction false} ParentsAreLevelRoots(parent: seq<int>, elements: seq<int>, slr: seq<int>)
    requires |parent| == |elements| && AllBelow(parent, |parent|) && Canonical(parent, elements)
    requires forall x :: 0 <= x < |parent| ==> (x in slr <==> IsLevelRoot(parent, elements, x))
    ensures forall v :: 0 <= v < |parent| ==> ParentOf(parent, v) in slr
  {
    forall v | 0 <= v < |parent|
      ensures ParentOf(parent, v) in slr
    {
      assert IsLevelRoot(parent, elements, parent[v]);
    }
  }

  lemma {:induction false} LevelRootsRootFirst(parent: seq<int>, elements: seq<int>, s: seq<int>, rank: seq<int>, slr: seq<int>)
    requires |s| > 0 && |parent| == |elements| && |s| == |parent| && RanksOf(s, rank) && AllBelow(parent, |parent|)
    requires forall x :: 0 <= x < |s| ==> (parent[x] == x <==> x == s[|s| - 1])
    requires forall x :: 0 <= x < |parent| ==> (x in slr <==> IsLevelRoot(parent, elements, x))
    requires AllBelow(slr, |parent|) && Distinct(slr)
    requires forall a, b :: 0 <= a < b < |slr| ==> rank[slr[a]] > rank[slr[b]]
    ensures |slr| > 0 && slr[0] == s[|s| - 1] && parent[slr[0]] == slr[0]
    ensures forall k :: 0 < k < |slr| ==> parent[slr[k]] != slr[k]
  {
    var root := s[|s| - 1];
    assert IsLevelRoot(parent, elements, root);
    var r := IndexOf(slr, root);
    if r > 0 {
      assert false;
    }
  }

  /** The element a node is named after: the element itself if it is a level root, else its parent. */
  function CanonicalElement(parent: seq<int>, elements: seq<int>, e: int): (c: int)
    requires |parent| == |elements| && AllBelow(parent, |parent|) && 0 <= e < |parent|
    ensures 0 <= c < |parent|
  {
    if IsLevelRoot(parent, elements, e) then e else parent[e]
  }

  /** The node owning element `e`: the position of its canonical element among the level roots. */
  function NodeOf(parent: seq<int>, elements: seq<int>, slr: seq<int>, e: int): (k: int)
    requires RootsListed(parent, elements, slr) && 0 <= e < |parent|
    ensures 0 <= k < |slr| && slr[k] == CanonicalElement(parent, elements, e)
  {
    assert ParentOf(parent, e) in slr;
    IndexOf(slr, CanonicalElement(parent, elements, e))
  }

  /** A level root owns the node at its own position. */
  lemma {:induction false} NodeOfLevelRoot(parent: seq<int>, elements: seq<int>, slr: seq<int>, k: int)
    requires RootsListed(parent, elements, slr) && 0 <= k < |slr|
    ensures IsLevelRoot(parent, elements, slr[k])
    ensures NodeOf(parent, elements, slr, slr[k]) == k
  {
    assert slr[k] in slr;
    IndexOfUnique(slr, k);
  }

  /** The parent node of node `k`: none for the root, else the node of the parent of its level root. */
  function ParentNode(parent: seq<int>, elements: seq<int>, slr: seq<int>, k: int): (q: int)
    requires RootsListed(parent, elements, slr) && 0 <= k < |slr|
    ensures k == 0 ==> q == NoParent
    ensures k > 0 ==> 0 <= q < k && slr[q] == parent[slr[k]]
  {
    if k == 0 then NoParent
    else
      assert ParentOf(parent, slr[k]) in slr;
      IndexOf(slr, parent[slr[k]])
  }

  /** The nodes among `1..i-1` whose parent node is `k`, in increasing order. */
  function ChildNodes(parent: seq<int>, elements: seq<int>, slr: seq<int>, k: int, i: int): seq<int>
    requires RootsListed(parent, elements, slr) && 1 <= i <= |slr|
    decreases i
  {
    if i == 1 then []
    else ChildNodes(parent, elements, slr, k, i - 1) + (if ParentNode(parent, elements, slr, i - 1) == k then [i - 1] else [])
  }

  /** The elements among `0..e-1` that are not level roots and belong to node `k`, in increasing order. */
  function OwnedElements(parent: seq<int>, elements: seq<int>, slr: seq<int>, k: int, e: int): seq<int>
    requires RootsListed(parent, elements, slr) && 0 <= e <= |parent|
    decreases e
  {
    if e == 0 then []
    else
      OwnedElements(parent, elements, slr, k, e - 1) +
      (if !IsLevelRoot(parent, elements, e - 1) && NodeOf(parent, elements, slr, e - 1) == k then [e - 1] else [])
  }

  /** Node `k` of the compact tree, with the children among `1..i-1` and the extra elements among `0..e-1`. */
  function PartialNode(parent: seq<int>, elements: seq<int>, slr: seq<int>, k: int, i: int, e: int): CTNode
    requires RootsListed(parent, elements, slr) && 0 <= k < |slr| && 1 <= i <= |slr| && 0 <= e <= |parent|
  {
    CTNode(k, elements[slr[k]], ParentNode(parent, elements, slr, k), ChildNodes(parent, elements, slr, k, i),
           [slr[k]] + OwnedElements(parent, elements, slr, k, e))
  }

  /** The compact tree with one node per entry of `slr`. */
  function RefTree(parent: seq<int>, elements: seq<int>, slr: seq<int>): CTree
    requires RootsListed(parent, elements, slr)
  {
    var m, n := |slr|, |parent|;
    CTree(seq(m, k requires 0 <= k < m => PartialNode(parent, elements, slr, k, m, n)),
          seq(n, e requires 0 <= e < n => NodeOf(parent, elements, slr, e)))
  }

  /** The compact tree is the one whose nodes and node map agree with it entry by entry. */
  lemma {:induction false} RefTreeIs(parent: seq<int>, elements: seq<int>, slr: seq<int>, nodes: seq<CTNode>, cmap: seq<int>)
    requires RootsListed(parent, elements, slr) && |nodes| == |slr| && |cmap| == |parent|
    requires forall k :: 0 <= k < |slr| ==> PartialNode(parent, elements, slr, k, |slr|, |parent|) == nodes[k]
    requires forall x :: 0 <= x < |parent| ==> NodeOf(parent, elements, slr, x) == cmap[x]
    ensures RefTree(parent, elements, slr) == CTree(nodes, cmap)
  {
  }

  /**
   * `createNodes`: the tree with one node per level root, the root first,
   * listing the level roots in the order of the scan.
   */
  method CreateNodes(parent: seq<int>, sortedIndices: seq<int>, elements: seq<int>) returns (t: CTree)
    requires Compactable(parent, elements, sortedIndices)
    ensures RootsListed(parent, elements, LevelRoots(parent, elements, sortedIndices))
    ensures t == RefTree(parent, elements, LevelRoots(parent, elements, sortedIndices))
    ensures WellFormed(t)
    ensures forall e :: 0 <= e < |elements| ==> t.nodes[t.cmap[e]].level == elements[e]
  {
    ghost var rank := Positions(sortedIndices, |elements|);
    LevelRootsListed(parent, elements, sortedIndices, rank);
    var slr := CollectLevelRoots(parent, sortedIndices, elements);
    var nodes, cmap := LinkNodes(parent, elements, slr);
    nodes, cmap := AttachElements(parent, elements, slr, nodes, cmap);
    t := CTree(nodes, cmap);
    RefTreeWellFormed(parent, elements, slr);
    RefTreeLevels(parent, elements, slr);
  }

  /** The scan over `sortedIndices` from the back collecting the level roots. */
  method CollectLevelRoots(parent: seq<int>, s: seq<int>, elements: seq<int>) returns (slr: seq<int>)
    requires |parent| == |elements| && AllBelow(parent, |parent|) && AllBelow(s, |parent|)
    ensures slr == LevelRoots(parent, elements, s)
  {
    slr := [];
    var i := |s|;
    while i > 0
      invariant 0 <= i <= |s| && slr == LevelRootsFrom(parent, elements, s, i)
    {
      i := i - 1;
      var p := s[i];
      if elements[parent[p]] != elements[p] || parent[p] == p {
        slr := slr + [p];
      }
    }
  }

  /** The state after the root and the level roots `slr[1..i-1]` have their nodes. */
  ghost predicate Linked(parent: seq<int>, elements: seq<int>, slr: seq<int>, nodes: seq<CTNode>, cmap: seq<int>, i: int) {
    RootsListed(parent, elements, slr) &&
    1 <= i <= |slr| && |nodes| == |slr| && |cmap| == |parent| &&
    (forall k :: 0 <= k < |slr| ==> nodes[k] == if k < i then PartialNode(parent, elements, slr, k, i, 0) else Blank) &&
    forall x :: 0 <= x < |parent| ==>
      cmap[x] == if IsLevelRoot(parent, elements, x) && NodeOf(parent, elements, slr, x) < i
                 then NodeOf(parent, elements, slr, x) else Unassigned
  }

  /** The root node and the loop over the remaining level roots, linking each node to its parent node. */
  method LinkNodes(parent: seq<int>, elements: seq<int>, slr: seq<int>) returns (nodes: seq<CTNode>, cmap: seq<int>)
    requires RootsListed(parent, elements, slr)
    ensures Linked(parent, elements, slr, nodes, cmap, |slr|)
  {
    cmap := seq(|elements|, _ => Unassigned);
    nodes := seq(|slr|, _ => Blank);
    var rootCanonicalPixel := slr[0];
    nodes := nodes[0 := CTNode(0, elements[rootCanonicalPixel], NoParent, [], [rootCanonicalPixel])];
    cmap := cmap[rootCanonicalPixel := nodes[0].id];
    LinkedRoot(parent, elements, slr, nodes, cmap);
    for i := 1 to |slr|
      invariant Linked(parent, elements, slr, nodes, cmap, i)
    {
      nodes, cmap := LinkNode(parent, elements, slr, nodes, cmap, i);
    }
  }

  lemma {:induction false} LinkedRoot(parent: seq<int>, elements: seq<int>, slr: seq<int>, nodes: seq<CTNode>, cmap: seq<int>)
    requires RootsListed(parent, elements, slr)
    requires |nodes| == |slr| && nodes[0] == CTNode(0, elements[slr[0]], NoParent, [], [slr[0]])
    requires forall k :: 1 <= k < |slr| ==> nodes[k] == Blank
    requires |cmap| == |parent| && cmap[slr[0]] == 0
    requires forall x :: 0 <= x < |parent| && x != slr[0] ==> cmap[x] == Unassigned
    ensures Linked(parent, elements, slr, nodes, cmap, 1)
  {
    NodeOfLevelRoot(parent, elements, slr, 0);
    assert nodes[0] == PartialNode(parent, elements, slr, 0, 1, 0);
    forall x | 0 <= x < |parent| && IsLevelRoot(parent, elements, x) && NodeOf(parent, elements, slr, x) < 1
      ensures x == slr[0]
    {
    }
  }

  /** One round of the node loop: node `i` gets its level root, level and parent, and becomes a child. */
  method LinkNode(parent: seq<int>, elements: seq<int>, slr: seq<int>, nodes: seq<CTNode>, cmap: seq<int>, i: int)
    returns (nodes': seq<CTNode>, cmap': seq<int>)
    requires Linked(parent, elements, slr, nodes, cmap, i) && i < |slr|
    ensures Linked(parent, elements, slr, nodes', cmap', i + 1)
  {
    var p := slr[i];
    cmap' := cmap[p := i];
    LinkNodeParent(parent, elements, slr, nodes, cmap, i);
    var q := cmap'[parent[p]];
    var node := CTNode(i, elements[p], nodes[q].id, [], [p]);
    nodes' := nodes[i := node];
    nodes' := nodes'[q := nodes'[q].(children := nodes'[q].children + [node.id])];
    LinkNodeStep(parent, elements, slr, nodes, cmap, i, q, nodes', cmap');
  }

  lemma {:induction false} LinkNodeParent(parent: seq<int>, elements: seq<int>, slr: seq<int>, nodes: seq<CTNode>, cmap: seq<int>, i: int)
    requires Linked(parent, elements, slr, nodes, cmap, i) && i < |slr|
    ensures parent[slr[i]] != slr[i]
    ensures cmap[parent[slr[i]]] == ParentNode(parent, elements, slr, i)
    ensures nodes[ParentNode(parent, elements, slr, i)].id == ParentNode(parent, elements, slr, i)
  {
    var q := ParentNode(parent, elements, slr, i);
    NodeOfLevelRoot(parent, elements, slr, q);
  }

  lemma {:induction false} LinkNodeStep(parent: seq<int>, elements: seq<int>, slr: seq<int>, nodes: seq<CTNode>, cmap: seq<int>,
                     i: int, q: int, nodes': seq<CTNode>, cmap': seq<int>)
    requires Linked(parent, elements, slr, nodes, cmap, i) && i < |slr|
    requires q == ParentNode(parent, elements, slr, i)
    requires cmap' == cmap[slr[i] := i]
    requires |nodes'| == |nodes|
    requires nodes'[i] == PartialNode(parent, elements, slr, i, i + 1, 0).(children := [])
    requires nodes'[q] == nodes[q].(children := nodes[q].children + [i])
    requires forall k :: 0 <= k < |nodes| && k != i && k != q ==> nodes'[k] == nodes[k]
    ensures Linked(parent, elements, slr, nodes', cmap', i + 1)
  {
    LinkNodeStepNodes(parent, elements, slr, nodes, i, q, nodes');
    LinkNodeStepMap(parent, elements, slr, cmap, i, cmap');
  }

  lemma {:induction false} LinkNodeStepNodes(parent: seq<int>, elements: seq<int>, slr: seq<int>, nodes: seq<CTNode>,
                          i: int, q: int, nodes': seq<CTNode>)
    requires RootsListed(parent, elements, slr) && 1 <= i < |slr| && |nodes| == |slr|
    requires forall k :: 0 <= k < |slr| ==> nodes[k] == if k < i then PartialNode(parent, elements, slr, k, i, 0) else Blank
    requires q == ParentNode(parent, elements, slr, i)
    requires |nodes'| == |nodes|
    requires nodes'[i] == PartialNode(parent, elements, slr, i, i + 1, 0).(children := [])
    requires nodes'[q] == nodes[q].(children := nodes[q].children + [i])
    requires forall k :: 0 <= k < |nodes| && k != i && k != q ==> nodes'[k] == nodes[k]
    ensures forall k :: 0 <= k < |slr| ==> nodes'[k] == if k < i + 1 then PartialNode(parent, elements, slr, k, i + 1, 0) else Blank
  {
    ChildNodesNone(parent, elements, slr, i, i + 1);
    forall k | 0 <= k < i
      ensures nodes'[k] == PartialNode(parent, elements, slr, k, i + 1, 0)
    {
      assert ChildNodes(parent, elements, slr, k, i + 1) ==
             ChildNodes(parent, elements, slr, k, i) + (if q == k then [i] else []);
    }
  }

  lemma {:induction false} LinkNodeStepMap(parent: seq<int>, elements: seq<int>, slr: seq<int>, cmap: seq<int>, i: int, cmap': seq<int>)
    requires RootsListed(parent, elements, slr) && 1 <= i < |slr| && |cmap| == |parent|
    requires forall x :: 0 <= x < |parent| ==>
      cmap[x] == if IsLevelRoot(parent, elements, x) && NodeOf(parent, elements, slr, x) < i
                 then NodeOf(parent, elements, slr, x) else Unassigned
    requires cmap' == cmap[slr[i] := i]
    ensures forall x :: 0 <= x < |parent| ==>
      cmap'[x] == if IsLevelRoot(parent, elements, x) && NodeOf(parent, elements, slr, x) < i + 1
                  then NodeOf(parent, elements, slr, x) else Unassigned
  {
    NodeOfLevelRoot(parent, elements, slr, i);
    forall x | 0 <= x < |parent|
      ensures cmap'[x] == if IsLevelRoot(parent, elements, x) && NodeOf(parent, elements, slr, x) < i + 1
                          then NodeOf(parent, elements, slr, x) else Unassigned
    {
      if x != slr[i] && IsLevelRoot(parent, elements, x) {
        assert NodeOf(parent, elements, slr, x) != i;
      }
    }
  }

  /** No node below `i` has a parent node at `i - 1` or later. */
  lemma {:induction false} ChildNodesNone(parent: seq<int>, elements: seq<int>, slr: seq<int>, k: int, i: int)
    requires RootsListed(parent, elements, slr) && 1 <= i <= |slr| && k >= i - 1
    ensures ChildNodes(parent, elements, slr, k, i) == []
    decreases i
  {
    if i > 1 {
      ChildNodesNone(parent, elements, slr, k, i - 1);
    }
  }

  /** What `ChildNodes` lists: the nodes below `i` whose parent node is `k`, increasing. */
  lemma {:induction false} ChildNodesFacts(parent: seq<int>, elements: seq<int>, slr: seq<int>, k: int, i: int)
    requires RootsListed(parent, elements, slr) && 1 <= i <= |slr|
    ensures forall c :: c in ChildNodes(parent, elements, slr, k, i) <==> 1 <= c < i && ParentNode(parent, elements, slr, c) == k
    ensures Increasing(ChildNodes(parent, elements, slr, k, i))
    decreases i
  {
    if i > 1 {
      ChildNodesFacts(parent, elements, slr, k, i - 1);
      var cs := ChildNodes(parent, elements, slr, k, i - 1);
      assert forall j :: 0 <= j < |cs| ==> cs[j] in cs;
    }
  }

  /** What `OwnedElements` lists: the elements below `e` that are not level roots and belong to node `k`, increasing. */
  lemma {:induction false} OwnedElementsFacts(parent: seq<int>, elements: seq<int>, slr: seq<int>, k: int, e: int)
    requires RootsListed(parent, elements, slr) && 0 <= e <= |parent|
    ensures forall x :: x in OwnedElements(parent, elements, slr, k, e) <==>
              0 <= x < e && !IsLevelRoot(parent, elements, x) && NodeOf(parent, elements, slr, x) == k
    ensures Increasing(OwnedElements(parent, elements, slr, k, e))
    decreases e
  {
    if e > 0 {
      OwnedElementsFacts(parent, elements, slr, k, e - 1);
      var xs := OwnedElements(parent, elements, slr, k, e - 1);
      assert forall j :: 0 <= j < |xs| ==> xs[j] in xs;
    }
  }

  /** A list that is increasing and holds exactly the nodes whose parent node is `k` is `ChildNodes`. */
  lemma {:induction false} ChildNodesAre(parent: seq<int>, elements: seq<int>, slr: seq<int>, k: int, expected: seq<int>)
    requires RootsListed(parent, elements, slr) && Increasing(expected)
    requires forall c :: c in expected <==> 1 <= c < |slr| && ParentNode(parent, elements, slr, c) == k
    ensures ChildNodes(parent, elements, slr, k, |slr|) == expected
  {
    ChildNodesFacts(parent, elements, slr, k, |slr|);
    IncreasingUnique(ChildNodes(parent, elements, slr, k, |slr|), expected);
  }

  /** A list that is increasing and holds exactly the elements of node `k` other than level roots is `OwnedElements`. */
  lemma {:induction false} OwnedElementsAre(parent: seq<int>, elements: seq<int>, slr: seq<int>, k: int, expected: seq<int>)
    requires RootsListed(parent, elements, slr) && Increasing(expected)
    requires forall x :: x in expected <==>
               0 <= x < |parent| && !IsLevelRoot(parent, elements, x) && NodeOf(parent, elements, slr, x) == k
    ensures OwnedElements(parent, elements, slr, k, |parent|) == expected
  {
    OwnedElementsFacts(parent, elements, slr, k, |parent|);
    IncreasingUnique(OwnedElements(parent, elements, slr, k, |parent|), expected);
  }

  /** The state after the elements `0..e-1` that are not level roots joined their node. */
  ghost predicate Attached(parent: seq<int>, elements: seq<int>, slr: seq<int>, nodes: seq<CTNode>, cmap: seq<int>, e: int) {
    RootsListed(parent, elements, slr) &&
    0 <= e <= |parent| && |nodes| == |slr| && |cmap| == |parent| &&
    (forall k :: 0 <= k < |slr| ==> nodes[k] == PartialNode(parent, elements, slr, k, |slr|, e)) &&
    forall x :: 0 <= x < |parent| ==>
      cmap[x] == if IsLevelRoot(parent, elements, x) || x < e then NodeOf(parent, elements, slr, x) else Unassigned
  }

  /** The final loop: every element without a node joins the node of its parent. */
  method AttachElements(parent: seq<int>, elements: seq<int>, slr: seq<int>, nodes: seq<CTNode>, cmap: seq<int>)
    returns (nodes': seq<CTNode>, cmap': seq<int>)
    requires Linked(parent, elements, slr, nodes, cmap, |slr|)
    ensures CTree(nodes', cmap') == RefTree(parent, elements, slr)
  {
    nodes', cmap' := nodes, cmap;
    AttachedStart(parent, elements, slr, nodes, cmap);
    assert |elements| == |parent|;
    for i := 0 to |elements|
      invariant Attached(parent, elements, slr, nodes', cmap', i)
    {
      var r := AttachOne(parent, elements, slr, nodes', cmap', i);
      nodes', cmap' := r.0, r.1;
    }
    AttachedFinal(parent, elements, slr, nodes', cmap');
  }

  /**
   * One pass of the final loop: an element without a node is appended to the
   * elements of its parent's node and mapped to it.
   */
  function AttachOne(parent: seq<int>, elements: seq<int>, slr: seq<int>, nodes: seq<CTNode>, cmap: seq<int>, e: int)
    : (r: (seq<CTNode>, seq<int>))
    requires Attached(parent, elements, slr, nodes, cmap, e) && e < |parent|
    ensures Attached(parent, elements, slr, r.0, r.1, e + 1)
  {
    if cmap[e] == Unassigned then
      AttachParent(parent, elements, slr, nodes, cmap, e);
      var c := cmap[parent[e]];
      var nodes1 := nodes[c := nodes[c].(elementIndices := nodes[c].elementIndices + [e])];
      AttachStep(parent, elements, slr, nodes, cmap, e, c, nodes1);
      (nodes1, cmap[e := c])
    else
      AttachSkip(parent, elements, slr, nodes, cmap, e);
      (nodes, cmap)
  }

  lemma {:induction false} AttachedStart(parent: seq<int>, elements: seq<int>, slr: seq<int>, nodes: seq<CTNode>, cmap: seq<int>)
    requires Linked(parent, elements, slr, nodes, cmap, |slr|)
    ensures Attached(parent, elements, slr, nodes, cmap, 0)
  {
    forall x | 0 <= x < |parent| && IsLevelRoot(parent, elements, x)
      ensures NodeOf(parent, elements, slr, x) < |slr|
    {
    }
  }

  lemma {:induction false} AttachParent(parent: seq<int>, elements: seq<int>, slr: seq<int>, nodes: seq<CTNode>, cmap: seq<int>, e: int)
    requires Attached(parent, elements, slr, nodes, cmap, e) && e < |parent| && cmap[e] == Unassigned
    ensures !IsLevelRoot(parent, elements, e) && 0 <= parent[e] < |parent|
    ensures 0 <= NodeOf(parent, elements, slr, e) < |nodes|
    ensures cmap[parent[e]] == NodeOf(parent, elements, slr, e)
  {
    assert ParentOf(parent, e) in slr;
  }

  lemma {:induction false} AttachStep(parent: seq<int>, elements: seq<int>, slr: seq<int>, nodes: seq<CTNode>, cmap: seq<int>,
                   e: int, c: int, nodes': seq<CTNode>)
    requires Attached(parent, elements, slr, nodes, cmap, e) && e < |parent|
    requires !IsLevelRoot(parent, elements, e) && c == NodeOf(parent, elements, slr, e)
    requires nodes' == nodes[c := nodes[c].(elementIndices := nodes[c].elementIndices + [e])]
    ensures Attached(parent, elements, slr, nodes', cmap[e := c], e + 1)
  {
  }

  lemma {:induction false} AttachSkip(parent: seq<int>, elements: seq<int>, slr: seq<int>, nodes: seq<CTNode>, cmap: seq<int>, e: int)
    requires Attached(parent, elements, slr, nodes, cmap, e) && e < |parent| && cmap[e] != Unassigned
    ensures Attached(parent, elements, slr, nodes, cmap, e + 1)
  {
  }

  lemma {:induction false} AttachedFinal(parent: seq<int>, elements: seq<int>, slr: seq<int>, nodes: seq<CTNode>, cmap: seq<int>)
    requires Attached(parent, elements, slr, nodes, cmap, |parent|)
    ensures CTree(nodes, cmap) == RefTree(parent, elements, slr)
  {
  }

  /** The compact tree is a well-formed tree whose nodes partition the elements. */
  lemma {:induction false} RefTreeWellFormed(parent: seq<int>, elements: seq<int>, slr: seq<int>)
    requires RootsListed(parent, elements, slr)
    ensures WellFormed(RefTree(parent, elements, slr))
  {
    RefTreeShaped(parent, elements, slr);
    RefTreePartitioned(parent, elements, slr);
  }

  lemma {:induction false} RefTreeShaped(parent: seq<int>, elements: seq<int>, slr: seq<int>)
    requires RootsListed(parent, elements, slr)
    ensures Shaped(RefTree(parent, elements, slr))
  {
    var t := RefTree(parent, elements, slr);
    forall k | 0 <= k < |slr|
      ensures Increasing(t.nodes[k].children)
      ensures forall j :: 0 <= j < |t.nodes[k].children| ==>
                1 <= t.nodes[k].children[j] < |slr| && t.nodes[t.nodes[k].children[j]].parent == k
    {
      RefTreeChildren(parent, elements, slr, k);
    }
    forall c | 1 <= c < |slr|
      ensures c in t.nodes[t.nodes[c].parent].children
    {
      RefTreeChildListed(parent, elements, slr, c);
    }
  }

  lemma {:induction false} RefTreeChildren(parent: seq<int>, elements: seq<int>, slr: seq<int>, k: int)
    requires RootsListed(parent, elements, slr) && 0 <= k < |slr|
    ensures Increasing(RefTree(parent, elements, slr).nodes[k].children)
    ensures forall j :: 0 <= j < |RefTree(parent, elements, slr).nodes[k].children| ==>
              1 <= RefTree(parent, elements, slr).nodes[k].children[j] < |slr| &&
              ParentNode(parent, elements, slr, RefTree(parent, elements, slr).nodes[k].children[j]) == k
  {
    ChildNodesFacts(parent, elements, slr, k, |slr|);
    var cs := ChildNodes(parent, elements, slr, k, |slr|);
    assert RefTree(parent, elements, slr).nodes[k].children == cs;
    assert forall j :: 0 <= j < |cs| ==> cs[j] in cs;
  }

  lemma {:induction false} RefTreeChildListed(parent: seq<int>, elements: seq<int>, slr: seq<int>, c: int)
    requires RootsListed(parent, elements, slr) && 1 <= c < |slr|
    ensures c in RefTree(parent, elements, slr).nodes[ParentNode(parent, elements, slr, c)].children
  {
    var q := ParentNode(parent, elements, slr, c);
    ChildNodesFacts(parent, elements, slr, q, |slr|);
    assert RefTree(parent, elements, slr).nodes[q].children == ChildNodes(parent, elements, slr, q, |slr|);
  }

  lemma {:induction false} RefTreePartitioned(parent: seq<int>, elements: seq<int>, slr: seq<int>)
    requires RootsListed(parent, elements, slr)
    ensures Partitioned(RefTree(parent, elements, slr))
  {
    var t := RefTree(parent, elements, slr);
    var m, n := |slr|, |parent|;
    forall k | 0 <= k < m
      ensures Distinct(t.nodes[k].elementIndices)
      ensures forall j :: 0 <= j < |t.nodes[k].elementIndices| ==>
                0 <= t.nodes[k].elementIndices[j] < n && t.cmap[t.nodes[k].elementIndices[j]] == k
    {
      OwnedElementsFacts(parent, elements, slr, k, n);
      NodeOfLevelRoot(parent, elements, slr, k);
      var xs := OwnedElements(parent, elements, slr, k, n);
      assert forall j :: 0 <= j < |xs| ==> xs[j] in xs;
      assert t.nodes[k].elementIndices == [slr[k]] + xs;
    }
    forall e | 0 <= e < n
      ensures e in t.nodes[t.cmap[e]].elementIndices
    {
      var k := NodeOf(parent, elements, slr, e);
      OwnedElementsFacts(parent, elements, slr, k, n);
      assert t.nodes[k].elementIndices == [slr[k]] + OwnedElements(parent, elements, slr, k, n);
    }
  }

  /** Every element sits in a node whose level is the element's own value. */
  lemma {:induction false} RefTreeLevels(parent: seq<int>, elements: seq<int>, slr: seq<int>)
    requires RootsListed(parent, elements, slr)
    ensures forall e :: 0 <= e < |elements| ==>
              RefTree(parent, elements, slr).nodes[RefTree(parent, elements, slr).cmap[e]].level == elements[e]
  {
  }

  /**
   * The tree follows the parent array: an element that is not a level root
   * shares its parent's node, and the node of any other level root than the
   * root hangs below the node of that level root's parent.  There is one node
   * per level root.
   */
  lemma {:induction false} RefTreeFollowsParents(parent: seq<int>, elements: seq<int>, slr: seq<int>)
    requires RootsListed(parent, elements, slr)
    ensures forall e :: 0 <= e < |elements| && !IsLevelRoot(parent, elements, e) ==>
              RefTree(parent, elements, slr).cmap[e] == RefTree(parent, elements, slr).cmap[parent[e]]
    ensures forall e :: 0 <= e < |elements| && IsLevelRoot(parent, elements, e) && parent[e] != e ==>
              RefTree(parent, elements, slr).nodes[RefTree(parent, elements, slr).cmap[e]].parent ==
              RefTree(parent, elements, slr).cmap[parent[e]]
    ensures |RefTree(parent, elements, slr).nodes| == |set x | 0 <= x < |elements| && IsLevelRoot(parent, elements, x)|
  {
    var t := RefTree(parent, elements, slr);
    forall e | 0 <= e < |elements| && !IsLevelRoot(parent, elements, e)
      ensures t.cmap[e] == t.cmap[parent[e]]
    {
      assert ParentOf(parent, e) in slr;
    }
    forall e | 0 <= e < |elements| && IsLevelRoot(parent, elements, e) && parent[e] != e
      ensures t.nodes[t.cmap[e]].parent == t.cmap[parent[e]]
    {
      LevelRootHangsBelowParent(parent, elements, slr, e);
    }
    DistinctCard(slr);
    assert (set x | x in slr) == (set x | 0 <= x < |elements| && IsLevelRoot(parent, elements, x));
  }

  lemma {:induction false} LevelRootHangsBelowParent(parent: seq<int>, elements: seq<int>, slr: seq<int>, e: int)
    requires RootsListed(parent, elements, slr) && 0 <= e < |elements|
    requires IsLevelRoot(parent, elements, e) && parent[e] != e
    ensures ParentNode(parent, elements, slr, NodeOf(parent, elements, slr, e)) == NodeOf(parent, elements, slr, parent[e])
  {
    var k := NodeOf(parent, elements, slr, e);
    assert ParentOf(parent, e) in slr;
    assert slr[k] == e && k != 0;
    IndexOfUnique(slr, ParentNode(parent, elements, slr, k));
  }
}

=== FILE: ct_builder.dfy ===
/**
 * The union-find component tree builder: elements are visited in the order of
 * the sorted indices, each one is linked above the roots of its already
 * visited neighbours, and the parent array is then canonised so that every
 * element points at a level root.
 */
module TreeBuilder {
  import opened Permutations
  import opened UnionFind
  import opened AdjacencyByTranslating
  import opened ParentForest

  /** Every neighbour list holds valid elements or the `NoAdjacentIndex` sentinel. */
  predicate ValidNeighbours(nbrs: seq<int>, n: int) {
    forall k :: 0 <= k < |nbrs| ==> nbrs[k] == NoAdjacentIndex || 0 <= nbrs[k] < n
  }

  predicate ValidAdjacency(adj: seq<seq<int>>, n: int) {
    |adj| == n && forall p :: 0 <= p < n ==> ValidNeighbours(adj[p], n)
  }

  /** Each element's parent is itself or an element ranked strictly higher. */
  predicate ParentsLater(parent: seq<int>, rank: seq<int>) {
    |parent| == |rank| &&
    forall x :: 0 <= x < |parent| ==> 0 <= parent[x] < |parent| && (parent[x] == x || rank[x] < rank[parent[x]])
  }

  /** Every neighbour relation is mutual. */
  predicate Symmetric(adj: seq<seq<int>>) {
    forall a, k :: 0 <= a < |adj| && 0 <= k < |adj[a]| && 0 <= adj[a][k] < |adj| ==> a in adj[adj[a][k]]
  }

  /** A set of elements that contains every neighbour of each of its elements. */
  predicate ClosedUnderAdjacency(adj: seq<seq<int>>, s: set<int>) {
    forall a, b :: 0 <= a < |adj| && a in s && 0 <= b < |adj| && b in adj[a] ==> b in s
  }

  /** The only non-empty set of elements closed under adjacency is the set of all elements. */
  ghost predicate Connected(adj: seq<seq<int>>) {
    forall s: set<int> :: ClosedUnderAdjacency(adj, s) && (exists a :: 0 <= a < |adj| && a in s) ==>
      forall b :: 0 <= b < |adj| ==> b in s
  }

  /** The roots of `zpar` are the self-loops of `parent`. */
  ghost predicate SameSelfLoops(zpar: seq<int>, parent: seq<int>) {
    |parent| == |zpar| && forall x :: Visited(zpar, x) ==> (zpar[x] == x <==> parent[x] == x)
  }

  /** Two elements in the same tree of the forest. */
  predicate SameTree(zpar: seq<int>, rank: seq<int>, a: int, b: int)
    requires Forest(zpar, rank)
  {
    Visited(zpar, a) && Visited(zpar, b) && Root(zpar, rank, a) == Root(zpar, rank, b)
  }

  /** `z` keeps every pair of elements that share a tree in `zpar` in a shared tree. */
  ghost predicate KeepsTrees(zpar: seq<int>, z: seq<int>, rank: seq<int>)
    requires Forest(zpar, rank) && Forest(z, rank)
  {
    forall a, b :: SameTree(zpar, rank, a, b) ==> SameTree(z, rank, a, b)
  }

  /**
   * The body of the neighbour loop of `build` for the element `p` just marked
   * visited: every visited neighbour's root `r` other than `p` is linked under
   * `p` in both `zpar` and `parent`.
   */
  method LinkNeighbours(zpar: seq<int>, parent: seq<int>, ghost rank: seq<int>, p: int, nbrs: seq<int>,
                        ghost adj: seq<seq<int>>)
    returns (z: seq<int>, par: seq<int>)
    requires Forest(zpar, rank) && SameSelfLoops(zpar, parent) && Visited(zpar, p) && zpar[p] == p
    requires forall x :: Visited(zpar, x) && x != p ==> rank[x] < rank[p]
    requires ValidNeighbours(nbrs, |zpar|)
    requires 0 <= p < |adj| && adj[p] == nbrs && Tracks(adj, zpar, parent, rank) && EdgesUp(adj, parent, rank, rank[p])
    ensures |z| == |zpar| && Forest(z, rank) && SameSelfLoops(z, par) && z[p] == p
    ensures forall x :: 0 <= x < |zpar| ==> (Visited(z, x) <==> Visited(zpar, x))
    ensures KeepsTrees(zpar, z, rank)
    ensures forall k :: 0 <= k < |nbrs| && nbrs[k] != NoAdjacentIndex && Visited(zpar, nbrs[k]) ==>
              Root(z, rank, nbrs[k]) == p
    ensures forall x :: 0 <= x < |zpar| ==>
              par[x] == parent[x] || (Visited(zpar, x) && x != p && par[x] == p)
    ensures Tracks(adj, z, par, rank) && EdgesUp(adj, par, rank, rank[p])
  {
    z, par := zpar, parent;
    for k := 0 to |nbrs|
      invariant LinkedUpTo(zpar, parent, z, par, rank, p, nbrs, k)
      invariant Tracks(adj, z, par, rank) && EdgesUp(adj, par, rank, rank[p])
    {
      z, par := LinkNeighbour(zpar, parent, z, par, rank, p, nbrs, k, adj);
    }
  }

  /** The state of the neighbour loop once the first `k` neighbours of `p` are handled. */
  ghost predicate LinkedUpTo(zpar: seq<int>, parent: seq<int>, z: seq<int>, par: seq<int>, rank: seq<int>,
                             p: int, nbrs: seq<int>, k: int)
  {
    Forest(zpar, rank) && SameSelfLoops(zpar, parent) && Visited(zpar, p) && zpar[p] == p &&
    (forall x :: Visited(zpar, x) && x != p ==> rank[x] < rank[p]) &&
    ValidNeighbours(nbrs, |zpar|) && 0 <= k <= |nbrs| &&
    |z| == |zpar| && Forest(z, rank) && SameSelfLoops(z, par) && z[p] == p &&
    (forall x :: 0 <= x < |zpar| ==> (Visited(z, x) <==> Visited(zpar, x))) &&
    KeepsTrees(zpar, z, rank) &&
    (forall j :: 0 <= j < k && nbrs[j] != NoAdjacentIndex && Visited(zpar, nbrs[j]) ==>
      Root(z, rank, nbrs[j]) == p) &&
    forall x :: 0 <= x < |zpar| ==> par[x] == parent[x] || (Visited(zpar, x) && x != p && par[x] == p)
  }

  /**
   * One neighbour `n = nbrs[k]`: when `n` is a neighbour (not `NoAdjacentIndex`)
   * and already visited, its root `r = findRoot(zpar, n)` is linked under `p`
   * in both arrays unless it is `p` itself.
   */
  method LinkNeighbour(ghost zpar: seq<int>, ghost parent: seq<int>, z: seq<int>, par: seq<int>, ghost rank: seq<int>,
                       p: int, nbrs: seq<int>, k: int, ghost adj: seq<seq<int>>)
    returns (z': seq<int>, par': seq<int>)
    requires LinkedUpTo(zpar, parent, z, par, rank, p, nbrs, k) && k < |nbrs|
    requires 0 <= p < |adj| && adj[p] == nbrs && Tracks(adj, z, par, rank) && EdgesUp(adj, par, rank, rank[p])
    ensures LinkedUpTo(zpar, parent, z', par', rank, p, nbrs, k + 1)
    ensures Tracks(adj, z', par', rank) && EdgesUp(adj, par', rank, rank[p])
  {
    var n := nbrs[k];
    z', par' := z, par;
    if n != NoAdjacentIndex && z[n] != Undef {
      var (r, z1) := FindRoot(z, rank, n);
      z' := z1;
      CompressFacts(z, par, rank, p, n);
      TracksCompressed(adj, z, par, rank, n);
      if r != p {
        z' := z1[r := p];
        par' := par[r := p];
        LinkedStep(zpar, parent, z, par, rank, p, nbrs, k);
        assert Adjacent(adj, p, n);
        TracksLinked(adj, z1, par, rank, p, n);
        EdgesUpAfterLink(adj, par, rank, rank[p], r, p);
      } else {
        CompressedStep(zpar, parent, z, par, rank, p, nbrs, k);
      }
    } else {
      SkippedStep(zpar, parent, z, par, rank, p, nbrs, k);
    }
  }

  /** A neighbour that is `NoAdjacentIndex` or not yet visited changes nothing. */
  lemma {:induction false} SkippedStep(zpar: seq<int>, parent: seq<int>, z: seq<int>, par: seq<int>, rank: seq<int>,
                    p: int, nbrs: seq<int>, k: int)
    requires LinkedUpTo(zpar, parent, z, par, rank, p, nbrs, k) && k < |nbrs|
    requires nbrs[k] == NoAdjacentIndex || z[nbrs[k]] == Undef
    ensures LinkedUpTo(zpar, parent, z, par, rank, p, nbrs, k + 1)
  {
  }

  /** A visited neighbour already in `p`'s tree: only the path compression happens. */
  lemma {:induction false} CompressedStep(zpar: seq<int>, parent: seq<int>, z: seq<int>, par: seq<int>, rank: seq<int>,
                       p: int, nbrs: seq<int>, k: int)
    requires LinkedUpTo(zpar, parent, z, par, rank, p, nbrs, k) && k < |nbrs|
    requires nbrs[k] != NoAdjacentIndex && Visited(z, nbrs[k]) && FindRoot(z, rank, nbrs[k]).0 == p
    ensures LinkedUpTo(zpar, parent, FindRoot(z, rank, nbrs[k]).1, par, rank, p, nbrs, k + 1)
  {
    var n := nbrs[k];
    var z1 := FindRoot(z, rank, n).1;
    CompressFacts(z, par, rank, p, n);
    KeepsTreesTransitive(zpar, z, z1, rank);
    forall j | 0 <= j < k + 1 && nbrs[j] != NoAdjacentIndex && Visited(zpar, nbrs[j])
      ensures Root(z1, rank, nbrs[j]) == p
    {
      if j < k {
        assert Visited(z, nbrs[j]) && Root(z, rank, nbrs[j]) == p;
      }
    }
  }

  /** A visited neighbour in another tree: after the compression its root `r` is linked under `p`. */
  lemma {:induction false} LinkedStep(zpar: seq<int>, parent: seq<int>, z: seq<int>, par: seq<int>, rank: seq<int>,
                   p: int, nbrs: seq<int>, k: int)
    requires LinkedUpTo(zpar, parent, z, par, rank, p, nbrs, k) && k < |nbrs|
    requires nbrs[k] != NoAdjacentIndex && Visited(z, nbrs[k]) && FindRoot(z, rank, nbrs[k]).0 != p
    ensures var (r, z1) := FindRoot(z, rank, nbrs[k]);
      LinkedUpTo(zpar, parent, z1[r := p], par[r := p], rank, p, nbrs, k + 1)
  {
    var n := nbrs[k];
    var (r, z1) := FindRoot(z, rank, n);
    CompressFacts(z, par, rank, p, n);
    KeepsTreesTransitive(zpar, z, z1, rank);
    LinkFacts(z1, par, rank, r, p);
    KeepsTreesTransitive(zpar, z1, z1[r := p], rank);
    LinkedRoots(zpar, z, z1, z1[r := p], rank, p, r, nbrs, k);
    assert Visited(zpar, r);
  }

  /** After compressing (`z1`) and linking (`z2`), the neighbours handled so far all have root `p`. */
  lemma {:induction false} LinkedRoots(zpar: seq<int>, z: seq<int>, z1: seq<int>, z2: seq<int>, rank: seq<int>,
                    p: int, r: int, nbrs: seq<int>, k: int)
    requires Forest(z, rank) && Forest(z1, rank) && Forest(z2, rank) && 0 <= k < |nbrs|
    requires |zpar| == |z| && ValidNeighbours(nbrs, |zpar|)
    requires forall x :: 0 <= x < |zpar| ==> (Visited(z, x) <==> Visited(zpar, x))
    requires forall x :: 0 <= x < |zpar| ==> (Visited(z1, x) <==> Visited(z, x))
    requires forall x :: 0 <= x < |zpar| ==> (Visited(z2, x) <==> Visited(z1, x))
    requires forall j :: 0 <= j < k && nbrs[j] != NoAdjacentIndex && Visited(zpar, nbrs[j]) ==> Root(z, rank, nbrs[j]) == p
    requires forall y :: Visited(z, y) && Root(z, rank, y) == p ==> Root(z1, rank, y) == p
    requires nbrs[k] != NoAdjacentIndex && Visited(z, nbrs[k]) && Root(z1, rank, nbrs[k]) == r
    requires forall y :: Visited(z1, y) && Root(z1, rank, y) == p ==> Root(z2, rank, y) == p
    requires forall y :: Visited(z1, y) && Root(z1, rank, y) == r ==> Root(z2, rank, y) == p
    ensures forall j :: 0 <= j < k + 1 && nbrs[j] != NoAdjacentIndex && Visited(zpar, nbrs[j]) ==>
              Visited(z2, nbrs[j]) && Root(z2, rank, nbrs[j]) == p
  {
    forall j | 0 <= j < k + 1 && nbrs[j] != NoAdjacentIndex && Visited(zpar, nbrs[j])
      ensures Visited(z2, nbrs[j]) && Root(z2, rank, nbrs[j]) == p
    {
      var y := nbrs[j];
      assert Visited(z, y) && Visited(z1, y);
      if j < k {
        assert Root(z1, rank, y) == p;
      }
    }
  }

  /** What `findRoot(zpar, n)` keeps while `p` is the top-ranked visited self-loop. */
  lemma {:induction false} CompressFacts(zpar: seq<int>, parent: seq<int>, rank: seq<int>, p: int, n: int)
    requires Forest(zpar, rank) && SameSelfLoops(zpar, parent) && Visited(zpar, p) && zpar[p] == p
    requires forall x :: Visited(zpar, x) && x != p ==> rank[x] < rank[p]
    requires Visited(zpar, n)
    ensures var (r, z) := FindRoot(zpar, rank, n);
      |z| == |zpar| && Forest(z, rank) && SameSelfLoops(z, parent) && z[p] == p &&
      (forall x :: 0 <= x < |zpar| ==> (Visited(z, x) <==> Visited(zpar, x))) &&
      KeepsTrees(zpar, z, rank) &&
      (forall y :: Visited(zpar, y) && Root(zpar, rank, y) == p ==> Root(z, rank, y) == p) &&
      Visited(z, r) && z[r] == r && Root(z, rank, n) == r && (r != p ==> rank[r] < rank[p])
  {
    var (r, z) := FindRoot(zpar, rank, n);
    FindRootPreservesRoots(zpar, rank, n);
    RootFacts(zpar, rank, p);
    if OnPath(zpar, rank, n, p) {
      OnPathSameRoot(zpar, rank, n, p);
    }
    RootFacts(z, rank, r);
  }

  /** What linking root `r` under root `p` does: `r`'s tree joins `p`'s, nothing else moves. */
  lemma {:induction false} LinkFacts(zpar: seq<int>, parent: seq<int>, rank: seq<int>, r: int, p: int)
    requires Forest(zpar, rank) && SameSelfLoops(zpar, parent) && Visited(zpar, p) && zpar[p] == p
    requires Visited(zpar, r) && zpar[r] == r && r != p && rank[r] < rank[p]
    ensures var z := zpar[r := p];
      Forest(z, rank) && SameSelfLoops(z, parent[r := p]) && z[p] == p &&
      (forall x :: 0 <= x < |zpar| ==> (Visited(z, x) <==> Visited(zpar, x))) &&
      KeepsTrees(zpar, z, rank) &&
      (forall y :: Visited(zpar, y) && Root(zpar, rank, y) == p ==> Root(z, rank, y) == p) &&
      (forall y :: Visited(zpar, y) && Root(zpar, rank, y) == r ==> Root(z, rank, y) == p)
  {
    LinkKeepsForest(zpar, rank, r, p);
    forall y | Visited(zpar, y)
      ensures Root(zpar[r := p], rank, y) == if Root(zpar, rank, y) == r then p else Root(zpar, rank, y)
    {
      LinkRoot(zpar, rank, r, p, y);
    }
  }

  lemma {:induction false} KeepsTreesTransitive(z0: seq<int>, z1: seq<int>, z2: seq<int>, rank: seq<int>)
    requires Forest(z0, rank) && Forest(z1, rank) && Forest(z2, rank)
    requires KeepsTrees(z0, z1, rank) && KeepsTrees(z1, z2, rank)
    ensures KeepsTrees(z0, z2, rank)
  {
    forall a, b | SameTree(z0, rank, a, b)
      ensures SameTree(z2, rank, a, b)
    {
      assert SameTree(z1, rank, a, b);
    }
  }

  /**
   * How `parent` follows `zpar`: every visited element reaches its `zpar`
   * root through `parent`, and every visited element's `parent` subtree is
   * connected under `adj`.  (`parent` is never compressed, so it keeps the
   * whole history of the links.)
   */
  ghost predicate Tracks(adj: seq<seq<int>>, zpar: seq<int>, parent: seq<int>, rank: seq<int>) {
    Ranked(parent, rank) && Forest(zpar, rank) && |adj| == |parent| &&
    (forall x :: Visited(zpar, x) ==> Reaches(parent, rank, x, Root(zpar, rank, x))) &&
    forall x :: Visited(zpar, x) ==> ConnectedSet(adj, Subtree(parent, rank, x))
  }

  /** Path compression touches `zpar` alone, so `parent` still tracks it. */
  lemma {:induction false} TracksCompressed(adj: seq<seq<int>>, z: seq<int>, par: seq<int>, rank: seq<int>, n: int)
    requires Tracks(adj, z, par, rank) && Visited(z, n)
    ensures Tracks(adj, FindRoot(z, rank, n).1, par, rank)
  {
    FindRootPreservesRoots(z, rank, n);
  }

  /** Linking the root of the neighbour `n` under `p` in both arrays keeps the tracking. */
  lemma {:induction false} TracksLinked(adj: seq<seq<int>>, z: seq<int>, par: seq<int>, rank: seq<int>, p: int, n: int)
    requires Tracks(adj, z, par, rank) && SameSelfLoops(z, par)
    requires Visited(z, p) && z[p] == p && Visited(z, n) && Adjacent(adj, p, n)
    requires var r := Root(z, rank, n); Visited(z, r) && r != p && rank[r] < rank[p]
    ensures Tracks(adj, z[Root(z, rank, n) := p], par[Root(z, rank, n) := p], rank)
  {
    var r := Root(z, rank, n);
    RootFacts(z, rank, n);
    LinkKeepsForest(z, rank, r, p);
    var z2, par2 := z[r := p], par[r := p];
    forall y | Visited(z2, y)
      ensures Reaches(par2, rank, y, Root(z2, rank, y))
    {
      LinkRoot(z, rank, r, p, y);
      LinkReaches(par, rank, r, p, y, Root(z, rank, y));
      if Root(z, rank, y) == r {
        LinkReaches(par, rank, r, p, y, p);
      }
    }
    forall x | Visited(z2, x)
      ensures ConnectedSet(adj, Subtree(par2, rank, x))
    {
      SubtreeAfterLink(par, rank, r, p, x);
      if x == p {
        assert n in Subtree(par, rank, r);
        assert p in Subtree(par, rank, p);
        JoinConnected(adj, Subtree(par, rank, p), Subtree(par, rank, r), p, n);
      }
    }
  }

  /** Marking `p`, of rank `i`, as a self-loop in both arrays keeps the tracking and the edges below `i`. */
  lemma {:induction false} TracksStart(adj: seq<seq<int>>, zpar: seq<int>, parent: seq<int>, rank: seq<int>, i: int, p: int)
    requires BuildState(adj, zpar, parent, rank, i) && Tracks(adj, zpar, parent, rank) && EdgesUp(adj, parent, rank, i)
    requires 0 <= p < |rank| && rank[p] == i
    ensures Tracks(adj, zpar[p := p], parent[p := p], rank) && EdgesUp(adj, parent[p := p], rank, i)
  {
    var z0, par0 := zpar[p := p], parent[p := p];
    assert ForestBelow(parent, rank, i);
    VisitStart(adj, zpar, parent, rank, i, p);
    forall y | Visited(z0, y)
      ensures Reaches(par0, rank, y, Root(z0, rank, y))
    {
      if y != p {
        ExtendKeepsTrees(zpar, rank, p, y);
        RootFacts(zpar, rank, y);
        ExtendReaches(parent, rank, i, p, y, Root(zpar, rank, y));
      }
    }
    forall x | Visited(z0, x)
      ensures ConnectedSet(adj, Subtree(par0, rank, x))
    {
      SubtreeAfterExtend(parent, rank, i, p, x);
      if x == p {
        SingletonConnected(adj, p);
      }
    }
    EdgesUpAfterExtend(adj, parent, rank, i, p);
  }

  /**
   * After the neighbour loop every earlier neighbour of `p` reaches `p`
   * through `parent`: the edges up the forest now cover rank `i` too.
   */
  lemma {:induction false} EdgesUpAfterVisit(adj: seq<seq<int>>, z0: seq<int>, z: seq<int>, par: seq<int>, rank: seq<int>, i: int, p: int)
    requires EdgesUp(adj, par, rank, i) && Tracks(adj, z, par, rank) && ValidAdjacency(adj, |rank|)
    requires 0 <= p < |rank| && rank[p] == i && forall x :: 0 <= x < |rank| && rank[x] == i ==> x == p
    requires |z0| == |z| && forall x :: 0 <= x < |rank| && rank[x] < i ==> Visited(z0, x)
    requires forall x :: 0 <= x < |z0| ==> (Visited(z, x) <==> Visited(z0, x))
    requires forall k :: 0 <= k < |adj[p]| && adj[p][k] != NoAdjacentIndex && Visited(z0, adj[p][k]) ==>
               Root(z, rank, adj[p][k]) == p
    ensures EdgesUp(adj, par, rank, i + 1)
  {
    forall a, b | 0 <= a < |adj| && 0 <= b < |adj| && b in adj[a] && rank[b] <= rank[a] < i + 1
      ensures Reaches(par, rank, b, a)
    {
      if rank[a] == i && b != a {
        assert a == p;
        assert rank[b] < i;
        var k :| 0 <= k < |adj[p]| && adj[p][k] == b;
        assert Visited(z, b);
      }
    }
  }

  /** The state of `build` after the first `i` sorted elements. */
  ghost predicate BuildState(adj: seq<seq<int>>, zpar: seq<int>, parent: seq<int>, rank: seq<int>, i: int) {
    |adj| == |rank| && |zpar| == |rank| && Forest(zpar, rank) && SameSelfLoops(zpar, parent) &&
    // exactly the first `i` elements are visited
    (forall x :: 0 <= x < |rank| ==> (Visited(zpar, x) <==> rank[x] < i)) &&
    // each has a parent visited later, or is its own parent
    (forall x :: 0 <= x < |rank| && rank[x] < i ==>
      0 <= parent[x] < |rank| && (parent[x] == x || (rank[x] < rank[parent[x]] && rank[parent[x]] < i))) &&
    // a visited element shares its tree with its neighbours visited before it
    forall a, b :: 0 <= a < |rank| && 0 <= b < |rank| && b in adj[a] && rank[b] <= rank[a] < i ==>
      SameTree(zpar, rank, a, b)
  }

  /**
   * The union-find loop of `build`: `zpar` starts all `UNDEF`; each element
   * `p`, in the given order, gets the self-loop `zpar[p] = parent[p] = p` and
   * is then linked above its visited neighbours' roots.
   */
  method UnionFindParents(adj: seq<seq<int>>, sortedIndices: seq<int>) returns (parent: seq<int>)
    requires ValidAdjacency(adj, |adj|) && IsPermutation(sortedIndices, |adj|)
    ensures ParentsLater(parent, Positions(sortedIndices, |adj|))
    ensures Symmetric(adj) && Connected(adj) && |adj| > 0 ==>
              forall x :: 0 <= x < |adj| ==> (parent[x] == x <==> x == sortedIndices[|adj| - 1])
    ensures EdgesUp(adj, parent, Positions(sortedIndices, |adj|), |adj|)
    ensures forall x :: 0 <= x < |adj| ==> ConnectedSet(adj, Subtree(parent, Positions(sortedIndices, |adj|), x))
  {
    ghost var rank := Positions(sortedIndices, |adj|);
    var zpar;
    zpar, parent := BuildForest(adj, sortedIndices, rank);
    BuildStateFinal(adj, zpar, parent, rank);
    assert forall x :: 0 <= x < |adj| ==> Visited(zpar, x);
    if Symmetric(adj) && Connected(adj) && |adj| > 0 {
      SingleTree(adj, zpar, parent, rank, sortedIndices);
    }
  }

  /** `rank` is the inverse of the ordering `s`: `rank[x]` is the position of `x` in `s`. */
  predicate RanksOf(s: seq<int>, rank: seq<int>) {
    |rank| == |s| && AllBelow(rank, |s|) && AllBelow(s, |s|) &&
    (forall x :: 0 <= x < |s| ==> s[rank[x]] == x) &&
    forall k :: 0 <= k < |s| ==> rank[s[k]] == k
  }

  /** The loop of `UnionFindParents`, visiting `s[0]`, `s[1]`, ... in turn. */
  method BuildForest(adj: seq<seq<int>>, s: seq<int>, ghost rank: seq<int>) returns (zpar: seq<int>, parent: seq<int>)
    requires ValidAdjacency(adj, |adj|) && |s| == |adj| && RanksOf(s, rank)
    ensures |parent| == |adj| && BuildState(adj, zpar, parent, rank, |adj|)
    ensures Tracks(adj, zpar, parent, rank) && EdgesUp(adj, parent, rank, |adj|)
  {
    var n := |adj|;
    zpar := seq(n, _ => Undef);
    parent := seq(n, _ => 0);
    BuildStateInit(adj, zpar, parent, rank);
    for i := 0 to n
      invariant |parent| == n && BuildState(adj, zpar, parent, rank, i)
      invariant Tracks(adj, zpar, parent, rank) && EdgesUp(adj, parent, rank, i)
    {
      zpar, parent := VisitElement(adj, zpar, parent, rank, i, s[i]);
    }
  }

  lemma {:induction false} BuildStateInit(adj: seq<seq<int>>, zpar: seq<int>, parent: seq<int>, rank: seq<int>)
    requires |adj| == |rank| == |zpar| == |parent| && AllBelow(rank, |rank|)
    requires forall x :: 0 <= x < |zpar| ==> zpar[x] == Undef
    ensures BuildState(adj, zpar, parent, rank, 0)
    ensures Tracks(adj, zpar, parent, rank) && EdgesUp(adj, parent, rank, 0)
  {
  }

  lemma {:induction false} BuildStateFinal(adj: seq<seq<int>>, zpar: seq<int>, parent: seq<int>, rank: seq<int>)
    requires |parent| == |rank| && AllBelow(rank, |rank|) && BuildState(adj, zpar, parent, rank, |rank|)
    ensures ParentsLater(parent, rank)
  {
  }

  /** One iteration of the union-find loop, for the element `p` of rank `i`. */
  method VisitElement(adj: seq<seq<int>>, zpar: seq<int>, parent: seq<int>, ghost rank: seq<int>, i: int, p: int)
    returns (z: seq<int>, par: seq<int>)
    requires BuildState(adj, zpar, parent, rank, i) && ValidAdjacency(adj, |rank|)
    requires Tracks(adj, zpar, parent, rank) && EdgesUp(adj, parent, rank, i)
    requires 0 <= p < |rank| && rank[p] == i && forall x :: 0 <= x < |rank| && rank[x] == i ==> x == p
    ensures BuildState(adj, z, par, rank, i + 1)
    ensures Tracks(adj, z, par, rank) && EdgesUp(adj, par, rank, i + 1)
  {
    var z0 := zpar[p := p];
    var par0 := parent[p := p];
    VisitStart(adj, zpar, parent, rank, i, p);
    TracksStart(adj, zpar, parent, rank, i, p);
    z, par := LinkNeighbours(z0, par0, rank, p, adj[p], adj);
    VisitedAfter(zpar, z0, z, rank, i, p);
    ParentsAfter(zpar, parent, z0, par, rank, i, p);
    EdgesAfter(adj, zpar, parent, z0, z, rank, i, p);
    EdgesUpAfterVisit(adj, z0, z, par, rank, i, p);
  }

  /** Marking `p` visited as a self-loop keeps the forest and every tree, and `p` tops the visited ranks. */
  lemma {:induction false} VisitStart(adj: seq<seq<int>>, zpar: seq<int>, parent: seq<int>, rank: seq<int>, i: int, p: int)
    requires BuildState(adj, zpar, parent, rank, i)
    requires 0 <= p < |rank| && rank[p] == i
    ensures Forest(zpar[p := p], rank) && SameSelfLoops(zpar[p := p], parent[p := p])
    ensures Visited(zpar[p := p], p) && KeepsTrees(zpar, zpar[p := p], rank)
    ensures forall x :: Visited(zpar[p := p], x) && x != p ==> rank[x] < rank[p]
  {
    var z0 := zpar[p := p];
    assert Forest(z0, rank);
    forall a, b | SameTree(zpar, rank, a, b)
      ensures SameTree(z0, rank, a, b)
    {
      ExtendKeepsTrees(zpar, rank, p, a);
      ExtendKeepsTrees(zpar, rank, p, b);
    }
  }

  /** After the neighbour loop exactly the elements of rank at most `i` are visited. */
  lemma {:induction false} VisitedAfter(zpar: seq<int>, z0: seq<int>, z: seq<int>, rank: seq<int>, i: int, p: int)
    requires |zpar| == |rank| && (forall x :: 0 <= x < |rank| ==> (Visited(zpar, x) <==> rank[x] < i))
    requires 0 <= p < |rank| && rank[p] == i && forall x :: 0 <= x < |rank| && rank[x] == i ==> x == p
    requires z0 == zpar[p := p] && |z| == |z0| && forall x :: 0 <= x < |z0| ==> (Visited(z, x) <==> Visited(z0, x))
    ensures forall x :: 0 <= x < |rank| ==> (Visited(z, x) <==> rank[x] < i + 1)
  {
    forall x | 0 <= x < |rank|
      ensures Visited(z, x) <==> rank[x] < i + 1
    {
      assert Visited(z0, x) <==> Visited(zpar, x) || x == p;
    }
  }

  /** After the neighbour loop every visited element's parent is itself or visited later. */
  lemma {:induction false} ParentsAfter(zpar: seq<int>, parent: seq<int>, z0: seq<int>, par: seq<int>, rank: seq<int>, i: int, p: int)
    requires |zpar| == |rank| == |parent| == |par| && AllBelow(rank, |rank|)
    requires forall x :: 0 <= x < |rank| ==> (Visited(zpar, x) <==> rank[x] < i)
    requires forall x :: 0 <= x < |rank| && rank[x] < i ==>
               0 <= parent[x] < |rank| && (parent[x] == x || (rank[x] < rank[parent[x]] && rank[parent[x]] < i))
    requires 0 <= p < |rank| && rank[p] == i && forall x :: 0 <= x < |rank| && rank[x] == i ==> x == p
    requires z0 == zpar[p := p]
    requires forall x :: 0 <= x < |rank| ==> par[x] == parent[p := p][x] || (Visited(z0, x) && x != p && par[x] == p)
    ensures forall x :: 0 <= x < |rank| && rank[x] < i + 1 ==>
              0 <= par[x] < |rank| && (par[x] == x || (rank[x] < rank[par[x]] && rank[par[x]] < i + 1))
  {
    forall x | 0 <= x < |rank| && rank[x] < i + 1
      ensures 0 <= par[x] < |rank| && (par[x] == x || (rank[x] < rank[par[x]] && rank[par[x]] < i + 1))
    {
      if x != p {
        assert rank[x] < i;
      }
    }
  }

  /** After the neighbour loop `p` shares its tree with its earlier neighbours, and older trees stay together. */
  lemma {:induction false} EdgesAfter(adj: seq<seq<int>>, zpar: seq<int>, parent: seq<int>, z0: seq<int>, z: seq<int>, rank: seq<int>, i: int, p: int)
    requires BuildState(adj, zpar, parent, rank, i) && ValidAdjacency(adj, |rank|)
    requires 0 <= p < |rank| && rank[p] == i && forall x :: 0 <= x < |rank| && rank[x] == i ==> x == p
    requires z0 == zpar[p := p] && Forest(z0, rank) && KeepsTrees(zpar, z0, rank)
    requires |z| == |z0| && Forest(z, rank) && z[p] == p && KeepsTrees(z0, z, rank)
    requires forall x :: 0 <= x < |z0| ==> (Visited(z, x) <==> Visited(z0, x))
    requires forall k :: 0 <= k < |adj[p]| && adj[p][k] != NoAdjacentIndex && Visited(z0, adj[p][k]) ==>
               Root(z, rank, adj[p][k]) == p
    ensures forall a, b :: 0 <= a < |rank| && 0 <= b < |rank| && b in adj[a] && rank[b] <= rank[a] < i + 1 ==>
              SameTree(z, rank, a, b)
  {
    forall a, b | 0 <= a < |rank| && 0 <= b < |rank| && b in adj[a] && rank[b] <= rank[a] < i + 1
      ensures SameTree(z, rank, a, b)
    {
      if rank[a] < i {
        assert SameTree(zpar, rank, a, b);
        assert SameTree(z0, rank, a, b);
      } else {
        assert a == p;
        var k :| 0 <= k < |adj[p]| && adj[p][k] == b;
        RootFacts(z, rank, p);
      }
    }
  }

  /** Marking an unvisited `p` as a self-loop keeps every visited element's root. */
  lemma {:induction false} ExtendKeepsTrees(zpar: seq<int>, rank: seq<int>, p: int, y: int)
    requires Forest(zpar, rank) && 0 <= p < |zpar| && zpar[p] == Undef && Forest(zpar[p := p], rank)
    requires Visited(zpar, y)
    ensures Root(zpar[p := p], rank, y) == Root(zpar, rank, y)
    decreases |zpar| - rank[y]
  {
    if zpar[y] != y {
      ExtendKeepsTrees(zpar, rank, p, zpar[y]);
    }
  }

  /**
   * On a symmetric, connected adjacency the finished forest is one tree, whose
   * root is the last sorted element; so that element is the only self-loop of
   * `parent`.
   */
  lemma {:induction false} SingleTree(adj: seq<seq<int>>, zpar: seq<int>, parent: seq<int>, rank: seq<int>, s: seq<int>)
    requires |adj| > 0 && |s| == |adj| && RanksOf(s, rank)
    requires BuildState(adj, zpar, parent, rank, |adj|) && Symmetric(adj) && Connected(adj)
    ensures forall x :: 0 <= x < |adj| ==> (parent[x] == x <==> x == s[|adj| - 1])
  {
    var n := |adj|;
    var last := s[n - 1];
    var root := Root(zpar, rank, last);
    var tree := TreeOf(zpar, rank, root);
    TreeClosed(adj, zpar, parent, rank, root);
    assert last in tree;
    RootFacts(zpar, rank, last);
    RootFacts(zpar, rank, root);
    assert rank[root] == n - 1;
    assert root == last;
    forall x | 0 <= x < n
      ensures parent[x] == x <==> x == last
    {
      assert x in tree;
      RootFacts(zpar, rank, x);
    }
  }

  /** The elements whose root is `root`. */
  ghost function TreeOf(zpar: seq<int>, rank: seq<int>, root: int): set<int>
    requires Forest(zpar, rank)
  {
    set x | 0 <= x < |zpar| && Visited(zpar, x) && Root(zpar, rank, x) == root
  }

  /** Once every element is visited, each tree is closed under a symmetric adjacency. */
  lemma {:induction false} TreeClosed(adj: seq<seq<int>>, zpar: seq<int>, parent: seq<int>, rank: seq<int>, root: int)
    requires BuildState(adj, zpar, parent, rank, |adj|) && Symmetric(adj)
    ensures ClosedUnderAdjacency(adj, TreeOf(zpar, rank, root))
  {
    var n := |adj|;
    var tree := TreeOf(zpar, rank, root);
    forall a, b | 0 <= a < n && a in tree && 0 <= b < n && b in adj[a]
      ensures b in tree
    {
      if rank[b] <= rank[a] {
        assert SameTree(zpar, rank, a, b);
      } else {
        var k :| 0 <= k < |adj[a]| && adj[a][k] == b;
        assert a in adj[b];
        assert SameTree(zpar, rank, b, a);
      }
    }
  }

  /** `v` reaches `a` by following `parent` (or is `a`). */
  predicate AncestorOf(parent: seq<int>, rank: seq<int>, a: int, v: int)
    requires ParentsLater(parent, rank) && AllBelow(rank, |parent|) && 0 <= v < |parent|
    decreases |parent| - rank[v]
  {
    a == v || (parent[v] != v && AncestorOf(parent, rank, a, parent[v]))
  }

  /** A node's canonical element: its own parent, or a child of an element of another value. */
  predicate IsLevelRoot(parent: seq<int>, elements: seq<int>, p: int)
    requires |parent| == |elements| && 0 <= p < |parent| && 0 <= parent[p] < |parent|
  {
    parent[p] == p || elements[parent[p]] != elements[p]
  }

  /** Every element's parent is a level root. */
  predicate Canonical(parent: seq<int>, elements: seq<int>)
    requires |parent| == |elements| && AllBelow(parent, |parent|)
  {
    forall v :: 0 <= v < |parent| ==> IsLevelRoot(parent, elements, parent[v])
  }

  /** The state of `canonizeTree` once the elements of rank `i` and above are done. */
  predicate CanonState(par: seq<int>, parent: seq<int>, elements: seq<int>, rank: seq<int>, i: int) {
    |par| == |rank| && |parent| == |rank| && |elements| == |rank| && AllBelow(rank, |rank|) &&
    ParentsLater(par, rank) && ParentsLater(parent, rank) &&
    (forall v :: 0 <= v < |rank| && rank[v] < i ==> par[v] == parent[v]) &&
    forall v :: 0 <= v < |rank| && rank[v] >= i ==>
      IsLevelRoot(par, elements, par[v]) && (par[v] == v <==> parent[v] == v) &&
      elements[par[v]] == elements[parent[v]] && AncestorOf(parent, rank, par[v], parent[v])
  }

  /**
   * `canonizeTree`: scanning the sorted indices from last to first, `v` is
   * redirected to its parent's parent when that one has the parent's value.
   */
  method CanonizeTree(elements: seq<int>, sortedIndices: seq<int>, parent: seq<int>) returns (par: seq<int>)
    requires |parent| == |elements| && IsPermutation(sortedIndices, |elements|)
    requires ParentsLater(parent, Positions(sortedIndices, |elements|))
    ensures ParentsLater(par, Positions(sortedIndices, |elements|))
    ensures Canonical(par, elements)
    ensures forall v :: 0 <= v < |par| ==> (par[v] == v <==> parent[v] == v)
    ensures forall v :: 0 <= v < |par| ==>
              elements[par[v]] == elements[parent[v]] &&
              AncestorOf(parent, Positions(sortedIndices, |elements|), par[v], parent[v])
  {
    var n := |elements|;
    ghost var rank := Positions(sortedIndices, n);
    par := parent;
    var i := n;
    while i > 0
      invariant 0 <= i <= n && CanonState(par, parent, elements, rank, i)
    {
      i := i - 1;
      par := CanonizeElement(elements, parent, par, rank, i, sortedIndices[i]);
    }
  }

  /** One iteration of `canonizeTree`, for the element `v` of rank `i`. */
  method CanonizeElement(elements: seq<int>, parent: seq<int>, par: seq<int>, ghost rank: seq<int>, i: int, v: int)
    returns (par': seq<int>)
    requires CanonState(par, parent, elements, rank, i + 1)
    requires 0 <= v < |rank| && rank[v] == i && forall x :: 0 <= x < |rank| && rank[x] == i ==> x == v
    ensures CanonState(par', parent, elements, rank, i)
  {
    var q := par[v];
    assert q == parent[v];
    par' := par;
    if elements[par[q]] == elements[q] {
      par' := par[v := par[q]];
    }
    assert ParentsLater(par', rank) by {
      if q != v {
        assert rank[par[q]] >= rank[q] > rank[v];
      }
    }
    forall x | 0 <= x < |rank| && rank[x] < i
      ensures par'[x] == parent[x]
    {
    }
    forall x | 0 <= x < |rank| && rank[x] >= i
      ensures IsLevelRoot(par', elements, par'[x]) && (par'[x] == x <==> parent[x] == x)
      ensures elements[par'[x]] == elements[parent[x]] && AncestorOf(parent, rank, par'[x], parent[x])
    {
      if x == v {
        CanonizeSelf(elements, parent, par, par', rank, i, v);
      } else {
        assert rank[x] > i;
        assert rank[par[x]] >= rank[x];
        assert par'[x] == par[x] && par'[par[x]] == par[par[x]];
      }
    }
  }

  /** The element being canonised ends up pointing at a level root of its parent's value. */
  lemma {:induction false} CanonizeSelf(elements: seq<int>, parent: seq<int>, par: seq<int>, par': seq<int>, rank: seq<int>, i: int, v: int)
    requires CanonState(par, parent, elements, rank, i + 1)
    requires 0 <= v < |rank| && rank[v] == i && forall x :: 0 <= x < |rank| && rank[x] == i ==> x == v
    requires par' == if elements[par[par[v]]] == elements[par[v]] then par[v := par[par[v]]] else par
    ensures ParentsLater(par', rank)
    ensures IsLevelRoot(par', elements, par'[v]) && (par'[v] == v <==> parent[v] == v)
    ensures elements[par'[v]] == elements[parent[v]] && AncestorOf(parent, rank, par'[v], parent[v])
  {
    var q := par[v];
    assert q == parent[v];
    if q != v {
      assert rank[q] > i;
      var w := par[q];
      assert rank[w] >= rank[q];
      assert AncestorOf(parent, rank, w, q) by {
        assert AncestorOf(parent, rank, w, parent[q]);
      }
      assert par'[w] == par[w];
    }
  }
}

=== FILE: ctree.dfy ===
/**
 * The compact component tree: one node per level root, holding the level,
 * the parent node id (`-1` for the root), the child ids and the elements the
 * node owns directly; `cmap` maps every element to the node that owns it.
 */
module CompactTree {
  import opened Permutations

  /** The parent id recorded for the root node. */
  const NoParent := -1

  /** `CTNode`: its fields are the accessors `id()`, `level()`, `parent()`, `children()`, `elementIndices()`. */
  datatype CTNode = CTNode(id: int, level: int, parent: int, children: seq<int>, elementIndices: seq<int>)

  /** `CTree`: the node vector and the element-to-node map `_cmap`. */
  datatype CTree = CTree(nodes: seq<CTNode>, cmap: seq<int>)

  predicate Increasing(s: seq<int>) {
    forall i, j :: 0 <= i < j < |s| ==> s[i] < s[j]
  }

  /**
   * The shape `createNodes` gives a tree built from a single-rooted parent
   * array: ids are positions, node 0 is the root, a parent id is smaller than
   * its child's, and the children lists list exactly the nodes naming that parent.
   */
  predicate Shaped(t: CTree) {
    var n := |t.nodes|;
    n > 0 &&
    (forall k :: 0 <= k < n ==> t.nodes[k].id == k) &&
    t.nodes[0].parent == NoParent &&
    (forall k :: 1 <= k < n ==> 0 <= t.nodes[k].parent < k) &&
    (forall k, j :: 0 <= k < n && 0 <= j < |t.nodes[k].children| ==>
       1 <= t.nodes[k].children[j] < n && t.nodes[t.nodes[k].children[j]].parent == k) &&
    (forall c :: 1 <= c < n ==> c in t.nodes[t.nodes[c].parent].children) &&
    (forall k :: 0 <= k < n ==> Increasing(t.nodes[k].children))
  }

  /** Every element is owned by exactly one node, the one `cmap` names, and listed there once. */
  predicate Partitioned(t: CTree) {
    var n := |t.nodes|;
    (forall e :: 0 <= e < |t.cmap| ==> 0 <= t.cmap[e] < n && e in t.nodes[t.cmap[e]].elementIndices) &&
    (forall k, j :: 0 <= k < n && 0 <= j < |t.nodes[k].elementIndices| ==>
       0 <= t.nodes[k].elementIndices[j] < |t.cmap| && t.cmap[t.nodes[k].elementIndices[j]] == k) &&
    (forall k :: 0 <= k < n ==> Distinct(t.nodes[k].elementIndices))
  }

  predicate WellFormed(t: CTree) {
    Shaped(t) && Partitioned(t)
  }

  /**
   * `transverse`: the ids of the nodes in the order the callback sees them,
   * from the last id down to 0; every node is visited once, after all of its
   * children.
   */
  function Transverse(t: CTree): (order: seq<int>)
    ensures IsPermutation(order, |t.nodes|)
    ensures Shaped(t) ==> forall i, j :: (0 <= i < |order| && 0 <= j < |order| && 1 <= order[i] &&
              order[j] == t.nodes[order[i]].parent) ==> i < j
    ensures Shaped(t) ==> order[|order| - 1] == 0
  {
    seq(|t.nodes|, i => |t.nodes| - 1 - i)
  }

  /** The node `k` lies in the subtree of node `a`. */
  predicate Descendant(t: CTree, k: int, a: int)
    requires Shaped(t) && 0 <= k < |t.nodes|
    decreases k
  {
    k == a || (k > 0 && Descendant(t, t.nodes[k].parent, a))
  }

  /**
   * `reconstructNode(id)`: the node's own elements followed by the
   * reconstruction of each child in turn.
   */
  function Reconstruct(t: CTree, id: int): seq<int>
    requires Shaped(t) && 0 <= id < |t.nodes|
    decreases |t.nodes| - id, 1
  {
    t.nodes[id].elementIndices + ReconstructChildren(t, id, t.nodes[id].children)
  }

  /** The loop of `_reconstructNode` over the children `cs` of node `id`. */
  function ReconstructChildren(t: CTree, id: int, cs: seq<int>): seq<int>
    requires Shaped(t) && 0 <= id < |t.nodes|
    requires forall j :: 0 <= j < |cs| ==> id < cs[j] < |t.nodes|
    decreases |t.nodes| - id, 0, |cs|
  {
    if cs == [] then [] else Reconstruct(t, cs[0]) + ReconstructChildren(t, id, cs[1..])
  }

  /** A descendant has an id no smaller than its ancestor's. */
  lemma {:induction false} DescendantAtLeast(t: CTree, k: int, a: int)
    requires Shaped(t) && 0 <= k < |t.nodes| && Descendant(t, k, a)
    ensures a <= k
    decreases k
  {
    if k != a {
      DescendantAtLeast(t, t.nodes[k].parent, a);
    }
  }

  /** Every node is a descendant of the root. */
  lemma {:induction false} DescendantOfRoot(t: CTree, k: int)
    requires Shaped(t) && 0 <= k < |t.nodes|
    ensures Descendant(t, k, 0)
    decreases k
  {
    if k != 0 {
      DescendantOfRoot(t, t.nodes[k].parent);
    }
  }

  /** A proper descendant of `a` descends from one of `a`'s children. */
  lemma {:induction false} DescendantViaChild(t: CTree, k: int, a: int) returns (c: int)
    requires Shaped(t) && 0 <= k < |t.nodes| && 0 <= a < |t.nodes| && Descendant(t, k, a) && k != a
    ensures c in t.nodes[a].children && 1 <= c < |t.nodes| && Descendant(t, k, c)
    decreases k
  {
    var q := t.nodes[k].parent;
    if q == a {
      c := k;
    } else {
      c := DescendantViaChild(t, q, a);
      DescendantAtLeast(t, q, c);
    }
  }

  /** A descendant of a child of `a` is a descendant of `a`. */
  lemma {:induction false} ChildDescendant(t: CTree, k: int, a: int, c: int)
    requires Shaped(t) && 0 <= k < |t.nodes| && 0 <= a < |t.nodes|
    requires c in t.nodes[a].children && Descendant(t, k, c)
    ensures Descendant(t, k, a)
    decreases k
  {
    var j :| 0 <= j < |t.nodes[a].children| && t.nodes[a].children[j] == c;
    if k != c {
      DescendantAtLeast(t, k, c);
      ChildDescendant(t, t.nodes[k].parent, a, c);
    }
  }

  /** The ancestors of a node form a chain: two ancestors of `k` are related. */
  lemma {:induction false} AncestorsRelated(t: CTree, k: int, a: int, b: int)
    requires Shaped(t) && 0 <= k < |t.nodes| && 0 <= a < |t.nodes| && 0 <= b < |t.nodes|
    requires Descendant(t, k, a) && Descendant(t, k, b) && a <= b
    ensures Descendant(t, b, a)
    decreases k
  {
    if k != b {
      DescendantAtLeast(t, k, b);
      AncestorsRelated(t, t.nodes[k].parent, a, b);
    }
  }

  /** No node descends from a node with a larger id. */
  lemma {:induction false} NotDescendantOfLarger(t: CTree, k: int, a: int)
    requires Shaped(t) && 0 <= k < |t.nodes| && k < a
    ensures !Descendant(t, k, a)
  {
    if Descendant(t, k, a) {
      DescendantAtLeast(t, k, a);
    }
  }

  /** Subtrees of two different children of the same node are disjoint. */
  lemma {:induction false} SiblingsDisjoint(t: CTree, a: int, c1: int, c2: int, k: int)
    requires Shaped(t) && 0 <= a < |t.nodes| && 0 <= k < |t.nodes|
    requires c1 in t.nodes[a].children && c2 in t.nodes[a].children && c1 != c2
    ensures !(Descendant(t, k, c1) && Descendant(t, k, c2))
  {
    var j1 :| 0 <= j1 < |t.nodes[a].children| && t.nodes[a].children[j1] == c1;
    var j2 :| 0 <= j2 < |t.nodes[a].children| && t.nodes[a].children[j2] == c2;
    var lo, hi := if c1 < c2 then c1 else c2, if c1 < c2 then c2 else c1;
    NotDescendantOfLarger(t, a, lo);
    if Descendant(t, k, c1) && Descendant(t, k, c2) {
      AncestorsRelated(t, k, lo, hi);
    }
  }

  /** `reconstructNode(a)` holds exactly the elements whose node lies in the subtree of `a`. */
  lemma {:induction false} ReconstructMembers(t: CTree, a: int)
    requires WellFormed(t) && 0 <= a < |t.nodes|
    ensures forall e :: e in Reconstruct(t, a) <==> 0 <= e < |t.cmap| && Descendant(t, t.cmap[e], a)
    decreases |t.nodes| - a, 1
  {
    var cs := t.nodes[a].children;
    ReconstructChildrenMembers(t, a, cs);
    forall e | 0 <= e < |t.cmap| && Descendant(t, t.cmap[e], a)
      ensures e in Reconstruct(t, a)
    {
      if t.cmap[e] != a {
        var c := DescendantViaChild(t, t.cmap[e], a);
        var j :| 0 <= j < |cs| && cs[j] == c;
      }
    }
    forall e | e in Reconstruct(t, a)
      ensures 0 <= e < |t.cmap| && Descendant(t, t.cmap[e], a)
    {
      if e !in t.nodes[a].elementIndices {
        var j :| 0 <= j < |cs| && 0 <= e < |t.cmap| && Descendant(t, t.cmap[e], cs[j]);
        ChildDescendant(t, t.cmap[e], a, cs[j]);
      }
    }
  }

  lemma {:induction false} ReconstructChildrenMembers(t: CTree, a: int, cs: seq<int>)
    requires WellFormed(t) && 0 <= a < |t.nodes|
    requires forall j :: 0 <= j < |cs| ==> a < cs[j] < |t.nodes|
    ensures forall e :: e in ReconstructChildren(t, a, cs) <==>
              0 <= e < |t.cmap| && exists j :: 0 <= j < |cs| && Descendant(t, t.cmap[e], cs[j])
    decreases |t.nodes| - a, 0, |cs|
  {
    if cs != [] {
      ReconstructMembers(t, cs[0]);
      ReconstructChildrenMembers(t, a, cs[1..]);
      forall e | 0 <= e < |t.cmap| && exists j :: 0 <= j < |cs| && Descendant(t, t.cmap[e], cs[j])
        ensures e in ReconstructChildren(t, a, cs)
      {
        var j :| 0 <= j < |cs| && Descendant(t, t.cmap[e], cs[j]);
        if j > 0 {
          assert cs[1..][j - 1] == cs[j];
        }
      }
      forall e | e in ReconstructChildren(t, a, cs)
        ensures 0 <= e < |t.cmap| && exists j :: 0 <= j < |cs| && Descendant(t, t.cmap[e], cs[j])
      {
        if e !in Reconstruct(t, cs[0]) {
          var j :| 0 <= j < |cs[1..]| && Descendant(t, t.cmap[e], cs[1..][j]);
          assert cs[j + 1] == cs[1..][j];
        }
      }
    }
  }

  /** Two sequences without repetition and with no common value concatenate without repetition. */
  lemma {:induction false} DistinctConcat(x: seq<int>, y: seq<int>)
    requires Distinct(x) && Distinct(y) && forall e :: e in x ==> e !in y
    ensures Distinct(x + y)
  {
    forall i, j | 0 <= i < j < |x + y|
      ensures (x + y)[i] != (x + y)[j]
    {
      if i < |x| && j >= |x| {
        assert (x + y)[i] in x && (x + y)[j] in y;
      }
    }
  }

  /** `reconstructNode(a)` lists no element twice. */
  lemma {:induction false} ReconstructDistinct(t: CTree, a: int)
    requires WellFormed(t) && 0 <= a < |t.nodes|
    ensures Distinct(Reconstruct(t, a))
    decreases |t.nodes| - a, 1
  {
    var cs := t.nodes[a].children;
    ReconstructChildrenDistinct(t, a, cs);
    ReconstructChildrenMembers(t, a, cs);
    forall e | e in t.nodes[a].elementIndices
      ensures e !in ReconstructChildren(t, a, cs)
    {
      if e in ReconstructChildren(t, a, cs) {
        var j :| 0 <= j < |cs| && Descendant(t, t.cmap[e], cs[j]);
        DescendantAtLeast(t, t.cmap[e], cs[j]);
      }
    }
    DistinctConcat(t.nodes[a].elementIndices, ReconstructChildren(t, a, cs));
  }

  lemma {:induction false} ReconstructChildrenDistinct(t: CTree, a: int, cs: seq<int>)
    requires WellFormed(t) && 0 <= a < |t.nodes|
    requires forall j :: 0 <= j < |cs| ==> a < cs[j] < |t.nodes| && cs[j] in t.nodes[a].children
    requires Distinct(cs)
    ensures Distinct(ReconstructChildren(t, a, cs))
    decreases |t.nodes| - a, 0, |cs|
  {
    if cs != [] {
      ReconstructDistinct(t, cs[0]);
      ReconstructChildrenDistinct(t, a, cs[1..]);
      ReconstructMembers(t, cs[0]);
      ReconstructChildrenMembers(t, a, cs[1..]);
      forall e | e in Reconstruct(t, cs[0])
        ensures e !in ReconstructChildren(t, a, cs[1..])
      {
        if e in ReconstructChildren(t, a, cs[1..]) {
          var j :| 0 <= j < |cs[1..]| && Descendant(t, t.cmap[e], cs[1..][j]);
          SiblingsDisjoint(t, a, cs[0], cs[1..][j], t.cmap[e]);
        }
      }
      DistinctConcat(Reconstruct(t, cs[0]), ReconstructChildren(t, a, cs[1..]));
    }
  }

  /** An increasing sequence is determined by its values. */
  lemma {:induction false} IncreasingUnique(a: seq<int>, b: seq<int>)
    requires Increasing(a) && Increasing(b)
    requires forall x :: x in a <==> x in b
    ensures a == b
  {
    if a != [] && b != [] {
      assert a[0] in b && b[0] in a;
      assert a[0] == b[0];
      forall x
        ensures x in a[1..] <==> x in b[1..]
      {
        if x in a[1..] {
          assert x in b;
        }
        if x in b[1..] {
          assert x in a;
        }
      }
      IncreasingUnique(a[1..], b[1..]);
      assert a == [a[0]] + a[1..] && b == [b[0]] + b[1..];
    } else {
      HeadIsMember(a);
      HeadIsMember(b);
    }
  }

  /** A non-empty sequence has its first element as a member. */
  lemma {:induction false} HeadIsMember(s: seq<int>)
    ensures s != [] ==> s[0] in s
  {
  }

  /** `reconstructNode(0)` is a permutation of all the elements. */
  lemma {:induction false} RootReconstructIsPermutation(t: CTree)
    requires WellFormed(t)
    ensures IsPermutation(Reconstruct(t, 0), |t.cmap|)
  {
    var r := Reconstruct(t, 0);
    ReconstructMembers(t, 0);
    ReconstructDistinct(t, 0);
    forall e | 0 <= e < |t.cmap|
      ensures e in r
    {
      DescendantOfRoot(t, t.cmap[e]);
    }
    assert forall i :: 0 <= i < |r| ==> r[i] in r;
    CoveringIsPermutation(r, |t.cmap|);
  }

  /** The image the tree represents: every element at the level of the node owning it. */
  function Levels(t: CTree): (v: seq<int>)
    requires Partitioned(t)
    ensures |v| == |t.cmap|
    ensures forall e :: 0 <= e < |t.cmap| ==> v[e] == t.nodes[t.cmap[e]].level
  {
    seq(|t.cmap|, e requires 0 <= e < |t.cmap| => t.nodes[t.cmap[e]].level)
  }

  /**
   * `convetToVector`: a vector as long as `cmap`, zero-initialised, in which
   * every node writes its level at each of its elements.
   */
  method ConvertToVector(t: CTree) returns (v: seq<int>)
    requires Partitioned(t)
    ensures |v| == |t.cmap|
    ensures forall e :: 0 <= e < |t.cmap| ==> v[e] == t.nodes[t.cmap[e]].level
    ensures v == Levels(t)
  {
    v := seq(|t.cmap|, _ => 0);
    for k := 0 to |t.nodes|
      invariant |v| == |t.cmap|
      invariant forall e :: 0 <= e < |t.cmap| ==> v[e] == if t.cmap[e] < k then t.nodes[t.cmap[e]].level else 0
    {
      var elems := t.nodes[k].elementIndices;
      for j := 0 to |elems|
        invariant |v| == |t.cmap|
        invariant forall e :: 0 <= e < |t.cmap| ==>
                    v[e] == if t.cmap[e] < k || (t.cmap[e] == k && e in elems[..j]) then t.nodes[t.cmap[e]].level else 0
      {
        v := v[elems[j] := t.nodes[k].level];
      }
      assert elems[..|elems|] == elems;
    }
  }
}

=== FILE: grid_adjacency.dfy ===
/**
 * The neighbour table the tree builder walks, read off a translating
 * adjacency: entry `p` is `neighbours(p)` for every pixel of the grid.  For
 * a translation set closed under negation the table is symmetric, and when
 * the set holds the four unit steps (as the 4- and the 8-adjacency do) the
 * whole grid is one connected piece, so the builder's theorem applies to
 * every image.
 */
module GridAdjacency {
  import opened CArith
  import opened Point2D
  import opened AdjacencyByTranslating
  import opened TreeBuilder

  /** `neighbours(p)` for every pixel `p` of the grid. */
  function Table(adj: Translating): (g: seq<seq<int>>)
    requires adj.width >= 1 && adj.height >= 1
    ensures |g| == adj.width * adj.height
  {
    seq(adj.width * adj.height, p requires 0 <= p < adj.width * adj.height => NeighbourList(adj, p))
  }

  /** The four unit steps along the axes are among the translations. */
  predicate HasUnitSteps(t: seq<Point>) {
    Point(1, 0) in t && Point(-1, 0) in t && Point(0, 1) in t && Point(0, -1) in t
  }

  lemma StandardSetsHaveUnitSteps()
    ensures HasUnitSteps(Cross) && HasUnitSteps(Square)
  {
    assert Cross[2] == Point(1, 0) && Cross[0] == Point(-1, 0) && Cross[3] == Point(0, 1) && Cross[1] == Point(0, -1);
    assert Square[3] == Point(1, 0) && Square[7] == Point(-1, 0) && Square[5] == Point(0, 1) && Square[1] == Point(0, -1);
  }

  /** Every entry of the table is a list of valid pixels or the sentinel. */
  lemma {:induction false} TableValid(adj: Translating)
    requires adj.width >= 1 && adj.height >= 1
    ensures ValidAdjacency(Table(adj), adj.width * adj.height)
  {
    var g := Table(adj);
    forall p | 0 <= p < |g|
      ensures ValidNeighbours(g[p], |g|)
    {
      NeighbourListInRange(adj, p);
    }
  }

  /** With translations closed under negation, `q` neighbours `p` exactly when `p` neighbours `q`. */
  lemma {:induction false} TableSymmetric(adj: Translating)
    requires adj.width >= 1 && adj.height >= 1 && ClosedUnderNegation(adj.t)
    ensures Symmetric(Table(adj))
  {
    var g := Table(adj);
    forall a, k | 0 <= a < |g| && 0 <= k < |g[a]| && 0 <= g[a][k] < |g|
      ensures a in g[g[a][k]]
    {
      SymmetricAt(adj, a, g[a][k]);
    }
  }

  lemma {:induction false} SymmetricAt(adj: Translating, a: int, b: int)
    requires adj.width >= 1 && adj.height >= 1 && ClosedUnderNegation(adj.t)
    requires 0 <= a < adj.width * adj.height && 0 <= b < adj.width * adj.height
    requires b in Table(adj)[a]
    ensures a in Table(adj)[b]
  {
    NeighbourSymmetric(adj, a, b);
  }

  /** The row-major index of an in-grid cell is a pixel of the grid. */
  lemma {:induction false} FlatInRange(w: int, h: int, q: Point)
    requires w >= 1 && InGrid(w, h, q)
    ensures 0 <= Flat(w, q) < w * h
  {
    RowMajorInRange(w, h, q.x, q.y);
    assert Flat(w, q) == w * q.y + q.x;
  }

  /** A set closed under the table that holds an in-grid cell holds its in-grid translate by any translation. */
  lemma {:induction false} Move(adj: Translating, s: set<int>, q: Point, d: Point)
    requires adj.width >= 1 && adj.height >= 1 && ClosedUnderAdjacency(Table(adj), s)
    requires InGrid(adj.width, adj.height, q) && Flat(adj.width, q) in s
    requires d in adj.t && InGrid(adj.width, adj.height, Sum(q, d))
    ensures Flat(adj.width, Sum(q, d)) in s
  {
    var w, h := adj.width, adj.height;
    var g := Table(adj);
    var p := Flat(w, q);
    var i :| 0 <= i < |adj.t| && adj.t[i] == d;
    FlatCell(w, h, q);
    FlatInRange(w, h, q);
    FlatInRange(w, h, Sum(q, d));
    IndexNeighbour(adj, p, i);
    assert Flat(w, Sum(q, d)) in g[p];
  }

  /** Along a row, a closed set holding one cell holds every cell. */
  lemma {:induction false} AlongRow(adj: Translating, s: set<int>, x0: int, y: int, x: int)
    requires adj.width >= 1 && adj.height >= 1 && ClosedUnderAdjacency(Table(adj), s) && HasUnitSteps(adj.t)
    requires 0 <= x0 < adj.width && 0 <= x < adj.width && 0 <= y < adj.height
    requires Flat(adj.width, Point(x0, y)) in s
    ensures Flat(adj.width, Point(x, y)) in s
    decreases if x < x0 then x0 - x else x - x0
  {
    if x > x0 {
      AlongRow(adj, s, x0, y, x - 1);
      Move(adj, s, Point(x - 1, y), Point(1, 0));
    } else if x < x0 {
      AlongRow(adj, s, x0, y, x + 1);
      Move(adj, s, Point(x + 1, y), Point(-1, 0));
    }
  }

  /** Along a column, a closed set holding one cell holds every cell. */
  lemma {:induction false} AlongColumn(adj: Translating, s: set<int>, x: int, y0: int, y: int)
    requires adj.width >= 1 && adj.height >= 1 && ClosedUnderAdjacency(Table(adj), s) && HasUnitSteps(adj.t)
    requires 0 <= x < adj.width && 0 <= y0 < adj.height && 0 <= y < adj.height
    requires Flat(adj.width, Point(x, y0)) in s
    ensures Flat(adj.width, Point(x, y)) in s
    decreases if y < y0 then y0 - y else y - y0
  {
    if y > y0 {
      AlongColumn(adj, s, x, y0, y - 1);
      Move(adj, s, Point(x, y - 1), Point(0, 1));
    } else if y < y0 {
      AlongColumn(adj, s, x, y0, y + 1);
      Move(adj, s, Point(x, y + 1), Point(0, -1));
    }
  }

  /** A closed set holding pixel `a` holds pixel `b`: along `a`'s row, then along `b`'s column. */
  lemma {:induction false} Reaches(adj: Translating, s: set<int>, a: int, b: int)
    requires adj.width >= 1 && adj.height >= 1 && ClosedUnderAdjacency(Table(adj), s) && HasUnitSteps(adj.t)
    requires 0 <= a < adj.width * adj.height && 0 <= b < adj.width * adj.height && a in s
    ensures b in s
  {
    var w, h := adj.width, adj.height;
    var ca, cb := Cell(w, a), Cell(w, b);
    CellFlat(w, h, a);
    CellFlat(w, h, b);
    assert Point(ca.x, ca.y) == ca && Point(cb.x, cb.y) == cb;
    AlongRow(adj, s, ca.x, ca.y, cb.x);
    AlongColumn(adj, s, cb.x, ca.y, cb.y);
  }

  /** With the four unit steps among the translations, the grid is one connected piece. */
  lemma {:induction false} TableConnected(adj: Translating)
    requires adj.width >= 1 && adj.height >= 1 && HasUnitSteps(adj.t)
    ensures Connected(Table(adj))
  {
    var g := Table(adj);
    forall s: set<int> | ClosedUnderAdjacency(g, s) && (exists a :: 0 <= a < |g| && a in s)
      ensures forall b :: 0 <= b < |g| ==> b in s
    {
      var a :| 0 <= a < |g| && a in s;
      forall b | 0 <= b < |g|
        ensures b in s
      {
        Reaches(adj, s, a, b);
      }
    }
  }

  /**
   * The 4- and the 8-adjacency of any non-empty image give the tree builder
   * a table it accepts: valid, symmetric and connected.
   */
  lemma {:induction false} StandardTablesReady(w: int, h: int)
    requires w >= 1 && h >= 1
    ensures ValidAdjacency(Table(CreateAdjacency4(w, h)), w * h)
    ensures Symmetric(Table(CreateAdjacency4(w, h))) && Connected(Table(CreateAdjacency4(w, h)))
    ensures ValidAdjacency(Table(CreateAdjacency8(w, h)), w * h)
    ensures Symmetric(Table(CreateAdjacency8(w, h))) && Connected(Table(CreateAdjacency8(w, h)))
  {
    StandardSetsSymmetric();
    StandardSetsHaveUnitSteps();
    TableValid(CreateAdjacency4(w, h));
    TableSymmetric(CreateAdjacency4(w, h));
    TableConnected(CreateAdjacency4(w, h));
    TableValid(CreateAdjacency8(w, h));
    TableSymmetric(CreateAdjacency8(w, h));
    TableConnected(CreateAdjacency8(w, h));
  }
}

=== FILE: hook_columns.dfy ===
/**
 * The hooks seen from one array: at node `j`, `preProcess` adds the node's
 * own weight to an accumulated array and `merge` adds the node's value into
 * its parent's, which is one step of the subtree-sum pass; `postProcess`
 * sets one cell of each formula array.
 */
module HookColumns {
  import opened CompactTree
  import opened AttributeStore
  import opened QuadsCounting
  import opened SubtreeSums
  import opened AttributeOps
  import opened IncrementalAttributes
  import opened ComputerHooks

  /** Counter `r` of `q`, in the order of the counter arrays: Q1, Q2, QD, Q3, Q4. */
  function QuadPart(q: Quads, r: int): real
    requires 0 <= r < 5
  {
    if r == 0 then q.q1 else if r == 1 then q.q2 else if r == 2 then q.qd else if r == 3 then q.q3 else q.q4
  }

  /** Counter `r` of each entry of `img`. */
  function PartOf(img: seq<Quads>, r: int): (g: seq<real>)
    requires 0 <= r < 5
    ensures |g| == |img| && forall e :: 0 <= e < |img| ==> g[e] == QuadPart(img[e], r)
  {
    seq(|img|, e requires 0 <= e < |img| => QuadPart(img[e], r))
  }

  /**
   * The weight of each node in accumulated array `q` of `c`: 1 for the node
   * counter, the number of its own elements for the area, and the sum of
   * counter `q` over its own elements for the bit-quad computer.
   */
  function AccumWeights(c: Computer, t: CTree, q: int): (w: seq<real>)
    requires Configured(c, t) && 0 <= q < |AccumColumns(c)|
    ensures |w| == |t.nodes|
  {
    match c
    case NodeCounter(_) => seq(|t.nodes|, k => 1.0)
    case AreaComputer(_) => seq(|t.nodes|, k requires 0 <= k < |t.nodes| => |t.nodes[k].elementIndices| as real)
    case QuadsComputer(_, _, _, _, _, _, _) => NodeWeights(t, PartOf(ImageQuads(c), q))
  }

  /** Seen from counter array `r`, one element's additions are one addition. */
  lemma {:induction false} QuadAddsColumn(cols: QuadCols, j: int, qq: Quads, r: int)
    requires 0 <= r < 5 && CountersApart(cols)
    ensures OnColumn(QuadAdds(cols, j, qq), QuadColList(cols)[r]) == [AddOp(QuadColList(cols)[r], j, QuadPart(qq, r))]
  {
    var l := QuadColList(cols);
    var ops := QuadAdds(cols, j, qq);
    var s := if r == 2 then 3 else if r == 3 then 2 else r;
    OnColumnSingle(ops, l[r], s);
  }

  /** Every write of `ops` is an addition into cell `j`. */
  predicate AddsAt(ops: seq<Op>, j: int) {
    forall i :: 0 <= i < |ops| ==> ops[i].AddOp? && ops[i].id == j
  }

  /** The sum of the amounts the additions of `ops` add. */
  function AddTotal(ops: seq<Op>): real
    decreases |ops|
  {
    if ops == [] then 0.0 else (if ops[0].AddOp? then ops[0].delta else 0.0) + AddTotal(ops[1..])
  }

  lemma {:induction false} AddTotalConcat(ops1: seq<Op>, ops2: seq<Op>)
    ensures AddTotal(ops1 + ops2) == AddTotal(ops1) + AddTotal(ops2)
    decreases |ops1|
  {
    if ops1 == [] {
      assert ops1 + ops2 == ops2;
    } else {
      assert (ops1 + ops2)[0] == ops1[0];
      assert (ops1 + ops2)[1..] == ops1[1..] + ops2;
      AddTotalConcat(ops1[1..], ops2);
    }
  }

  /** Additions into one cell, replayed in order, add their total to it. */
  lemma {:induction false} RunAddsAt(col: seq<real>, ops: seq<Op>, j: int)
    requires AddsAt(ops, j) && 0 <= j < |col|
    ensures ColumnOpsFit(ops, |col|)
    ensures RunOnColumn(col, ops) == col[j := col[j] + AddTotal(ops)]
    decreases |ops|
  {
    if ops == [] {
      assert col[j := col[j] + 0.0] == col;
    } else {
      var col1 := col[j := col[j] + ops[0].delta];
      assert AddsAt(ops[1..], j) by {
        forall i | 0 <= i < |ops[1..]| ensures ops[1..][i].AddOp? && ops[1..][i].id == j {
          assert ops[1..][i] == ops[i + 1];
        }
      }
      RunAddsAt(col1, ops[1..], j);
      assert col1[j := col1[j] + AddTotal(ops[1..])] == col[j := col[j] + AddTotal(ops)];
    }
  }

  /** Seen from any array, the loop over the elements adds only into the node's own cell. */
  lemma {:induction false} ElementOpsAddsAt(cols: QuadCols, img: seq<Quads>, es: seq<int>, j: int, x: int)
    requires forall k :: 0 <= k < |es| ==> 0 <= es[k] < |img|
    ensures AddsAt(OnColumn(ElementOps(cols, img, es, j), x), j)
  {
    var ops := OnColumn(ElementOps(cols, img, es, j), x);
    ElementOpsShape(cols, img, es, j);
    forall i | 0 <= i < |ops| ensures ops[i].AddOp? && ops[i].id == j {
      var k :| 0 <= k < |ElementOps(cols, img, es, j)| && ElementOps(cols, img, es, j)[k] == ops[i];
    }
  }

  /** Seen from counter array `r`, the loop over the elements adds counter `r` summed over them. */
  lemma {:induction false} ElementOpsTotal(cols: QuadCols, img: seq<Quads>, es: seq<int>, j: int, r: int)
    requires forall k :: 0 <= k < |es| ==> 0 <= es[k] < |img|
    requires 0 <= r < 5 && CountersApart(cols)
    ensures AddTotal(OnColumn(ElementOps(cols, img, es, j), QuadColList(cols)[r])) == SumOver(PartOf(img, r), es)
    decreases |es|
  {
    var x := QuadColList(cols)[r];
    if es != [] {
      var qq := img[es[0]];
      var rest := ElementOps(cols, img, es[1..], j);
      assert ElementOps(cols, img, es, j) == QuadAdds(cols, j, qq) + rest;
      OnColumnConcat(QuadAdds(cols, j, qq), rest, x);
      QuadAddsColumn(cols, j, qq, r);
      var one := [AddOp(x, j, QuadPart(qq, r))];
      ElementOpsTotal(cols, img, es[1..], j, r);
      AddTotalConcat(one, OnColumn(rest, x));
      assert AddTotal(one) == QuadPart(qq, r) by {
        assert one[1..] == [];
      }
      var g := PartOf(img, r);
      assert SumOver(g, es) == g[es[0]] + SumOver(g, es[1..]);
    } else {
      OnColumnNone(ElementOps(cols, img, es, j), x);
    }
  }

  /** Seen from accumulated array `q`, `preProcess` adds into the node's own cell, the node's weight in all. */
  lemma {:induction false} PreColumn(c: Computer, t: CTree, j: int, q: int)
    requires Configured(c, t) && Apart(c) && 0 <= j < |t.nodes| && 0 <= q < |AccumColumns(c)|
    ensures AddsAt(OnColumn(HookOps(c, t, j, PreHook), AccumColumns(c)[q]), j)
    ensures AddTotal(OnColumn(HookOps(c, t, j, PreHook), AccumColumns(c)[q])) == AccumWeights(c, t, q)[j]
  {
    if c.QuadsComputer? {
      PreColumnQuads(c, t, j, q);
    } else {
      PreColumnOne(c, t, j);
    }
  }

  /** The node counter and the area computer add their weight with one write. */
  lemma {:induction false} PreColumnOne(c: Computer, t: CTree, j: int)
    requires !c.QuadsComputer? && 0 <= j < |t.nodes|
    ensures AddsAt(OnColumn(HookOps(c, t, j, PreHook), AccumColumns(c)[0]), j)
    ensures AddTotal(OnColumn(HookOps(c, t, j, PreHook), AccumColumns(c)[0])) == AccumWeights(c, t, 0)[j]
  {
    var ops := HookOps(c, t, j, PreHook);
    var sum := AccumWeights(c, t, 0)[j];
    assert ops == [AddOp(AccumColumns(c)[0], j, sum)];
    assert OnColumn(ops, AccumColumns(c)[0]) == ops by {
      OnColumnSingle(ops, AccumColumns(c)[0], 0);
    }
    assert ops[1..] == [];
  }

  /** The bit-quad computer adds each counter summed over the node's own elements. */
  lemma {:induction false} PreColumnQuads(c: Computer, t: CTree, j: int, q: int)
    requires c.QuadsComputer? && Configured(c, t) && Apart(c) && 0 <= j < |t.nodes| && 0 <= q < 5
    ensures AddsAt(OnColumn(HookOps(c, t, j, PreHook), AccumColumns(c)[q]), j)
    ensures AddTotal(OnColumn(HookOps(c, t, j, PreHook), AccumColumns(c)[q])) == AccumWeights(c, t, q)[j]
  {
    var img := ImageQuads(c);
    var es := t.nodes[j].elementIndices;
    assert HookOps(c, t, j, PreHook) == ElementOps(c.cols, img, es, j);
    assert AccumColumns(c)[q] == QuadColList(c.cols)[q];
    assert AccumWeights(c, t, q)[j] == SumOver(PartOf(img, q), es);
    ElementOpsAddsAt(c.cols, img, es, j, AccumColumns(c)[q]);
    ElementOpsTotal(c.cols, img, es, j, q);
  }

  /** Seen from accumulated array `q`, `merge` is the one addition into the parent's cell. */
  lemma {:induction false} MergeColumn(c: Computer, t: CTree, j: int, p: int, q: int)
    requires Configured(c, t) && Apart(c) && 0 <= j < |t.nodes| && 0 <= q < |AccumColumns(c)|
    ensures OnColumn(HookOps(c, t, j, MergeHook(p)), AccumColumns(c)[q]) == [MergeOp(AccumColumns(c)[q], j, p)]
  {
    var x := AccumColumns(c)[q];
    var ops := HookOps(c, t, j, MergeHook(p));
    if c.QuadsComputer? {
        var s := if q == 2 then 4 else if q == 3 then 2 else if q == 4 then 3 else q;
      OnColumnSingle(ops, x, s);
    } else {
      OnColumnSingle(ops, x, 0);
    }
  }

  /** `postProcess` writes no accumulated array. */
  lemma {:induction false} PostColumnAccum(c: Computer, t: CTree, j: int, q: int)
    requires Configured(c, t) && Apart(c) && 0 <= j < |t.nodes| && 0 <= q < |AccumColumns(c)|
    ensures OnColumn(HookOps(c, t, j, PostHook), AccumColumns(c)[q]) == []
  {
    var post := HookOps(c, t, j, PostHook);
    assert post == PostOps(c, t, j);
    if c.QuadsComputer? {
      forall i | 0 <= i < |post|
        ensures post[i].col != AccumColumns(c)[q]
      {
        assert NotCounterOf(c.cols, c.subs[i].attrIdx);
      }
    }
    OnColumnNone(post, AccumColumns(c)[q]);
  }

  /**
   * Seen from accumulated array `q`, a node's `preProcess` then `merge` (for
   * a non-root) is the step of the subtree-sum pass with the computer's
   * weights.
   */
  lemma {:induction false} NodeStepColumn(c: Computer, t: CTree, j: int, q: int, col: seq<real>)
    requires Shaped(t) && Configured(c, t) && Apart(c) && 0 <= j < |t.nodes| && 0 <= q < |AccumColumns(c)|
    requires |col| == |t.nodes|
    ensures var x := AccumColumns(c)[q];
      var p := t.nodes[j].parent;
      var ops := OnColumn(HookOps(c, t, j, PreHook), x) +
                 (if p != NoParent then OnColumn(HookOps(c, t, j, MergeHook(p)), x) else []);
      ColumnOpsFit(ops, |col|) && RunOnColumn(col, ops) == StepColumn(col, t, AccumWeights(c, t, q), j)
  {
    var x := AccumColumns(c)[q];
    var p := t.nodes[j].parent;
    var g := AccumWeights(c, t, q);
    var pre := OnColumn(HookOps(c, t, j, PreHook), x);
    var merge := OnColumn(HookOps(c, t, j, MergeHook(p)), x);
    var ops := pre + (if p != NoParent then merge else []);
    assert AddsAt(pre, j) && AddTotal(pre) == g[j] by {
      PreColumn(c, t, j, q);
    }
    assert merge == [MergeOp(x, j, p)] by {
      MergeColumn(c, t, j, p, q);
    }
    HooksStep(col, t, g, j, x, pre, merge, ops);
  }

  /** Additions of the node's weight into its cell, then (for a non-root) the merge into its parent, are one step. */
  lemma {:induction false} HooksStep(col: seq<real>, t: CTree, g: seq<real>, j: int, x: int,
                                     pre: seq<Op>, merge: seq<Op>, ops: seq<Op>)
    requires Shaped(t) && |g| == |t.nodes| && |col| == |t.nodes| && 0 <= j < |t.nodes|
    requires AddsAt(pre, j) && AddTotal(pre) == g[j]
    requires merge == [MergeOp(x, j, t.nodes[j].parent)]
    requires ops == pre + (if t.nodes[j].parent != NoParent then merge else [])
    ensures ColumnOpsFit(ops, |col|) && RunOnColumn(col, ops) == StepColumn(col, t, g, j)
  {
    var p := t.nodes[j].parent;
    var col1 := col[j := col[j] + g[j]];
    assert p == NoParent || 0 <= p < |col|;
    AddsThenMerge(col, j, p, g[j], x, pre, merge, ops, col1);
  }

  /**
   * Additions of `total` into cell `j` (giving `col1`), then, unless `p` is
   * `NoParent`, the merge of cell `j` into cell `p`.
   */
  lemma {:induction false} AddsThenMerge(col: seq<real>, j: int, p: int, total: real, x: int,
                                         pre: seq<Op>, merge: seq<Op>, ops: seq<Op>, col1: seq<real>)
    requires 0 <= j < |col| && (p == NoParent || 0 <= p < |col|)
    requires AddsAt(pre, j) && AddTotal(pre) == total
    requires merge == [MergeOp(x, j, p)]
    requires ops == pre + (if p != NoParent then merge else [])
    requires col1 == col[j := col[j] + total]
    ensures ColumnOpsFit(ops, |col|)
    ensures RunOnColumn(col, ops) == if p == NoParent then col1 else col1[p := col1[p] + col1[j]]
  {
    RunAddsAt(col, pre, j);
    if p != NoParent {
      RunOnColumnConcat(col, pre, merge);
      assert merge[1..] == [];
    } else {
      assert ops == pre;
    }
  }

  /**
   * Seen from formula array `s` of a bit-quad computer, only `postProcess`
   * writes, once, the formula of sub-computer `s` at the node.
   */
  lemma {:induction false} FormulaHooks(c: Computer, t: CTree, j: int, s: int)
    requires Configured(c, t) && Apart(c) && 0 <= j < |t.nodes|
    requires c.QuadsComputer? && 0 <= s < |c.subs|
    ensures OnColumn(HookOps(c, t, j, PreHook), c.subs[s].attrIdx) == []
    ensures forall p :: OnColumn(HookOps(c, t, j, MergeHook(p)), c.subs[s].attrIdx) == []
    ensures OnColumn(HookOps(c, t, j, PostHook), c.subs[s].attrIdx) ==
              [FormulaOp(c.subs[s].attrIdx, j, c.subs[s].kind, c.subs[s].con, c.cols)]
  {
    NotCounter(c, s);
    AccumHooksElsewhere(c, t, j, PreHook, c.subs[s].attrIdx);
    forall p
      ensures OnColumn(HookOps(c, t, j, MergeHook(p)), c.subs[s].attrIdx) == []
    {
      AccumHooksElsewhere(c, t, j, MergeHook(p), c.subs[s].attrIdx);
    }
    PostWritesFormula(c, t, j, s);
  }

  /** `preProcess` and `merge` write only accumulated arrays. */
  lemma {:induction false} AccumHooksElsewhere(c: Computer, t: CTree, j: int, h: Hook, x: int)
    requires Configured(c, t) && 0 <= j < |t.nodes| && !h.PostHook? && x !in AccumColumns(c)
    ensures OnColumn(HookOps(c, t, j, h), x) == []
  {
    HookOpsShape(c, t, j, h);
    OnColumnNone(HookOps(c, t, j, h), x);
  }

  /** Seen from formula array `s`, `postProcess` is the one formula write of sub-computer `s`. */
  lemma {:induction false} PostWritesFormula(c: Computer, t: CTree, j: int, s: int)
    requires Configured(c, t) && Apart(c) && 0 <= j < |t.nodes|
    requires c.QuadsComputer? && 0 <= s < |c.subs|
    ensures OnColumn(HookOps(c, t, j, PostHook), c.subs[s].attrIdx) ==
              [FormulaOp(c.subs[s].attrIdx, j, c.subs[s].kind, c.subs[s].con, c.cols)]
  {
    var post := HookOps(c, t, j, PostHook);
    assert post == PostOps(c, t, j);
    forall s2 | 0 <= s2 < |post| && s2 != s
      ensures post[s2].col != c.subs[s].attrIdx
    {
      if s2 < s {
        assert c.subs[s2].attrIdx != c.subs[s].attrIdx;
      } else {
        assert c.subs[s].attrIdx != c.subs[s2].attrIdx;
      }
    }
    OnColumnSingle(post, c.subs[s].attrIdx, s);
  }

  /** The formula array of sub-computer `s` is none of the counters. */
  lemma {:induction false} NotCounter(c: Computer, s: int)
    requires c.QuadsComputer? && Apart(c) && 0 <= s < |c.subs|
    ensures c.subs[s].attrIdx !in AccumColumns(c)
  {
    assert NotCounterOf(c.cols, c.subs[s].attrIdx);
  }
}

=== FILE: hooks.dfy ===
/**
 * The hooks of the incremental computers as table writes: what
 * `preProcess`, `merge` and `postProcess` of each computer write at a node,
 * and what the collection's hooks write (every computer's writes, in push
 * order).  Seen from one array, the writes of a node's `preProcess` and
 * `merge` are one step of the subtree-sum pass.
 */
module ComputerHooks {
  import opened CompactTree
  import opened PixelIndexing
  import opened AttributeStore
  import opened QuadsCounting
  import opened SubtreeSums
  import opened AttributeOps
  import opened IncrementalAttributes

  /** The arrays a computer accumulates over subtrees: its one array, or the five counters. */
  function AccumColumns(c: Computer): seq<int> {
    match c
    case NodeCounter(i) => [i]
    case AreaComputer(i) => [i]
    case QuadsComputer(_, _, _, cols, _, _, _) => QuadColList(cols)
  }

  /** The arrays a computer writes from the counters: one per attribute-from-quads computer. */
  function FormulaColumns(c: Computer): seq<int> {
    if c.QuadsComputer? then SubColumns(c.subs) else []
  }

  lemma {:induction false} ColumnsSplit(c: Computer)
    ensures Columns(c) == AccumColumns(c) + FormulaColumns(c)
  {
  }

  /** The arrays of `c` are distinct positions below `w`. */
  predicate Within(c: Computer, w: int) {
    (forall q :: 0 <= q < |Columns(c)| ==> 0 <= Columns(c)[q] < w) &&
    forall q, r :: 0 <= q < r < |Columns(c)| ==> Columns(c)[q] != Columns(c)[r]
  }

  /** The five counter positions are distinct. */
  predicate CountersApart(cols: QuadCols) {
    cols.p1 != cols.p2 && cols.p1 != cols.pd && cols.p1 != cols.p3 && cols.p1 != cols.p4 &&
    cols.p2 != cols.pd && cols.p2 != cols.p3 && cols.p2 != cols.p4 &&
    cols.pd != cols.p3 && cols.pd != cols.p4 && cols.p3 != cols.p4
  }

  /** Position `x` is none of the five counters. */
  predicate NotCounterOf(cols: QuadCols, x: int) {
    x != cols.p1 && x != cols.p2 && x != cols.pd && x != cols.p3 && x != cols.p4
  }

  /**
   * The arrays of `c` are pairwise distinct, stated part by part: the
   * counters among themselves, each formula array against the counters, and
   * the formula arrays among themselves.
   */
  predicate Apart(c: Computer) {
    c.QuadsComputer? ==>
      CountersApart(c.cols) &&
      (forall s :: 0 <= s < |c.subs| ==> NotCounterOf(c.cols, c.subs[s].attrIdx)) &&
      forall s1, s2 :: 0 <= s1 < s2 < |c.subs| ==> c.subs[s1].attrIdx != c.subs[s2].attrIdx
  }

  /** Distinct positions are distinct part by part. */
  lemma {:induction false} WithinApart(c: Computer, w: int)
    requires Within(c, w)
    ensures Apart(c)
  {
    if c.QuadsComputer? {
      var cs := Columns(c);
      assert cs[0] == c.cols.p1 && cs[1] == c.cols.p2 && cs[2] == c.cols.pd && cs[3] == c.cols.p3 && cs[4] == c.cols.p4;
      forall s | 0 <= s < |c.subs|
        ensures NotCounterOf(c.cols, c.subs[s].attrIdx)
      {
        assert cs[5 + s] == c.subs[s].attrIdx;
      }
      forall s1, s2 | 0 <= s1 < s2 < |c.subs|
        ensures c.subs[s1].attrIdx != c.subs[s2].attrIdx
      {
        assert cs[5 + s1] == c.subs[s1].attrIdx && cs[5 + s2] == c.subs[s2].attrIdx;
      }
    }
  }

  /**
   * What the bit-quad hooks need once `setUp` has run: the decision table,
   * the image in the indexer's frame covering every element of the tree, and
   * sub-computers that read this computer's counters.
   */
  predicate Configured(c: Computer, t: CTree) {
    c.QuadsComputer? ==>
      ValidTable(c.dt) && CodingFrame(c.indexer, c.f) && ElementsBelow(t, |c.f|) &&
      forall s :: 0 <= s < |c.subs| ==> c.subs[s].cols == c.cols
  }

  /** The three hooks the traversal calls at a node; `merge` with the node's parent. */
  datatype Hook = PreHook | MergeHook(parent: int) | PostHook

  /** The counters bit-quad `preProcess` adds for one element, in its order: Q1, Q2, Q3, QD, Q4. */
  function QuadAdds(cols: QuadCols, j: int, q: Quads): seq<Op> {
    [AddOp(cols.p1, j, q.q1), AddOp(cols.p2, j, q.q2), AddOp(cols.p3, j, q.q3),
     AddOp(cols.pd, j, q.qd), AddOp(cols.p4, j, q.q4)]
  }

  /** What each element of the image contributes to the counters, as `counting` reads it. */
  function ImageQuads(c: Computer): (img: seq<Quads>)
    requires c.QuadsComputer? && ValidTable(c.dt) && CodingFrame(c.indexer, c.f)
    ensures |img| == |c.f|
  {
    seq(|c.f|, e requires 0 <= e < |c.f| => Contribution(c.dt, c.indexer, c.f, c.treeType, e))
  }

  /** The loop of bit-quad `preProcess` over the elements `es` of node `j`; `img` holds their contributions. */
  function ElementOps(cols: QuadCols, img: seq<Quads>, es: seq<int>, j: int): seq<Op>
    requires forall k :: 0 <= k < |es| ==> 0 <= es[k] < |img|
    decreases |es|
  {
    if es == [] then [] else QuadAdds(cols, j, img[es[0]]) + ElementOps(cols, img, es[1..], j)
  }

  /** The element loop adds, five counters per element, into the node's own cell of the counters. */
  lemma {:induction false} ElementOpsShape(cols: QuadCols, img: seq<Quads>, es: seq<int>, j: int)
    requires forall k :: 0 <= k < |es| ==> 0 <= es[k] < |img|
    ensures |ElementOps(cols, img, es, j)| == 5 * |es|
    ensures forall i :: 0 <= i < |ElementOps(cols, img, es, j)| ==>
              var op := ElementOps(cols, img, es, j)[i];
              op.AddOp? && op.id == j && op.col in QuadColList(cols)
    decreases |es|
  {
    if es != [] {
      var head := QuadAdds(cols, j, img[es[0]]);
      var rest := ElementOps(cols, img, es[1..], j);
      ElementOpsShape(cols, img, es[1..], j);
      var ops := ElementOps(cols, img, es, j);
      assert ops == head + rest;
      forall i | 0 <= i < |ops|
        ensures ops[i].AddOp? && ops[i].id == j && ops[i].col in QuadColList(cols)
      {
        if i < 5 {
          assert ops[i] == head[i];
        } else {
          assert ops[i] == rest[i - 5];
        }
      }
    } else {
      assert ElementOps(cols, img, es, j) == [];
    }
  }

  /** The shape of every write a hook of `c` makes at node `j`. */
  predicate HookOpShape(c: Computer, j: int, h: Hook, op: Op) {
    match h
    case PreHook => op.AddOp? && op.id == j && op.col in AccumColumns(c)
    case MergeHook(p) => op == MergeOp(op.col, j, p) && op.col in AccumColumns(c)
    case PostHook => op.FormulaOp? && op.id == j && op.col in FormulaColumns(c) && op.src == c.cols
  }

  /**
   * `preProcess` of `c` at node `j`: add 1 (the node counter), the node's
   * element count (area), or each element's five bit-quad counters.
   */
  function PreOps(c: Computer, t: CTree, j: int): seq<Op>
    requires Configured(c, t) && 0 <= j < |t.nodes|
  {
    match c
    case NodeCounter(i) => [AddOp(i, j, 1.0)]
    case AreaComputer(i) => [AddOp(i, j, |t.nodes[j].elementIndices| as real)]
    case QuadsComputer(_, _, _, cols, _, _, _) => ElementOps(cols, ImageQuads(c), t.nodes[j].elementIndices, j)
  }

  /** `merge` of `c`: the node's value of each accumulated array is added into the parent's. */
  function MergeOps(c: Computer, j: int, p: int): seq<Op>
  {
    match c
    case NodeCounter(i) => [MergeOp(i, j, p)]
    case AreaComputer(i) => [MergeOp(i, j, p)]
    case QuadsComputer(_, _, _, cols, _, _, _) =>
      [MergeOp(cols.p1, j, p), MergeOp(cols.p2, j, p), MergeOp(cols.p3, j, p),
       MergeOp(cols.p4, j, p), MergeOp(cols.pd, j, p)]
  }

  /** `postProcess` of `c`: each attribute-from-quads computer writes its formula at the node. */
  function PostOps(c: Computer, t: CTree, j: int): seq<Op>
    requires Configured(c, t)
  {
    if c.QuadsComputer? then
      seq(|c.subs|, s requires 0 <= s < |c.subs| =>
        FormulaOp(c.subs[s].attrIdx, j, c.subs[s].kind, c.subs[s].con, c.subs[s].cols))
    else []
  }

  /** The writes of hook `h` of computer `c` at node `j`. */
  function HookOps(c: Computer, t: CTree, j: int, h: Hook): seq<Op>
    requires Configured(c, t) && 0 <= j < |t.nodes|
  {
    match h
    case PreHook => PreOps(c, t, j)
    case MergeHook(p) => MergeOps(c, j, p)
    case PostHook => PostOps(c, t, j)
  }

  /**
   * Every write of a hook has its hook's shape: `preProcess` adds into the
   * node's cell of an accumulated array, `merge` adds the node's cell of an
   * accumulated array into the parent's, and `postProcess` writes a formula
   * array from the computer's own counters.
   */
  lemma {:induction false} HookOpsShape(c: Computer, t: CTree, j: int, h: Hook)
    requires Configured(c, t) && 0 <= j < |t.nodes|
    ensures forall i :: 0 <= i < |HookOps(c, t, j, h)| ==> HookOpShape(c, j, h, HookOps(c, t, j, h)[i])
  {
    var ops := HookOps(c, t, j, h);
    if h.PreHook? && c.QuadsComputer? {
      ElementOpsShape(c.cols, ImageQuads(c), t.nodes[j].elementIndices, j);
      assert ops == ElementOps(c.cols, ImageQuads(c), t.nodes[j].elementIndices, j);
    }
  }

  /** A write of the given shape addresses cells of the table. */
  lemma {:induction false} ShapeFits(c: Computer, j: int, h: Hook, op: Op, w: int, n: int)
    requires Within(c, w) && HookOpShape(c, j, h, op) && 0 <= j < n
    requires h.MergeHook? ==> 0 <= h.parent < n
    ensures OpFits(op, w, n)
  {
    ColumnsSplit(c);
    assert op.col in Columns(c);
    if h.PostHook? {
      assert QuadColList(c.cols) == Columns(c)[..5];
      var l := QuadColList(c.cols);
      assert l[0] in Columns(c) && l[1] in Columns(c) && l[2] in Columns(c) && l[3] in Columns(c) && l[4] in Columns(c);
    }
  }

  /** Every computer is configured for the tree. */
  predicate AllConfigured(comps: seq<Computer>, t: CTree) {
    forall i :: 0 <= i < |comps| ==> Configured(comps[i], t)
  }

  /** The writes of each computer's hook, in push order. */
  function HookParts(comps: seq<Computer>, t: CTree, j: int, h: Hook): (parts: seq<seq<Op>>)
    requires AllConfigured(comps, t) && 0 <= j < |t.nodes|
    ensures |parts| == |comps| && forall k :: 0 <= k < |comps| ==> parts[k] == HookOps(comps[k], t, j, h)
  {
    seq(|comps|, k requires 0 <= k < |comps| => HookOps(comps[k], t, j, h))
  }

  /** `IncrementalAttributeComputerCollection`'s hook: each computer's, in push order. */
  function CollectionOps(comps: seq<Computer>, t: CTree, j: int, h: Hook): seq<Op>
    requires AllConfigured(comps, t) && 0 <= j < |t.nodes|
  {
    Flatten(HookParts(comps, t, j, h))
  }

  /**
   * The computers' arrays are distinct positions below `w`: no two computers
   * share an array and no computer uses one twice.
   */
  predicate Layout(comps: seq<Computer>, w: int) {
    (forall i :: 0 <= i < |comps| ==> Within(comps[i], w)) &&
    forall i, k, x :: 0 <= i < |comps| && 0 <= k < |comps| && i != k && x in Columns(comps[i]) ==>
      x !in Columns(comps[k])
  }

  /** Every write of the collection's hook is a write of the hook of one of its computers, `k`. */
  lemma {:induction false} CollectionOpOwner(comps: seq<Computer>, t: CTree, j: int, h: Hook, i: int) returns (k: int)
    requires AllConfigured(comps, t) && 0 <= j < |t.nodes| && 0 <= i < |CollectionOps(comps, t, j, h)|
    ensures 0 <= k < |comps| && HookOpShape(comps[k], j, h, CollectionOps(comps, t, j, h)[i])
  {
    var parts := HookParts(comps, t, j, h);
    var m;
    k, m := FlattenIndex(parts, i);
    assert parts[k] == HookOps(comps[k], t, j, h);
    HookOpsShape(comps[k], t, j, h);
  }

  /** The collection's hook addresses cells of the table. */
  lemma {:induction false} CollectionOpsFit(comps: seq<Computer>, t: CTree, j: int, h: Hook, w: int)
    requires AllConfigured(comps, t) && 0 <= j < |t.nodes| && Layout(comps, w)
    requires h.MergeHook? ==> 0 <= h.parent < |t.nodes|
    ensures OpsFit(CollectionOps(comps, t, j, h), w, |t.nodes|)
  {
    var ops := CollectionOps(comps, t, j, h);
    forall i | 0 <= i < |ops|
      ensures OpFits(ops[i], w, |t.nodes|)
    {
      var k := CollectionOpOwner(comps, t, j, h, i);
      ShapeFits(comps[k], j, h, ops[i], w, |t.nodes|);
    }
  }

  /** Only `postProcess` writes formulas. */
  lemma {:induction false} CollectionOpsKinds(comps: seq<Computer>, t: CTree, j: int, h: Hook)
    requires AllConfigured(comps, t) && 0 <= j < |t.nodes|
    ensures forall i :: 0 <= i < |CollectionOps(comps, t, j, h)| ==>
              (CollectionOps(comps, t, j, h)[i].FormulaOp? <==> h.PostHook?)
  {
    var ops := CollectionOps(comps, t, j, h);
    forall i | 0 <= i < |ops|
      ensures ops[i].FormulaOp? <==> h.PostHook?
    {
      var k := CollectionOpOwner(comps, t, j, h, i);
    }
  }

  /** An array some computer writes from the counters is no computer's accumulated array. */
  lemma {:induction false} FormulaNotAccum(comps: seq<Computer>, w: int, k1: int, k2: int, x: int)
    requires Layout(comps, w) && 0 <= k1 < |comps| && 0 <= k2 < |comps| && x in FormulaColumns(comps[k1])
    ensures x !in AccumColumns(comps[k2])
  {
    ColumnsSplit(comps[k1]);
    ColumnsSplit(comps[k2]);
    if k1 == k2 {
      var c := comps[k1];
      var s :| 0 <= s < |FormulaColumns(c)| && FormulaColumns(c)[s] == x;
      assert Columns(c)[|AccumColumns(c)| + s] == x;
      forall q | 0 <= q < |AccumColumns(c)|
        ensures AccumColumns(c)[q] != x
      {
        assert Columns(c)[q] == AccumColumns(c)[q];
      }
    } else {
      assert x in Columns(comps[k1]);
    }
  }

  /** No formula of `postProcess` overwrites a counter some formula reads. */
  lemma {:induction false} PostPhase(comps: seq<Computer>, t: CTree, j: int, w: int)
    requires AllConfigured(comps, t) && 0 <= j < |t.nodes| && Layout(comps, w)
    ensures FormulaPhase(CollectionOps(comps, t, j, PostHook))
  {
    var fs := CollectionOps(comps, t, j, PostHook);
    assert forall i :: 0 <= i < |fs| ==> fs[i].FormulaOp? by {
      CollectionOpsKinds(comps, t, j, PostHook);
    }
    forall i1, i2 | 0 <= i1 < |fs| && 0 <= i2 < |fs|
      ensures fs[i1].col !in QuadColList(fs[i2].src)
    {
      PostPairApart(comps, t, j, w, i1, i2);
    }
  }

  /** The array one formula writes is none of the counters another formula reads. */
  lemma {:induction false} PostPairApart(comps: seq<Computer>, t: CTree, j: int, w: int, i1: int, i2: int)
    requires AllConfigured(comps, t) && 0 <= j < |t.nodes| && Layout(comps, w)
    requires 0 <= i1 < |CollectionOps(comps, t, j, PostHook)| && 0 <= i2 < |CollectionOps(comps, t, j, PostHook)|
    ensures CollectionOps(comps, t, j, PostHook)[i2].FormulaOp?
    ensures CollectionOps(comps, t, j, PostHook)[i1].col !in QuadColList(CollectionOps(comps, t, j, PostHook)[i2].src)
  {
    var fs := CollectionOps(comps, t, j, PostHook);
    var k1 := PostOpOwner(comps, t, j, i1);
    var k2 := PostOpOwner(comps, t, j, i2);
    assert QuadColList(fs[i2].src) == AccumColumns(comps[k2]);
    FormulaNotAccum(comps, w, k1, k2, fs[i1].col);
  }

  /** Each formula of the collection's `postProcess` is one of computer `k`'s, reading `k`'s counters. */
  lemma {:induction false} PostOpOwner(comps: seq<Computer>, t: CTree, j: int, i: int) returns (k: int)
    requires AllConfigured(comps, t) && 0 <= j < |t.nodes|
    requires 0 <= i < |CollectionOps(comps, t, j, PostHook)|
    ensures 0 <= k < |comps| && comps[k].QuadsComputer?
    ensures CollectionOps(comps, t, j, PostHook)[i].FormulaOp?
    ensures CollectionOps(comps, t, j, PostHook)[i].col in FormulaColumns(comps[k])
    ensures CollectionOps(comps, t, j, PostHook)[i].src == comps[k].cols
  {
    k := CollectionOpOwner(comps, t, j, PostHook, i);
  }

  /** A hook of a computer that does not own array `x` writes nothing to it. */
  lemma {:induction false} HookOpsElsewhere(c: Computer, t: CTree, j: int, h: Hook, x: int)
    requires Configured(c, t) && 0 <= j < |t.nodes| && x !in Columns(c)
    ensures OnColumn(HookOps(c, t, j, h), x) == []
  {
    ColumnsSplit(c);
    HookOpsShape(c, t, j, h);
    OnColumnNone(HookOps(c, t, j, h), x);
  }

  /** Array `x` belongs to no computer: the collection's hook writes nothing to it. */
  lemma {:induction false} CollectionOpsElsewhere(comps: seq<Computer>, t: CTree, j: int, h: Hook, x: int)
    requires AllConfigured(comps, t) && 0 <= j < |t.nodes|
    requires forall k :: 0 <= k < |comps| ==> x !in Columns(comps[k])
    ensures OnColumn(CollectionOps(comps, t, j, h), x) == []
  {
    var parts := HookParts(comps, t, j, h);
    forall k | 0 <= k < |parts|
      ensures OnColumn(parts[k], x) == []
    {
      HookOpsElsewhere(comps[k], t, j, h, x);
    }
    FlattenNone(parts, x);
  }

  /** Seen from an array of computer `i`, the collection's hook is computer `i`'s hook. */
  lemma {:induction false} CollectionOpsOwn(comps: seq<Computer>, t: CTree, j: int, h: Hook, i: int, x: int)
    requires AllConfigured(comps, t) && 0 <= j < |t.nodes|
    requires 0 <= i < |comps| && x in Columns(comps[i])
    requires forall k :: 0 <= k < |comps| && k != i ==> x !in Columns(comps[k])
    ensures OnColumn(CollectionOps(comps, t, j, h), x) == OnColumn(HookOps(comps[i], t, j, h), x)
  {
    var parts := HookParts(comps, t, j, h);
    forall k | 0 <= k < |parts| && k != i
      ensures OnColumn(parts[k], x) == []
    {
      HookOpsElsewhere(comps[k], t, j, h, x);
    }
    FlattenOwn(parts, i, x);
  }

  /** An array of computer `i` belongs to no other computer. */
  lemma {:induction false} LayoutOwner(comps: seq<Computer>, w: int, i: int, x: int)
    requires Layout(comps, w) && 0 <= i < |comps| && x in Columns(comps[i])
    ensures forall k :: 0 <= k < |comps| && k != i ==> x !in Columns(comps[k])
  {
  }
}

=== FILE: incremental_run.dfy ===
/**
 * `doCompute` and `compute`: every computer's `setUp`, then the traversal
 * that visits the nodes from the last id down to the root and, at each node,
 * runs every computer's `preProcess`, then (for a non-root) every computer's
 * `merge` into the parent, then every computer's `postProcess`.  What the
 * arrays hold afterwards is stated against the tree alone: subtree node
 * counts, component sizes, and the bit-quad counters summed over each
 * component together with the formulas evaluated on them.
 */
module IncrementalRun {
  import opened Permutations
  import opened CompactTree
  import opened PixelIndexing
  import opened AttributeStore
  import opened QuadsCounting
  import opened SubtreeSums
  import opened AttributeOps
  import opened IncrementalAttributes
  import opened ComputerHooks
  import opened HookColumns

  /** The indexer a bit-quad computer's `setUp` builds from the image size. */
  function FrameOf(meta: ImageMeta): Indexer {
    Indexer(meta.width, meta.height, DefaultValue(DefaultIndex))
  }

  /**
   * What a run needs of its inputs: a well-formed tree and, for each bit-quad
   * computer, a complete decision table and an image size that holds exactly
   * the tree's elements.
   */
  predicate Ready(cs: seq<Computer>, t: CTree, meta: ImageMeta) {
    WellFormed(t) &&
    forall i :: 0 <= i < |cs| && cs[i].QuadsComputer? ==>
      ValidTable(cs[i].dt) && CodingFrame(FrameOf(meta), Levels(t))
  }

  /** What the traversal needs of the set-up computers and the table width `w`. */
  predicate Runnable(comps: seq<Computer>, t: CTree, w: int) {
    Shaped(t) && AllConfigured(comps, t) && Layout(comps, w)
  }

  /* ----------------------------- setUp ----------------------------------- */

  lemma {:induction false} OffsetMono(cs: seq<Computer>, i: int, k: int)
    requires 0 <= i <= k <= |cs|
    ensures Offset(cs, i) <= Offset(cs, k)
    decreases k
  {
    if i < k {
      OffsetMono(cs, i, k - 1);
    }
  }

  /** An array of computer `i` lies among the positions the computers before it leave free. */
  lemma {:induction false} PlacedRange(cs: seq<Computer>, comps: seq<Computer>, b: int, i: int, x: int)
    requires |comps| == |cs| && PlacedAll(cs, comps, b) && 0 <= i < |cs| && x in Columns(comps[i])
    ensures b + Offset(cs, i) <= x < b + Offset(cs, i + 1)
  {
    assert Placed(cs[i], comps[i], b + Offset(cs, i));
    var q :| 0 <= q < |Columns(comps[i])| && Columns(comps[i])[q] == x;
  }

  /** A computer placed at `o` with room up to `w` owns distinct positions below `w`. */
  lemma {:induction false} PlacedWithin(c: Computer, r: Computer, o: int, w: int)
    requires Placed(c, r, o) && 0 <= o && o + |PushedTypes(c)| <= w
    ensures Within(r, w)
  {
  }

  /** Two computers placed one after the other own no position in common. */
  lemma {:induction false} PlacedApart(cs: seq<Computer>, comps: seq<Computer>, b: int, i: int, k: int, x: int)
    requires |comps| == |cs| && PlacedAll(cs, comps, b) && 0 <= i < k < |cs| && x in Columns(comps[i])
    ensures x !in Columns(comps[k])
  {
    PlacedRange(cs, comps, b, i, x);
    OffsetMono(cs, i + 1, k);
    if x in Columns(comps[k]) {
      PlacedRange(cs, comps, b, k, x);
    }
  }

  /** Computers placed one after another from position `b` each own distinct arrays of a table of width `w`. */
  lemma {:induction false} PlacedAllWithin(cs: seq<Computer>, comps: seq<Computer>, b: int, w: int)
    requires |comps| == |cs| && PlacedAll(cs, comps, b) && 0 <= b && w == b + Offset(cs, |cs|)
    ensures forall i :: 0 <= i < |comps| ==> Within(comps[i], w)
  {
    forall i | 0 <= i < |comps|
      ensures Within(comps[i], w)
    {
      OffsetMono(cs, i + 1, |cs|);
      WidthPushed(cs[i]);
      assert Offset(cs, i + 1) == Offset(cs, i) + Width(cs[i]);
      assert Placed(cs[i], comps[i], b + Offset(cs, i));
      PlacedWithin(cs[i], comps[i], b + Offset(cs, i), w);
    }
  }

  /** Computers placed one after another own no array in common. */
  lemma {:induction false} PlacedAllApart(cs: seq<Computer>, comps: seq<Computer>, b: int)
    requires |comps| == |cs| && PlacedAll(cs, comps, b)
    ensures forall i, k, x :: 0 <= i < |comps| && 0 <= k < |comps| && i != k && x in Columns(comps[i]) ==>
              x !in Columns(comps[k])
  {
    forall i, k, x | 0 <= i < |comps| && 0 <= k < |comps| && i != k && x in Columns(comps[i])
      ensures x !in Columns(comps[k])
    {
      if i < k {
        PlacedApart(cs, comps, b, i, k, x);
      } else if x in Columns(comps[k]) {
        PlacedApart(cs, comps, b, k, i, x);
      }
    }
  }

  /**
   * Computers placed one after another from position `b` own distinct
   * arrays inside a table of `b` plus the arrays they pushed.
   */
  lemma {:induction false} PlacedLayout(cs: seq<Computer>, comps: seq<Computer>, b: int, w: int)
    requires |comps| == |cs| && PlacedAll(cs, comps, b) && 0 <= b && w == b + Offset(cs, |cs|)
    ensures Layout(comps, w)
  {
    PlacedAllWithin(cs, comps, b, w);
    PlacedAllApart(cs, comps, b);
  }

  /** The set-up computers hold what the hooks read: the table, the image of the tree and its frame. */
  lemma {:induction false} FieldsConfigured(cs: seq<Computer>, comps: seq<Computer>, t: CTree, meta: ImageMeta)
    requires Ready(cs, t, meta) && |comps| == |cs| && FieldsAll(cs, comps, t, meta)
    ensures AllConfigured(comps, t)
  {
    forall i | 0 <= i < |comps|
      ensures Configured(comps[i], t)
    {
      assert SetUpFields(cs[i], comps[i], t, meta);
      if comps[i].QuadsComputer? {
        assert cs[i].QuadsComputer?;
      }
    }
  }

  /** The arrays `setUp` pushes after the table's own are all zero, and the table stays sized. */
  lemma {:induction false} SetUpTable(cs: seq<Computer>, a: AttributeCollection, t: CTree, meta: ImageMeta)
    requires Counted(a) && Sized(a, |t.nodes|) && TreeFor(cs, t)
    ensures var s := SetUpAll(cs, a, t, meta).attrs;
      Counted(s) && Sized(s, |t.nodes|) && |s.values| == |a.values| + Offset(cs, |cs|) &&
      s.values[..|a.values|] == a.values &&
      forall x :: |a.values| <= x < |s.values| ==> s.values[x] == Zeros(|t.nodes|)
  {
    var n := |t.nodes|;
    var s := SetUpAll(cs, a, t, meta).attrs;
    SetUpAllTable(cs, a, t, meta);
    PushAllLength(a, AllPushedTypes(cs), n);
    OffsetAll(cs);
    forall x | 0 <= x < |s.values|
      ensures |s.values[x]| == n
    {
      if x < |a.values| {
        assert s.values[x] == s.values[..|a.values|][x];
      }
    }
  }

  /**
   * After the collection's `setUp` the computers own distinct arrays of the
   * table, placed one after another from the table's old end, hold their
   * fields, and every array they own starts at zero.
   */
  lemma {:induction false} SetUpReady(cs: seq<Computer>, a: AttributeCollection, t: CTree, meta: ImageMeta)
    requires Ready(cs, t, meta) && Counted(a) && Sized(a, |t.nodes|)
    ensures var s := SetUpAll(cs, a, t, meta);
      Counted(s.attrs) && Sized(s.attrs, |t.nodes|) &&
      |s.attrs.values| == |a.values| + Offset(cs, |cs|) &&
      s.attrs.values[..|a.values|] == a.values &&
      (forall x :: |a.values| <= x < |s.attrs.values| ==> s.attrs.values[x] == Zeros(|t.nodes|)) &&
      PlacedAll(cs, s.comps, |a.values|) && FieldsAll(cs, s.comps, t, meta) &&
      Runnable(s.comps, t, |s.attrs.values|)
  {
    var s := SetUpAll(cs, a, t, meta);
    SetUpTable(cs, a, t, meta);
    SetUpAllColumns(cs, a, t, meta);
    SetUpAllFields(cs, a, t, meta);
    PlacedLayout(cs, s.comps, |a.values|, |s.attrs.values|);
    FieldsConfigured(cs, s.comps, t, meta);
  }

  /* --------------------------- one node ---------------------------------- */

  /** The writes of every computer's `preProcess`, then, for a non-root, of every computer's `merge`. */
  function PreMergeOps(comps: seq<Computer>, t: CTree, j: int): seq<Op>
    requires AllConfigured(comps, t) && 0 <= j < |t.nodes|
  {
    var p := t.nodes[j].parent;
    CollectionOps(comps, t, j, PreHook) + (if p != NoParent then CollectionOps(comps, t, j, MergeHook(p)) else [])
  }

  /** The writes of every computer's `postProcess`. */
  function PostOpsAll(comps: seq<Computer>, t: CTree, j: int): seq<Op>
    requires AllConfigured(comps, t) && 0 <= j < |t.nodes|
  {
    CollectionOps(comps, t, j, PostHook)
  }

  /** The writes the traversal's callback makes at node `j`. */
  function NodeOps(comps: seq<Computer>, t: CTree, j: int): seq<Op>
    requires AllConfigured(comps, t) && 0 <= j < |t.nodes|
  {
    PreMergeOps(comps, t, j) + PostOpsAll(comps, t, j)
  }

  lemma OpsFitConcat(x: seq<Op>, y: seq<Op>, w: int, n: int)
    requires OpsFit(x, w, n) && OpsFit(y, w, n)
    ensures OpsFit(x + y, w, n)
  {
  }

  /** Every write of the callback addresses a cell of the table. */
  lemma {:induction false} NodeOpsFit(comps: seq<Computer>, t: CTree, j: int, w: int)
    requires Runnable(comps, t, w) && 0 <= j < |t.nodes|
    ensures OpsFit(PreMergeOps(comps, t, j), w, |t.nodes|)
    ensures OpsFit(PostOpsAll(comps, t, j), w, |t.nodes|)
    ensures OpsFit(NodeOps(comps, t, j), w, |t.nodes|)
  {
    var n := |t.nodes|;
    var p := t.nodes[j].parent;
    var pre := CollectionOps(comps, t, j, PreHook);
    CollectionOpsFit(comps, t, j, PreHook, w);
    CollectionOpsFit(comps, t, j, PostHook, w);
    if p != NoParent {
      CollectionOpsFit(comps, t, j, MergeHook(p), w);
      OpsFitConcat(pre, CollectionOps(comps, t, j, MergeHook(p)), w, n);
    } else {
      assert pre + [] == pre;
    }
    OpsFitConcat(PreMergeOps(comps, t, j), PostOpsAll(comps, t, j), w, n);
  }

  /** The traversal's callback at node `j`: its writes, performed in order. */
  function Visit(a: AttributeCollection, comps: seq<Computer>, t: CTree, j: int): (r: AttributeCollection)
    requires Runnable(comps, t, |a.values|) && Sized(a, |t.nodes|) && 0 <= j < |t.nodes|
    ensures Sized(r, |t.nodes|) && |r.values| == |a.values|
    ensures r.attrIndex == a.attrIndex && r.nextIndex == a.nextIndex
  {
    NodeOpsFit(comps, t, j, |a.values|);
    ExecAll(a, NodeOps(comps, t, j), |t.nodes|)
  }

  /** `step` applied at `m - 1`, then at `m - 2`, down to `0`. */
  function Iterate<S>(a: S, m: nat, step: (S, int) -> S): S
    decreases m
  {
    if m == 0 then a else Iterate(step(a, m - 1), m - 1, step)
  }

  /** A property `step` carries from `k` to `k - 1` holds at `0` once it holds at `m`. */
  lemma {:induction false} IterateInduction<S>(a: S, m: nat, step: (S, int) -> S, inv: (S, int) -> bool)
    requires forall b: S, j :: 0 <= j < m && inv(b, j + 1) ==> inv(step(b, j), j)
    requires inv(a, m)
    ensures inv(Iterate(a, m, step), 0)
    decreases m
  {
    if m > 0 {
      IterateInduction(step(a, m - 1), m - 1, step, inv);
    }
  }

  /** The traversal's callback, with a state it cannot run on left alone. */
  function VisitStep(comps: seq<Computer>, t: CTree): (AttributeCollection, int) -> AttributeCollection {
    (b: AttributeCollection, j: int) =>
      if Runnable(comps, t, |b.values|) && Sized(b, |t.nodes|) && 0 <= j < |t.nodes| then Visit(b, comps, t, j) else b
  }

  /** `transverse` from node `m - 1` down to the root. */
  function Traversal(a: AttributeCollection, comps: seq<Computer>, t: CTree, m: int): (r: AttributeCollection)
    requires Runnable(comps, t, |a.values|) && Sized(a, |t.nodes|) && 0 <= m <= |t.nodes|
    ensures Sized(r, |t.nodes|) && |r.values| == |a.values|
    ensures r.attrIndex == a.attrIndex && r.nextIndex == a.nextIndex
  {
    IterateInduction(a, m, VisitStep(comps, t),
      (b: AttributeCollection, k: int) => Sized(b, |t.nodes|) && |b.values| == |a.values| &&
        b.attrIndex == a.attrIndex && b.nextIndex == a.nextIndex);
    Iterate(a, m, VisitStep(comps, t))
  }

  /**
   * Induction over the traversal: a property of the state before node `m - 1`
   * that every visit carries to the state before the next node holds at the end.
   */
  lemma {:induction false} TraversalInduction(a: AttributeCollection, comps: seq<Computer>, t: CTree, m: int,
                                              inv: (AttributeCollection, int) -> bool)
    requires Runnable(comps, t, |a.values|) && Sized(a, |t.nodes|) && 0 <= m <= |t.nodes|
    requires forall b: AttributeCollection, j ::
               (0 <= j < |t.nodes| && inv(b, j + 1) && Runnable(comps, t, |b.values|) && Sized(b, |t.nodes|)) ==>
                 inv(Visit(b, comps, t, j), j)
    requires inv(a, m)
    ensures inv(Traversal(a, comps, t, m), 0)
  {
    var w := |a.values|;
    IterateInduction(a, m, VisitStep(comps, t), (b: AttributeCollection, k: int) => |b.values| == w && Sized(b, |t.nodes|) && inv(b, k));
  }

  /** An array of computer `i` is a position of the table that no other computer owns. */
  lemma {:induction false} OwnedColumn(comps: seq<Computer>, w: int, i: int, x: int)
    requires Layout(comps, w) && 0 <= i < |comps| && x in Columns(comps[i])
    ensures 0 <= x < w
    ensures forall k :: 0 <= k < |comps| && k != i ==> x !in Columns(comps[k])
  {
    assert Within(comps[i], w);
    var q :| 0 <= q < |Columns(comps[i])| && Columns(comps[i])[q] == x;
  }

  /** Seen from accumulated array `x` of computer `i`, `preProcess` and `merge` are that computer's. */
  lemma {:induction false} PreMergeOwn(comps: seq<Computer>, t: CTree, j: int, i: int, x: int, w: int)
    requires Runnable(comps, t, w) && 0 <= j < |t.nodes| && 0 <= i < |comps| && x in Columns(comps[i])
    ensures var p := t.nodes[j].parent;
      OnColumn(PreMergeOps(comps, t, j), x) ==
        OnColumn(HookOps(comps[i], t, j, PreHook), x) +
        (if p != NoParent then OnColumn(HookOps(comps[i], t, j, MergeHook(p)), x) else [])
  {
    var p := t.nodes[j].parent;
    var pre := CollectionOps(comps, t, j, PreHook);
    OwnedColumn(comps, w, i, x);
    CollectionOpsOwn(comps, t, j, PreHook, i, x);
    if p != NoParent {
      CollectionOpsOwn(comps, t, j, MergeHook(p), i, x);
      OnColumnConcat(pre, CollectionOps(comps, t, j, MergeHook(p)), x);
    } else {
      assert pre + [] == pre;
      assert OnColumn(pre, x) + [] == OnColumn(pre, x);
    }
  }

  /** No write of `ops` to array `x` is a formula when all of them fit an additive step. */
  lemma {:induction false} FitAdditive(ops: seq<Op>, x: int, n: int)
    requires ColumnOpsFit(OnColumn(ops, x), n)
    ensures Additive(ops, x)
  {
    AdditiveOnColumn(ops, x);
  }

  /**
   * Seen from accumulated array `q` of computer `i`, the writes of
   * `preProcess` and `merge` at node `j` are one step of the subtree-sum
   * pass with that computer's node weights.
   */
  lemma {:induction false} PreMergeAccum(a: AttributeCollection, comps: seq<Computer>, t: CTree, j: int, i: int, q: int)
    requires Runnable(comps, t, |a.values|) && Sized(a, |t.nodes|) && 0 <= j < |t.nodes|
    requires 0 <= i < |comps| && 0 <= q < |AccumColumns(comps[i])|
    ensures 0 <= AccumColumns(comps[i])[q] < |a.values|
    ensures OpsFit(PreMergeOps(comps, t, j), |a.values|, |t.nodes|)
    ensures ExecAll(a, PreMergeOps(comps, t, j), |t.nodes|).values[AccumColumns(comps[i])[q]] ==
              StepColumn(a.values[AccumColumns(comps[i])[q]], t, AccumWeights(comps[i], t, q), j)
  {
    var n := |t.nodes|;
    var c := comps[i];
    var x := AccumColumns(c)[q];
    var ops := PreMergeOps(comps, t, j);
    ColumnsSplit(c);
    assert x == Columns(c)[q];
    assert Within(c, |a.values|);
    WithinApart(c, |a.values|);
    NodeOpsFit(comps, t, j, |a.values|);
    PreMergeOwn(comps, t, j, i, x, |a.values|);
    NodeStepColumn(c, t, j, q, a.values[x]);
    FitAdditive(ops, x, n);
    ExecAllColumn(a, ops, n, x);
  }

  /** Seen from an accumulated array, `postProcess` writes nothing. */
  lemma {:induction false} PostAccumUntouched(comps: seq<Computer>, t: CTree, j: int, i: int, q: int, w: int)
    requires Runnable(comps, t, w) && 0 <= j < |t.nodes| && 0 <= i < |comps| && 0 <= q < |AccumColumns(comps[i])|
    ensures forall k :: 0 <= k < |PostOpsAll(comps, t, j)| ==> PostOpsAll(comps, t, j)[k].col != AccumColumns(comps[i])[q]
  {
    var c := comps[i];
    var x := AccumColumns(c)[q];
    ColumnsSplit(c);
    assert x == Columns(c)[q];
    assert Within(c, w);
    WithinApart(c, w);
    OwnedColumn(comps, w, i, x);
    CollectionOpsOwn(comps, t, j, PostHook, i, x);
    PostColumnAccum(c, t, j, q);
    OnColumnEmpty(PostOpsAll(comps, t, j), x);
  }

  /** A visit steps every accumulated array of every computer by one node of the subtree-sum pass. */
  lemma {:induction false} VisitAccum(a: AttributeCollection, comps: seq<Computer>, t: CTree, j: int, i: int, q: int)
    requires Runnable(comps, t, |a.values|) && Sized(a, |t.nodes|) && 0 <= j < |t.nodes|
    requires 0 <= i < |comps| && 0 <= q < |AccumColumns(comps[i])|
    ensures 0 <= AccumColumns(comps[i])[q] < |a.values|
    ensures Visit(a, comps, t, j).values[AccumColumns(comps[i])[q]] ==
              StepColumn(a.values[AccumColumns(comps[i])[q]], t, AccumWeights(comps[i], t, q), j)
  {
    var n := |t.nodes|;
    var x := AccumColumns(comps[i])[q];
    var pm, post := PreMergeOps(comps, t, j), PostOpsAll(comps, t, j);
    PreMergeAccum(a, comps, t, j, i, q);
    NodeOpsFit(comps, t, j, |a.values|);
    ExecAllConcat(a, pm, post, n);
    var b := ExecAll(a, pm, n);
    PostAccumUntouched(comps, t, j, i, q, |a.values|);
    ExecAllUntouched(b, post, n, x);
  }

  /* ---------------------------- formulas --------------------------------- */

  /** The bit-quad counters of `c` summed over the subtree of node `k`, as `Total` gives them. */
  function TotalQuads(c: Computer, t: CTree, k: int): Quads
    requires c.QuadsComputer? && Configured(c, t) && Shaped(t) && 0 <= k < |t.nodes|
  {
    Quads(Total(t, AccumWeights(c, t, 0), k), Total(t, AccumWeights(c, t, 1), k),
          Total(t, AccumWeights(c, t, 2), k), Total(t, AccumWeights(c, t, 3), k),
          Total(t, AccumWeights(c, t, 4), k))
  }

  /** The five counter arrays of `c` hold the state of the pass once the nodes `m..n-1` are processed. */
  predicate CountersAfter(a: AttributeCollection, c: Computer, t: CTree, m: int)
    requires c.QuadsComputer? && Configured(c, t) && Shaped(t) && 0 <= m <= |t.nodes|
  {
    forall q :: 0 <= q < 5 ==>
      0 <= AccumColumns(c)[q] < |a.values| && ColumnAt(a.values[AccumColumns(c)[q]], t, AccumWeights(c, t, q), m)
  }

  /** Formula array `s` of a bit-quad computer: its position. */
  function SubColumn(c: Computer, s: int): int
    requires c.QuadsComputer? && 0 <= s < |c.subs|
  {
    c.subs[s].attrIdx
  }

  /** The formula of sub-computer `s`, evaluated on the counters `q`. */
  function SubFormula(c: Computer, s: int, q: Quads): real
    requires c.QuadsComputer? && 0 <= s < |c.subs|
  {
    Formula(c.subs[s].kind, c.subs[s].con, q)
  }

  /** Formula array `s` is a position of the table that only computer `i` owns. */
  lemma {:induction false} SubColumnOwned(comps: seq<Computer>, w: int, i: int, s: int)
    requires Layout(comps, w) && 0 <= i < |comps| && comps[i].QuadsComputer? && 0 <= s < |comps[i].subs|
    ensures SubColumn(comps[i], s) in Columns(comps[i])
    ensures 0 <= SubColumn(comps[i], s) < w
    ensures forall k :: 0 <= k < |comps| && k != i ==> SubColumn(comps[i], s) !in Columns(comps[k])
  {
    var c := comps[i];
    ColumnsSplit(c);
    assert Columns(c)[5 + s] == SubColumns(c.subs)[s] == SubColumn(c, s);
    OwnedColumn(comps, w, i, SubColumn(c, s));
  }

  /** `preProcess` and `merge` leave the formula arrays alone. */
  lemma {:induction false} PreMergeFormula(a: AttributeCollection, comps: seq<Computer>, t: CTree, j: int, i: int, s: int)
    requires Runnable(comps, t, |a.values|) && Sized(a, |t.nodes|) && 0 <= j < |t.nodes|
    requires 0 <= i < |comps| && comps[i].QuadsComputer? && 0 <= s < |comps[i].subs|
    ensures 0 <= SubColumn(comps[i], s) < |a.values|
    ensures OpsFit(PreMergeOps(comps, t, j), |a.values|, |t.nodes|)
    ensures ExecAll(a, PreMergeOps(comps, t, j), |t.nodes|).values[SubColumn(comps[i], s)] == a.values[SubColumn(comps[i], s)]
  {
    var c := comps[i];
    var x := SubColumn(c, s);
    var p := t.nodes[j].parent;
    SubColumnOwned(comps, |a.values|, i, s);
    assert Within(c, |a.values|);
    WithinApart(c, |a.values|);
    FormulaHooks(c, t, j, s);
    PreMergeOwn(comps, t, j, i, x, |a.values|);
    assert OnColumn(HookOps(c, t, j, MergeHook(p)), x) == [];
    OnColumnEmpty(PreMergeOps(comps, t, j), x);
    NodeOpsFit(comps, t, j, |a.values|);
    ExecAllUntouched(a, PreMergeOps(comps, t, j), |t.nodes|, x);
  }

  /** The five counter positions are arrays of a table of `w` arrays. */
  predicate ColsIn(cols: QuadCols, w: int) {
    0 <= cols.p1 < w && 0 <= cols.p2 < w && 0 <= cols.pd < w && 0 <= cols.p3 < w && 0 <= cols.p4 < w
  }

  /** Formula writes that fit the table read counters inside it. */
  lemma {:induction false} SourcesInTable(b: AttributeCollection, fs: seq<Op>, n: int)
    requires OpsFit(fs, |b.values|, n) && forall i :: 0 <= i < |fs| ==> fs[i].FormulaOp?
    ensures SourcesAgree(b, b, fs)
  {
    forall j, x | 0 <= j < |fs| && x in QuadColList(fs[j].src)
      ensures 0 <= x < |b.values|
    {
      assert OpFits(fs[j], |b.values|, n);
    }
  }

  /** The counters of a bit-quad computer are arrays of the table. */
  lemma {:induction false} CountersIn(comps: seq<Computer>, w: int, i: int)
    requires Layout(comps, w) && 0 <= i < |comps| && comps[i].QuadsComputer?
    ensures ColsIn(comps[i].cols, w)
  {
    var c := comps[i];
    assert Within(c, w);
    ColumnsSplit(c);
    assert Columns(c)[0] == c.cols.p1 && Columns(c)[1] == c.cols.p2 && Columns(c)[2] == c.cols.pd;
    assert Columns(c)[3] == c.cols.p3 && Columns(c)[4] == c.cols.p4;
  }

  /** Seen from formula array `s`, the collection's `postProcess` is the one formula write of sub-computer `s`. */
  lemma {:induction false} PostOwnFormula(comps: seq<Computer>, t: CTree, j: int, i: int, s: int, w: int)
    requires Runnable(comps, t, w) && 0 <= j < |t.nodes|
    requires 0 <= i < |comps| && comps[i].QuadsComputer? && 0 <= s < |comps[i].subs|
    ensures 0 <= SubColumn(comps[i], s) < w
    ensures NotCounterOf(comps[i].cols, SubColumn(comps[i], s))
    ensures OnColumn(PostOpsAll(comps, t, j), SubColumn(comps[i], s)) ==
              [FormulaOp(SubColumn(comps[i], s), j, comps[i].subs[s].kind, comps[i].subs[s].con, comps[i].cols)]
  {
    var c := comps[i];
    SubColumnOwned(comps, w, i, s);
    assert Within(c, w);
    WithinApart(c, w);
    FormulaHooks(c, t, j, s);
    CollectionOpsOwn(comps, t, j, PostHook, i, SubColumn(c, s));
  }

  /**
   * Seen from formula array `s` of computer `i`, `postProcess` sets the
   * node's cell to the formula of the node's counters as they stand.
   */
  lemma {:induction false} PostFormula(b: AttributeCollection, comps: seq<Computer>, t: CTree, j: int, i: int, s: int)
    requires Runnable(comps, t, |b.values|) && Sized(b, |t.nodes|) && 0 <= j < |t.nodes|
    requires 0 <= i < |comps| && comps[i].QuadsComputer? && 0 <= s < |comps[i].subs|
    ensures OpsFit(PostOpsAll(comps, t, j), |b.values|, |t.nodes|)
    ensures 0 <= SubColumn(comps[i], s) < |b.values|
    ensures ColsIn(comps[i].cols, |b.values|)
    ensures ExecAll(b, PostOpsAll(comps, t, j), |t.nodes|).values[SubColumn(comps[i], s)] ==
              b.values[SubColumn(comps[i], s)][j := SubFormula(comps[i], s, QuadsAt(b, comps[i].cols, j))]
  {
    var n, w := |t.nodes|, |b.values|;
    var c := comps[i];
    var x := SubColumn(c, s);
    var post := PostOpsAll(comps, t, j);
    var f := FormulaOp(x, j, c.subs[s].kind, c.subs[s].con, c.cols);
    assert OpsFit(post, w, n) by { NodeOpsFit(comps, t, j, w); }
    assert ColsIn(c.cols, w) by { CountersIn(comps, w, i); }
    assert 0 <= x < w && NotCounterOf(c.cols, x) && OnColumn(post, x) == [f] by {
      PostOwnFormula(comps, t, j, i, s, w);
    }
    assert FormulaPhase(post) by { PostPhase(comps, t, j, w); }
    assert ExecAll(b, post, n).values[x] == FormulaColumn(b.values[x], b, post, n, x) by {
      SourcesInTable(b, post, n);
      ExecFormulas(b, b, post, n, x);
    }
    assert FormulaColumn(b.values[x], b, post, n, x) == FormulaColumn(b.values[x], b, [f], n, x) by {
      FormulaColumnOnColumn(b.values[x], b, post, n, x);
    }
    assert OpFits(f, w, n) by {
      assert OnColumn(post, x)[0] == f;
    }
    FormulaColumnSingle(b.values[x], b, f, n, x);
  }

  /** Stepping node `m - 1` of a column in step completes that node's subtree sum. */
  lemma {:induction false} StepCompletes(col: seq<real>, t: CTree, w: seq<real>, m: int)
    requires Shaped(t) && |w| == |t.nodes| && 1 <= m <= |t.nodes| && ColumnAt(col, t, w, m)
    ensures StepColumn(col, t, w, m - 1)[m - 1] == Total(t, w, m - 1)
  {
    ColumnStep(col, t, w, m);
  }

  /** After the node's `preProcess` and `merge`, counter `q` of computer `i` is complete: the subtree sum. */
  lemma {:induction false} CounterComplete(a: AttributeCollection, comps: seq<Computer>, t: CTree, m: int, i: int, q: int)
    requires Runnable(comps, t, |a.values|) && Sized(a, |t.nodes|) && 1 <= m <= |t.nodes|
    requires 0 <= i < |comps| && 0 <= q < |AccumColumns(comps[i])| && 0 <= AccumColumns(comps[i])[q] < |a.values|
    requires ColumnAt(a.values[AccumColumns(comps[i])[q]], t, AccumWeights(comps[i], t, q), m)
    ensures OpsFit(PreMergeOps(comps, t, m - 1), |a.values|, |t.nodes|)
    ensures ExecAll(a, PreMergeOps(comps, t, m - 1), |t.nodes|).values[AccumColumns(comps[i])[q]][m - 1] ==
              Total(t, AccumWeights(comps[i], t, q), m - 1)
  {
    PreMergeAccum(a, comps, t, m - 1, i, q);
    StepCompletes(a.values[AccumColumns(comps[i])[q]], t, AccumWeights(comps[i], t, q), m);
  }

  /** After the node's `preProcess` and `merge`, its counters are complete: the subtree sums. */
  lemma {:induction false} CountersComplete(a: AttributeCollection, comps: seq<Computer>, t: CTree, m: int, i: int)
    requires Runnable(comps, t, |a.values|) && Sized(a, |t.nodes|) && 1 <= m <= |t.nodes|
    requires 0 <= i < |comps| && comps[i].QuadsComputer? && CountersAfter(a, comps[i], t, m)
    ensures OpsFit(PreMergeOps(comps, t, m - 1), |a.values|, |t.nodes|)
    ensures var b := ExecAll(a, PreMergeOps(comps, t, m - 1), |t.nodes|);
      ColsIn(comps[i].cols, |b.values|) &&
      QuadsAt(b, comps[i].cols, m - 1) == TotalQuads(comps[i], t, m - 1)
  {
    var c := comps[i];
    assert AccumColumns(c) == [c.cols.p1, c.cols.p2, c.cols.pd, c.cols.p3, c.cols.p4];
    CountersIn(comps, |a.values|, i);
    CounterComplete(a, comps, t, m, i, 0);
    CounterComplete(a, comps, t, m, i, 1);
    CounterComplete(a, comps, t, m, i, 2);
    CounterComplete(a, comps, t, m, i, 3);
    CounterComplete(a, comps, t, m, i, 4);
  }

  /**
   * A visit of node `m - 1` with its counters in step sets the node's cell of
   * each formula array to the formula of the node's subtree counters.
   */
  lemma {:induction false} VisitFormula(a: AttributeCollection, comps: seq<Computer>, t: CTree, m: int, i: int, s: int)
    requires Runnable(comps, t, |a.values|) && Sized(a, |t.nodes|) && 1 <= m <= |t.nodes|
    requires 0 <= i < |comps| && comps[i].QuadsComputer? && 0 <= s < |comps[i].subs|
    requires CountersAfter(a, comps[i], t, m)
    ensures 0 <= SubColumn(comps[i], s) < |a.values|
    ensures Visit(a, comps, t, m - 1).values[SubColumn(comps[i], s)] ==
              a.values[SubColumn(comps[i], s)][m - 1 := SubFormula(comps[i], s, TotalQuads(comps[i], t, m - 1))]
  {
    var n := |t.nodes|;
    var pm, post := PreMergeOps(comps, t, m - 1), PostOpsAll(comps, t, m - 1);
    NodeOpsFit(comps, t, m - 1, |a.values|);
    ExecAllConcat(a, pm, post, n);
    var b := ExecAll(a, pm, n);
    PreMergeFormula(a, comps, t, m - 1, i, s);
    CountersComplete(a, comps, t, m, i);
    PostFormula(b, comps, t, m - 1, i, s);
  }

  /* ---------------------------- the run ---------------------------------- */

  /** Every visit steps array `x` by one node of the subtree-sum pass with node weights `w`. */
  ghost predicate VisitSteps(comps: seq<Computer>, t: CTree, x: int, w: seq<real>)
    requires Shaped(t) && |w| == |t.nodes|
  {
    forall b: AttributeCollection, j ::
      Runnable(comps, t, |b.values|) && Sized(b, |t.nodes|) && 0 <= j < |t.nodes| && 0 <= x < |b.values| ==>
        Visit(b, comps, t, j).values[x] == StepColumn(b.values[x], t, w, j)
  }

  /** Array `x` of `b`, passed over the nodes below `k`, comes to `target`. */
  predicate RunsTo(b: AttributeCollection, t: CTree, w: seq<real>, x: int, k: int, target: seq<real>) {
    Shaped(t) && |w| == |t.nodes| && 0 <= k <= |t.nodes| && 0 <= x < |b.values| && |b.values[x]| == |t.nodes| &&
    RunColumn(b.values[x], t, w, k) == target
  }

  /** A visit of node `j` to an array that every visit steps leaves the rest of the pass to do. */
  lemma {:induction false} VisitsKeepRun(comps: seq<Computer>, t: CTree, x: int, w: seq<real>, target: seq<real>)
    requires Shaped(t) && |w| == |t.nodes| && VisitSteps(comps, t, x, w)
    ensures forall b: AttributeCollection, j ::
              (0 <= j < |t.nodes| && RunsTo(b, t, w, x, j + 1, target) && Runnable(comps, t, |b.values|) && Sized(b, |t.nodes|)) ==>
                RunsTo(Visit(b, comps, t, j), t, w, x, j, target)
  {
    forall b: AttributeCollection, j |
      0 <= j < |t.nodes| && RunsTo(b, t, w, x, j + 1, target) && Runnable(comps, t, |b.values|) && Sized(b, |t.nodes|)
      ensures RunsTo(Visit(b, comps, t, j), t, w, x, j, target)
    {
      RunColumnStep(b.values[x], t, w, j + 1);
    }
  }

  /** Seen from an array that every visit steps, the traversal is the subtree-sum pass over the same nodes. */
  lemma {:induction false} TraversalColumn(a: AttributeCollection, comps: seq<Computer>, t: CTree, m: int, x: int, w: seq<real>)
    requires Runnable(comps, t, |a.values|) && Sized(a, |t.nodes|) && 0 <= m <= |t.nodes|
    requires 0 <= x < |a.values| && |w| == |t.nodes| && VisitSteps(comps, t, x, w)
    ensures Traversal(a, comps, t, m).values[x] == RunColumn(a.values[x], t, w, m)
  {
    var target := RunColumn(a.values[x], t, w, m);
    VisitsKeepRun(comps, t, x, w, target);
    TraversalInduction(a, comps, t, m, (b, k) => RunsTo(b, t, w, x, k, target));
  }

  /** Every visit steps accumulated array `q` of computer `i` with that computer's node weights. */
  lemma {:induction false} AccumVisitSteps(comps: seq<Computer>, t: CTree, i: int, q: int)
    requires Shaped(t) && AllConfigured(comps, t) && 0 <= i < |comps| && 0 <= q < |AccumColumns(comps[i])|
    ensures VisitSteps(comps, t, AccumColumns(comps[i])[q], AccumWeights(comps[i], t, q))
  {
    forall b: AttributeCollection, j |
      Runnable(comps, t, |b.values|) && Sized(b, |t.nodes|) && 0 <= j < |t.nodes| && 0 <= AccumColumns(comps[i])[q] < |b.values|
      ensures Visit(b, comps, t, j).values[AccumColumns(comps[i])[q]] ==
                StepColumn(b.values[AccumColumns(comps[i])[q]], t, AccumWeights(comps[i], t, q), j)
    {
      VisitAccum(b, comps, t, j, i, q);
    }
  }

  /** Seen from an accumulated array, the traversal is the subtree-sum pass over the same nodes. */
  lemma {:induction false} TraversalAccum(a: AttributeCollection, comps: seq<Computer>, t: CTree, m: int, i: int, q: int)
    requires Runnable(comps, t, |a.values|) && Sized(a, |t.nodes|) && 0 <= m <= |t.nodes|
    requires 0 <= i < |comps| && 0 <= q < |AccumColumns(comps[i])|
    ensures 0 <= AccumColumns(comps[i])[q] < |a.values| && |a.values[AccumColumns(comps[i])[q]]| == |t.nodes|
    ensures Traversal(a, comps, t, m).values[AccumColumns(comps[i])[q]] ==
              RunColumn(a.values[AccumColumns(comps[i])[q]], t, AccumWeights(comps[i], t, q), m)
  {
    VisitAccum(a, comps, t, 0, i, q);
    AccumVisitSteps(comps, t, i, q);
    TraversalColumn(a, comps, t, m, AccumColumns(comps[i])[q], AccumWeights(comps[i], t, q));
  }

  /** The pass over the nodes below `m` steps node `m - 1`, then passes over the nodes below it. */
  lemma RunColumnStep(col: seq<real>, t: CTree, w: seq<real>, m: int)
    requires Shaped(t) && |w| == |t.nodes| && |col| == |t.nodes| && 1 <= m <= |t.nodes|
    ensures RunColumn(col, t, w, m) == RunColumn(StepColumn(col, t, w, m - 1), t, w, m - 1)
  {
  }

  /** A visit keeps counter `q` of computer `i` in step with the pass. */
  lemma {:induction false} VisitCounter(a: AttributeCollection, comps: seq<Computer>, t: CTree, m: int, i: int, q: int)
    requires Runnable(comps, t, |a.values|) && Sized(a, |t.nodes|) && 1 <= m <= |t.nodes|
    requires 0 <= i < |comps| && 0 <= q < |AccumColumns(comps[i])| && 0 <= AccumColumns(comps[i])[q] < |a.values|
    requires ColumnAt(a.values[AccumColumns(comps[i])[q]], t, AccumWeights(comps[i], t, q), m)
    ensures ColumnAt(Visit(a, comps, t, m - 1).values[AccumColumns(comps[i])[q]], t, AccumWeights(comps[i], t, q), m - 1)
  {
    VisitAccum(a, comps, t, m - 1, i, q);
    ColumnStep(a.values[AccumColumns(comps[i])[q]], t, AccumWeights(comps[i], t, q), m);
  }

  /** A visit keeps the counters in step with the pass. */
  lemma {:induction false} VisitCounters(a: AttributeCollection, comps: seq<Computer>, t: CTree, m: int, i: int)
    requires Runnable(comps, t, |a.values|) && Sized(a, |t.nodes|) && 1 <= m <= |t.nodes|
    requires 0 <= i < |comps| && comps[i].QuadsComputer? && CountersAfter(a, comps[i], t, m)
    ensures CountersAfter(Visit(a, comps, t, m - 1), comps[i], t, m - 1)
  {
    forall q | 0 <= q < 5
      ensures ColumnAt(Visit(a, comps, t, m - 1).values[AccumColumns(comps[i])[q]], t, AccumWeights(comps[i], t, q), m - 1)
    {
      VisitCounter(a, comps, t, m, i, q);
    }
  }

  /** Cells `m..n-1` of `col` hold the formula of sub-computer `s` of `c` over each node's subtree counters. */
  predicate FormulaFrom(col: seq<real>, c: Computer, t: CTree, s: int, m: int)
    requires c.QuadsComputer? && Configured(c, t) && Shaped(t) && 0 <= s < |c.subs| && 0 <= m <= |t.nodes|
  {
    |col| == |t.nodes| &&
    forall k :: m <= k < |t.nodes| ==> col[k] == SubFormula(c, s, TotalQuads(c, t, k))
  }

  /** Setting cell `m - 1` to its formula extends the cells that hold their formula by one. */
  lemma {:induction false} FormulaExtends(col: seq<real>, c: Computer, t: CTree, s: int, m: int)
    requires c.QuadsComputer? && Configured(c, t) && Shaped(t) && 0 <= s < |c.subs| && 1 <= m <= |t.nodes|
    requires FormulaFrom(col, c, t, s, m)
    ensures FormulaFrom(col[m - 1 := SubFormula(c, s, TotalQuads(c, t, m - 1))], c, t, s, m - 1)
  {
    var col1 := col[m - 1 := SubFormula(c, s, TotalQuads(c, t, m - 1))];
    forall k | m - 1 <= k < |t.nodes|
      ensures col1[k] == SubFormula(c, s, TotalQuads(c, t, k))
    {
      if k >= m {
        assert col1[k] == col[k];
      }
    }
  }

  /**
   * The state of the traversal before node `m - 1` as far as formula array
   * `s` of computer `i` is concerned: the counters are in step and the cells
   * of the nodes already visited hold their formula.
   */
  predicate FormulaState(a: AttributeCollection, comps: seq<Computer>, t: CTree, m: int, i: int, s: int) {
    Runnable(comps, t, |a.values|) && Sized(a, |t.nodes|) && 0 <= m <= |t.nodes| &&
    0 <= i < |comps| && comps[i].QuadsComputer? && 0 <= s < |comps[i].subs| &&
    CountersAfter(a, comps[i], t, m) &&
    0 <= SubColumn(comps[i], s) < |a.values| && FormulaFrom(a.values[SubColumn(comps[i], s)], comps[i], t, s, m)
  }

  /** A visit of node `m - 1` keeps the counters in step and sets the node's formula cell. */
  lemma {:induction false} VisitKeepsFormula(a: AttributeCollection, comps: seq<Computer>, t: CTree, m: int, i: int, s: int)
    requires FormulaState(a, comps, t, m, i, s) && 1 <= m
    ensures FormulaState(Visit(a, comps, t, m - 1), comps, t, m - 1, i, s)
  {
    VisitFormula(a, comps, t, m, i, s);
    FormulaExtends(a.values[SubColumn(comps[i], s)], comps[i], t, s, m);
    VisitCounters(a, comps, t, m, i);
  }

  /** Every visit keeps the formula state of array `s` of computer `i`, one node further on. */
  lemma {:induction false} VisitsKeepFormula(comps: seq<Computer>, t: CTree, i: int, s: int)
    ensures forall b: AttributeCollection, j :: 0 <= j && FormulaState(b, comps, t, j + 1, i, s) ==>
              FormulaState(Visit(b, comps, t, j), comps, t, j, i, s)
  {
    forall b: AttributeCollection, j | 0 <= j && FormulaState(b, comps, t, j + 1, i, s)
      ensures FormulaState(Visit(b, comps, t, j), comps, t, j, i, s)
    {
      VisitKeepsFormula(b, comps, t, j + 1, i, s);
      assert (j + 1) - 1 == j;
    }
  }

  /**
   * Once the counters are in step, the traversal leaves in every cell of a
   * formula array the formula of that node's subtree counters.
   */
  lemma {:induction false} TraversalFormula(a: AttributeCollection, comps: seq<Computer>, t: CTree, m: int, i: int, s: int)
    requires FormulaState(a, comps, t, m, i, s)
    ensures FormulaState(Traversal(a, comps, t, m), comps, t, 0, i, s)
  {
    VisitsKeepFormula(comps, t, i, s);
    TraversalInduction(a, comps, t, m, (b, k) => FormulaState(b, comps, t, k, i, s));
  }

  /* --------------------------- doCompute --------------------------------- */

  /** `doCompute(attrs, ct)` of the collection: `setUp`, then the traversal of every node. */
  function Run(cs: seq<Computer>, a: AttributeCollection, t: CTree, meta: ImageMeta): (r: AttributeCollection)
    requires Ready(cs, t, meta) && Counted(a) && Sized(a, |t.nodes|)
    ensures Counted(r) && Sized(r, |t.nodes|) && |r.values| == |a.values| + Offset(cs, |cs|)
  {
    SetUpReady(cs, a, t, meta);
    SetUpAllTable(cs, a, t, meta);
    var s := SetUpAll(cs, a, t, meta);
    PlacedAbove(cs, s.comps, |a.values|);
    TraversalKeepsPrefix(s.attrs, s.comps, t, |t.nodes|, |a.values|);
    Traversal(s.attrs, s.comps, t, |t.nodes|)
  }

  /**
   * `doCompute` leaves the arrays the collection held untouched, and names
   * the same arrays as pushing every computer's types in order would.
   */
  lemma {:induction false} RunTable(cs: seq<Computer>, a: AttributeCollection, t: CTree, meta: ImageMeta)
    requires Ready(cs, t, meta) && Counted(a) && Sized(a, |t.nodes|)
    ensures Run(cs, a, t, meta).values[..|a.values|] == a.values
    ensures Run(cs, a, t, meta).attrIndex == PushAll(a, AllPushedTypes(cs), |t.nodes|).attrIndex
  {
    SetUpReady(cs, a, t, meta);
    SetUpAllTable(cs, a, t, meta);
    var s := SetUpAll(cs, a, t, meta);
    PlacedAbove(cs, s.comps, |a.values|);
    TraversalKeepsPrefix(s.attrs, s.comps, t, |t.nodes|, |a.values|);
  }

  /** What the traversal needs of the state the collection's `setUp` leaves. */
  lemma {:induction false} SetUpRunnable(cs: seq<Computer>, a: AttributeCollection, t: CTree, meta: ImageMeta)
    requires Ready(cs, t, meta) && Counted(a) && Sized(a, |t.nodes|)
    ensures var s := SetUpAll(cs, a, t, meta);
      Runnable(s.comps, t, |s.attrs.values|) && Sized(s.attrs, |t.nodes|)
  {
    SetUpReady(cs, a, t, meta);
  }

  /** Applies `step` at positions `m - 1` down to `0`, one at a time, and ends
      where `Iterate` ends. */
  method IterateLoop<S>(a: S, m: nat, step: (S, int) -> S) returns (r: S)
    ensures r == Iterate(a, m, step)
  {
    r := a;
    var k := m;
    while k > 0
      invariant 0 <= k <= m && Iterate(r, k, step) == Iterate(a, m, step)
    {
      r := step(r, k - 1);
      k := k - 1;
    }
  }

  /**
   * `doCompute` as the source writes it: `setUp`, then one callback per node
   * in the order `transverse` hands them out, the last id first.
   */
  method DoCompute(cs: seq<Computer>, a: AttributeCollection, t: CTree, meta: ImageMeta) returns (r: AttributeCollection)
    requires Ready(cs, t, meta) && Counted(a) && Sized(a, |t.nodes|)
    ensures r == Run(cs, a, t, meta)
  {
    SetUpRunnable(cs, a, t, meta);
    var s := SetUpAll(cs, a, t, meta);
    r := IterateLoop(s.attrs, |t.nodes|, VisitStep(s.comps, t));
  }

  /** Computers placed from position `b` own no array below it. */
  lemma {:induction false} PlacedAbove(cs: seq<Computer>, comps: seq<Computer>, b: int)
    requires |comps| == |cs| && PlacedAll(cs, comps, b)
    ensures forall k, x :: 0 <= k < |comps| && x in Columns(comps[k]) ==> x >= b
  {
    forall k, x | 0 <= k < |comps| && x in Columns(comps[k])
      ensures x >= b
    {
      PlacedRange(cs, comps, b, k, x);
    }
  }

  /** A visit leaves the arrays no computer owns as they were. */
  lemma {:induction false} VisitKeepsPrefix(a: AttributeCollection, comps: seq<Computer>, t: CTree, j: int, b: int)
    requires Runnable(comps, t, |a.values|) && Sized(a, |t.nodes|) && 0 <= j < |t.nodes| && 0 <= b <= |a.values|
    requires forall k, x :: 0 <= k < |comps| && x in Columns(comps[k]) ==> x >= b
    ensures Visit(a, comps, t, j).values[..b] == a.values[..b]
  {
    var a1 := Visit(a, comps, t, j);
    forall x | 0 <= x < b
      ensures a1.values[x] == a.values[x]
    {
      NodeOpsFit(comps, t, j, |a.values|);
      CollectionOpsElsewhere(comps, t, j, PreHook, x);
      CollectionOpsElsewhere(comps, t, j, PostHook, x);
      var p := t.nodes[j].parent;
      if p != NoParent {
        CollectionOpsElsewhere(comps, t, j, MergeHook(p), x);
        OnColumnConcat(CollectionOps(comps, t, j, PreHook), CollectionOps(comps, t, j, MergeHook(p)), x);
      } else {
        assert PreMergeOps(comps, t, j) == CollectionOps(comps, t, j, PreHook);
      }
      OnColumnConcat(PreMergeOps(comps, t, j), PostOpsAll(comps, t, j), x);
      OnColumnEmpty(NodeOps(comps, t, j), x);
      ExecAllUntouched(a, NodeOps(comps, t, j), |t.nodes|, x);
    }
  }

  /** Every visit leaves the arrays below `b` as they were, when no computer owns one. */
  lemma {:induction false} VisitsKeepPrefix(comps: seq<Computer>, t: CTree, b: int, low: seq<seq<real>>)
    requires 0 <= b
    requires forall k, x :: 0 <= k < |comps| && x in Columns(comps[k]) ==> x >= b
    ensures forall a: AttributeCollection, j ::
              (0 <= j < |t.nodes| && b <= |a.values| && a.values[..b] == low &&
               Runnable(comps, t, |a.values|) && Sized(a, |t.nodes|)) ==>
                Visit(a, comps, t, j).values[..b] == low
  {
    forall a: AttributeCollection, j |
      0 <= j < |t.nodes| && b <= |a.values| && a.values[..b] == low &&
      Runnable(comps, t, |a.values|) && Sized(a, |t.nodes|)
      ensures Visit(a, comps, t, j).values[..b] == low
    {
      VisitKeepsPrefix(a, comps, t, j, b);
    }
  }

  /** The arrays no computer owns are left as they were. */
  lemma {:induction false} TraversalKeepsPrefix(a: AttributeCollection, comps: seq<Computer>, t: CTree, m: int, b: int)
    requires Runnable(comps, t, |a.values|) && Sized(a, |t.nodes|) && 0 <= m <= |t.nodes| && 0 <= b <= |a.values|
    requires forall k, x :: 0 <= k < |comps| && x in Columns(comps[k]) ==> x >= b
    ensures Traversal(a, comps, t, m).values[..b] == a.values[..b]
  {
    var low := a.values[..b];
    VisitsKeepPrefix(comps, t, b, low);
    TraversalInduction(a, comps, t, m, (a1: AttributeCollection, k) => b <= |a1.values| && a1.values[..b] == low);
  }
}

=== FILE: parent_forest.dfy ===
/**
 * The parent array the union-find builder grows, read as a forest: an
 * element reaches its ancestors by following `parent` through strictly
 * later elements.  Subtrees, connectedness of a set of elements under an
 * adjacency, and the two ways `build` changes the array (marking an element
 * as its own parent, hanging one root under another) are described here.
 */
module ParentForest {
  import opened Permutations

  /** One rank per element, each a position. */
  predicate Ranked(parent: seq<int>, rank: seq<int>) {
    |rank| == |parent| && AllBelow(rank, |parent|)
  }

  /** `v` is `a`, or reaches `a` by following `parent` upwards through strictly later elements. */
  predicate Reaches(parent: seq<int>, rank: seq<int>, v: int, a: int)
    requires Ranked(parent, rank) && 0 <= v < |parent|
    decreases |parent| - rank[v]
  {
    v == a ||
    (0 <= parent[v] < |parent| && parent[v] != v && rank[v] < rank[parent[v]] && Reaches(parent, rank, parent[v], a))
  }

  /** The elements that reach `a`: `a` and everything below it. */
  ghost function Subtree(parent: seq<int>, rank: seq<int>, a: int): set<int>
    requires Ranked(parent, rank)
  {
    set v | 0 <= v < |parent| && Reaches(parent, rank, v, a)
  }

  /** `a` and `b` are elements and one lists the other as a neighbour. */
  predicate Adjacent(adj: seq<seq<int>>, a: int, b: int) {
    0 <= a < |adj| && 0 <= b < |adj| && (b in adj[a] || a in adj[b])
  }

  /** `t` holds every element of `s` adjacent to one of its own. */
  predicate ClosedIn(adj: seq<seq<int>>, t: set<int>, s: set<int>) {
    forall a, b :: a in t && b in s && Adjacent(adj, a, b) ==> b in t
  }

  /** `s` is connected: the only non-empty part of `s` closed within `s` is `s` itself. */
  ghost predicate ConnectedSet(adj: seq<seq<int>>, s: set<int>) {
    forall t: set<int> :: t <= s && t != {} && ClosedIn(adj, t, s) ==> s <= t
  }

  /**
   * Below rank `i` the array is a forest: each such element is its own
   * parent or has a parent ranked higher but still below `i`.
   */
  predicate ForestBelow(parent: seq<int>, rank: seq<int>, i: int) {
    Ranked(parent, rank) &&
    forall x :: 0 <= x < |parent| && rank[x] < i ==>
      0 <= parent[x] < |parent| && (parent[x] == x || (rank[x] < rank[parent[x]] && rank[parent[x]] < i))
  }

  /**
   * Every neighbour `b` of an element `a` ranked below `i`, with `b` ranked
   * no higher than `a`, lies in the subtree of `a`.
   */
  ghost predicate EdgesUp(adj: seq<seq<int>>, parent: seq<int>, rank: seq<int>, i: int) {
    Ranked(parent, rank) && |adj| == |parent| &&
    forall a, b :: 0 <= a < |adj| && 0 <= b < |adj| && b in adj[a] && rank[b] <= rank[a] < i ==>
      Reaches(parent, rank, b, a)
  }

  /** Following `parent` only climbs in rank. */
  lemma {:induction false} ReachesRank(parent: seq<int>, rank: seq<int>, v: int, a: int)
    requires Ranked(parent, rank) && 0 <= v < |parent| && Reaches(parent, rank, v, a)
    ensures 0 <= a < |parent| && rank[v] <= rank[a] && (v != a ==> rank[v] < rank[a])
    decreases |parent| - rank[v]
  {
    if v != a {
      ReachesRank(parent, rank, parent[v], a);
    }
  }

  lemma {:induction false} ReachesTransitive(parent: seq<int>, rank: seq<int>, v: int, a: int, b: int)
    requires Ranked(parent, rank) && 0 <= v < |parent| && 0 <= a < |parent|
    requires Reaches(parent, rank, v, a) && Reaches(parent, rank, a, b)
    ensures Reaches(parent, rank, v, b)
    decreases |parent| - rank[v]
  {
    if v != a {
      ReachesTransitive(parent, rank, parent[v], a, b);
    }
  }

  /** Two ancestors of one element lie on one path: one reaches the other. */
  lemma {:induction false} ReachesChain(parent: seq<int>, rank: seq<int>, v: int, a: int, b: int)
    requires Ranked(parent, rank) && 0 <= v < |parent|
    requires Reaches(parent, rank, v, a) && Reaches(parent, rank, v, b)
    ensures 0 <= a < |parent| && 0 <= b < |parent|
    ensures Reaches(parent, rank, a, b) || Reaches(parent, rank, b, a)
    decreases |parent| - rank[v]
  {
    ReachesRank(parent, rank, v, a);
    ReachesRank(parent, rank, v, b);
    if v != a && v != b {
      ReachesChain(parent, rank, parent[v], a, b);
    }
  }

  /** A single element is connected. */
  lemma SingletonConnected(adj: seq<seq<int>>, x: int)
    ensures ConnectedSet(adj, {x})
  {
    forall t: set<int> | t <= {x} && t != {} && ClosedIn(adj, t, {x})
      ensures {x} <= t
    {
      var y :| y in t;
    }
  }

  /** Two connected sets joined by a pair of neighbours make one connected set. */
  lemma {:induction false} JoinConnected(adj: seq<seq<int>>, s1: set<int>, s2: set<int>, a: int, b: int)
    requires ConnectedSet(adj, s1) && ConnectedSet(adj, s2) && a in s1 && b in s2 && Adjacent(adj, a, b)
    ensures ConnectedSet(adj, s1 + s2)
  {
    var s := s1 + s2;
    forall t: set<int> | t <= s && t != {} && ClosedIn(adj, t, s)
      ensures s <= t
    {
      var t1, t2 := t * s1, t * s2;
      assert ClosedIn(adj, t1, s1) && ClosedIn(adj, t2, s2);
      var y :| y in t;
      if y in s1 {
        assert y in t1;
        assert s1 <= t1;
        assert b in t2;
        assert s2 <= t2;
      } else {
        assert y in t2;
        assert s2 <= t2;
        assert Adjacent(adj, b, a);
        assert a in t1;
        assert s1 <= t1;
      }
    }
  }

  /**
   * Hanging the root `r` under the root `p` (`parent[r] = p`): `p` gains what
   * reached `r`, and nothing else changes.
   */
  lemma {:induction false} LinkReaches(parent: seq<int>, rank: seq<int>, r: int, p: int, v: int, a: int)
    requires Ranked(parent, rank) && 0 <= r < |parent| && 0 <= p < |parent| && 0 <= v < |parent|
    requires parent[r] == r && parent[p] == p && r != p && rank[r] < rank[p]
    ensures Reaches(parent[r := p], rank, v, a) <==>
              Reaches(parent, rank, v, a) || (a == p && Reaches(parent, rank, v, r))
    decreases |parent| - rank[v]
  {
    var parent' := parent[r := p];
    if v == r {
      assert Reaches(parent', rank, p, a) <==> p == a;
    } else if v != a && 0 <= parent[v] < |parent| && parent[v] != v && rank[v] < rank[parent[v]] {
      LinkReaches(parent, rank, r, p, parent[v], a);
    }
  }

  /** After the link the subtree of `p` is the union of the two, and every other subtree is unchanged. */
  lemma {:induction false} SubtreeAfterLink(parent: seq<int>, rank: seq<int>, r: int, p: int, x: int)
    requires Ranked(parent, rank) && 0 <= r < |parent| && 0 <= p < |parent|
    requires parent[r] == r && parent[p] == p && r != p && rank[r] < rank[p]
    ensures Subtree(parent[r := p], rank, x) ==
              if x == p then Subtree(parent, rank, p) + Subtree(parent, rank, r) else Subtree(parent, rank, x)
  {
    forall v | 0 <= v < |parent|
      ensures Reaches(parent[r := p], rank, v, x) <==>
                Reaches(parent, rank, v, x) || (x == p && Reaches(parent, rank, v, r))
    {
      LinkReaches(parent, rank, r, p, v, x);
    }
  }

  /** The link keeps every edge that already went up the forest. */
  lemma {:induction false} EdgesUpAfterLink(adj: seq<seq<int>>, parent: seq<int>, rank: seq<int>, i: int, r: int, p: int)
    requires EdgesUp(adj, parent, rank, i) && 0 <= r < |parent| && 0 <= p < |parent|
    requires parent[r] == r && parent[p] == p && r != p && rank[r] < rank[p]
    ensures EdgesUp(adj, parent[r := p], rank, i)
  {
    forall a, b | 0 <= a < |adj| && 0 <= b < |adj| && b in adj[a] && rank[b] <= rank[a] < i
      ensures Reaches(parent[r := p], rank, b, a)
    {
      LinkReaches(parent, rank, r, p, b, a);
    }
  }

  /**
   * Marking `p`, of rank `i`, as its own parent changes no reach to an
   * element ranked below `i`.
   */
  lemma {:induction false} ExtendReaches(parent: seq<int>, rank: seq<int>, i: int, p: int, v: int, a: int)
    requires ForestBelow(parent, rank, i) && 0 <= p < |parent| && rank[p] == i
    requires 0 <= v < |parent| && 0 <= a < |parent| && rank[a] < i
    ensures Reaches(parent[p := p], rank, v, a) <==> Reaches(parent, rank, v, a)
    decreases |parent| - rank[v]
  {
    var parent' := parent[p := p];
    if v != a {
      if rank[v] >= rank[a] {
        if Reaches(parent', rank, v, a) {
          ReachesRank(parent', rank, v, a);
        }
        if Reaches(parent, rank, v, a) {
          ReachesRank(parent, rank, v, a);
        }
      } else if parent[v] != v {
        ExtendReaches(parent, rank, i, p, parent[v], a);
      }
    }
  }

  /** Nothing ranked below `i` reaches the newly marked `p`. */
  lemma {:induction false} ExtendReachesNew(parent: seq<int>, rank: seq<int>, i: int, p: int, v: int)
    requires ForestBelow(parent, rank, i) && 0 <= p < |parent| && rank[p] == i
    requires 0 <= v < |parent| && rank[v] < i
    ensures !Reaches(parent[p := p], rank, v, p)
    decreases |parent| - rank[v]
  {
    if parent[v] != v {
      ExtendReachesNew(parent, rank, i, p, parent[v]);
    }
  }

  /** After marking `p`, its subtree is `{p}` and every subtree below rank `i` is unchanged. */
  lemma {:induction false} SubtreeAfterExtend(parent: seq<int>, rank: seq<int>, i: int, p: int, x: int)
    requires ForestBelow(parent, rank, i) && 0 <= p < |parent| && rank[p] == i
    requires x == p || (0 <= x < |parent| && rank[x] < i)
    ensures Subtree(parent[p := p], rank, x) == if x == p then {p} else Subtree(parent, rank, x)
  {
    var parent' := parent[p := p];
    forall v | 0 <= v < |parent|
      ensures Reaches(parent', rank, v, x) <==> if x == p then v == p else Reaches(parent, rank, v, x)
    {
      if x != p {
        ExtendReaches(parent, rank, i, p, v, x);
      } else if v != p {
        if rank[v] < i {
          ExtendReachesNew(parent, rank, i, p, v);
        } else if Reaches(parent', rank, v, p) {
          ReachesRank(parent', rank, v, p);
        }
      }
    }
  }

  /** Marking `p` keeps every edge that already went up the forest below rank `i`. */
  lemma {:induction false} EdgesUpAfterExtend(adj: seq<seq<int>>, parent: seq<int>, rank: seq<int>, i: int, p: int)
    requires EdgesUp(adj, parent, rank, i) && ForestBelow(parent, rank, i) && 0 <= p < |parent| && rank[p] == i
    ensures EdgesUp(adj, parent[p := p], rank, i)
  {
    forall a, b | 0 <= a < |adj| && 0 <= b < |adj| && b in adj[a] && rank[b] <= rank[a] < i
      ensures Reaches(parent[p := p], rank, b, a)
    {
      ExtendReaches(parent, rank, i, p, b, a);
    }
  }
}

=== FILE: perm.dfy ===
/**
 * Permutations of `0..n-1` held in a sequence, as produced by the index
 * sorters and consumed by the tree builder and the compact tree.
 */
module Permutations {

  /** No value occurs twice. */
  predicate Distinct(s: seq<int>) {
    forall i, j :: 0 <= i < j < |s| ==> s[i] != s[j]
  }

  /** Every entry is a valid index below `n`. */
  predicate AllBelow(s: seq<int>, n: int) {
    forall i :: 0 <= i < |s| ==> 0 <= s[i] < n
  }

  /** `s` lists each of `0..n-1` exactly once. */
  predicate IsPermutation(s: seq<int>, n: nat) {
    |s| == n && AllBelow(s, n) && Distinct(s)
  }

  /** The set `{0, ..., n-1}`. */
  function Range(n: nat): (r: set<int>)
    ensures forall x :: x in r <==> 0 <= x < n
    ensures |r| == n
  {
    if n == 0 then {} else Range(n - 1) + {n - 1}
  }

  /** The values of a sequence without repetition are as many as its length. */
  lemma {:induction false} DistinctCard(s: seq<int>)
    requires Distinct(s)
    ensures |set x | x in s| == |s|
  {
    if s != [] {
      var t := s[..|s| - 1];
      DistinctCard(t);
      assert (set x | x in s) == (set x | x in t) + {s[|s| - 1]};
      assert s[|s| - 1] !in t;
    }
  }

  /** A subset has no more elements than its superset. */
  lemma {:induction false} SubsetCard(a: set<int>, b: set<int>)
    requires a <= b
    ensures |a| <= |b|
  {
    assert b == a + (b - a);
  }

  /** Pigeonhole: a permutation of `0..n-1` reaches every index. */
  lemma {:induction false} Pigeonhole(s: seq<int>, n: nat)
    requires IsPermutation(s, n)
    ensures forall x :: 0 <= x < n ==> x in s
  {
    var a := set x | x in s;
    DistinctCard(s);
    forall x | 0 <= x < n
      ensures x in s
    {
      if x !in s {
        assert a <= Range(n) - {x};
        SubsetCard(a, Range(n) - {x});
      }
    }
  }

  /** Conversely, a sequence without repetition over `0..n-1` that reaches every index is a permutation. */
  lemma {:induction false} CoveringIsPermutation(s: seq<int>, n: nat)
    requires Distinct(s) && AllBelow(s, n)
    requires forall x :: 0 <= x < n ==> x in s
    ensures IsPermutation(s, n)
  {
    var a := set x | x in s;
    DistinctCard(s);
    assert a == Range(n);
  }

  /** The position of `x` in a sequence holding it. */
  function IndexOf(s: seq<int>, x: int): (k: int)
    requires x in s
    ensures 0 <= k < |s| && s[k] == x
    ensures forall j :: 0 <= j < k ==> s[j] != x
  {
    if s[0] == x then 0 else
      assert x in s[1..];
      1 + IndexOf(s[1..], x)
  }

  /** In a sequence without repetition the position of an entry is unique. */
  lemma {:induction false} IndexOfUnique(s: seq<int>, k: int)
    requires Distinct(s) && 0 <= k < |s|
    ensures IndexOf(s, s[k]) == k
  {
  }

  /** `0, 1, ..., n-1` in increasing order. */
  function Iota(n: nat): (r: seq<int>)
    ensures |r| == n && forall i :: 0 <= i < n ==> r[i] == i
  {
    seq(n, i => i)
  }

  /** The identity is a permutation. */
  lemma {:induction false} IotaIsPermutation(n: nat)
    ensures IsPermutation(Iota(n), n)
  {
  }

  /** The inverse of a permutation: `Positions(s, n)[x]` is where `x` sits in `s`. */
  function Positions(s: seq<int>, n: nat): (pos: seq<int>)
    requires IsPermutation(s, n)
    ensures IsPermutation(pos, n)
    ensures forall k :: 0 <= k < n ==> pos[s[k]] == k
    ensures forall x :: 0 <= x < n ==> s[pos[x]] == x
  {
    Pigeonhole(s, n);
    var pos := seq(n, x requires 0 <= x < n => IndexOf(s, x));
    forall k | 0 <= k < n
      ensures pos[s[k]] == k
    {
      IndexOfUnique(s, k);
    }
    pos
  }

  /**
   * A sequence over `0..n-1` with a left inverse `ranks` is a permutation,
   * and `ranks` is its `Positions`.
   */
  lemma {:induction false} InverseWitness(s: seq<int>, n: nat, ranks: seq<int>)
    requires |s| == n && AllBelow(s, n) && |ranks| == n
    requires forall k :: 0 <= k < n ==> ranks[s[k]] == k
    ensures IsPermutation(s, n) && Positions(s, n) == ranks
  {
    forall i, j | 0 <= i < j < n
      ensures s[i] != s[j]
    {
      assert ranks[s[i]] == i && ranks[s[j]] == j;
    }
    var pos := Positions(s, n);
    forall x | 0 <= x < n
      ensures pos[x] == ranks[x]
    {
      assert s[pos[x]] == x;
    }
  }
}

=== FILE: pixel_indexer.dfy ===
/**
 * Pixel indexers: conversion between 2D coordinates and row-major pixel
 * indices of a `width x height` image, with four policies for coordinates
 * that fall outside the image.
 */
module PixelIndexing {
  import opened CArith
  import opened Point2D

  /** Out-of-bounds policy of a pixel indexer. */
  datatype Policy =
    | NearestBorder            // clamp to the nearest border pixel
    | DefaultValue(d: int)     // return a fixed value (-1 unless given)
    | MirrorImage              // wrap around modulo width / height
    | Exception                // raise OutOfBoundsPixelIndexerException

  datatype Indexer = Indexer(width: int, height: int, policy: Policy)

  /** The outcome of an indexing call: a value, or the out-of-bounds exception. */
  datatype Outcome<T> = Ok(value: T) | OutOfBoundsError

  /** The default value of `PixelIndexerDefaultValue` when none is given. */
  const DefaultIndex := -1

  predicate Valid(ix: Indexer) {
    ix.width >= 1 && ix.height >= 1
  }

  predicate InBounds(ix: Indexer, x: int, y: int) {
    0 <= x < ix.width && 0 <= y < ix.height
  }

  function Clamp(v: int, size: int): int
    requires size >= 1
  {
    if v < 0 then 0 else if v >= size then size - 1 else v
  }

  /** The C++ wrap-around of `PixelIndexerMirrorImage`: `v %= size; if (v < 0) v += size;`. */
  function Wrap(v: int, size: int): int
    requires size >= 1
  {
    var m := CMod(v, size);
    if m < 0 then m + size else m
  }

  /** The wrapped coordinate always lies in `[0, size)`. */
  lemma {:induction false} WrapInRange(v: int, size: int)
    requires size >= 1
    ensures 0 <= Wrap(v, size) < size
    ensures 0 <= v < size ==> Wrap(v, size) == v
  {
    CDivModSpec(v, size);
    if 0 <= v < size {
      assert CDiv(v, size) == 0;
    }
  }

  /** `index(px, py)` of each policy. */
  function IndexXY(ix: Indexer, px: int, py: int): (r: Outcome<int>)
    requires Valid(ix)
    ensures InBounds(ix, px, py) ==> r == Ok(ix.width * py + px)
    ensures ix.policy.Exception? ==> (r.OutOfBoundsError? <==> !InBounds(ix, px, py))
    ensures ix.policy.DefaultValue? && !InBounds(ix, px, py) ==> r == Ok(ix.policy.d)
    ensures (ix.policy.NearestBorder? || ix.policy.MirrorImage?) ==>
              r.Ok? && 0 <= r.value < ix.width * ix.height
  {
    var w, h := ix.width, ix.height;
    match ix.policy
    case NearestBorder =>
      var x, y := Clamp(px, w), Clamp(py, h);
      RowMajorInRange(w, h, x, y);
      Ok(w * y + x)
    case DefaultValue(d) =>
      if px < 0 || px >= w || py < 0 || py >= h then Ok(d) else Ok(w * py + px)
    case MirrorImage =>
      var x, y := Wrap(px, w), Wrap(py, h);
      WrapInRange(px, w);
      WrapInRange(py, h);
      RowMajorInRange(w, h, x, y);
      Ok(w * y + x)
    case Exception =>
      if px < 0 || px >= w || py < 0 || py >= h then OutOfBoundsError else Ok(w * py + px)
  }

  /** `index(p)`: a flat index is split into `(p % width, p / width)` with C++ division. */
  function IndexP(ix: Indexer, p: int): (r: Outcome<int>)
    requires Valid(ix)
    ensures 0 <= p < ix.width * ix.height ==> r == Ok(p)
  {
    SplitWhenInRange(ix.width, ix.height, p);
    IndexXY(ix, CMod(p, ix.width), CDiv(p, ix.width))
  }

  /** A valid flat index splits into an in-bounds cell under C++ division. */
  lemma {:induction false} SplitWhenInRange(w: int, h: int, p: int)
    requires w >= 1
    ensures 0 <= p < w * h ==>
              CMod(p, w) == p % w && CDiv(p, w) == p / w
              && 0 <= p % w < w && 0 <= p / w < h && p == w * (p / w) + p % w
  {
    if 0 <= p < w * h {
      IndexSplit(w, h, p);
      CDivModNonNegative(p, w);
    }
  }

  /** `index(point)`. */
  function IndexPoint(ix: Indexer, q: Point): Outcome<int>
    requires Valid(ix)
  {
    IndexXY(ix, q.x, q.y)
  }

  /**
   * `pixel(p)` as written: the base class returns `(i % width, i / height)` with
   * `i = index(p)`; `PixelIndexerDefaultValue` overrides it, computing
   * `r = index(p % width, p / height)` and answering `(r, r)` when `r` is the
   * default value.
   */
  function Pixel(ix: Indexer, p: int): Outcome<Point>
    requires Valid(ix)
  {
    var w, h := ix.width, ix.height;
    match ix.policy
    case DefaultValue(d) =>
      var r := IndexXY(ix, CMod(p, w), CDiv(p, h)).value;
      if r == d then Ok(Point(r, r)) else Ok(Point(CMod(r, w), CDiv(r, h)))
    case _ =>
      match IndexP(ix, p)
      case OutOfBoundsError => OutOfBoundsError
      case Ok(i) => Ok(Point(CMod(i, w), CDiv(i, h)))
  }

  /**
   * `pixel(p)` with the row computed by dividing by the width, as intended. A
   * valid index splits into its column and row, except that the default-value
   * indexer answers `(d, d)` for the index equal to its default `d`.
   */
  function PixelFixed(ix: Indexer, p: int): (r: Outcome<Point>)
    requires Valid(ix)
    ensures 0 <= p < ix.width * ix.height && !(ix.policy.DefaultValue? && ix.policy.d == p) ==>
              r == Ok(Point(p % ix.width, p / ix.width))
    ensures 0 <= p < ix.width * ix.height && ix.policy.DefaultValue? && ix.policy.d == p ==>
              r == Ok(Point(p, p))
  {
    var w := ix.width;
    match ix.policy
    case DefaultValue(d) =>
      SplitWhenInRange(w, ix.height, p);
      var r := IndexXY(ix, CMod(p, w), CDiv(p, w)).value;
      if r == d then Ok(Point(r, r)) else Ok(Point(CMod(r, w), CDiv(r, w)))
    case _ =>
      match IndexP(ix, p)
      case OutOfBoundsError => OutOfBoundsError
      case Ok(i) =>
        SplitWhenInRange(w, ix.height, p);
        Ok(Point(CMod(i, w), CDiv(i, w)))
  }

  /** Every policy answers `width * y + x` for an in-bounds `(x, y)`. */
  lemma {:induction false} InBoundsIndexAgrees(ix: Indexer, x: int, y: int)
    requires Valid(ix) && InBounds(ix, x, y)
    ensures IndexXY(ix, x, y) == Ok(ix.width * y + x)
    ensures 0 <= ix.width * y + x < ix.width * ix.height
  {
    RowMajorInRange(ix.width, ix.height, x, y);
  }

  /** `Clamp` picks, among `[0, size)`, a value nearest to `v`. */
  lemma {:induction false} ClampIsNearest(v: int, size: int, v': int)
    requires size >= 1 && 0 <= v' < size
    ensures 0 <= Clamp(v, size) < size
    ensures Abs(v - Clamp(v, size)) <= Abs(v - v')
    ensures 0 <= v < size ==> Clamp(v, size) == v
  {
  }

  /** NearestBorder answers the in-bounds pixel closest to `(x, y)` along each axis. */
  lemma {:induction false} NearestBorderIsNearest(w: int, h: int, x: int, y: int, x': int, y': int)
    requires w >= 1 && h >= 1
    requires 0 <= x' < w && 0 <= y' < h
    ensures IndexXY(Indexer(w, h, NearestBorder), x, y) == Ok(w * Clamp(y, h) + Clamp(x, w))
    ensures Abs(x - Clamp(x, w)) <= Abs(x - x') && Abs(y - Clamp(y, h)) <= Abs(y - y')
  {
    ClampIsNearest(x, w, x');
    ClampIsNearest(y, h, y');
  }

  /** MirrorImage wraps both coordinates modulo the image size (Euclidean remainder). */
  lemma {:induction false} MirrorIsEuclideanWrap(w: int, h: int, x: int, y: int)
    requires w >= 1 && h >= 1
    ensures IndexXY(Indexer(w, h, MirrorImage), x, y) == Ok(w * (y % h) + x % w)
  {
    WrapIsEuclidean(x, w);
    WrapIsEuclidean(y, h);
  }

  lemma {:induction false} WrapIsEuclidean(v: int, size: int)
    requires size >= 1
    ensures Wrap(v, size) == v % size
  {
    var m := Wrap(v, size);
    var q := CDiv(v, size);
    CDivModSpec(v, size);
    assert v == size * q + CMod(v, size);
    if CMod(v, size) < 0 {
      assert v == size * (q - 1) + m;
    }
    assert 0 <= m < size;
    EuclidUnique(v, size, if CMod(v, size) < 0 then q - 1 else q, m);
  }

  /** Euclidean division is unique: any `v == size * q + m` with `0 <= m < size` is it. */
  lemma {:induction false} EuclidUnique(v: int, size: int, q: int, m: int)
    requires size >= 1 && 0 <= m < size && v == size * q + m
    ensures v % size == m
  {
    var q', m' := v / size, v % size;
    assert size * (q - q') == m' - m;
    if q - q' >= 1 {
      MulMonotone(size, q - q');
    } else if q' - q >= 1 {
      MulMonotone(size, q' - q);
    }
  }

  /** `index(p)` is the identity on the valid indices `[0, width * height)`, for every policy. */
  lemma {:induction false} IndexPIdentity(ix: Indexer, p: int)
    requires Valid(ix) && 0 <= p < ix.width * ix.height
    ensures IndexP(ix, p) == Ok(p)
  {
  }

  /**
   * As written, `pixel` on a square image is the inverse of the row-major
   * index, for every valid index but a default-value indexer's own default.
   */
  lemma {:induction false} PixelSquareRoundTrip(ix: Indexer, p: int)
    requires Valid(ix) && ix.width == ix.height && !(ix.policy.DefaultValue? && ix.policy.d == p)
    requires 0 <= p < ix.width * ix.height
    ensures Pixel(ix, p) == Ok(Point(p % ix.width, p / ix.width))
    ensures IndexPoint(ix, Pixel(ix, p).value) == Ok(p)
  {
    IndexSplit(ix.width, ix.height, p);
    CDivModNonNegative(p, ix.width);
  }

  /** On a square image dividing by the height is dividing by the width: `pixel` as written is the intended one. */
  lemma {:induction false} PixelSquareAgrees(ix: Indexer, p: int)
    requires Valid(ix) && ix.width == ix.height
    ensures Pixel(ix, p) == PixelFixed(ix, p)
  {
  }

  /** As written, `pixel` divides by the height: on a 3x2 image pixel 5 lands on row 2, outside the image. */
  lemma PixelDividesByHeight()
    ensures Pixel(Indexer(3, 2, NearestBorder), 5) == Ok(Point(2, 2))
    ensures !InBounds(Indexer(3, 2, NearestBorder), 2, 2)
    ensures PixelFixed(Indexer(3, 2, NearestBorder), 5) == Ok(Point(2, 1))
  {
    CDivModRowMajor(3, 1, 2);
  }

  /**
   * With the width as divisor, `pixel` inverts `index` on every image shape,
   * for every valid index but a default-value indexer's own default.
   */
  lemma {:induction false} PixelFixedRoundTrip(ix: Indexer, p: int)
    requires Valid(ix) && !(ix.policy.DefaultValue? && ix.policy.d == p)
    requires 0 <= p < ix.width * ix.height
    ensures PixelFixed(ix, p).Ok? && InBounds(ix, PixelFixed(ix, p).value.x, PixelFixed(ix, p).value.y)
    ensures IndexPoint(ix, PixelFixed(ix, p).value) == Ok(p)
  {
    IndexSplit(ix.width, ix.height, p);
  }

  /** With the width as divisor, `pixel` of an in-bounds cell's index gives the cell back. */
  lemma {:induction false} IndexPixelFixedRoundTrip(ix: Indexer, x: int, y: int)
    requires Valid(ix) && InBounds(ix, x, y) && !(ix.policy.DefaultValue? && ix.policy.d == ix.width * y + x)
    ensures PixelFixed(ix, IndexXY(ix, x, y).value) == Ok(Point(x, y))
  {
    RowMajorInRange(ix.width, ix.height, x, y);
    DivModRowMajor(ix.width, y, x);
  }

  /** The reference values on a 3x3 image. */
  lemma ReferenceIndexing()
    ensures IndexXY(Indexer(3, 3, NearestBorder), 5, 5) == Ok(8)
    ensures IndexP(Indexer(3, 3, NearestBorder), 11) == Ok(8)
    ensures IndexXY(Indexer(3, 3, DefaultValue(DefaultIndex)), 5, 5) == Ok(-1)
    ensures IndexP(Indexer(3, 3, DefaultValue(DefaultIndex)), 11) == Ok(-1)
    ensures Pixel(Indexer(3, 3, DefaultValue(DefaultIndex)), 11) == Ok(Point(-1, -1))
    ensures Pixel(Indexer(3, 3, DefaultValue(DefaultIndex)), 4) == Ok(Point(1, 1))
    ensures IndexP(Indexer(3, 3, MirrorImage), 11) == Ok(2)
    ensures Pixel(Indexer(3, 3, MirrorImage), 11) == Ok(Point(2, 0))
    ensures IndexXY(Indexer(3, 3, Exception), 5, 5) == OutOfBoundsError
    ensures IndexP(Indexer(3, 3, Exception), 11) == OutOfBoundsError
    ensures Pixel(Indexer(3, 3, Exception), 11) == OutOfBoundsError
    ensures Pixel(Indexer(3, 3, NearestBorder), 11) == Ok(Point(2, 2))
  {
    CDivModRowMajor(3, 3, 2);
    CDivModRowMajor(3, 1, 1);
    CDivModRowMajor(3, 2, 2);
    CDivModRowMajor(3, 0, 2);
    CDivModRowMajor(3, 1, 0);
  }
}

=== FILE: point.dfy ===
/**
 * Two-dimensional integer points (`IPoint2D`) and their componentwise
 * arithmetic.  Coordinates are unbounded integers; division truncates toward
 * zero like C++ `int` division.
 */
module Point2D {
  import opened CArith

  datatype Point = Point(x: int, y: int)

  /** `p.sum(q)` and `p + q`. */
  function Sum(p: Point, q: Point): Point {
    Point(p.x + q.x, p.y + q.y)
  }

  /** `p.sub(q)` and `p - q`. */
  function Sub(p: Point, q: Point): Point {
    Point(p.x - q.x, p.y - q.y)
  }

  /** `p.mult(v)` and `p * v`. */
  function Mult(p: Point, v: int): Point {
    Point(p.x * v, p.y * v)
  }

  /** `p.div(v)` and `p / v`: each coordinate divided with C++ truncation. */
  function Div(p: Point, v: int): Point
    requires v != 0
  {
    Point(CDiv(p.x, v), CDiv(p.y, v))
  }

  /** `p.isEqual(q)` and `p == q`. */
  predicate IsEqual(p: Point, q: Point) {
    p.x == q.x && p.y == q.y
  }

  /** `p += q`: updates the coordinates one at a time. */
  function AddAssign(p: Point, q: Point): Point {
    var p1 := p.(x := p.x + q.x);
    p1.(y := p1.y + q.y)
  }

  /** `p -= q`. */
  function SubAssign(p: Point, q: Point): Point {
    var p1 := p.(x := p.x - q.x);
    p1.(y := p1.y - q.y)
  }

  /** `p *= v`. */
  function MulAssign(p: Point, v: int): Point {
    var p1 := p.(x := p.x * v);
    p1.(y := p1.y * v)
  }

  /** `p /= v`. */
  function DivAssign(p: Point, v: int): Point
    requires v != 0
  {
    var p1 := p.(x := CDiv(p.x, v));
    p1.(y := CDiv(p1.y, v))
  }

  /** The compound assignment operators give the same point as their binary forms. */
  lemma {:induction false} CompoundFormsAgree(p: Point, q: Point, v: int)
    ensures AddAssign(p, q) == Sum(p, q)
    ensures SubAssign(p, q) == Sub(p, q)
    ensures MulAssign(p, v) == Mult(p, v)
    ensures v != 0 ==> DivAssign(p, v) == Div(p, v)
  {
  }

  /** `isEqual` holds exactly when both coordinates agree, i.e. for the same point. */
  lemma {:induction false} IsEqualIffSame(p: Point, q: Point)
    ensures IsEqual(p, q) <==> p == q
  {
  }

  /** Subtraction undoes addition and addition undoes subtraction. */
  lemma {:induction false} SumSubInverse(p: Point, q: Point)
    ensures Sub(Sum(p, q), q) == p
    ensures Sum(Sub(p, q), q) == p
    ensures Sum(p, q) == Sum(q, p)
  {
  }

  /** Scalar multiplication distributes over the componentwise sum. */
  lemma {:induction false} MultDistributes(p: Point, q: Point, v: int)
    ensures Mult(Sum(p, q), v) == Sum(Mult(p, v), Mult(q, v))
  {
    assert (p.x + q.x) * v == p.x * v + q.x * v;
    assert (p.y + q.y) * v == p.y * v + q.y * v;
  }

  /** Division truncates toward zero: the quotient never overshoots in magnitude. */
  lemma {:induction false} DivTruncates(p: Point, v: int)
    requires v != 0
    ensures Abs(v * Div(p, v).x) <= Abs(p.x) && Abs(p.x - v * Div(p, v).x) < Abs(v)
    ensures Abs(v * Div(p, v).y) <= Abs(p.y) && Abs(p.y - v * Div(p, v).y) < Abs(v)
  {
    CDivModSpec(p.x, v);
    CDivModSpec(p.y, v);
  }

  /** Dividing a multiple by the same non-zero scalar is exact. */
  lemma {:induction false} MultDivRoundTrip(p: Point, v: int)
    requires v != 0
    ensures Div(Mult(p, v), v) == p
  {
    MultDivExact(p.x, v);
    MultDivExact(p.y, v);
  }

  lemma {:induction false} MultDivExact(a: int, v: int)
    requires v != 0
    ensures CDiv(a * v, v) == a
  {
    var q := CDiv(a * v, v);
    CDivModSpec(a * v, v);
    assert Abs(a * v - v * q) < Abs(v);
    assert a * v - v * q == v * (a - q);
    if a - q != 0 {
      AbsMulAtLeast(v, a - q);
    }
  }

  lemma {:induction false} AbsMulAtLeast(v: int, k: int)
    requires v != 0 && k != 0
    ensures Abs(v * k) >= Abs(v)
  {
    AbsMul(v, k);
    MulMonotone(Abs(v), Abs(k));
  }

  lemma {:induction false} AbsMul(v: int, k: int)
    ensures Abs(v * k) == Abs(v) * Abs(k)
  {
    if v < 0 && k >= 0 {
      assert v * k == -((-v) * k);
    } else if v >= 0 && k < 0 {
      assert v * k == -(v * -k);
    } else if v < 0 && k < 0 {
      assert v * k == (-v) * (-k);
    }
  }

  /** The reference values: (3,4) and (-2,5) sum to (1,9) and differ by (5,-1); (3,4) / 2 is (1,2). */
  lemma ReferenceArithmetic()
    ensures Sum(Point(3, 4), Point(-2, 5)) == Point(1, 9)
    ensures Sub(Point(3, 4), Point(-2, 5)) == Point(5, -1)
    ensures Mult(Point(3, 4), 2) == Point(6, 8)
    ensures Div(Point(3, 4), 2) == Point(1, 2)
    ensures IsEqual(Point(3, 4), Point(3, 4)) && !IsEqual(Point(3, 4), Point(-2, 5))
  {
  }
}

=== FILE: quads.dfy ===
/**
 * The bit-quad counting of `AttributeComputerQuads`: the base-3 code of a
 * pixel's comparisons with its 8 neighbours, the decision table it indexes,
 * the five counters each pixel contributes, and the attribute formulas over
 * the counters.
 */
module QuadsCounting {
  import opened CArith
  import opened Point2D
  import opened PixelIndexing
  import opened AttributeStore

  /** `QTreeType` and `QConnectivity`. */
  datatype QTreeType = QMaxTree | QMinTree
  datatype QConnectivity = Four | Eight

  /** The 3x3 window around a pixel, in the order of the code's digits. */
  const Window: seq<Point> :=
    [Point(-1, -1), Point(0, -1), Point(1, -1), Point(-1, 0),
     Point(1, 0), Point(-1, 1), Point(0, 1), Point(1, 1)]

  /** `NUM_DT_LEAVES`: one table row per 8-digit base-3 code. */
  const NumDtLeaves := 6561

  /** The positions of the nine counters in a table row. */
  const P1 := 0
  const P2 := 1
  const P3 := 2
  const P4 := 3
  const PD := 4
  const P1T := 5
  const P2T := 6
  const P3T := 7
  const PDT := 8

  /** What `readDT` leaves in `_dt`: 6561 rows of 9 bytes. */
  predicate ValidTable(dt: seq<seq<int>>) {
    |dt| == NumDtLeaves &&
    forall i :: 0 <= i < |dt| ==> |dt[i]| == 9 && forall j :: 0 <= j < 9 ==> 0 <= dt[i][j] < 256
  }

  /** `isOutOfDomain`: the default index of the pixel indexer is negative. */
  predicate IsOutOfDomain(index: int) {
    index < 0
  }

  /**
   * `isLower(ip, iq)`: the neighbour has a lower value; a neighbour outside
   * the image counts as lower for a max-tree.
   */
  predicate IsLower(f: seq<int>, tt: QTreeType, ip: int, iq: int)
    requires 0 <= ip < |f| && iq < |f|
  {
    if IsOutOfDomain(iq) then tt == QMaxTree else f[iq] < f[ip]
  }

  /** `isGreater(ip, iq)`: outside the image counts as greater for a min-tree. */
  predicate IsGreater(f: seq<int>, tt: QTreeType, ip: int, iq: int)
    requires 0 <= ip < |f| && iq < |f|
  {
    if IsOutOfDomain(iq) then tt == QMinTree else f[iq] > f[ip]
  }

  /**
   * The digit `counting` writes for one neighbour: '0' when lower, else '2'
   * when greater, else the initial '1'.  Lower and greater never hold
   * together, so each digit names exactly one of the three relations.
   */
  function Digit(f: seq<int>, tt: QTreeType, ip: int, iq: int): (d: int)
    requires 0 <= ip < |f| && iq < |f|
    ensures 0 <= d <= 2
    ensures d == 0 <==> IsLower(f, tt, ip, iq)
    ensures d == 2 <==> IsGreater(f, tt, ip, iq)
    ensures d == 1 <==> !IsLower(f, tt, ip, iq) && !IsGreater(f, tt, ip, iq)
  {
    if IsLower(f, tt, ip, iq) then 0 else if IsGreater(f, tt, ip, iq) then 2 else 1
  }

  function Pow3(n: nat): (p: nat)
    ensures p >= 1
  {
    if n == 0 then 1 else 3 * Pow3(n - 1)
  }

  predicate Base3Digits(ds: seq<int>) {
    forall i :: 0 <= i < |ds| ==> 0 <= ds[i] <= 2
  }

  /** `std::stoi(coding, 0, 3)`: the digits read in base 3, most significant first. */
  function Base3(ds: seq<int>): (v: int)
    requires Base3Digits(ds)
    ensures 0 <= v < Pow3(|ds|)
    decreases |ds|
  {
    if ds == [] then 0 else 3 * Base3(ds[..|ds| - 1]) + ds[|ds| - 1]
  }

  /** The `n` base-3 digits of `v`, most significant first: the inverse of `Base3`. */
  function ToBase3(v: nat, n: nat): (ds: seq<int>)
    ensures |ds| == n && Base3Digits(ds)
  {
    if n == 0 then [] else ToBase3(v / 3, n - 1) + [v % 3]
  }

  /** Reading digits back from their value recovers them. */
  lemma {:induction false} Base3RoundTrip(ds: seq<int>)
    requires Base3Digits(ds)
    ensures ToBase3(Base3(ds), |ds|) == ds
    decreases |ds|
  {
    if ds != [] {
      var init := ds[..|ds| - 1];
      Base3RoundTrip(init);
      var v := Base3(ds);
      assert v / 3 == Base3(init) && v % 3 == ds[|ds| - 1];
      assert ds == init + [ds[|ds| - 1]];
    }
  }

  /** Every value below `3^n` is the reading of its own `n` digits. */
  lemma {:induction false} ToBase3RoundTrip(v: nat, n: nat)
    requires v < Pow3(n)
    ensures Base3(ToBase3(v, n)) == v
    decreases n
  {
    if n > 0 {
      ToBase3RoundTrip(v / 3, n - 1);
      var ds := ToBase3(v, n);
      assert ds[..|ds| - 1] == ToBase3(v / 3, n - 1);
    }
  }

  /** Eight base-3 digits span exactly the table's rows. */
  lemma Pow3Window()
    ensures Pow3(|Window|) == NumDtLeaves
  {
    assert Pow3(1) == 3 && Pow3(2) == 9 && Pow3(3) == 27 && Pow3(4) == 81;
    assert Pow3(5) == 243 && Pow3(6) == 729 && Pow3(7) == 2187;
  }

  /** The geometry `counting` works in: the image size, with out-of-image indices answered by -1. */
  predicate CodingFrame(ix: Indexer, f: seq<int>) {
    Valid(ix) && ix.policy == DefaultValue(DefaultIndex) && |f| == ix.width * ix.height
  }

  /** The index `_pixelIndexer->index(p + n)` of the neighbour at window offset `n`. */
  function NeighbourIndex(ix: Indexer, f: seq<int>, ip: int, i: int): (iq: int)
    requires CodingFrame(ix, f) && 0 <= ip < |f| && 0 <= i < |Window|
    ensures iq < |f|
    ensures iq >= 0 ==> InBounds(ix, PixelFixed(ix, ip).value.x + Window[i].x, PixelFixed(ix, ip).value.y + Window[i].y)
  {
    var p := PixelFixed(ix, ip).value;
    var q := Sum(p, Window[i]);
    InBoundsOrDefault(ix, q.x, q.y);
    IndexPoint(ix, q).value
  }

  /**
   * The neighbour index as `counting` computes it, through `pixel` as
   * written (which divides the flat index by the height).
   */
  function NeighbourIndexAsWritten(ix: Indexer, f: seq<int>, ip: int, i: int): (iq: int)
    requires CodingFrame(ix, f) && 0 <= ip < |f| && 0 <= i < |Window|
    ensures iq < |f|
    ensures iq >= 0 ==> InBounds(ix, Pixel(ix, ip).value.x + Window[i].x, Pixel(ix, ip).value.y + Window[i].y)
  {
    var p := Pixel(ix, ip).value;
    var q := Sum(p, Window[i]);
    InBoundsOrDefault(ix, q.x, q.y);
    IndexPoint(ix, q).value
  }

  /** On a square image the as-written lookup finds the same neighbour as `NeighbourIndex`. */
  lemma {:induction false} NeighbourIndexSquare(ix: Indexer, f: seq<int>, ip: int, i: int)
    requires CodingFrame(ix, f) && 0 <= ip < |f| && 0 <= i < |Window| && ix.width == ix.height
    ensures NeighbourIndexAsWritten(ix, f, ip, i) == NeighbourIndex(ix, f, ip, i)
  {
    PixelSquareAgrees(ix, ip);
  }

  /**
   * On a 3x2 image the last pixel `(2, 1)` has its upper-left neighbour
   * `(1, 0)`, index 1; the as-written lookup sends the pixel to `(-1, -1)`
   * and finds no neighbour there.
   */
  lemma NeighbourIndexAsWrittenMisses(f: seq<int>)
    requires |f| == 6
    ensures NeighbourIndexAsWritten(Indexer(3, 2, DefaultValue(DefaultIndex)), f, 5, 0) == DefaultIndex
    ensures NeighbourIndex(Indexer(3, 2, DefaultValue(DefaultIndex)), f, 5, 0) == 1
  {
    CDivModRowMajor(3, 1, 2);
    CDivModRowMajor(2, 2, 1);
  }

  /**
   * `NeighbourIndex` is the row-major index of the pixel at window offset
   * `i` from pixel `ip`, or -1 exactly when that pixel lies outside the image.
   */
  lemma {:induction false} NeighbourIndexIsNeighbour(ix: Indexer, f: seq<int>, ip: int, i: int)
    requires CodingFrame(ix, f) && 0 <= ip < |f| && 0 <= i < |Window|
    ensures var x, y := ip % ix.width + Window[i].x, ip / ix.width + Window[i].y;
      NeighbourIndex(ix, f, ip, i) == if InBounds(ix, x, y) then ix.width * y + x else DefaultIndex
  {
    SplitWhenInRange(ix.width, ix.height, ip);
    var x, y := ip % ix.width + Window[i].x, ip / ix.width + Window[i].y;
    InBoundsOrDefault(ix, x, y);
  }

  /** With the default policy an index is either the row-major cell or -1. */
  lemma {:induction false} InBoundsOrDefault(ix: Indexer, x: int, y: int)
    requires Valid(ix) && ix.policy == DefaultValue(DefaultIndex)
    ensures IndexXY(ix, x, y).Ok?
    ensures InBounds(ix, x, y) ==> 0 <= IndexXY(ix, x, y).value < ix.width * ix.height
    ensures !InBounds(ix, x, y) ==> IndexXY(ix, x, y).value == DefaultIndex
  {
    if InBounds(ix, x, y) {
      InBoundsIndexAgrees(ix, x, y);
    }
  }

  /**
   * The code string of `counting(ip)` as digits: digit `i` compares pixel
   * `ip` with its neighbour at window offset `i`.
   */
  function Coding(ix: Indexer, f: seq<int>, tt: QTreeType, ip: int): (ds: seq<int>)
    requires CodingFrame(ix, f) && 0 <= ip < |f|
    ensures |ds| == |Window| && Base3Digits(ds)
    ensures forall i :: 0 <= i < |Window| ==> ds[i] == Digit(f, tt, ip, NeighbourIndex(ix, f, ip, i))
  {
    seq(|Window|, i requires 0 <= i < |Window| => Digit(f, tt, ip, NeighbourIndex(ix, f, ip, i)))
  }

  /** The row of the decision table `counting(ip)` returns. */
  function CodeIndex(ix: Indexer, f: seq<int>, tt: QTreeType, ip: int): (idt: int)
    requires CodingFrame(ix, f) && 0 <= ip < |f|
    ensures 0 <= idt < NumDtLeaves
  {
    Pow3Window();
    Base3(Coding(ix, f, tt, ip))
  }

  /**
   * The table row pins down every comparison: its base-3 digits are the
   * code, so two pixels with the same row compare alike with each neighbour.
   */
  lemma {:induction false} CodeIndexDecodes(ix: Indexer, f: seq<int>, tt: QTreeType, ip: int)
    requires CodingFrame(ix, f) && 0 <= ip < |f|
    ensures ToBase3(CodeIndex(ix, f, tt, ip), |Window|) == Coding(ix, f, tt, ip)
  {
    Base3RoundTrip(Coding(ix, f, tt, ip));
  }

  /**
   * A pixel whose eight neighbours all lie in the image with its own value
   * codes "11111111", row 3280.
   */
  lemma {:induction false} FlatNeighbourhoodCode(ix: Indexer, f: seq<int>, tt: QTreeType, ip: int)
    requires CodingFrame(ix, f) && 0 <= ip < |f|
    requires forall i :: 0 <= i < |Window| ==>
               0 <= NeighbourIndex(ix, f, ip, i) && f[NeighbourIndex(ix, f, ip, i)] == f[ip]
    ensures Coding(ix, f, tt, ip) == [1, 1, 1, 1, 1, 1, 1, 1]
    ensures CodeIndex(ix, f, tt, ip) == 3280
  {
    var ds := Coding(ix, f, tt, ip);
    assert ds == [1, 1, 1, 1, 1, 1, 1, 1];
    AllOnesCode();
  }

  /** "11111111" read in base 3. */
  lemma AllOnesCode()
    ensures Base3([1, 1, 1, 1, 1, 1, 1, 1]) == 3280
  {
    AllOnes(8);
    assert seq(8, i => 1) == [1, 1, 1, 1, 1, 1, 1, 1];
    Pow3Window();
  }

  /** `n` digits '1' read in base 3 make `(3^n - 1) / 2`. */
  lemma {:induction false} AllOnes(n: nat)
    ensures Base3Digits(seq(n, i => 1)) && 2 * Base3(seq(n, i => 1)) + 1 == Pow3(n)
  {
    if n > 0 {
      AllOnes(n - 1);
      var ds := seq(n, i => 1);
      assert ds[..n - 1] == seq(n - 1, i => 1);
    }
  }

  /**
   * A pixel of the image corner `(0, 0)` sees the three neighbours above and
   * the two to its left outside the image: in a max-tree those digits are
   * '0', in a min-tree '2'.
   */
  lemma {:induction false} CornerOutsideDigits(ix: Indexer, f: seq<int>, tt: QTreeType)
    requires CodingFrame(ix, f)
    ensures forall i :: i in {0, 1, 2, 3, 5} ==>
              Coding(ix, f, tt, 0)[i] == if tt == QMaxTree then 0 else 2
  {
    assert PixelFixed(ix, 0).value == Point(0, 0) by {
      InBoundsIndexAgrees(ix, 0, 0);
      assert IndexXY(ix, 0, 0) == Ok(0);
    }
    forall i | i in {0, 1, 2, 3, 5}
      ensures Coding(ix, f, tt, 0)[i] == if tt == QMaxTree then 0 else 2
    {
      assert Window[i].x < 0 || Window[i].y < 0;
      OutsideDigit(ix, f, tt, 0, i);
    }
  }

  /** A neighbour outside the image makes digit '0' in a max-tree and '2' in a min-tree. */
  lemma {:induction false} OutsideDigit(ix: Indexer, f: seq<int>, tt: QTreeType, ip: int, i: int)
    requires CodingFrame(ix, f) && 0 <= ip < |f| && 0 <= i < |Window|
    requires !InBounds(ix, PixelFixed(ix, ip).value.x + Window[i].x, PixelFixed(ix, ip).value.y + Window[i].y)
    ensures Coding(ix, f, tt, ip)[i] == if tt == QMaxTree then 0 else 2
  {
    var q := Sum(PixelFixed(ix, ip).value, Window[i]);
    InBoundsOrDefault(ix, q.x, q.y);
    assert NeighbourIndex(ix, f, ip, i) == DefaultIndex;
  }


  /** The row `counting(ip)` returns. */
  function Counting(dt: seq<seq<int>>, ix: Indexer, f: seq<int>, tt: QTreeType, ip: int): (c: seq<int>)
    requires ValidTable(dt) && CodingFrame(ix, f) && 0 <= ip < |f|
    ensures |c| == 9
  {
    dt[CodeIndex(ix, f, tt, ip)]
  }

  /** The five counters of a node, in the order Q1, Q2, QD, Q3, Q4. */
  datatype Quads = Quads(q1: real, q2: real, qd: real, q3: real, q4: real)

  const NoQuads := Quads(0.0, 0.0, 0.0, 0.0, 0.0)

  function AddQuads(a: Quads, b: Quads): Quads {
    Quads(a.q1 + b.q1, a.q2 + b.q2, a.qd + b.qd, a.q3 + b.q3, a.q4 + b.q4)
  }

  /**
   * What `preProcess` adds for one element: `c[P] - c[PT]` for Q1, Q2, Q3 and
   * QD, and `c[P4]` for Q4.
   */
  function Contribution(dt: seq<seq<int>>, ix: Indexer, f: seq<int>, tt: QTreeType, ip: int): (q: Quads)
    requires ValidTable(dt) && CodingFrame(ix, f) && 0 <= ip < |f|
    ensures -255.0 <= q.q1 <= 255.0 && -255.0 <= q.q2 <= 255.0 && -255.0 <= q.qd <= 255.0
    ensures -255.0 <= q.q3 <= 255.0 && 0.0 <= q.q4 <= 255.0
  {
    var c := Counting(dt, ix, f, tt, ip);
    Quads((c[P1] - c[P1T]) as real, (c[P2] - c[P2T]) as real, (c[PD] - c[PDT]) as real,
          (c[P3] - c[P3T]) as real, c[P4] as real)
  }

  /** The attributes computed from the counters. */
  datatype QAttrKind = QAreaKind | QCAreaKind | QPerimeterKind | QCPerimeterKind | QEulerNumberKind

  /**
   * `attrType()` of each attribute-from-quads computer (`QCArea` and
   * `QCPerimeter` spell the continuous types `QUADS_CONTINUOS_...`).
   */
  function KindType(k: QAttrKind): AttrType {
    match k
    case QAreaKind => QuadsArea
    case QCAreaKind => QuadsContinuousArea
    case QPerimeterKind => QuadsPerimeter
    case QCPerimeterKind => QuadsContinuousPerimeter
    case QEulerNumberKind => QuadsEulerNumber
  }

  /** `QArea::compute`: `(Q1 + 2 Q2 + 2 QD + 3 Q3 + 4 Q4) / 4`. */
  function QArea(q: Quads): real {
    (q.q1 + 2.0 * q.q2 + 2.0 * q.qd + 3.0 * q.q3 + 4.0 * q.q4) / 4.0
  }

  /** `QCArea::compute`: `(Q1/2 + Q2 + QD + 7 Q3/2 + 4 Q4) / 4`. */
  function QCArea(q: Quads): real {
    0.25 * (q.q1 / 2.0 + q.q2 + q.qd + (7.0 / 2.0) * q.q3 + 4.0 * q.q4)
  }

  /** `QPerimeter::compute`: `Q1 + Q2 + 2 QD + Q3`. */
  function QPerimeter(q: Quads): real {
    q.q1 + q.q2 + 2.0 * q.qd + q.q3
  }

  /** `QCPerimeter::compute`: `Q2 + (Q1 + Q3) / 1.41`. */
  function QCPerimeter(q: Quads): real {
    q.q2 + (q.q1 + q.q3) / 1.41
  }

  /** `QEulerNumber::compute`: `(Q1 - Q3 + 2 QD) / 4` for 4-connectivity, `(Q1 - Q3 - 2 QD) / 4` for 8. */
  function QEulerNumber(q: Quads, con: QConnectivity): real {
    if con == Four then (q.q1 - q.q3 + 2.0 * q.qd) / 4.0 else (q.q1 - q.q3 - 2.0 * q.qd) / 4.0
  }

  /** The value the sub-computer of kind `k` writes for counters `q`. */
  function Formula(k: QAttrKind, con: QConnectivity, q: Quads): real {
    match k
    case QAreaKind => QArea(q)
    case QCAreaKind => QCArea(q)
    case QPerimeterKind => QPerimeter(q)
    case QCPerimeterKind => QCPerimeter(q)
    case QEulerNumberKind => QEulerNumber(q, con)
  }

  /**
   * Every formula is linear in the counters, so it distributes over the
   * counters of disjoint regions added together.
   */
  lemma {:induction false} FormulaAdditive(k: QAttrKind, con: QConnectivity, a: Quads, b: Quads)
    ensures Formula(k, con, AddQuads(a, b)) == Formula(k, con, a) + Formula(k, con, b)
  {
  }

  /**
   * The two Euler numbers differ by exactly `QD`: the diagonal quads are the
   * only pattern the connectivity reads differently.
   */
  lemma {:induction false} EulerConnectivityGap(q: Quads)
    ensures QEulerNumber(q, Four) - QEulerNumber(q, Eight) == q.qd
  {
  }

  /**
   * The bit-quad counters of the five nodes of the 6x6 max-tree example,
   * counted by hand from the image: no proof derives them from `Counting`.
   */
  const MaxTreeQuads: seq<Quads> :=
    [Quads(4.0, 20.0, 0.0, 0.0, 25.0), Quads(4.0, 14.0, 0.0, 0.0, 12.0), Quads(8.0, 8.0, 1.0, 2.0, 6.0),
     Quads(4.0, 0.0, 0.0, 0.0, 0.0), Quads(4.0, 12.0, 0.0, 4.0, 0.0)]

  /** The hand-counted bit-quad counters of the five nodes of the 6x6 min-tree example. */
  const MinTreeQuads: seq<Quads> :=
    [Quads(4.0, 20.0, 0.0, 0.0, 25.0), Quads(6.0, 22.0, 0.0, 2.0, 10.0), Quads(4.0, 2.0, 0.0, 0.0, 0.0),
     Quads(8.0, 20.0, 1.0, 10.0, 1.0), Quads(6.0, 26.0, 0.0, 2.0, 0.0)]

  /** The area, perimeter, Euler number and continuous area the max-tree example expects. */
  lemma ReferenceMaxTreeAttributes()
    ensures forall k :: 0 <= k < 5 ==>
              QArea(MaxTreeQuads[k]) == [36.0, 20.0, 14.0, 1.0, 10.0][k] &&
              QPerimeter(MaxTreeQuads[k]) == [24.0, 18.0, 20.0, 4.0, 20.0][k] &&
              QEulerNumber(MaxTreeQuads[k], Eight) == [1.0, 1.0, 1.0, 1.0, 0.0][k] &&
              QCArea(MaxTreeQuads[k]) == [30.5, 16.0, 11.0, 0.5, 7.0][k]
    ensures QCPerimeter(MaxTreeQuads[0]) == 3220.0 / 141.0
  {
    forall k | 0 <= k < 5
      ensures QArea(MaxTreeQuads[k]) == [36.0, 20.0, 14.0, 1.0, 10.0][k]
      ensures QPerimeter(MaxTreeQuads[k]) == [24.0, 18.0, 20.0, 4.0, 20.0][k]
      ensures QEulerNumber(MaxTreeQuads[k], Eight) == [1.0, 1.0, 1.0, 1.0, 0.0][k]
      ensures QCArea(MaxTreeQuads[k]) == [30.5, 16.0, 11.0, 0.5, 7.0][k]
    {
      assert k == 0 || k == 1 || k == 2 || k == 3 || k == 4;
    }
  }

  /** The attributes the min-tree example expects, including the Euler number -1 of node 3. */
  lemma ReferenceMinTreeAttributes()
    ensures forall k :: 0 <= k < 5 ==>
              QArea(MinTreeQuads[k]) == [36.0, 24.0, 2.0, 21.0, 16.0][k] &&
              QPerimeter(MinTreeQuads[k]) == [24.0, 30.0, 6.0, 40.0, 34.0][k] &&
              QEulerNumber(MinTreeQuads[k], Eight) == [1.0, 1.0, 1.0, -1.0, 1.0][k] &&
              QCArea(MinTreeQuads[k]) == [30.5, 18.0, 1.0, 16.0, 9.0][k]
  {
    forall k | 0 <= k < 5
      ensures QArea(MinTreeQuads[k]) == [36.0, 24.0, 2.0, 21.0, 16.0][k]
      ensures QPerimeter(MinTreeQuads[k]) == [24.0, 30.0, 6.0, 40.0, 34.0][k]
      ensures QEulerNumber(MinTreeQuads[k], Eight) == [1.0, 1.0, 1.0, -1.0, 1.0][k]
      ensures QCArea(MinTreeQuads[k]) == [30.5, 18.0, 1.0, 16.0, 9.0][k]
    {
      assert k == 0 || k == 1 || k == 2 || k == 3 || k == 4;
    }
  }
}

=== FILE: rank.dfy ===
/**
 * The stable ascending order of a sequence of keys, described by ranks: the
 * rank of element `i` is the number of elements with a smaller key plus the
 * number of earlier elements with the same key.  Every stable sort of indices
 * puts element `i` at position `Rank(keys, i)`.
 */
module StableRank {
  import opened Permutations

  /** The number of `j < hi` with `keys[j] < x`. */
  function CountLess(keys: seq<int>, x: int, hi: nat): (c: nat)
    requires hi <= |keys|
    ensures c <= hi
  {
    if hi == 0 then 0 else CountLess(keys, x, hi - 1) + (if keys[hi - 1] < x then 1 else 0)
  }

  /** The number of `j < hi` with `keys[j] == x`. */
  function CountEq(keys: seq<int>, x: int, hi: nat): (c: nat)
    requires hi <= |keys|
    ensures c <= hi
  {
    if hi == 0 then 0 else CountEq(keys, x, hi - 1) + (if keys[hi - 1] == x then 1 else 0)
  }

  /** The position of element `i` in the stable ascending order of `keys`. */
  function Rank(keys: seq<int>, i: int): int
    requires 0 <= i < |keys|
  {
    CountLess(keys, keys[i], |keys|) + CountEq(keys, keys[i], i)
  }

  /** Element `a` comes before element `b` in the stable ascending order. */
  predicate Before(keys: seq<int>, a: int, b: int)
    requires 0 <= a < |keys| && 0 <= b < |keys|
  {
    keys[a] < keys[b] || (keys[a] == keys[b] && a < b)
  }

  /** The keys less than `x + 1` are those less than `x` and those equal to `x`. */
  lemma {:induction false} CountNext(keys: seq<int>, x: int, hi: nat)
    requires hi <= |keys|
    ensures CountLess(keys, x + 1, hi) == CountLess(keys, x, hi) + CountEq(keys, x, hi)
  {
    if hi > 0 {
      CountNext(keys, x, hi - 1);
    }
  }

  lemma {:induction false} CountLessMonotone(keys: seq<int>, x: int, y: int, hi: nat)
    requires hi <= |keys| && x <= y
    ensures CountLess(keys, x, hi) <= CountLess(keys, y, hi)
  {
    if hi > 0 {
      CountLessMonotone(keys, x, y, hi - 1);
    }
  }

  lemma {:induction false} CountEqMonotone(keys: seq<int>, x: int, lo: nat, hi: nat)
    requires lo <= hi <= |keys|
    ensures CountEq(keys, x, lo) <= CountEq(keys, x, hi)
  {
    if lo < hi {
      CountEqMonotone(keys, x, lo, hi - 1);
    }
  }

  /** When every key is non-negative, no key is below zero. */
  lemma {:induction false} CountLessZero(keys: seq<int>, hi: nat)
    requires hi <= |keys| && forall j :: 0 <= j < |keys| ==> keys[j] >= 0
    ensures CountLess(keys, 0, hi) == 0
  {
    if hi > 0 {
      CountLessZero(keys, hi - 1);
    }
  }

  /** The keys below `x` and the keys equal to `x` together are at most all of them. */
  lemma {:induction false} CountTotal(keys: seq<int>, x: int, hi: nat)
    requires hi <= |keys|
    ensures CountLess(keys, x, hi) + CountEq(keys, x, hi) <= hi
  {
    CountNext(keys, x, hi);
  }

  /** Ranks are positions: each lies in `[0, |keys|)`. */
  lemma {:induction false} RankInRange(keys: seq<int>, i: int)
    requires 0 <= i < |keys|
    ensures 0 <= Rank(keys, i) < |keys|
  {
    var x := keys[i];
    assert CountEq(keys, x, i + 1) == CountEq(keys, x, i) + 1;
    CountEqMonotone(keys, x, i + 1, |keys|);
    CountTotal(keys, x, |keys|);
  }

  /** The rank order is the stable ascending order, in both directions. */
  lemma {:induction false} RankOrder(keys: seq<int>, a: int, b: int)
    requires 0 <= a < |keys| && 0 <= b < |keys| && a != b
    ensures Rank(keys, a) < Rank(keys, b) <==> Before(keys, a, b)
  {
    if Before(keys, a, b) {
      RankBefore(keys, a, b);
    } else {
      RankBefore(keys, b, a);
    }
  }

  lemma {:induction false} RankBefore(keys: seq<int>, a: int, b: int)
    requires 0 <= a < |keys| && 0 <= b < |keys| && Before(keys, a, b)
    ensures Rank(keys, a) < Rank(keys, b)
  {
    var n, x, y := |keys|, keys[a], keys[b];
    assert CountEq(keys, x, a + 1) == CountEq(keys, x, a) + 1;
    if x < y {
      CountEqMonotone(keys, x, a + 1, n);
      CountNext(keys, x, n);
      CountLessMonotone(keys, x + 1, y, n);
    } else {
      CountEqMonotone(keys, x, a + 1, b);
    }
  }

  /** Distinct elements have distinct ranks. */
  lemma {:induction false} RankInjective(keys: seq<int>, a: int, b: int)
    requires 0 <= a < |keys| && 0 <= b < |keys| && a != b
    ensures Rank(keys, a) != Rank(keys, b)
  {
    RankOrder(keys, a, b);
    RankOrder(keys, b, a);
  }

  /** The rank of every element, in element order. */
  function Ranks(keys: seq<int>): (r: seq<int>)
    ensures IsPermutation(r, |keys|)
    ensures forall i :: 0 <= i < |keys| ==> r[i] == Rank(keys, i)
  {
    var r := seq(|keys|, i requires 0 <= i < |keys| => Rank(keys, i));
    forall i | 0 <= i < |keys|
      ensures 0 <= r[i] < |keys|
    {
      RankInRange(keys, i);
    }
    forall i, j | 0 <= i < j < |keys|
      ensures r[i] != r[j]
    {
      RankInjective(keys, i, j);
    }
    r
  }

  /** `idx` places each element `j` at its rank. */
  predicate PlacesByRank(keys: seq<int>, idx: seq<int>) {
    |idx| == |keys| &&
    forall j :: 0 <= j < |keys| ==> 0 <= Rank(keys, j) < |idx| && idx[Rank(keys, j)] == j
  }

  /** `idx` lists the indices of `keys` in non-decreasing key order. */
  predicate Ascending(keys: seq<int>, idx: seq<int>)
    requires AllBelow(idx, |keys|)
  {
    forall p, q :: 0 <= p < q < |idx| ==> keys[idx[p]] <= keys[idx[q]]
  }

  /** Equal keys keep the order of their indices. */
  predicate Stable(keys: seq<int>, idx: seq<int>)
    requires AllBelow(idx, |keys|)
  {
    forall p, q :: 0 <= p < q < |idx| && keys[idx[p]] == keys[idx[q]] ==> idx[p] < idx[q]
  }

  /** A stable ascending sort of the indices of `keys`. */
  predicate StableAscendingSort(keys: seq<int>, idx: seq<int>) {
    IsPermutation(idx, |keys|) && Ascending(keys, idx) && Stable(keys, idx)
  }

  /** Placing every element at its rank yields a stable ascending sort. */
  lemma {:induction false} PlacementSorts(keys: seq<int>, idx: seq<int>)
    requires PlacesByRank(keys, idx)
    ensures StableAscendingSort(keys, idx)
    ensures forall p :: 0 <= p < |idx| ==> Rank(keys, idx[p]) == p
  {
    var n, r := |keys|, Ranks(keys);
    Pigeonhole(r, n);
    forall p | 0 <= p < n
      ensures 0 <= idx[p] < n && Rank(keys, idx[p]) == p
    {
      var j := IndexOf(r, p);
      assert idx[p] == j;
    }
    forall p, q | 0 <= p < q < n
      ensures idx[p] != idx[q]
      ensures keys[idx[p]] <= keys[idx[q]]
      ensures keys[idx[p]] == keys[idx[q]] ==> idx[p] < idx[q]
    {
      RankOrder(keys, idx[p], idx[q]);
    }
  }

  /** Two placements by rank are the same sequence. */
  lemma {:induction false} PlacementUnique(keys: seq<int>, a: seq<int>, b: seq<int>)
    requires PlacesByRank(keys, a) && PlacesByRank(keys, b)
    ensures a == b
  {
    PlacementSorts(keys, a);
    forall p | 0 <= p < |a|
      ensures a[p] == b[p]
    {
      assert b[Rank(keys, a[p])] == a[p];
    }
  }

  /** Conversely, every stable ascending sort places each element at its rank. */
  lemma {:induction false} SortPlacesByRank(keys: seq<int>, idx: seq<int>)
    requires StableAscendingSort(keys, idx)
    ensures PlacesByRank(keys, idx)
  {
    var n := |keys|;
    var f := seq(n, p requires 0 <= p < n => Rank(keys, idx[p]));
    forall p | 0 <= p < n
      ensures 0 <= f[p] < n
    {
      RankInRange(keys, idx[p]);
    }
    forall p, q | 0 <= p < q < n
      ensures f[p] < f[q]
    {
      RankOrder(keys, idx[p], idx[q]);
    }
    IncreasingIsIdentity(f, n);
    Pigeonhole(idx, n);
    forall j | 0 <= j < n
      ensures 0 <= Rank(keys, j) < n && idx[Rank(keys, j)] == j
    {
      var p := IndexOf(idx, j);
      assert f[p] == p;
    }
  }

  /** A strictly increasing sequence of `n` values in `[0, n)` is the identity. */
  lemma {:induction false} IncreasingIsIdentity(s: seq<int>, n: nat)
    requires |s| == n && AllBelow(s, n)
    requires forall p, q :: 0 <= p < q < n ==> s[p] < s[q]
    ensures forall p :: 0 <= p < n ==> s[p] == p
  {
    forall p | 0 <= p < n
      ensures s[p] == p
    {
      AtLeastIndex(s, p);
      AtMostIndex(s, n, p);
    }
  }

  lemma {:induction false} AtLeastIndex(s: seq<int>, p: nat)
    requires p < |s| && AllBelow(s, |s|)
    requires forall i, j :: 0 <= i < j < |s| ==> s[i] < s[j]
    ensures s[p] >= p
  {
    if p > 0 {
      AtLeastIndex(s, p - 1);
    }
  }

  lemma {:induction false} AtMostIndex(s: seq<int>, n: nat, p: nat)
    requires |s| == n && p < n && AllBelow(s, n)
    requires forall i, j :: 0 <= i < j < n ==> s[i] < s[j]
    ensures s[p] <= p
    decreases n - p
  {
    if p < n - 1 {
      AtMostIndex(s, n, p + 1);
    }
  }

  /** The stable ascending order of `keys`, as a sequence of indices. */
  function StableOrder(keys: seq<int>): (idx: seq<int>)
    ensures PlacesByRank(keys, idx)
  {
    var n, r := |keys|, Ranks(keys);
    Pigeonhole(r, n);
    var idx := seq(n, p requires 0 <= p < n => IndexOf(r, p));
    forall j | 0 <= j < n
      ensures 0 <= Rank(keys, j) < n && idx[Rank(keys, j)] == j
    {
      IndexOfUnique(r, j);
    }
    idx
  }

  /** The stable order is the one and only stable ascending sort of the indices. */
  lemma {:induction false} StableOrderCharacterised(keys: seq<int>, idx: seq<int>)
    ensures StableAscendingSort(keys, StableOrder(keys))
    ensures StableAscendingSort(keys, idx) <==> idx == StableOrder(keys)
  {
    PlacementSorts(keys, StableOrder(keys));
    if StableAscendingSort(keys, idx) {
      SortPlacesByRank(keys, idx);
      PlacementUnique(keys, idx, StableOrder(keys));
    }
  }
}

=== FILE: reference_run.dfy ===
/**
 * The attribute tests' scenario on the reference tree: a computer counting
 * the nodes of each subtree pushed first and the area computer second, run
 * on an empty collection. The counter holds `[5, 4, 2, 1, 1]` and the areas
 * `[9, 7, 3, 3, 1]`, under the types the two computers push, in that order.
 */
module ReferenceRun {
  import opened CompactTree
  import opened AttributeStore
  import opened SubtreeSums
  import opened IncrementalAttributes
  import opened IncrementalRun
  import opened RunResults
  import opened ReferenceTree

  /** The test computer (one per node, summed over the subtree) followed by the area computer. */
  const Computers: seq<Computer> := [NodeCounter(0), AreaComputer(0)]

  /** The 3x3 image the reference tree was built from. */
  const Meta: ImageMeta := ImageMeta(3, 3)

  /** The subtree sums of a weight of one per node on the reference tree. */
  lemma ReferenceNodeTotals()
    ensures Shaped(CTree(ReferenceNodes, ReferenceMap))
    ensures var t, w := CTree(ReferenceNodes, ReferenceMap), seq(5, j => 1.0);
      Total(t, w, 4) == 1.0 && Total(t, w, 3) == 1.0 && Total(t, w, 2) == 2.0 &&
      Total(t, w, 1) == 4.0 && Total(t, w, 0) == 5.0
  {
    ReferenceWellFormed();
    var t, w := CTree(ReferenceNodes, ReferenceMap), seq(5, j => 1.0);
    assert Total(t, w, 4) == 1.0 && Total(t, w, 3) == 1.0;
    assert Total(t, w, 2) == 2.0;
    assert Total(t, w, 1) == 4.0;
  }

  /** The number of nodes in each subtree of the reference tree. */
  lemma ReferenceSubtreeSizes(k: int)
    requires 0 <= k < 5
    ensures Shaped(CTree(ReferenceNodes, ReferenceMap))
    ensures |SubtreeNodes(CTree(ReferenceNodes, ReferenceMap), k)| as real == [5.0, 4.0, 2.0, 1.0, 1.0][k]
  {
    ReferenceNodeTotals();
    TotalCountsNodes(CTree(ReferenceNodes, ReferenceMap), k);
  }

  /** The number of pixels in each component of the reference tree. */
  lemma ReferenceAreas(k: int)
    requires 0 <= k < 5
    ensures Shaped(CTree(ReferenceNodes, ReferenceMap))
    ensures |Reconstruct(CTree(ReferenceNodes, ReferenceMap), k)| as real == [9.0, 7.0, 3.0, 3.0, 1.0][k]
  {
    ReferenceReconstruct();
    ReferenceReconstructLower();
    var t := CTree(ReferenceNodes, ReferenceMap);
    assert Reconstruct(t, 4) == [6];
    assert Reconstruct(t, 0) == [1, 7] + Reconstruct(t, 1);
  }

  /**
   * A node counter followed by an area computer, run on an empty collection,
   * leave the subtree sizes in array 0 and the component sizes in array 1.
   */
  lemma {:induction false} CounterThenArea(cs: seq<Computer>, a: AttributeCollection, t: CTree, meta: ImageMeta, k: int)
    requires |cs| == 2 && cs[0].NodeCounter? && cs[1].AreaComputer?
    requires Ready(cs, t, meta) && Counted(a) && a.values == [] && 0 <= k < |t.nodes|
    ensures |Run(cs, a, t, meta).values| == 2 && |Run(cs, a, t, meta).values[0]| == |Run(cs, a, t, meta).values[1]| == |t.nodes|
    ensures Run(cs, a, t, meta).values[0][k] == |SubtreeNodes(t, k)| as real
    ensures Run(cs, a, t, meta).values[1][k] == |Reconstruct(t, k)| as real
  {
    RunAccumulates(cs, a, t, meta, 0, 0);
    RunAccumulates(cs, a, t, meta, 1, 0);
    assert Offset(cs, 0) == 0 && Offset(cs, 1) == 1 && Offset(cs, 2) == 2;
    assert Expected(cs[0], t, meta, 0, k) == |SubtreeNodes(t, k)| as real;
    assert Expected(cs[1], t, meta, 0, k) == |Reconstruct(t, k)| as real;
  }

  /** The same for every node at once, given the subtree and component sizes. */
  lemma {:induction false} CounterThenAreaAll(cs: seq<Computer>, a: AttributeCollection, t: CTree, meta: ImageMeta,
                                              counts: seq<real>, areas: seq<real>)
    requires |cs| == 2 && cs[0].NodeCounter? && cs[1].AreaComputer?
    requires Ready(cs, t, meta) && Counted(a) && a.values == []
    requires |counts| == |areas| == |t.nodes|
    requires forall k :: 0 <= k < |t.nodes| ==> |SubtreeNodes(t, k)| as real == counts[k]
    requires forall k :: 0 <= k < |t.nodes| ==> |Reconstruct(t, k)| as real == areas[k]
    ensures Run(cs, a, t, meta).values == [counts, areas]
  {
    var r := Run(cs, a, t, meta);
    forall k | 0 <= k < |t.nodes|
      ensures |r.values| == 2 && |r.values[0]| == |r.values[1]| == |t.nodes|
      ensures r.values[0][k] == counts[k] && r.values[1][k] == areas[k]
    {
      CounterThenArea(cs, a, t, meta, k);
    }
    CounterThenArea(cs, a, t, meta, 0);
    assert r.values[0] == counts && r.values[1] == areas;
  }

  /** The test attribute is at position 0 and the area at position 1. */
  lemma ReferenceRunTable(cs: seq<Computer>, a: AttributeCollection, t: CTree, meta: ImageMeta)
    requires cs == Computers && a == Empty() && t == CTree(ReferenceNodes, ReferenceMap) && meta == Meta
    ensures Ready(cs, t, meta) && Counted(a) && Sized(a, |t.nodes|)
    ensures Run(cs, a, t, meta).attrIndex == map[TestAttribute := 0, Area := 1]
  {
    ReferenceWellFormed();
    RunTable(cs, a, t, meta);
    assert AllPushedTypes(cs) == [TestAttribute, Area];
    assert PushAll(a, [TestAttribute, Area], 5).attrIndex == map[TestAttribute := 0, Area := 1];
  }

  /** The subtree size of every node of the reference tree. */
  lemma ReferenceCounts(t: CTree)
    requires t == CTree(ReferenceNodes, ReferenceMap)
    ensures Shaped(t) && |t.nodes| == 5
    ensures forall k :: 0 <= k < 5 ==> |SubtreeNodes(t, k)| as real == [5.0, 4.0, 2.0, 1.0, 1.0][k]
  {
    ReferenceWellFormed();
    forall k | 0 <= k < 5
      ensures |SubtreeNodes(t, k)| as real == [5.0, 4.0, 2.0, 1.0, 1.0][k]
    {
      ReferenceSubtreeSizes(k);
    }
  }

  /** The component size of every node of the reference tree. */
  lemma ReferenceComponentSizes(t: CTree)
    requires t == CTree(ReferenceNodes, ReferenceMap)
    ensures Shaped(t) && |t.nodes| == 5
    ensures forall k :: 0 <= k < 5 ==> |Reconstruct(t, k)| as real == [9.0, 7.0, 3.0, 3.0, 1.0][k]
  {
    ReferenceWellFormed();
    forall k | 0 <= k < 5
      ensures |Reconstruct(t, k)| as real == [9.0, 7.0, 3.0, 3.0, 1.0][k]
    {
      ReferenceAreas(k);
    }
  }

  /**
   * `compute` on the reference tree: the node counts come first, under the
   * test attribute, and the areas second, under the area type.
   */
  lemma ReferenceRunResults(cs: seq<Computer>, a: AttributeCollection, t: CTree, meta: ImageMeta)
    requires cs == Computers && a == Empty() && t == CTree(ReferenceNodes, ReferenceMap) && meta == Meta
    ensures Ready(cs, t, meta) && Counted(a) && Sized(a, |t.nodes|)
    ensures Run(cs, a, t, meta).values == [[5.0, 4.0, 2.0, 1.0, 1.0], [9.0, 7.0, 3.0, 3.0, 1.0]]
    ensures Run(cs, a, t, meta).attrIndex == map[TestAttribute := 0, Area := 1]
  {
    ReferenceRunTable(cs, a, t, meta);
    ReferenceCounts(t);
    ReferenceComponentSizes(t);
    CounterThenAreaAll(cs, a, t, meta, [5.0, 4.0, 2.0, 1.0, 1.0], [9.0, 7.0, 3.0, 3.0, 1.0]);
  }
}

=== FILE: reference_tree.dfy ===
/**
 * The 3x3 scenario of the component-tree tests: the image
 * `[2,0,3,2,1,3,7,0,3]`. Two parent arrays are studied on it. `Parents` is the
 * array the attribute tests write out by hand; it is compactable only along
 * the non-increasing order `MaxOrder`, which no sorter of the library
 * produces. `BuiltParents` is the canonical array the union-find gives along
 * the max-tree counting order `Sorted`; its compact tree is the one `build`
 * returns in the max-tree builder test. The two trees share node count,
 * levels, parents, children and node map, and differ in the order of the
 * elements each node lists.
 */
module ReferenceTree {
  import opened Permutations
  import opened TreeBuilder
  import opened CompactTree
  import opened NodeCreation
  import opened StableRank
  import opened IndexSort

  const Image: seq<int> := [2, 0, 3, 2, 1, 3, 7, 0, 3]
  const Sorted: seq<int> := [6, 2, 5, 8, 0, 3, 4, 1, 7]
  const Parents: seq<int> := [4, 1, 4, 0, 1, 2, 0, 1, 2]
  const Roots: seq<int> := [1, 4, 0, 2, 6]

  /**
   * A non-increasing order of `Image` along which every element of `Parents`
   * points later: equal values are taken children first.
   */
  const MaxOrder: seq<int> := [6, 5, 8, 2, 3, 0, 4, 7, 1]

  /** `Sorted` is the order the max-tree counting sort gives `Image` as `unsigned char` values. */
  lemma ReferenceSortedIsCountingOrder()
    ensures StableOrder(Complement(Image, MaxValue(UnsignedChar))) == Sorted
  {
    var keys := [253, 255, 252, 253, 254, 252, 248, 255, 252];
    assert Complement(Image, MaxValue(UnsignedChar)) == keys;
    assert CountLess(keys, 248, 9) == 0 && CountLess(keys, 252, 9) == 1;
    assert CountLess(keys, 253, 9) == 4 && CountLess(keys, 254, 9) == 6 && CountLess(keys, 255, 9) == 7;
    assert Rank(keys, 0) == 4;
    assert Rank(keys, 1) == 7;
    assert Rank(keys, 2) == 1;
    assert Rank(keys, 3) == 5;
    assert Rank(keys, 4) == 6;
    assert Rank(keys, 5) == 2;
    assert Rank(keys, 6) == 0;
    assert Rank(keys, 7) == 8;
    assert Rank(keys, 8) == 3;
    StableOrderFromRanks(keys, [4, 7, 1, 5, 6, 2, 0, 8, 3], Sorted);
  }

  /** `MaxOrder` lists the elements of `Image` from the largest value to the smallest. */
  lemma ReferenceMaxOrderSorted()
    ensures SortedIndex(Image, MaxOrder, Greater)
  {
    ReferenceMaxOrderPermutation();
    ReferenceMaxOrderValues();
    NonIncreasingOrdered(Image, MaxOrder, [7, 3, 3, 3, 2, 2, 1, 0, 0]);
  }

  lemma ReferenceMaxOrderPermutation()
    ensures IsPermutation(MaxOrder, 9)
  {
    ReferenceMaxOrderRanks();
  }

  /** The values of `Image` along `MaxOrder`. */
  lemma ReferenceMaxOrderValues()
    ensures AllBelow(MaxOrder, |Image|)
    ensures forall k :: 0 <= k < 9 ==> Image[MaxOrder[k]] == [7, 3, 3, 3, 2, 2, 1, 0, 0][k]
  {
    forall k | 0 <= k < 9
      ensures 0 <= MaxOrder[k] < 9 && Image[MaxOrder[k]] == [7, 3, 3, 3, 2, 2, 1, 0, 0][k]
    {
      assert k == 0 || k == 1 || k == 2 || k == 3 || k == 4 || k == 5 || k == 6 || k == 7 || k == 8;
    }
  }

  /** Listing values that never increase from one position to the next is an order by `>`. */
  lemma {:induction false} NonIncreasingOrdered(v: seq<int>, idx: seq<int>, vals: seq<int>)
    requires AllBelow(idx, |v|) && |vals| == |idx|
    requires forall k :: 0 <= k < |idx| ==> v[idx[k]] == vals[k]
    requires forall k :: 1 <= k < |vals| ==> vals[k] <= vals[k - 1]
    ensures OrderedBy(v, idx, Greater)
  {
    forall p, q | 0 <= p < q < |idx|
      ensures !Cmp(Greater, v[idx[q]], v[idx[p]])
    {
      NonIncreasingBetween(vals, p, q);
    }
  }

  lemma {:induction false} NonIncreasingBetween(vals: seq<int>, p: int, q: int)
    requires forall k :: 1 <= k < |vals| ==> vals[k] <= vals[k - 1]
    requires 0 <= p <= q < |vals|
    ensures vals[q] <= vals[p]
    decreases q - p
  {
    if p < q {
      NonIncreasingBetween(vals, p, q - 1);
    }
  }

  /** The position of every element in `MaxOrder`. */
  lemma ReferenceMaxOrderRanks()
    ensures IsPermutation(MaxOrder, 9) && Positions(MaxOrder, 9) == [5, 8, 3, 4, 6, 1, 0, 7, 2]
  {
    var rank := [5, 8, 3, 4, 6, 1, 0, 7, 2];
    assert forall k :: 0 <= k < 9 ==> 0 <= MaxOrder[k] < 9 && rank[MaxOrder[k]] == k;
    InverseWitness(MaxOrder, 9, rank);
  }

  /**
   * `Parents` is a parent array `createNodes` accepts along `MaxOrder`: a
   * permutation, every parent later in it, every parent a level root, and the
   * last element the only root.
   */
  lemma ReferenceCompactable()
    ensures Compactable(Parents, Image, MaxOrder)
  {
    var p, e, s := Parents, Image, MaxOrder;
    ReferenceMaxOrderRanks();
    var rank := [5, 8, 3, 4, 6, 1, 0, 7, 2];
    forall x | 0 <= x < 9
      ensures 0 <= p[x] < 9 && (p[x] == x || rank[x] < rank[p[x]])
      ensures IsLevelRoot(p, e, p[x]) && (p[x] == x <==> x == s[8])
    {
      assert x == 0 || x == 1 || x == 2 || x == 3 || x == 4 || x == 5 || x == 6 || x == 7 || x == 8;
    }
  }

  /** Scanning `MaxOrder` from its end meets the same level roots as scanning `Sorted`. */
  lemma ReferenceMaxOrderLevelRoots()
    ensures LevelRoots(Parents, Image, MaxOrder) == Roots
  {
    var p, e, s := Parents, Image, MaxOrder;
    assert AllBelow(p, 9) && AllBelow(s, 9);
    assert LevelRootsFrom(p, e, s, 9) == [];
    assert LevelRootsFrom(p, e, s, 8) == [1];
    assert LevelRootsFrom(p, e, s, 7) == [1];
    assert LevelRootsFrom(p, e, s, 6) == [1, 4];
    assert LevelRootsFrom(p, e, s, 5) == [1, 4, 0];
    assert LevelRootsFrom(p, e, s, 4) == [1, 4, 0];
    assert LevelRootsFrom(p, e, s, 3) == [1, 4, 0, 2];
    assert LevelRootsFrom(p, e, s, 2) == [1, 4, 0, 2];
    assert LevelRootsFrom(p, e, s, 1) == [1, 4, 0, 2];
    assert LevelRootsFrom(p, e, s, 0) == [1, 4, 0, 2, 6];
  }

  /** The level roots `createNodes` meets first along any non-decreasing order of `Image`. */
  lemma {:induction false} AscendingLevelRootsFrom(s: seq<int>, i: int)
    requires SortedIndex(Image, s, Less) && 0 <= i <= 9
    ensures AllBelow(Parents, 9) && AllBelow(s, 9)
    ensures i <= 8 ==> |LevelRootsFrom(Parents, Image, s, i)| >= 1 && LevelRootsFrom(Parents, Image, s, i)[0] == 6
    decreases 9 - i
  {
    assert AllBelow(Parents, 9);
    if i <= 8 {
      AscendingEndsWithMaximum(s);
      if i == 8 {
        assert LevelRootsFrom(Parents, Image, s, 9) == [];
        assert IsLevelRoot(Parents, Image, 6);
      } else {
        AscendingLevelRootsFrom(s, i + 1);
      }
    }
  }

  /** The only element of value 7 comes last in any non-decreasing order of `Image`. */
  lemma AscendingEndsWithMaximum(s: seq<int>)
    requires SortedIndex(Image, s, Less)
    ensures s[8] == 6
  {
    var pos := Positions(s, 9);
    assert s[pos[6]] == 6;
  }

  /**
   * Handed any non-decreasing order of `Image` (the order the attribute tests
   * sort with `elements[i1] < elements[i2]`), `createNodes` takes element 6 as
   * the root, though `Parents` gives it the parent 0: the level roots are not
   * listed root first, and along the stable such order the second level root,
   * 2, looks up the node of its parent 4 before 4 has one.
   */
  lemma AscendingOrderNotCompactable(s: seq<int>)
    requires SortedIndex(Image, s, Less)
    ensures AllBelow(Parents, 9) && AllBelow(s, 9)
    ensures |LevelRoots(Parents, Image, s)| >= 1 && LevelRoots(Parents, Image, s)[0] == 6 && Parents[6] != 6
    ensures !RootsListed(Parents, Image, LevelRoots(Parents, Image, s)) && !Compactable(Parents, Image, s)
  {
    AscendingLevelRootsFrom(s, 0);
    assert Parents[6] == 0;
  }

  /** The stable non-decreasing order of `Image`: the order the attribute tests' sort gives when it keeps ties in index order. */
  lemma AscendingStableOrder()
    ensures StableOrder(Image) == [1, 7, 4, 0, 3, 2, 5, 8, 6]
  {
    var keys := Image;
    assert CountLess(keys, 0, 9) == 0 && CountLess(keys, 1, 9) == 2 && CountLess(keys, 2, 9) == 3;
    assert CountLess(keys, 3, 9) == 5 && CountLess(keys, 7, 9) == 8;
    assert Rank(keys, 0) == 3;
    assert Rank(keys, 1) == 0;
    assert Rank(keys, 2) == 5;
    assert Rank(keys, 3) == 4;
    assert Rank(keys, 4) == 2;
    assert Rank(keys, 5) == 6;
    assert Rank(keys, 6) == 8;
    assert Rank(keys, 7) == 1;
    assert Rank(keys, 8) == 7;
    StableOrderFromRanks(keys, [3, 0, 5, 4, 2, 6, 8, 1, 7], [1, 7, 4, 0, 3, 2, 5, 8, 6]);
  }

  /**
   * Along the stable non-decreasing order the level roots come out as
   * `[6, 2, 0, 4, 1]`: the second one, 2, has the parent 4, which is listed
   * after it, so the lookup of its parent's node finds no node yet.
   */
  lemma AscendingLevelRoots()
    ensures AllBelow(Parents, 9) && LevelRoots(Parents, Image, [1, 7, 4, 0, 3, 2, 5, 8, 6]) == [6, 2, 0, 4, 1]
    ensures Parents[2] == 4 && 4 !in [6, 2, 0, 4, 1][..2]
  {
    var p, e, s := Parents, Image, [1, 7, 4, 0, 3, 2, 5, 8, 6];
    assert AllBelow(p, 9) && AllBelow(s, 9);
    assert LevelRootsFrom(p, e, s, 9) == [];
    assert LevelRootsFrom(p, e, s, 8) == [6];
    assert LevelRootsFrom(p, e, s, 7) == [6];
    assert LevelRootsFrom(p, e, s, 6) == [6];
    assert LevelRootsFrom(p, e, s, 5) == [6, 2];
    assert LevelRootsFrom(p, e, s, 4) == [6, 2];
    assert LevelRootsFrom(p, e, s, 3) == [6, 2, 0];
    assert LevelRootsFrom(p, e, s, 2) == [6, 2, 0, 4];
    assert LevelRootsFrom(p, e, s, 1) == [6, 2, 0, 4];
    assert LevelRootsFrom(p, e, s, 0) == [6, 2, 0, 4, 1];
  }

  /** The level roots are exactly 0, 1, 2, 4 and 6. */
  lemma ReferenceLevelRootSet()
    ensures forall x :: 0 <= x < 9 ==> (IsLevelRoot(Parents, Image, x) <==> x in {0, 1, 2, 4, 6})
  {
    forall x | 0 <= x < 9
      ensures IsLevelRoot(Parents, Image, x) <==> x in {0, 1, 2, 4, 6}
    {
      assert x == 0 || x == 1 || x == 2 || x == 3 || x == 4 || x == 5 || x == 6 || x == 7 || x == 8;
    }
  }

  /** Scanning the order from its end meets the level roots as `[1, 4, 0, 2, 6]`. */
  lemma ReferenceLevelRoots()
    ensures LevelRoots(Parents, Image, Sorted) == Roots
  {
    var p, e, s := Parents, Image, Sorted;
    assert AllBelow(p, 9) && AllBelow(s, 9);
    assert LevelRootsFrom(p, e, s, 9) == [];
    assert LevelRootsFrom(p, e, s, 8) == [];
    assert LevelRootsFrom(p, e, s, 7) == [1];
    assert LevelRootsFrom(p, e, s, 6) == [1, 4];
    assert LevelRootsFrom(p, e, s, 5) == [1, 4];
    assert LevelRootsFrom(p, e, s, 4) == [1, 4, 0];
    assert LevelRootsFrom(p, e, s, 3) == [1, 4, 0];
    assert LevelRootsFrom(p, e, s, 2) == [1, 4, 0];
    assert LevelRootsFrom(p, e, s, 1) == [1, 4, 0, 2];
    assert LevelRootsFrom(p, e, s, 0) == [1, 4, 0, 2, 6];
  }

  lemma ReferenceRootsListed()
    ensures RootsListed(Parents, Image, Roots)
  {
    ReferenceLevelRootSet();
    var p, e, r := Parents, Image, Roots;
    assert AllBelow(p, 9) && AllBelow(r, 9) && Distinct(r);
    forall x | 0 <= x < 9
      ensures ParentOf(p, x) in r
    {
      assert x == 0 || x == 1 || x == 2 || x == 3 || x == 4 || x == 5 || x == 6 || x == 7 || x == 8;
    }
    forall x | 0 <= x < 9
      ensures x in r <==> IsLevelRoot(p, e, x)
    {
      assert x in r <==> x in {0, 1, 2, 4, 6};
    }
    forall j, k | 0 <= j < 5 && 0 < k < 5 && r[j] == p[r[k]]
      ensures j < k
    {
      assert k == 1 || k == 2 || k == 3 || k == 4;
    }
  }

  /** The node of every element. */
  lemma ReferenceNodeMap()
    ensures RootsListed(Parents, Image, Roots)
    ensures forall e :: 0 <= e < 9 ==> NodeOf(Parents, Image, Roots, e) == [2, 0, 3, 2, 1, 3, 4, 0, 3][e]
  {
    ReferenceRootsListed();
    ReferenceLevelRootSet();
    var m := [2, 0, 3, 2, 1, 3, 4, 0, 3];
    forall e | 0 <= e < 9
      ensures NodeOf(Parents, Image, Roots, e) == m[e]
    {
      var k := NodeOf(Parents, Image, Roots, e);
      assert Roots[k] == CanonicalElement(Parents, Image, e);
      assert e == 0 || e == 1 || e == 2 || e == 3 || e == 4 || e == 5 || e == 6 || e == 7 || e == 8;
      IndexOfUnique(Roots, m[e]);
    }
  }

  /** The parent node of every node other than the root. */
  lemma ReferenceParentNodes()
    ensures RootsListed(Parents, Image, Roots)
    ensures forall k :: 1 <= k < 5 ==> ParentNode(Parents, Image, Roots, k) == [-1, 0, 1, 1, 2][k]
  {
    ReferenceRootsListed();
    var p, e, r := Parents, Image, Roots;
    forall k | 1 <= k < 5
      ensures ParentNode(p, e, r, k) == [-1, 0, 1, 1, 2][k]
    {
      var q := [-1, 0, 1, 1, 2][k];
      assert k == 1 || k == 2 || k == 3 || k == 4;
      assert 0 <= q < 5 && r[q] == p[r[k]];
      IndexOfUnique(r, q);
    }
  }

  /** The children of node `k`. */
  lemma {:induction false} ReferenceChildNodes(k: int)
    requires 0 <= k < 5
    ensures RootsListed(Parents, Image, Roots)
    ensures ChildNodes(Parents, Image, Roots, k, 5) == [[1], [2, 3], [4], [], []][k]
  {
    ReferenceParentNodes();
    var p, e, r := Parents, Image, Roots;
    var expected := [[1], [2, 3], [4], [], []][k];
    forall c
      ensures c in expected <==> 1 <= c < 5 && ParentNode(p, e, r, c) == k
    {
      if 1 <= c < 5 {
        assert c == 1 || c == 2 || c == 3 || c == 4;
      }
    }
    ChildNodesAre(p, e, r, k, expected);
  }

  /** The elements node `k` holds besides its level root. */
  lemma {:induction false} ReferenceOwnedElements(k: int)
    requires 0 <= k < 5
    ensures RootsListed(Parents, Image, Roots)
    ensures OwnedElements(Parents, Image, Roots, k, 9) == [[7], [], [3], [5, 8], []][k]
  {
    ReferenceNodeMap();
    ReferenceLevelRootSet();
    var p, e, r := Parents, Image, Roots;
    var m := [2, 0, 3, 2, 1, 3, 4, 0, 3];
    var expected := [[7], [], [3], [5, 8], []][k];
    forall x
      ensures x in expected <==> 0 <= x < 9 && !IsLevelRoot(p, e, x) && NodeOf(p, e, r, x) == k
    {
      if 0 <= x < 9 {
        assert NodeOf(p, e, r, x) == m[x];
        assert x == 0 || x == 1 || x == 2 || x == 3 || x == 4 || x == 5 || x == 6 || x == 7 || x == 8;
      }
    }
    OwnedElementsAre(p, e, r, k, expected);
  }

  /** The nodes of the reference tree. */
  const ReferenceNodes: seq<CTNode> :=
    [CTNode(0, 0, -1, [1], [1, 7]),
     CTNode(1, 1, 0, [2, 3], [4]),
     CTNode(2, 2, 1, [4], [0, 3]),
     CTNode(3, 3, 1, [], [2, 5, 8]),
     CTNode(4, 7, 2, [], [6])]

  /** The node map of the reference tree. */
  const ReferenceMap: seq<int> := [2, 0, 3, 2, 1, 3, 4, 0, 3]

  /** Node 0 of the reference tree. */
  lemma ReferenceNode0()
    ensures RootsListed(Parents, Image, Roots)
    ensures PartialNode(Parents, Image, Roots, 0, 5, 9) == CTNode(0, 0, -1, [1], [1, 7])
  {
    ReferenceRootsListed();
    ReferenceChildNodes(0);
    ReferenceOwnedElements(0);
  }

  /** Node 1 of the reference tree. */
  lemma ReferenceNode1()
    ensures RootsListed(Parents, Image, Roots)
    ensures PartialNode(Parents, Image, Roots, 1, 5, 9) == CTNode(1, 1, 0, [2, 3], [4])
  {
    ReferenceParentNodes();
    ReferenceChildNodes(1);
    ReferenceOwnedElements(1);
  }

  /** Node 2 of the reference tree. */
  lemma ReferenceNode2()
    ensures RootsListed(Parents, Image, Roots)
    ensures PartialNode(Parents, Image, Roots, 2, 5, 9) == CTNode(2, 2, 1, [4], [0, 3])
  {
    ReferenceParentNodes();
    ReferenceChildNodes(2);
    ReferenceOwnedElements(2);
  }

  /** Node 3 of the reference tree. */
  lemma ReferenceNode3()
    ensures RootsListed(Parents, Image, Roots)
    ensures PartialNode(Parents, Image, Roots, 3, 5, 9) == CTNode(3, 3, 1, [], [2, 5, 8])
  {
    ReferenceParentNodes();
    ReferenceChildNodes(3);
    ReferenceOwnedElements(3);
  }

  /** Node 4 of the reference tree. */
  lemma ReferenceNode4()
    ensures RootsListed(Parents, Image, Roots)
    ensures PartialNode(Parents, Image, Roots, 4, 5, 9) == CTNode(4, 7, 2, [], [6])
  {
    ReferenceParentNodes();
    ReferenceChildNodes(4);
    ReferenceOwnedElements(4);
  }

  /** The compact tree: levels `[0,1,2,3,7]`, parents `[-1,0,1,1,2]`, and its children and elements. */
  lemma ReferenceCompactTree()
    ensures RootsListed(Parents, Image, Roots)
    ensures RefTree(Parents, Image, Roots) == CTree(ReferenceNodes, ReferenceMap)
  {
    var p, e, r := Parents, Image, Roots;
    ReferenceNodeMap();
    assert PartialNode(p, e, r, 0, 5, 9) == ReferenceNodes[0] by { ReferenceNode0(); }
    assert PartialNode(p, e, r, 1, 5, 9) == ReferenceNodes[1] by { ReferenceNode1(); }
    assert PartialNode(p, e, r, 2, 5, 9) == ReferenceNodes[2] by { ReferenceNode2(); }
    assert PartialNode(p, e, r, 3, 5, 9) == ReferenceNodes[3] by { ReferenceNode3(); }
    assert PartialNode(p, e, r, 4, 5, 9) == ReferenceNodes[4] by { ReferenceNode4(); }
    forall k | 0 <= k < 5
      ensures PartialNode(p, e, r, k, 5, 9) == ReferenceNodes[k]
    {
      assert k == 0 || k == 1 || k == 2 || k == 3 || k == 4;
    }
    RefTreeIs(p, e, r, ReferenceNodes, ReferenceMap);
  }

  /** The reference tree is well formed. */
  lemma ReferenceWellFormed()
    ensures WellFormed(CTree(ReferenceNodes, ReferenceMap))
  {
    ReferenceCompactTree();
    RefTreeWellFormed(Parents, Image, Roots);
  }

  /** The leaves and node 2 reconstruct to their own elements and their subtrees'. */
  lemma ReferenceReconstructLower()
    ensures Shaped(CTree(ReferenceNodes, ReferenceMap))
    ensures Reconstruct(CTree(ReferenceNodes, ReferenceMap), 2) == [0, 3, 6]
    ensures Reconstruct(CTree(ReferenceNodes, ReferenceMap), 3) == [2, 5, 8]
  {
    ReferenceWellFormed();
    var t := CTree(ReferenceNodes, ReferenceMap);
    assert Reconstruct(t, 4) == [6];
  }

  /** `reconstructNode(1)` lists the node's own element, then its two child subtrees. */
  lemma ReferenceReconstruct()
    ensures Shaped(CTree(ReferenceNodes, ReferenceMap))
    ensures Reconstruct(CTree(ReferenceNodes, ReferenceMap), 1) == [4, 0, 3, 6, 2, 5, 8]
  {
    ReferenceReconstructLower();
    var t := CTree(ReferenceNodes, ReferenceMap);
    assert ReconstructChildren(t, 1, [3]) == [2, 5, 8];
  }

  /**
   * `createNodes` on the hand-written `Parents` along the non-increasing
   * `MaxOrder` yields the reference tree, whose counts, levels, parents and
   * children are those the builder test expects.
   */
  method CreateReferenceTree() returns (t: CTree)
    ensures t == CTree(ReferenceNodes, ReferenceMap)
    ensures WellFormed(t) && |t.nodes| == 5
  {
    ReferenceCompactable();
    t := CreateNodes(Parents, MaxOrder, Image);
    ReferenceMaxOrderLevelRoots();
    ReferenceCompactTree();
  }

  /**
   * The canonical parent array of the union-find along `Sorted` on the
   * 4-adjacency of the 3x3 grid: pixel 7, processed last, is the root, and
   * every other pixel points to the level root of its component at the next
   * value down, or of its own value.
   */
  const BuiltParents: seq<int> := [3, 7, 8, 4, 7, 8, 3, 7, 4]
  const BuiltRoots: seq<int> := [7, 4, 3, 8, 6]

  /** The parent array is one `createNodes` accepts along the counting order `Sorted`. */
  lemma BuiltCompactable()
    ensures Compactable(BuiltParents, Image, Sorted)
  {
    var p, e, s := BuiltParents, Image, Sorted;
    var rank := [4, 7, 1, 5, 6, 2, 0, 8, 3];
    assert forall k :: 0 <= k < 9 ==> 0 <= s[k] < 9 && rank[s[k]] == k;
    InverseWitness(s, 9, rank);
    forall x | 0 <= x < 9
      ensures 0 <= p[x] < 9 && (p[x] == x || rank[x] < rank[p[x]])
      ensures IsLevelRoot(p, e, p[x]) && (p[x] == x <==> x == s[8])
    {
      assert x == 0 || x == 1 || x == 2 || x == 3 || x == 4 || x == 5 || x == 6 || x == 7 || x == 8;
    }
  }

  /** Scanning `Sorted` from its end meets the level roots as `[7, 4, 3, 8, 6]`. */
  lemma BuiltLevelRoots()
    ensures LevelRoots(BuiltParents, Image, Sorted) == BuiltRoots
  {
    var p, e, s := BuiltParents, Image, Sorted;
    assert AllBelow(p, 9) && AllBelow(s, 9);
    assert LevelRootsFrom(p, e, s, 9) == [];
    assert LevelRootsFrom(p, e, s, 8) == [7];
    assert LevelRootsFrom(p, e, s, 7) == [7];
    assert LevelRootsFrom(p, e, s, 6) == [7, 4];
    assert LevelRootsFrom(p, e, s, 5) == [7, 4, 3];
    assert LevelRootsFrom(p, e, s, 4) == [7, 4, 3];
    assert LevelRootsFrom(p, e, s, 3) == [7, 4, 3, 8];
    assert LevelRootsFrom(p, e, s, 2) == [7, 4, 3, 8];
    assert LevelRootsFrom(p, e, s, 1) == [7, 4, 3, 8];
    assert LevelRootsFrom(p, e, s, 0) == [7, 4, 3, 8, 6];
  }

  /** The level roots of the built array are exactly 3, 4, 6, 7 and 8. */
  lemma BuiltLevelRootSet()
    ensures forall x :: 0 <= x < 9 ==> (IsLevelRoot(BuiltParents, Image, x) <==> x in {3, 4, 6, 7, 8})
  {
    forall x | 0 <= x < 9
      ensures IsLevelRoot(BuiltParents, Image, x) <==> x in {3, 4, 6, 7, 8}
    {
      assert x == 0 || x == 1 || x == 2 || x == 3 || x == 4 || x == 5 || x == 6 || x == 7 || x == 8;
    }
  }

  lemma BuiltRootsListed()
    ensures RootsListed(BuiltParents, Image, BuiltRoots)
  {
    BuiltLevelRootSet();
    var p, e, r := BuiltParents, Image, BuiltRoots;
    assert AllBelow(p, 9) && AllBelow(r, 9) && Distinct(r);
    forall x | 0 <= x < 9
      ensures ParentOf(p, x) in r
    {
      assert x == 0 || x == 1 || x == 2 || x == 3 || x == 4 || x == 5 || x == 6 || x == 7 || x == 8;
    }
    forall x | 0 <= x < 9
      ensures x in r <==> IsLevelRoot(p, e, x)
    {
      assert x in r <==> x in {3, 4, 6, 7, 8};
    }
    forall j, k | 0 <= j < 5 && 0 < k < 5 && r[j] == p[r[k]]
      ensures j < k
    {
      assert k == 1 || k == 2 || k == 3 || k == 4;
    }
  }

  /** The built array puts every pixel in the same node as the reference tree does. */
  lemma BuiltNodeMap()
    ensures RootsListed(BuiltParents, Image, BuiltRoots)
    ensures forall e :: 0 <= e < 9 ==> NodeOf(BuiltParents, Image, BuiltRoots, e) == ReferenceMap[e]
  {
    BuiltRootsListed();
    BuiltLevelRootSet();
    var m := ReferenceMap;
    forall e | 0 <= e < 9
      ensures NodeOf(BuiltParents, Image, BuiltRoots, e) == m[e]
    {
      var k := NodeOf(BuiltParents, Image, BuiltRoots, e);
      assert BuiltRoots[k] == CanonicalElement(BuiltParents, Image, e);
      assert e == 0 || e == 1 || e == 2 || e == 3 || e == 4 || e == 5 || e == 6 || e == 7 || e == 8;
      IndexOfUnique(BuiltRoots, m[e]);
    }
  }

  /** The parent node of every node other than the root, as in the reference tree. */
  lemma BuiltParentNodes()
    ensures RootsListed(BuiltParents, Image, BuiltRoots)
    ensures forall k :: 1 <= k < 5 ==> ParentNode(BuiltParents, Image, BuiltRoots, k) == [-1, 0, 1, 1, 2][k]
  {
    BuiltRootsListed();
    var p, e, r := BuiltParents, Image, BuiltRoots;
    forall k | 1 <= k < 5
      ensures ParentNode(p, e, r, k) == [-1, 0, 1, 1, 2][k]
    {
      var q := [-1, 0, 1, 1, 2][k];
      assert k == 1 || k == 2 || k == 3 || k == 4;
      assert 0 <= q < 5 && r[q] == p[r[k]];
      IndexOfUnique(r, q);
    }
  }

  /** The children of node `k`. */
  lemma {:induction false} BuiltChildNodes(k: int)
    requires 0 <= k < 5
    ensures RootsListed(BuiltParents, Image, BuiltRoots)
    ensures ChildNodes(BuiltParents, Image, BuiltRoots, k, 5) == [[1], [2, 3], [4], [], []][k]
  {
    BuiltParentNodes();
    var p, e, r := BuiltParents, Image, BuiltRoots;
    var expected := [[1], [2, 3], [4], [], []][k];
    forall c
      ensures c in expected <==> 1 <= c < 5 && ParentNode(p, e, r, c) == k
    {
      if 1 <= c < 5 {
        assert c == 1 || c == 2 || c == 3 || c == 4;
      }
    }
    ChildNodesAre(p, e, r, k, expected);
  }

  /** The elements node `k` holds besides its level root. */
  lemma {:induction false} BuiltOwnedElements(k: int)
    requires 0 <= k < 5
    ensures RootsListed(BuiltParents, Image, BuiltRoots)
    ensures OwnedElements(BuiltParents, Image, BuiltRoots, k, 9) == [[1], [], [0], [2, 5], []][k]
  {
    BuiltNodeMap();
    BuiltLevelRootSet();
    var p, e, r := BuiltParents, Image, BuiltRoots;
    var m := ReferenceMap;
    var expected := [[1], [], [0], [2, 5], []][k];
    forall x
      ensures x in expected <==> 0 <= x < 9 && !IsLevelRoot(p, e, x) && NodeOf(p, e, r, x) == k
    {
      if 0 <= x < 9 {
        assert NodeOf(p, e, r, x) == m[x];
        assert x == 0 || x == 1 || x == 2 || x == 3 || x == 4 || x == 5 || x == 6 || x == 7 || x == 8;
      }
    }
    OwnedElementsAre(p, e, r, k, expected);
  }

  /**
   * The nodes `build` returns in the max-tree builder test: each lists its
   * level root first, so node 0 holds `[7, 1]` where the reference tree holds
   * `[1, 7]`.
   */
  const BuiltNodes: seq<CTNode> :=
    [CTNode(0, 0, -1, [1], [7, 1]),
     CTNode(1, 1, 0, [2, 3], [4]),
     CTNode(2, 2, 1, [4], [3, 0]),
     CTNode(3, 3, 1, [], [8, 2, 5]),
     CTNode(4, 7, 2, [], [6])]

  /** Node `k` of the built tree. */
  lemma {:induction false} BuiltNode(k: int)
    requires 0 <= k < 5
    ensures RootsListed(BuiltParents, Image, BuiltRoots)
    ensures PartialNode(BuiltParents, Image, BuiltRoots, k, 5, 9) == BuiltNodes[k]
  {
    BuiltParentNodes();
    BuiltChildNodes(k);
    BuiltOwnedElements(k);
    var n := PartialNode(BuiltParents, Image, BuiltRoots, k, 5, 9);
    if k == 0 {
      assert n == CTNode(0, 0, -1, [1], [7] + [1]);
    } else if k == 1 {
      assert n == CTNode(1, 1, 0, [2, 3], [4] + []);
    } else if k == 2 {
      assert n == CTNode(2, 2, 1, [4], [3] + [0]);
    } else if k == 3 {
      assert n == CTNode(3, 3, 1, [], [8] + [2, 5]);
    } else {
      assert n == CTNode(4, 7, 2, [], [6] + []);
    }
  }

  /**
   * The compact tree of the built array: the five nodes of levels
   * `[0,1,2,3,7]`, parents `[-1,0,1,1,2]` and children
   * `[[1],[2,3],[4],[],[]]` the builder test expects, with the reference
   * tree's node map.
   */
  lemma BuiltCompactTree()
    ensures RootsListed(BuiltParents, Image, BuiltRoots)
    ensures RefTree(BuiltParents, Image, BuiltRoots) == CTree(BuiltNodes, ReferenceMap)
  {
    BuiltNodeMap();
    forall k | 0 <= k < 5
      ensures PartialNode(BuiltParents, Image, BuiltRoots, k, 5, 9) == BuiltNodes[k]
    {
      BuiltNode(k);
    }
    RefTreeIs(BuiltParents, Image, BuiltRoots, BuiltNodes, ReferenceMap);
  }

  /** The built tree is well formed. */
  lemma BuiltWellFormed()
    ensures WellFormed(CTree(BuiltNodes, ReferenceMap))
  {
    BuiltCompactTree();
    RefTreeWellFormed(BuiltParents, Image, BuiltRoots);
  }

  /** The leaves and node 2 of the built tree reconstruct to their own elements and their subtrees'. */
  lemma BuiltReconstructLower()
    ensures Shaped(CTree(BuiltNodes, ReferenceMap))
    ensures Reconstruct(CTree(BuiltNodes, ReferenceMap), 2) == [3, 0, 6]
    ensures Reconstruct(CTree(BuiltNodes, ReferenceMap), 3) == [8, 2, 5]
  {
    BuiltWellFormed();
    var t := CTree(BuiltNodes, ReferenceMap);
    assert Reconstruct(t, 4) == [6];
  }

  /**
   * `reconstructNode(1)` of the built tree: node 1's pixel, then node 2's
   * subtree, then node 3's, which sorted are `{0,2,3,4,5,6,8}`.
   */
  lemma BuiltReconstruct()
    ensures Shaped(CTree(BuiltNodes, ReferenceMap))
    ensures Reconstruct(CTree(BuiltNodes, ReferenceMap), 1) == [4, 3, 0, 6, 8, 2, 5]
  {
    BuiltReconstructLower();
    var t := CTree(BuiltNodes, ReferenceMap);
    assert ReconstructChildren(t, 1, [3]) == [8, 2, 5];
  }

  /**
   * `transverse` on the built tree hands out the nodes of levels
   * `7, 3, 2, 1, 0` holding `1, 3, 2, 1, 2` pixels.
   */
  lemma BuiltTraversal()
    ensures var t := CTree(BuiltNodes, ReferenceMap);
      |Transverse(t)| == 5 &&
      (forall i :: 0 <= i < 5 ==> t.nodes[Transverse(t)[i]].level == [7, 3, 2, 1, 0][i]) &&
      (forall i :: 0 <= i < 5 ==> |t.nodes[Transverse(t)[i]].elementIndices| == [1, 3, 2, 1, 2][i])
  {
    var t := CTree(BuiltNodes, ReferenceMap);
    assert Transverse(t) == [4, 3, 2, 1, 0];
  }

  /**
   * `createNodes` on the union-find's canonical array along the counting
   * order `Sorted` yields the tree `build` returns in the max-tree builder
   * test: five nodes with the expected levels, parents, children and
   * reconstruction.
   */
  method CreateBuiltTree() returns (t: CTree)
    ensures t == CTree(BuiltNodes, ReferenceMap)
    ensures WellFormed(t) && |t.nodes| == 5
    ensures Reconstruct(t, 1) == [4, 3, 0, 6, 8, 2, 5]
  {
    BuiltCompactable();
    t := CreateNodes(BuiltParents, Sorted, Image);
    BuiltLevelRoots();
    BuiltCompactTree();
    BuiltReconstruct();
  }
}

=== FILE: run_results.dfy ===
/**
 * What `compute` leaves in each array, stated against the tree alone: the
 * node counter holds the number of nodes of each subtree, the area computer
 * the size of each node's component, the bit-quad counters the sum of each
 * counter over the component's pixels, and each attribute-from-quads array
 * its formula evaluated on those sums.
 */
module RunResults {
  import opened CompactTree
  import opened PixelIndexing
  import opened AttributeStore
  import opened QuadsCounting
  import opened SubtreeSums
  import opened IncrementalAttributes
  import opened ComputerHooks
  import opened HookColumns
  import opened IncrementalRun

  /** The number of arrays of `c` that accumulate over subtrees. */
  function AccumCount(c: Computer): nat {
    if c.QuadsComputer? then 5 else 1
  }

  /** A weight of one per entry. */
  function Ones(n: nat): (g: seq<real>)
    ensures |g| == n && forall e :: 0 <= e < n ==> g[e] == 1.0
  {
    seq(n, e => 1.0)
  }

  /** What one computer needs of the tree and the image size. */
  predicate ReadyFor(c: Computer, t: CTree, meta: ImageMeta) {
    WellFormed(t) && (c.QuadsComputer? ==> ValidTable(c.dt) && CodingFrame(FrameOf(meta), Levels(t)))
  }

  lemma ReadyAt(cs: seq<Computer>, t: CTree, meta: ImageMeta, i: int)
    requires Ready(cs, t, meta) && 0 <= i < |cs|
    ensures ReadyFor(cs[i], t, meta)
  {
  }

  /** The bit-quad contribution of every pixel of the image the tree was built from. */
  function PixelQuads(c: Computer, t: CTree, meta: ImageMeta): (img: seq<Quads>)
    requires c.QuadsComputer? && ReadyFor(c, t, meta)
    ensures |img| == |t.cmap|
  {
    seq(|t.cmap|, e requires 0 <= e < |t.cmap| => Contribution(c.dt, FrameOf(meta), Levels(t), c.treeType, e))
  }

  /** The pixels of `reconstructNode(k)` are pixels of the image. */
  lemma ComponentInImage(t: CTree, k: int)
    requires WellFormed(t) && 0 <= k < |t.nodes|
    ensures ReconstructBelow(t, k, |t.cmap|)
  {
    TotalIsSumOverReconstruct(t, Ones(|t.cmap|), k);
  }

  /**
   * The value array `q` of computer `c` should hold at node `k`: the number
   * of nodes of the subtree, the number of pixels of the component, or the
   * sum of bit-quad counter `q` over the component's pixels.
   */
  function Expected(c: Computer, t: CTree, meta: ImageMeta, q: int, k: int): real
    requires ReadyFor(c, t, meta) && 0 <= q < AccumCount(c) && 0 <= k < |t.nodes|
  {
    ComponentInImage(t, k);
    match c
    case NodeCounter(_) => |SubtreeNodes(t, k)| as real
    case AreaComputer(_) => |Reconstruct(t, k)| as real
    case QuadsComputer(_, _, _, _, _, _, _) => SumOver(PartOf(PixelQuads(c, t, meta), q), Reconstruct(t, k))
  }

  /** The five bit-quad counters summed over the component of node `k`. */
  function ComponentQuads(c: Computer, t: CTree, meta: ImageMeta, k: int): Quads
    requires c.QuadsComputer? && ReadyFor(c, t, meta) && 0 <= k < |t.nodes|
  {
    Quads(Expected(c, t, meta, 0, k), Expected(c, t, meta, 1, k), Expected(c, t, meta, 2, k),
          Expected(c, t, meta, 3, k), Expected(c, t, meta, 4, k))
  }

  /* ------------------------ the set-up computers -------------------------- */

  /** Accumulated array `q` of a computer placed at `o` is the array at `o + q`. */
  lemma {:induction false} AccumPosition(c: Computer, r: Computer, t: CTree, meta: ImageMeta, o: int, q: int)
    requires (c.QuadsComputer? ==> Partitioned(t)) && SetUpFields(c, r, t, meta) && Placed(c, r, o)
    requires 0 <= q < AccumCount(c)
    ensures |AccumColumns(r)| == AccumCount(c) && AccumColumns(r)[q] == o + q
  {
    ColumnsSplit(r);
    WidthPushed(c);
    assert Columns(r)[q] == AccumColumns(r)[q];
  }

  /** Formula array `s` of a bit-quad computer placed at `o` is the array at `o + 5 + s`. */
  lemma {:induction false} FormulaPosition(c: Computer, r: Computer, t: CTree, meta: ImageMeta, o: int, s: int)
    requires c.QuadsComputer? && Partitioned(t) && SetUpFields(c, r, t, meta) && Placed(c, r, o)
    requires 0 <= s < |c.subs|
    ensures r.QuadsComputer? && |r.subs| == |c.subs| && SubColumn(r, s) == o + 5 + s
  {
    ColumnsSplit(r);
    WidthPushed(c);
    assert Columns(r)[5 + s] == SubColumns(r.subs)[s];
  }

  /** The set-up bit-quad computer reads the image the tree was built from. */
  lemma {:induction false} ImageOfTree(c: Computer, r: Computer, t: CTree, meta: ImageMeta)
    requires c.QuadsComputer? && ReadyFor(c, t, meta) && SetUpFields(c, r, t, meta)
    ensures r.QuadsComputer? && ValidTable(r.dt) && CodingFrame(r.indexer, r.f)
    ensures ImageQuads(r) == PixelQuads(c, t, meta)
  {
    assert r.indexer == FrameOf(meta) && r.f == Levels(t);
  }

  /** The pixel count of each node's own pixels is the sum of one per pixel. */
  lemma {:induction false} AreaWeights(t: CTree)
    requires WellFormed(t)
    ensures ElementsBelow(t, |t.cmap|)
    ensures seq(|t.nodes|, k requires 0 <= k < |t.nodes| => |t.nodes[k].elementIndices| as real) ==
            NodeWeights(t, Ones(|t.cmap|))
  {
    var g := Ones(|t.cmap|);
    forall k | 0 <= k < |t.nodes|
      ensures SumOver(g, t.nodes[k].elementIndices) == |t.nodes[k].elementIndices| as real
    {
      SumOverOnes(g, t.nodes[k].elementIndices);
    }
  }

  /**
   * The subtree sum of the node weights of accumulated array `q` is the value
   * the array should hold: the weights of the set-up computer are the ones its
   * kind promises.
   */
  lemma {:induction false} TotalExpected(c: Computer, r: Computer, t: CTree, meta: ImageMeta, q: int, k: int)
    requires ReadyFor(c, t, meta) && SetUpFields(c, r, t, meta) && Configured(r, t)
    requires 0 <= q < AccumCount(c) && 0 <= k < |t.nodes|
    ensures 0 <= q < |AccumColumns(r)|
    ensures Total(t, AccumWeights(r, t, q), k) == Expected(c, t, meta, q, k)
  {
    match c
    case NodeCounter(_) =>
      assert AccumWeights(r, t, q) == seq(|t.nodes|, j => 1.0);
      TotalCountsNodes(t, k);
    case AreaComputer(_) =>
      var g := Ones(|t.cmap|);
      AreaWeights(t);
      TotalIsSumOverReconstruct(t, g, k);
      SumOverOnes(g, Reconstruct(t, k));
    case QuadsComputer(_, _, _, _, _, _, _) =>
      ImageOfTree(c, r, t, meta);
      TotalIsSumOverReconstruct(t, PartOf(PixelQuads(c, t, meta), q), k);
  }

  /* ------------------------------ results --------------------------------- */

  /** What the collection's `setUp` leaves for computer `i`, and the traversal that follows. */
  lemma {:induction false} SetUpAt(cs: seq<Computer>, a: AttributeCollection, t: CTree, meta: ImageMeta, i: int)
    requires Ready(cs, t, meta) && Counted(a) && Sized(a, |t.nodes|) && 0 <= i < |cs|
    ensures ReadyFor(cs[i], t, meta)
    ensures var s := SetUpAll(cs, a, t, meta);
      Runnable(s.comps, t, |s.attrs.values|) && Sized(s.attrs, |t.nodes|) &&
      Placed(cs[i], s.comps[i], |a.values| + Offset(cs, i)) && SetUpFields(cs[i], s.comps[i], t, meta) &&
      (forall x :: |a.values| <= x < |s.attrs.values| ==> s.attrs.values[x] == Zeros(|t.nodes|)) &&
      (forall x :: x in Columns(s.comps[i]) ==> |a.values| <= x) &&
      Run(cs, a, t, meta) == Traversal(s.attrs, s.comps, t, |t.nodes|)
  {
    var s := SetUpAll(cs, a, t, meta);
    SetUpReady(cs, a, t, meta);
    PlacedAbove(cs, s.comps, |a.values|);
    assert Placed(cs[i], s.comps[i], |a.values| + Offset(cs, i));
    assert SetUpFields(cs[i], s.comps[i], t, meta);
  }

  /** An accumulated array that starts at zero ends with the subtree sums of its node weights. */
  lemma {:induction false} TraversalTotals(b: AttributeCollection, comps: seq<Computer>, t: CTree, i: int, q: int)
    requires Runnable(comps, t, |b.values|) && Sized(b, |t.nodes|)
    requires 0 <= i < |comps| && 0 <= q < |AccumColumns(comps[i])| && 0 <= AccumColumns(comps[i])[q] < |b.values|
    requires b.values[AccumColumns(comps[i])[q]] == Zeros(|t.nodes|)
    ensures forall k :: 0 <= k < |t.nodes| ==>
      Traversal(b, comps, t, |t.nodes|).values[AccumColumns(comps[i])[q]][k] == Total(t, AccumWeights(comps[i], t, q), k)
  {
    var n := |t.nodes|;
    var w := AccumWeights(comps[i], t, q);
    TraversalAccum(b, comps, t, n, i, q);
    ColumnAtStart(t, w, Zeros(n));
    RunColumnTotals(Zeros(n), t, w, n);
  }

  /**
   * After `doCompute` on a tree of `n` nodes, accumulated array `q` of
   * computer `i`, found after the arrays the table held and those of the
   * computers before it, holds at every node the value its kind promises.
   */
  lemma {:induction false} RunAccumulates(cs: seq<Computer>, a: AttributeCollection, t: CTree, meta: ImageMeta, i: int, q: int)
    requires Ready(cs, t, meta) && Counted(a) && Sized(a, |t.nodes|)
    requires 0 <= i < |cs| && 0 <= q < AccumCount(cs[i])
    ensures ReadyFor(cs[i], t, meta)
    ensures |a.values| + Offset(cs, i) + q < |Run(cs, a, t, meta).values|
    ensures forall k :: 0 <= k < |t.nodes| ==>
      Run(cs, a, t, meta).values[|a.values| + Offset(cs, i) + q][k] == Expected(cs[i], t, meta, q, k)
  {
    var x := |a.values| + Offset(cs, i) + q;
    RunAccumulateAt(cs, a, t, meta, i, q, 0, x);
    forall k | 0 <= k < |t.nodes|
      ensures Run(cs, a, t, meta).values[x][k] == Expected(cs[i], t, meta, q, k)
    {
      RunAccumulateAt(cs, a, t, meta, i, q, k, x);
    }
  }

  /** The cell of node `k` in accumulated array `q` of computer `i`, found at position `x`. */
  lemma {:induction false} RunAccumulateAt(cs: seq<Computer>, a: AttributeCollection, t: CTree, meta: ImageMeta, i: int, q: int, k: int, x: int)
    requires Ready(cs, t, meta) && Counted(a) && Sized(a, |t.nodes|)
    requires 0 <= i < |cs| && 0 <= q < AccumCount(cs[i]) && 0 <= k < |t.nodes|
    requires x == |a.values| + Offset(cs, i) + q
    ensures ReadyFor(cs[i], t, meta)
    ensures 0 <= x < |Run(cs, a, t, meta).values|
    ensures Run(cs, a, t, meta).values[x][k] == Expected(cs[i], t, meta, q, k)
  {
    RunAccumSetting(cs, a, t, meta, i, q);
    var st := SetUpAll(cs, a, t, meta);
    AccumCell(cs[i], st.attrs, st.comps, t, meta, i, q, k, Run(cs, a, t, meta), x);
  }

  /**
   * Accumulated array `q` of computer `i` after `doCompute` is the array the
   * traversal fills at the set-up computer's position, zero before it starts.
   */
  lemma {:induction false} RunAccumSetting(cs: seq<Computer>, a: AttributeCollection, t: CTree, meta: ImageMeta, i: int, q: int)
    requires Ready(cs, t, meta) && Counted(a) && Sized(a, |t.nodes|)
    requires 0 <= i < |cs| && 0 <= q < AccumCount(cs[i])
    ensures ReadyFor(cs[i], t, meta)
    ensures var st := SetUpAll(cs, a, t, meta);
      AccumSetting(cs[i], st.attrs, st.comps, t, meta, i, q) &&
      AccumColumns(st.comps[i])[q] == |a.values| + Offset(cs, i) + q &&
      Run(cs, a, t, meta) == Traversal(st.attrs, st.comps, t, |t.nodes|)
  {
    SetUpAt(cs, a, t, meta, i);
    var st := SetUpAll(cs, a, t, meta);
    var c := st.comps[i];
    var x := |a.values| + Offset(cs, i) + q;
    AccumPosition(cs[i], c, t, meta, |a.values| + Offset(cs, i), q);
    assert 0 <= x < |st.attrs.values| && st.attrs.values[x] == Zeros(|t.nodes|) by {
      ColumnsSplit(c);
      assert x == Columns(c)[q] && x in Columns(c);
      assert Within(c, |st.attrs.values|);
    }
    assert Configured(c, t);
  }

  /**
   * The traversal's starting point for accumulated array `q` of computer
   * `i`, set up from `c`: a runnable list of computers over a table whose
   * array `q` of computer `i` is zero.
   */
  predicate AccumSetting(c: Computer, b: AttributeCollection, comps: seq<Computer>, t: CTree, meta: ImageMeta, i: int, q: int) {
    ReadyFor(c, t, meta) && 0 <= q < AccumCount(c) &&
    Runnable(comps, t, |b.values|) && Sized(b, |t.nodes|) && 0 <= i < |comps| &&
    SetUpFields(c, comps[i], t, meta) && Configured(comps[i], t) &&
    q < |AccumColumns(comps[i])| && 0 <= AccumColumns(comps[i])[q] < |b.values| &&
    b.values[AccumColumns(comps[i])[q]] == Zeros(|t.nodes|)
  }

  /** An accumulated array the traversal fills from zero holds the value its computer's kind promises. */
  lemma {:induction false} AccumCell(c: Computer, b: AttributeCollection, comps: seq<Computer>, t: CTree, meta: ImageMeta,
                                     i: int, q: int, k: int, run: AttributeCollection, x: int)
    requires AccumSetting(c, b, comps, t, meta, i, q) && 0 <= k < |t.nodes|
    requires AccumColumns(comps[i])[q] == x && run == Traversal(b, comps, t, |t.nodes|)
    ensures 0 <= x < |run.values| && k < |run.values[x]|
    ensures run.values[x][k] == Expected(c, t, meta, q, k)
  {
    TraversalTotals(b, comps, t, i, q);
    TotalExpected(c, comps[i], t, meta, q, k);
  }

  /** Every formula array ends with its formula of the subtree counters at every node. */
  lemma {:induction false} TraversalFormulas(b: AttributeCollection, comps: seq<Computer>, t: CTree, o: int, i: int, s: int)
    requires Runnable(comps, t, |b.values|) && Sized(b, |t.nodes|)
    requires 0 <= i < |comps| && comps[i].QuadsComputer? && 0 <= s < |comps[i].subs|
    requires 0 <= o && forall x :: o <= x < |b.values| ==> b.values[x] == Zeros(|t.nodes|)
    requires forall x :: x in Columns(comps[i]) ==> o <= x
    ensures 0 <= SubColumn(comps[i], s) < |b.values|
    ensures forall k :: 0 <= k < |t.nodes| ==>
      Traversal(b, comps, t, |t.nodes|).values[SubColumn(comps[i], s)][k] == SubFormula(comps[i], s, TotalQuads(comps[i], t, k))
  {
    StartState(b, comps, t, o, i, s);
    TraversalFormula(b, comps, t, |t.nodes|, i, s);
  }

  /**
   * After `doCompute`, the array of attribute-from-quads computer `s` of
   * bit-quad computer `i` holds at every node the sub-computer's formula, in
   * the computer's connectivity, of the counters summed over the node's
   * component.
   */
  lemma {:induction false} RunFormulas(cs: seq<Computer>, a: AttributeCollection, t: CTree, meta: ImageMeta, i: int, s: int)
    requires Ready(cs, t, meta) && Counted(a) && Sized(a, |t.nodes|)
    requires 0 <= i < |cs| && cs[i].QuadsComputer? && 0 <= s < |cs[i].subs|
    ensures ReadyFor(cs[i], t, meta)
    ensures |a.values| + Offset(cs, i) + 5 + s < |Run(cs, a, t, meta).values|
    ensures forall k :: 0 <= k < |t.nodes| ==>
      Run(cs, a, t, meta).values[|a.values| + Offset(cs, i) + 5 + s][k] ==
        Formula(cs[i].subs[s].kind, cs[i].con, ComponentQuads(cs[i], t, meta, k))
  {
    var x := |a.values| + Offset(cs, i) + 5 + s;
    RunFormulaAt(cs, a, t, meta, i, s, 0, x);
    forall k | 0 <= k < |t.nodes|
      ensures Run(cs, a, t, meta).values[x][k] == Formula(cs[i].subs[s].kind, cs[i].con, ComponentQuads(cs[i], t, meta, k))
    {
      RunFormulaAt(cs, a, t, meta, i, s, k, x);
    }
  }

  /** The cell of node `k` in the array of attribute-from-quads computer `s` of bit-quad computer `i`, found at position `x`. */
  lemma {:induction false} RunFormulaAt(cs: seq<Computer>, a: AttributeCollection, t: CTree, meta: ImageMeta, i: int, s: int, k: int, x: int)
    requires Ready(cs, t, meta) && Counted(a) && Sized(a, |t.nodes|)
    requires 0 <= i < |cs| && cs[i].QuadsComputer? && 0 <= s < |cs[i].subs| && 0 <= k < |t.nodes|
    requires x == |a.values| + Offset(cs, i) + 5 + s
    ensures ReadyFor(cs[i], t, meta)
    ensures 0 <= x < |Run(cs, a, t, meta).values|
    ensures Run(cs, a, t, meta).values[x][k] == Formula(cs[i].subs[s].kind, cs[i].con, ComponentQuads(cs[i], t, meta, k))
  {
    RunSubCell(cs, a, t, meta, i, s);
    var st := SetUpAll(cs, a, t, meta);
    FormulaCell(cs[i], st.attrs, st.comps, t, meta, |a.values|, i, s, k, Run(cs, a, t, meta), x);
  }

  /**
   * Formula array `s` of computer `i` after `doCompute` is the array the
   * traversal fills at the set-up computer's position, and that traversal
   * starts from a table whose new arrays are zero.
   */
  lemma {:induction false} RunSubCell(cs: seq<Computer>, a: AttributeCollection, t: CTree, meta: ImageMeta, i: int, s: int)
    requires Ready(cs, t, meta) && Counted(a) && Sized(a, |t.nodes|)
    requires 0 <= i < |cs| && cs[i].QuadsComputer? && 0 <= s < |cs[i].subs|
    ensures ReadyFor(cs[i], t, meta)
    ensures var st := SetUpAll(cs, a, t, meta);
      FormulaSetting(cs[i], st.attrs, st.comps, t, meta, |a.values|, i) &&
      st.comps[i].QuadsComputer? && s < |st.comps[i].subs| &&
      SubColumn(st.comps[i], s) == |a.values| + Offset(cs, i) + 5 + s &&
      Run(cs, a, t, meta) == Traversal(st.attrs, st.comps, t, |t.nodes|)
  {
    SetUpAt(cs, a, t, meta, i);
    var st := SetUpAll(cs, a, t, meta);
    var c := st.comps[i];
    FormulaPosition(cs[i], c, t, meta, |a.values| + Offset(cs, i), s);
    assert Configured(c, t);
  }

  /**
   * The traversal's starting point for bit-quad computer `i`, set up from
   * `c`: a runnable list of computers over a table whose arrays from `o` on
   * are zero and hold every array of computer `i`.
   */
  predicate FormulaSetting(c: Computer, b: AttributeCollection, comps: seq<Computer>, t: CTree, meta: ImageMeta, o: int, i: int) {
    Runnable(comps, t, |b.values|) && Sized(b, |t.nodes|) && 0 <= i < |comps| &&
    0 <= o && (forall x :: o <= x < |b.values| ==> b.values[x] == Zeros(|t.nodes|)) &&
    (forall x :: x in Columns(comps[i]) ==> o <= x) &&
    c.QuadsComputer? && Partitioned(t) &&
    comps[i].QuadsComputer? && |comps[i].subs| == |c.subs| && SetUpFields(c, comps[i], t, meta) && Configured(comps[i], t)
  }

  /** A formula array the traversal fills from a zeroed table holds the set-up formula of the component's counters. */
  lemma {:induction false} FormulaCell(c: Computer, b: AttributeCollection, comps: seq<Computer>, t: CTree, meta: ImageMeta,
                                      o: int, i: int, s: int, k: int, run: AttributeCollection, x: int)
    requires c.QuadsComputer? && ReadyFor(c, t, meta) && 0 <= s < |c.subs| && 0 <= k < |t.nodes|
    requires FormulaSetting(c, b, comps, t, meta, o, i)
    requires SubColumn(comps[i], s) == x && run == Traversal(b, comps, t, |t.nodes|)
    ensures 0 <= x < |run.values| && k < |run.values[x]|
    ensures run.values[x][k] == Formula(c.subs[s].kind, c.con, ComponentQuads(c, t, meta, k))
  {
    TraversalFormulas(b, comps, t, o, i, s);
    FormulaExpected(c, comps[i], t, meta, s, k, run.values[x][k]);
  }

  /** The formula the set-up sub-computer evaluates is the one it was built with, on the component's counters. */
  lemma {:induction false} FormulaExpected(c: Computer, r: Computer, t: CTree, meta: ImageMeta, s: int, k: int, v: real)
    requires c.QuadsComputer? && ReadyFor(c, t, meta) && SetUpFields(c, r, t, meta) && Configured(r, t)
    requires 0 <= s < |c.subs| && 0 <= k < |t.nodes|
    requires r.QuadsComputer? && s < |r.subs| && v == SubFormula(r, s, TotalQuads(r, t, k))
    ensures v == Formula(c.subs[s].kind, c.con, ComponentQuads(c, t, meta, k))
  {
    QuadsExpected(c, r, t, meta, k);
  }

  /** Before the first node, every formula array satisfies the traversal's invariant. */
  lemma {:induction false} StartState(b: AttributeCollection, comps: seq<Computer>, t: CTree, o: int, i: int, s: int)
    requires Runnable(comps, t, |b.values|) && Sized(b, |t.nodes|)
    requires 0 <= i < |comps| && comps[i].QuadsComputer? && 0 <= s < |comps[i].subs|
    requires 0 <= o && forall x :: o <= x < |b.values| ==> b.values[x] == Zeros(|t.nodes|)
    requires forall x :: x in Columns(comps[i]) ==> o <= x
    ensures FormulaState(b, comps, t, |t.nodes|, i, s)
  {
    var n := |t.nodes|;
    var c := comps[i];
    CountersIn(comps, |b.values|, i);
    SubColumnOwned(comps, |b.values|, i, s);
    forall q | 0 <= q < 5
      ensures 0 <= AccumColumns(c)[q] < |b.values| && ColumnAt(b.values[AccumColumns(c)[q]], t, AccumWeights(c, t, q), n)
    {
      var x := AccumColumns(c)[q];
      ColumnsSplit(c);
      assert x == Columns(c)[q] && x in Columns(c);
      assert Within(c, |b.values|);
      assert o <= x < |b.values|;
      assert b.values[x] == Zeros(n);
      ColumnAtStart(t, AccumWeights(c, t, q), Zeros(n));
    }
  }

  /** The counters the set-up computer sums are the counters of the component. */
  lemma {:induction false} QuadsExpected(c: Computer, r: Computer, t: CTree, meta: ImageMeta, k: int)
    requires c.QuadsComputer? && ReadyFor(c, t, meta) && SetUpFields(c, r, t, meta) && Configured(r, t)
    requires 0 <= k < |t.nodes|
    ensures r.QuadsComputer?
    ensures TotalQuads(r, t, k) == ComponentQuads(c, t, meta, k)
  {
    TotalExpected(c, r, t, meta, 0, k);
    TotalExpected(c, r, t, meta, 1, k);
    TotalExpected(c, r, t, meta, 2, k);
    TotalExpected(c, r, t, meta, 3, k);
    TotalExpected(c, r, t, meta, 4, k);
  }
}

=== FILE: sort.dfy ===
/**
 * Sorting the indices of a vector of values: a stable counting sort in
 * increasing or decreasing order for the low-size integer types, a comparison
 * sort otherwise, and the max-tree / min-tree dispatch between the two.
 */
module IndexSort {
  import opened Permutations
  import opened StableRank

  /** The element types the sorters are instantiated with. */
  datatype ScalarType =
    | Int | UnsignedInt | Char | UnsignedChar | UnsignedShort | Short | Bool
    | Long | UnsignedLong | Float | Double

  /** `isLowSizeType<T>()`: the types whose whole range fits a counter vector. */
  predicate IsLowSizeType(t: ScalarType) {
    t in {Int, UnsignedInt, Char, UnsignedChar, UnsignedShort, Short, Bool}
  }

  /** `std::numeric_limits<T>::max()` of the low-size types (`char` signed). */
  function MaxValue(t: ScalarType): (m: int)
    requires IsLowSizeType(t)
    ensures m >= 1
  {
    match t
    case Int => 0x7fff_ffff
    case UnsignedInt => 0xffff_ffff
    case Char => 0x7f
    case UnsignedChar => 0xff
    case UnsignedShort => 0xffff
    case Short => 0x7fff
    case Bool => 1
  }

  /** Every value can index the counter vector of size `maxValue + 1`. */
  predicate ValuesInRange(v: seq<int>, maxValue: int) {
    forall i :: 0 <= i < |v| ==> 0 <= v[i] <= maxValue
  }

  /** The length the counter vector is asked for, or a signed `int` overflow. */
  datatype CounterRequest = Length(n: int) | SignedOverflow

  /**
   * `maxValue + 1` as the counting sorts evaluate it: the narrow types are
   * promoted to `int` first, `unsigned int` wraps modulo 2^32 and `int`
   * overflows.
   */
  function CounterSize(t: ScalarType): CounterRequest
    requires IsLowSizeType(t)
  {
    match t
    case Int => SignedOverflow
    case UnsignedInt => Length((MaxValue(t) + 1) % 0x1_0000_0000)
    case _ => Length(MaxValue(t) + 1)
  }

  /**
   * The counter has one slot for every value of the type exactly when the
   * type is neither `int` nor `unsigned int`; for `unsigned int` it is empty,
   * so the first `counter[v[i]]++` is already out of range.
   */
  lemma CounterHoldsEveryValue(t: ScalarType)
    requires IsLowSizeType(t)
    ensures CounterSize(t) == Length(MaxValue(t) + 1) <==> t != Int && t != UnsignedInt
    ensures t == UnsignedInt ==> CounterSize(t) == Length(0)
    ensures t == Int ==> MaxValue(t) + 1 > 0x7fff_ffff
  {
  }

  /**
   * The guard `i <= maxValue` of the running-sum loop of
   * `MaxTreeSorter::countingSort`, with `i` an `int`: compared with an
   * `unsigned int` maximum, `i` is first converted modulo 2^32.
   */
  predicate RunningSumGuard(t: ScalarType, i: int)
    requires MaxTreeSorterCounts(t)
  {
    if t == UnsignedInt then i % 0x1_0000_0000 <= MaxValue(t) else i <= MaxValue(t)
  }

  /**
   * For `int` and `unsigned int` the guard holds for every `int` value of
   * `i`, so the loop never ends; for the narrow types it fails once `i`
   * passes the maximum.
   */
  lemma RunningSumGuardNeverFails(t: ScalarType, i: int)
    requires MaxTreeSorterCounts(t) && -0x8000_0000 <= i <= 0x7fff_ffff
    ensures RunningSumGuard(t, i) <==> t == Int || t == UnsignedInt || i <= MaxValue(t)
  {
  }

  /** The comparison handed to the comparison sort: `v1 < v2` or `v1 > v2`. */
  datatype Comparison = Less | Greater

  predicate Cmp(c: Comparison, a: int, b: int) {
    match c
    case Less => a < b
    case Greater => a > b
  }

  /** No index is preceded by one whose value it must come before under `c`. */
  predicate OrderedBy(v: seq<int>, idx: seq<int>, c: Comparison)
    requires AllBelow(idx, |v|)
  {
    forall p, q :: 0 <= p < q < |idx| ==> !Cmp(c, v[idx[q]], v[idx[p]])
  }

  /** A permutation of the indices of `v` ordered by `c`. */
  predicate SortedIndex(v: seq<int>, idx: seq<int>, c: Comparison) {
    IsPermutation(idx, |v|) && OrderedBy(v, idx, c)
  }

  /** The keys `maxValue - v[i]` of the decreasing counting sort. */
  function Complement(v: seq<int>, maxValue: int): (keys: seq<int>)
    ensures |keys| == |v|
    ensures forall i :: 0 <= i < |v| ==> keys[i] == maxValue - v[i]
  {
    seq(|v|, i requires 0 <= i < |v| => maxValue - v[i])
  }

  /** The keys whose ascending order is the order of `c`. */
  function KeysFor(v: seq<int>, c: Comparison): (keys: seq<int>)
    ensures |keys| == |v|
    ensures forall i :: 0 <= i < |v| ==> keys[i] == (if c == Less then v[i] else -v[i])
  {
    if c == Less then v else Complement(v, 0)
  }

  /**
   * The counting sort shared by `incresingCountingSortIndex`,
   * `decreasingCountingSortIndex` and `MaxTreeSorter::countingSort`: count the
   * keys, turn the counts into running sums, then scan the elements backwards
   * and drop each one just below the running sum of its key.
   */
  method CountingSortIndex(keys: seq<int>, maxKey: int) returns (idx: seq<int>)
    requires maxKey >= 1 && ValuesInRange(keys, maxKey)
    ensures idx == StableOrder(keys)
  {
    var counter := CountKeys(keys, maxKey);
    counter := RunningSums(keys, maxKey, counter);
    idx := PlaceBackwards(keys, maxKey, counter);
    PlacementUnique(keys, idx, StableOrder(keys));
  }

  /** The first loop: `counter[k]` becomes the number of elements with key `k`. */
  method CountKeys(keys: seq<int>, maxKey: int) returns (counter: seq<int>)
    requires maxKey >= 1 && ValuesInRange(keys, maxKey)
    ensures |counter| == maxKey + 1
    ensures forall k :: 0 <= k <= maxKey ==> counter[k] == CountEq(keys, k, |keys|)
  {
    counter := seq(maxKey + 1, _ => 0);
    for i := 0 to |keys|
      invariant |counter| == maxKey + 1
      invariant forall k :: 0 <= k <= maxKey ==> counter[k] == CountEq(keys, k, i)
    {
      counter := counter[keys[i] := counter[keys[i]] + 1];
    }
  }

  /**
   * The running-sum loops: `counter[k] += counter[k-1]` for `k` below
   * `maxKey`, then once more for `maxKey` itself, so that `counter[k]` becomes
   * the number of elements with key at most `k`.
   */
  method RunningSums(keys: seq<int>, maxKey: int, counts: seq<int>) returns (counter: seq<int>)
    requires maxKey >= 1 && ValuesInRange(keys, maxKey)
    requires |counts| == maxKey + 1
    requires forall k :: 0 <= k <= maxKey ==> counts[k] == CountEq(keys, k, |keys|)
    ensures |counter| == maxKey + 1
    ensures forall k :: 0 <= k <= maxKey ==> counter[k] == CountLess(keys, k + 1, |keys|)
  {
    var n := |keys|;
    counter := counts;
    CountLessZero(keys, n);
    CountNext(keys, 0, n);
    for k := 1 to maxKey
      invariant |counter| == maxKey + 1
      invariant forall m :: 0 <= m < k ==> counter[m] == CountLess(keys, m + 1, n)
      invariant forall m :: k <= m <= maxKey ==> counter[m] == CountEq(keys, m, n)
    {
      CountNext(keys, k, n);
      counter := counter[k := counter[k] + counter[k - 1]];
    }
    CountNext(keys, maxKey, n);
    counter := counter[maxKey := counter[maxKey] + counter[maxKey - 1]];
  }

  /**
   * The placement loop, scanning the elements from last to first:
   * `idx[--counter[key(i)]] = i`.  Each element lands on its rank.
   */
  method PlaceBackwards(keys: seq<int>, maxKey: int, sums: seq<int>) returns (idx: seq<int>)
    requires maxKey >= 1 && ValuesInRange(keys, maxKey)
    requires |sums| == maxKey + 1
    requires forall k :: 0 <= k <= maxKey ==> sums[k] == CountLess(keys, k + 1, |keys|)
    ensures PlacesByRank(keys, idx)
  {
    var n := |keys|;
    var counter := sums;
    forall k | 0 <= k <= maxKey
      ensures counter[k] == CountLess(keys, k, n) + CountEq(keys, k, n)
    {
      CountNext(keys, k, n);
    }
    idx := seq(n, _ => 0);
    var i := n;
    while i > 0
      invariant 0 <= i <= n && |idx| == n && |counter| == maxKey + 1
      invariant forall k :: 0 <= k <= maxKey ==> counter[k] == CountLess(keys, k, n) + CountEq(keys, k, i)
      invariant forall j :: i <= j < n ==> 0 <= Rank(keys, j) < n && idx[Rank(keys, j)] == j
    {
      i := i - 1;
      var x := keys[i];
      counter := counter[x := counter[x] - 1];
      RankInRange(keys, i);
      forall j | i < j < n
        ensures Rank(keys, i) != Rank(keys, j)
      {
        RankInjective(keys, i, j);
      }
      idx := idx[counter[x] := i];
    }
  }

  /** Ascending by `maxValue - v` is descending by `v`, and ties are the same ties. */
  lemma {:induction false} ComplementOrder(v: seq<int>, m: int, idx: seq<int>)
    requires AllBelow(idx, |v|)
    ensures Ascending(Complement(v, m), idx) <==> OrderedBy(v, idx, Greater)
    ensures Stable(Complement(v, m), idx) <==> Stable(v, idx)
  {
  }

  /** The stable order of the keys for `c` is a permutation ordered by `c`, and stable. */
  lemma {:induction false} KeysForOrder(v: seq<int>, c: Comparison)
    ensures SortedIndex(v, StableOrder(KeysFor(v, c)), c)
    ensures Stable(v, StableOrder(KeysFor(v, c)))
  {
    var idx := StableOrder(KeysFor(v, c));
    StableOrderCharacterised(KeysFor(v, c), idx);
    if c == Greater {
      ComplementOrder(v, 0, idx);
    }
  }

  /**
   * `STLsortIndex(v, cmp)`: the indices `0..|v|-1` sorted by `cmp` on their
   * values.  `std::sort` leaves the order of ties unspecified; this model picks
   * the stable one, and the contract promises only what `std::sort` promises.
   */
  function StlSortIndex(v: seq<int>, c: Comparison): (idx: seq<int>)
    ensures SortedIndex(v, idx, c)
  {
    KeysForOrder(v, c);
    StableOrder(KeysFor(v, c))
  }

  /** `incresingCountingSortIndex(v)`: a stable sort into non-decreasing value order. */
  method IncreasingCountingSortIndex(v: seq<int>, maxValue: int) returns (idx: seq<int>)
    requires maxValue >= 1 && ValuesInRange(v, maxValue)
    ensures SortedIndex(v, idx, Less) && Stable(v, idx)
    ensures idx == StableOrder(v)
  {
    idx := CountingSortIndex(v, maxValue);
    StableOrderCharacterised(v, idx);
  }

  /** `decreasingCountingSortIndex(v)`: keyed on `maxValue - v[i]`, a stable sort into non-increasing order. */
  method DecreasingCountingSortIndex(v: seq<int>, maxValue: int) returns (idx: seq<int>)
    requires maxValue >= 1 && ValuesInRange(v, maxValue)
    ensures SortedIndex(v, idx, Greater) && Stable(v, idx)
    ensures idx == StableOrder(Complement(v, maxValue))
  {
    var keys := Complement(v, maxValue);
    idx := CountingSortIndex(keys, maxValue);
    StableOrderCharacterised(keys, idx);
    ComplementOrder(v, maxValue, idx);
  }

  /** `maxTreeSort`: counting sort for the low-size types, `<` comparison sort otherwise; non-decreasing either way. */
  method MaxTreeSort(v: seq<int>, t: ScalarType) returns (idx: seq<int>)
    requires IsLowSizeType(t) ==> ValuesInRange(v, MaxValue(t))
    ensures SortedIndex(v, idx, Less)
    ensures IsLowSizeType(t) ==> Stable(v, idx)
  {
    if IsLowSizeType(t) {
      idx := IncreasingCountingSortIndex(v, MaxValue(t));
    } else {
      idx := StlSortIndex(v, Less);
    }
  }

  /** `minTreeSort`: decreasing counting sort for the low-size types, `>` comparison sort otherwise; non-increasing either way. */
  method MinTreeSort(v: seq<int>, t: ScalarType) returns (idx: seq<int>)
    requires IsLowSizeType(t) ==> ValuesInRange(v, MaxValue(t))
    ensures SortedIndex(v, idx, Greater)
    ensures IsLowSizeType(t) ==> Stable(v, idx)
  {
    if IsLowSizeType(t) {
      idx := DecreasingCountingSortIndex(v, MaxValue(t));
    } else {
      idx := StlSortIndex(v, Greater);
    }
  }

  /** The types `MaxTreeSorter::sort` sends to its counting sort (`bool` is not among them). */
  predicate MaxTreeSorterCounts(t: ScalarType) {
    t in {Int, UnsignedInt, Char, UnsignedChar, UnsignedShort, Short}
  }

  /**
   * `MaxTreeSorter::sort` as written: the counting path is keyed on
   * `maxValue - v[i]` and yields non-increasing values, but the fallback
   * comparison sort uses `v1 < v2` and yields non-decreasing values.
   */
  method MaxTreeSorterSortAsWritten(v: seq<int>, t: ScalarType) returns (idx: seq<int>)
    requires MaxTreeSorterCounts(t) ==> ValuesInRange(v, MaxValue(t))
    ensures IsPermutation(idx, |v|)
    ensures MaxTreeSorterCounts(t) ==> SortedIndex(v, idx, Greater) && Stable(v, idx)
    ensures !MaxTreeSorterCounts(t) ==> idx == StlSortIndex(v, Less)
  {
    if MaxTreeSorterCounts(t) {
      idx := DecreasingCountingSortIndex(v, MaxValue(t));
    } else {
      idx := StlSortIndex(v, Less);
    }
  }

  /**
   * `MaxTreeSorter::sort` with the fallback comparison `v1 > v2`: both paths
   * give the non-increasing order the builder needs (the root, of least value,
   * comes last).
   */
  method MaxTreeSorterSort(v: seq<int>, t: ScalarType) returns (idx: seq<int>)
    requires MaxTreeSorterCounts(t) ==> ValuesInRange(v, MaxValue(t))
    ensures SortedIndex(v, idx, Greater)
    ensures MaxTreeSorterCounts(t) ==> Stable(v, idx)
  {
    if MaxTreeSorterCounts(t) {
      idx := DecreasingCountingSortIndex(v, MaxValue(t));
    } else {
      idx := StlSortIndex(v, Greater);
    }
  }

  /**
   * The two paths of `MaxTreeSorter::sort` as written disagree: on `[0, 1]` the
   * fallback puts the larger value last, which no non-increasing order does.
   */
  lemma MaxTreeSorterPathsDisagree()
    ensures StlSortIndex([0, 1], Less) == [0, 1]
    ensures !OrderedBy([0, 1], StlSortIndex([0, 1], Less), Greater)
    ensures StableOrder(Complement([0, 1], MaxValue(UnsignedChar))) == [1, 0]
  {
    var idx := StlSortIndex([0, 1], Less);
    assert idx[0] != idx[1];
    var keys := Complement([0, 1], MaxValue(UnsignedChar));
    var r := StableOrder(keys);
    StableOrderCharacterised(keys, r);
    assert keys == [255, 254];
    assert r[0] != r[1];
  }

  /** The reference vector of the sorting scenarios. */
  const ReferenceValues: seq<int> := [2, 5, 3, 0, 2, 3, 0, 3]

  /** A literal sequence that places every element at its listed rank is the stable order. */
  lemma {:induction false} StableOrderFromRanks(keys: seq<int>, ranks: seq<int>, order: seq<int>)
    requires |ranks| == |keys| == |order|
    requires forall j :: 0 <= j < |keys| ==> Rank(keys, j) == ranks[j]
    requires forall j :: 0 <= j < |keys| ==> 0 <= ranks[j] < |order| && order[ranks[j]] == j
    ensures StableOrder(keys) == order
  {
    PlacementUnique(keys, order, StableOrder(keys));
  }

  /** The increasing order of the reference vector is `[3,6,0,4,2,5,7,1]`. */
  lemma ReferenceIncreasing()
    ensures StableOrder(ReferenceValues) == [3, 6, 0, 4, 2, 5, 7, 1]
  {
    var keys := [2, 5, 3, 0, 2, 3, 0, 3];
    assert ReferenceValues == keys;
    var ranks := [2, 7, 4, 0, 3, 5, 1, 6];
    assert CountLess(keys, 0, 8) == 0 && CountLess(keys, 2, 8) == 2;
    assert CountLess(keys, 3, 8) == 4 && CountLess(keys, 5, 8) == 7;
    assert Rank(keys, 0) == 2;
    assert Rank(keys, 1) == 7;
    assert Rank(keys, 2) == 4;
    assert Rank(keys, 3) == 0;
    assert Rank(keys, 4) == 3;
    assert Rank(keys, 5) == 5;
    assert Rank(keys, 6) == 1;
    assert Rank(keys, 7) == 6;
    StableOrderFromRanks(keys, ranks, [3, 6, 0, 4, 2, 5, 7, 1]);
  }

  /** The decreasing order of the reference vector is `[1,2,5,7,0,4,3,6]`, on both sorting paths. */
  lemma ReferenceDecreasing()
    ensures StableOrder(Complement(ReferenceValues, MaxValue(UnsignedChar))) == [1, 2, 5, 7, 0, 4, 3, 6]
    ensures StableOrder(KeysFor(ReferenceValues, Greater)) == [1, 2, 5, 7, 0, 4, 3, 6]
  {
    assert Complement(ReferenceValues, MaxValue(UnsignedChar)) == [253, 250, 252, 255, 253, 252, 255, 252];
    ReferenceComplementOrder();
    assert KeysFor(ReferenceValues, Greater) == [-2, -5, -3, 0, -2, -3, 0, -3];
    ReferenceNegatedOrder();
  }

  lemma ReferenceComplementOrder()
    ensures StableOrder([253, 250, 252, 255, 253, 252, 255, 252]) == [1, 2, 5, 7, 0, 4, 3, 6]
  {
    var keys := [253, 250, 252, 255, 253, 252, 255, 252];
    assert CountLess(keys, 250, 8) == 0 && CountLess(keys, 252, 8) == 1;
    assert CountLess(keys, 253, 8) == 4 && CountLess(keys, 255, 8) == 6;
    assert Rank(keys, 0) == 4;
    assert Rank(keys, 1) == 0;
    assert Rank(keys, 2) == 1;
    assert Rank(keys, 3) == 6;
    assert Rank(keys, 4) == 5;
    assert Rank(keys, 5) == 2;
    assert Rank(keys, 6) == 7;
    assert Rank(keys, 7) == 3;
    StableOrderFromRanks(keys, [4, 0, 1, 6, 5, 2, 7, 3], [1, 2, 5, 7, 0, 4, 3, 6]);
  }

  lemma ReferenceNegatedOrder()
    ensures StableOrder([-2, -5, -3, 0, -2, -3, 0, -3]) == [1, 2, 5, 7, 0, 4, 3, 6]
  {
    var keys := [-2, -5, -3, 0, -2, -3, 0, -3];
    assert CountLess(keys, -5, 8) == 0 && CountLess(keys, -3, 8) == 1;
    assert CountLess(keys, -2, 8) == 4 && CountLess(keys, 0, 8) == 6;
    assert Rank(keys, 0) == 4;
    assert Rank(keys, 1) == 0;
    assert Rank(keys, 2) == 1;
    assert Rank(keys, 3) == 6;
    assert Rank(keys, 4) == 5;
    assert Rank(keys, 5) == 2;
    assert Rank(keys, 6) == 7;
    assert Rank(keys, 7) == 3;
    StableOrderFromRanks(keys, [4, 0, 1, 6, 5, 2, 7, 3], [1, 2, 5, 7, 0, 4, 3, 6]);
  }

  /** The low-size types are exactly the seven listed by `isLowSizeType`. */
  lemma ReferenceLowSizeTypes()
    ensures IsLowSizeType(UnsignedChar) && IsLowSizeType(Char) && IsLowSizeType(UnsignedShort)
    ensures IsLowSizeType(Short) && IsLowSizeType(UnsignedInt) && IsLowSizeType(Int) && IsLowSizeType(Bool)
    ensures !IsLowSizeType(Long) && !IsLowSizeType(UnsignedLong) && !IsLowSizeType(Float) && !IsLowSizeType(Double)
  {
  }
}

=== FILE: subtree_sums.dfy ===
/**
 * Sums over the subtrees of a compact tree: the quantity an additive
 * incremental attribute (area, node count, bit-quad counters) accumulates,
 * and the per-node state of such an attribute part way through the
 * reverse-id traversal.
 */
module SubtreeSums {
  import opened Permutations
  import opened CompactTree

  /** The sum of the per-element weights `g` over the elements `es`. */
  function SumOver(g: seq<real>, es: seq<int>): real
    requires forall j :: 0 <= j < |es| ==> 0 <= es[j] < |g|
  {
    if es == [] then 0.0 else g[es[0]] + SumOver(g, es[1..])
  }

  lemma {:induction false} SumOverConcat(g: seq<real>, a: seq<int>, b: seq<int>)
    requires forall j :: 0 <= j < |a| ==> 0 <= a[j] < |g|
    requires forall j :: 0 <= j < |b| ==> 0 <= b[j] < |g|
    ensures SumOver(g, a + b) == SumOver(g, a) + SumOver(g, b)
    decreases |a|
  {
    if a != [] {
      var ab := a + b;
      assert ab[0] == a[0] && ab[1..] == a[1..] + b;
      SumOverConcat(g, a[1..], b);
      assert SumOver(g, ab) == g[ab[0]] + SumOver(g, ab[1..]);
    } else {
      assert a + b == b;
    }
  }

  /** The elements of every node are indices of the image. */
  predicate ElementsBelow(t: CTree, size: int) {
    forall k, j :: 0 <= k < |t.nodes| && 0 <= j < |t.nodes[k].elementIndices| ==>
      0 <= t.nodes[k].elementIndices[j] < size
  }

  /** The weight of each node: the sum of `g` over its own elements. */
  function NodeWeights(t: CTree, g: seq<real>): (w: seq<real>)
    requires ElementsBelow(t, |g|)
    ensures |w| == |t.nodes|
    ensures forall k :: 0 <= k < |t.nodes| ==> w[k] == SumOver(g, t.nodes[k].elementIndices)
  {
    seq(|t.nodes|, k requires 0 <= k < |t.nodes| => SumOver(g, t.nodes[k].elementIndices))
  }

  /** The children of a node have larger ids. */
  lemma {:induction false} ChildrenAbove(t: CTree, k: int)
    requires Shaped(t) && 0 <= k < |t.nodes|
    ensures forall j :: 0 <= j < |t.nodes[k].children| ==> k < t.nodes[k].children[j] < |t.nodes|
  {
  }

  /** The sum of the per-node weights `w` over the subtree of node `k`. */
  function Total(t: CTree, w: seq<real>, k: int): real
    requires Shaped(t) && |w| == |t.nodes| && 0 <= k < |t.nodes|
    decreases |t.nodes| - k, 1
  {
    ChildrenAbove(t, k);
    w[k] + ChildTotal(t, w, k, t.nodes[k].children, 0)
  }

  /** The subtree sums of those children `cs` of node `k` whose ids are at least `m`. */
  function ChildTotal(t: CTree, w: seq<real>, k: int, cs: seq<int>, m: int): real
    requires Shaped(t) && |w| == |t.nodes| && 0 <= k < |t.nodes|
    requires forall j :: 0 <= j < |cs| ==> k < cs[j] < |t.nodes|
    decreases |t.nodes| - k, 0, |cs|
  {
    if cs == [] then 0.0
    else (if cs[0] >= m then Total(t, w, cs[0]) else 0.0) + ChildTotal(t, w, k, cs[1..], m)
  }

  /** Lowering the bound from `m` to `m - 1` adds the child `m - 1`, if it is one (once). */
  lemma {:induction false} ChildTotalStep(t: CTree, w: seq<real>, k: int, cs: seq<int>, m: int)
    requires Shaped(t) && |w| == |t.nodes| && 0 <= k < |t.nodes|
    requires forall j :: 0 <= j < |cs| ==> k < cs[j] < |t.nodes|
    requires Increasing(cs) && 1 <= m
    ensures ChildTotal(t, w, k, cs, m - 1) ==
              ChildTotal(t, w, k, cs, m) + if m - 1 in cs then Total(t, w, m - 1) else 0.0
    decreases |cs|
  {
    if cs != [] {
      ChildTotalStep(t, w, k, cs[1..], m);
      if m - 1 in cs[1..] {
        assert cs[0] < m - 1 by {
          var j :| 0 <= j < |cs[1..]| && cs[1..][j] == m - 1;
          assert cs[0] < cs[j + 1];
        }
      }
      assert m - 1 in cs <==> cs[0] == m - 1 || m - 1 in cs[1..];
    }
  }

  /** When every child in `cs` is at least `m`, the bound filters nothing. */
  lemma {:induction false} ChildTotalUnfiltered(t: CTree, w: seq<real>, k: int, cs: seq<int>, m: int)
    requires Shaped(t) && |w| == |t.nodes| && 0 <= k < |t.nodes|
    requires forall j :: 0 <= j < |cs| ==> k < cs[j] < |t.nodes| && m <= cs[j]
    ensures ChildTotal(t, w, k, cs, m) == ChildTotal(t, w, k, cs, 0)
    decreases |cs|
  {
    if cs != [] {
      ChildTotalUnfiltered(t, w, k, cs[1..], m);
    }
  }

  /** When every child in `cs` is below `m`, nothing is counted yet. */
  lemma {:induction false} ChildTotalNone(t: CTree, w: seq<real>, k: int, cs: seq<int>, m: int)
    requires Shaped(t) && |w| == |t.nodes| && 0 <= k < |t.nodes|
    requires forall j :: 0 <= j < |cs| ==> k < cs[j] < |t.nodes| && cs[j] < m
    ensures ChildTotal(t, w, k, cs, m) == 0.0
    decreases |cs|
  {
    if cs != [] {
      ChildTotalNone(t, w, k, cs[1..], m);
    }
  }

  /**
   * The state of an additive attribute array once the nodes `m..n-1` have been
   * processed in decreasing id order: a processed node holds its whole
   * subtree's sum, a pending node the sums of its processed children.
   */
  predicate ColumnAt(col: seq<real>, t: CTree, w: seq<real>, m: int)
    requires Shaped(t) && |w| == |t.nodes| && 0 <= m <= |t.nodes|
  {
    |col| == |t.nodes| &&
    forall k :: 0 <= k < |t.nodes| ==>
      col[k] == if k >= m then Total(t, w, k) else Subtotal(t, w, k, m)
  }

  /** The processed children's sums of node `k`, `m..n-1` processed. */
  function Subtotal(t: CTree, w: seq<real>, k: int, m: int): real
    requires Shaped(t) && |w| == |t.nodes| && 0 <= k < |t.nodes|
  {
    ChildrenAbove(t, k);
    ChildTotal(t, w, k, t.nodes[k].children, m)
  }

  /** The all-zero array of `setUp` is the state before any node is processed. */
  lemma {:induction false} ColumnAtStart(t: CTree, w: seq<real>, col: seq<real>)
    requires Shaped(t) && |w| == |t.nodes|
    requires |col| == |t.nodes| && forall k :: 0 <= k < |col| ==> col[k] == 0.0
    ensures ColumnAt(col, t, w, |t.nodes|)
  {
    forall k | 0 <= k < |t.nodes|
      ensures col[k] == Subtotal(t, w, k, |t.nodes|)
    {
      ChildrenAbove(t, k);
      ChildTotalNone(t, w, k, t.nodes[k].children, |t.nodes|);
    }
  }

  /**
   * Processing node `j = m - 1`: `preProcess` adds its own weight, then
   * `merge` adds its (now complete) value into its parent, if it has one.
   */
  function StepColumn(col: seq<real>, t: CTree, w: seq<real>, j: int): (r: seq<real>)
    requires Shaped(t) && |w| == |t.nodes| && |col| == |t.nodes| && 0 <= j < |t.nodes|
    ensures |r| == |col|
  {
    var col1 := col[j := col[j] + w[j]];
    if t.nodes[j].parent == NoParent then col1
    else col1[t.nodes[j].parent := col1[t.nodes[j].parent] + col1[j]]
  }

  /** Processing the next node in decreasing id order keeps the column in step. */
  lemma {:induction false} ColumnStep(col: seq<real>, t: CTree, w: seq<real>, m: int)
    requires Shaped(t) && |w| == |t.nodes| && 1 <= m <= |t.nodes|
    requires ColumnAt(col, t, w, m)
    ensures ColumnAt(StepColumn(col, t, w, m - 1), t, w, m - 1)
  {
    var j := m - 1;
    var r := StepColumn(col, t, w, j);
    ChildrenAbove(t, j);
    ChildTotalUnfiltered(t, w, j, t.nodes[j].children, m);
    assert r[j] == Total(t, w, j);
    forall k | 0 <= k < j
      ensures r[k] == Subtotal(t, w, k, j)
    {
      ChildrenAbove(t, k);
      ChildTotalStep(t, w, k, t.nodes[k].children, m);
      if j in t.nodes[k].children {
        assert t.nodes[j].parent == k;
      } else if j >= 1 {
        assert t.nodes[j].parent != k;
      }
    }
  }

  /** Running the steps for the nodes `m-1` down to 0. */
  function RunColumn(col: seq<real>, t: CTree, w: seq<real>, m: int): (r: seq<real>)
    requires Shaped(t) && |w| == |t.nodes| && |col| == |t.nodes| && 0 <= m <= |t.nodes|
    ensures |r| == |col|
    decreases m
  {
    if m == 0 then col else RunColumn(StepColumn(col, t, w, m - 1), t, w, m - 1)
  }

  /**
   * From the all-zero array, the reverse-id pass leaves every node holding
   * the sum of the weights over its subtree.
   */
  lemma {:induction false} RunColumnTotals(col: seq<real>, t: CTree, w: seq<real>, m: int)
    requires Shaped(t) && |w| == |t.nodes| && 0 <= m <= |t.nodes|
    requires ColumnAt(col, t, w, m)
    ensures forall k :: 0 <= k < |t.nodes| ==> RunColumn(col, t, w, m)[k] == Total(t, w, k)
    decreases m
  {
    if m > 0 {
      ColumnStep(col, t, w, m);
      RunColumnTotals(StepColumn(col, t, w, m - 1), t, w, m - 1);
    }
  }

  /**
   * The subtree sum of the node weights is the sum of the element weights
   * over `reconstructNode(k)`.
   */
  lemma {:induction false} TotalIsSumOverReconstruct(t: CTree, g: seq<real>, k: int)
    requires Shaped(t) && ElementsBelow(t, |g|) && 0 <= k < |t.nodes|
    ensures ReconstructBelow(t, k, |g|)
    ensures Total(t, NodeWeights(t, g), k) == SumOver(g, Reconstruct(t, k))
    decreases |t.nodes| - k, 1
  {
    ChildrenAbove(t, k);
    var es, cs := t.nodes[k].elementIndices, t.nodes[k].children;
    var rc := ReconstructChildren(t, k, cs);
    ChildTotalIsSumOverReconstruct(t, g, k, cs);
    assert forall j :: 0 <= j < |es| ==> 0 <= es[j] < |g|;
    assert Reconstruct(t, k) == es + rc;
    SumOverConcat(g, es, rc);
    var w := NodeWeights(t, g);
    assert Total(t, w, k) == w[k] + ChildTotal(t, w, k, cs, 0);
  }

  /** The same for the children `cs` of node `k`. */
  lemma {:induction false} ChildTotalIsSumOverReconstruct(t: CTree, g: seq<real>, k: int, cs: seq<int>)
    requires Shaped(t) && ElementsBelow(t, |g|) && 0 <= k < |t.nodes|
    requires forall j :: 0 <= j < |cs| ==> k < cs[j] < |t.nodes|
    ensures forall j :: 0 <= j < |ReconstructChildren(t, k, cs)| ==> 0 <= ReconstructChildren(t, k, cs)[j] < |g|
    ensures ChildTotal(t, NodeWeights(t, g), k, cs, 0) == SumOver(g, ReconstructChildren(t, k, cs))
    decreases |t.nodes| - k, 0, |cs|
  {
    if cs != [] {
      var rest := cs[1..];
      var w := NodeWeights(t, g);
      var a, b := Reconstruct(t, cs[0]), ReconstructChildren(t, k, rest);
      assert ReconstructBelow(t, cs[0], |g|) && Total(t, w, cs[0]) == SumOver(g, a) by {
        TotalIsSumOverReconstruct(t, g, cs[0]);
      }
      assert (forall j :: 0 <= j < |b| ==> 0 <= b[j] < |g|) && ChildTotal(t, w, k, rest, 0) == SumOver(g, b) by {
        ChildTotalIsSumOverReconstruct(t, g, k, rest);
      }
      assert ReconstructChildren(t, k, cs) == a + b;
      assert ChildTotal(t, w, k, cs, 0) == Total(t, w, cs[0]) + ChildTotal(t, w, k, rest, 0);
      assert SumOver(g, a + b) == SumOver(g, a) + SumOver(g, b) by { SumOverConcat(g, a, b); }
    }
  }

  /** Every element `reconstructNode(k)` lists is an index below `size`. */
  predicate ReconstructBelow(t: CTree, k: int, size: int)
    requires Shaped(t) && 0 <= k < |t.nodes|
  {
    forall j :: 0 <= j < |Reconstruct(t, k)| ==> 0 <= Reconstruct(t, k)[j] < size
  }

  /** A weight of 1 per element sums to the number of elements. */
  lemma {:induction false} SumOverOnes(g: seq<real>, es: seq<int>)
    requires forall j :: 0 <= j < |es| ==> 0 <= es[j] < |g| && g[es[j]] == 1.0
    ensures SumOver(g, es) == |es| as real
    decreases |es|
  {
    if es != [] {
      SumOverOnes(g, es[1..]);
    }
  }
  /* ----------------------- the nodes of a subtree ------------------------- */

  /** The tree of the same shape in which node `k` owns the single element `k`. */
  function NodeTree(t: CTree): (u: CTree)
    ensures |u.nodes| == |t.nodes| == |u.cmap|
    ensures forall k :: 0 <= k < |t.nodes| ==>
              u.nodes[k] == t.nodes[k].(elementIndices := [k]) && u.cmap[k] == k
  {
    CTree(seq(|t.nodes|, k requires 0 <= k < |t.nodes| => t.nodes[k].(elementIndices := [k])),
          seq(|t.nodes|, k => k))
  }

  lemma {:induction false} NodeTreeWellFormed(t: CTree)
    requires Shaped(t)
    ensures WellFormed(NodeTree(t))
  {
  }

  /** Being in a subtree depends on the parent ids alone. */
  lemma {:induction false} NodeTreeDescendant(t: CTree, x: int, k: int)
    requires Shaped(t) && 0 <= x < |t.nodes|
    ensures Shaped(NodeTree(t))
    ensures Descendant(NodeTree(t), x, k) <==> Descendant(t, x, k)
    decreases x
  {
    NodeTreeWellFormed(t);
    if x != k && x > 0 {
      NodeTreeDescendant(t, t.nodes[x].parent, k);
    }
  }

  /** Subtree sums depend on the children lists alone. */
  lemma {:induction false} NodeTreeTotal(t: CTree, w: seq<real>, k: int)
    requires Shaped(t) && |w| == |t.nodes| && 0 <= k < |t.nodes|
    ensures Shaped(NodeTree(t))
    ensures Total(NodeTree(t), w, k) == Total(t, w, k)
    decreases |t.nodes| - k, 1
  {
    NodeTreeWellFormed(t);
    ChildrenAbove(t, k);
    NodeTreeChildTotal(t, w, k, t.nodes[k].children);
  }

  lemma {:induction false} NodeTreeChildTotal(t: CTree, w: seq<real>, k: int, cs: seq<int>)
    requires Shaped(t) && |w| == |t.nodes| && 0 <= k < |t.nodes|
    requires forall j :: 0 <= j < |cs| ==> k < cs[j] < |t.nodes|
    ensures Shaped(NodeTree(t))
    ensures ChildTotal(NodeTree(t), w, k, cs, 0) == ChildTotal(t, w, k, cs, 0)
    decreases |t.nodes| - k, 0, |cs|
  {
    NodeTreeWellFormed(t);
    if cs != [] {
      NodeTreeTotal(t, w, cs[0]);
      NodeTreeChildTotal(t, w, k, cs[1..]);
    }
  }

  /** The ids of the nodes in the subtree of node `k`, in `reconstructNode` order. */
  function SubtreeNodes(t: CTree, k: int): seq<int>
    requires Shaped(t) && 0 <= k < |t.nodes|
  {
    NodeTreeWellFormed(t);
    Reconstruct(NodeTree(t), k)
  }

  /** `SubtreeNodes(t, k)` lists every node of the subtree of `k` exactly once, and nothing else. */
  lemma {:induction false} SubtreeNodesMembers(t: CTree, k: int)
    requires Shaped(t) && 0 <= k < |t.nodes|
    ensures Distinct(SubtreeNodes(t, k))
    ensures forall x :: x in SubtreeNodes(t, k) <==> 0 <= x < |t.nodes| && Descendant(t, x, k)
  {
    var u := NodeTree(t);
    NodeTreeWellFormed(t);
    ReconstructMembers(u, k);
    ReconstructDistinct(u, k);
    forall x | 0 <= x < |t.nodes|
      ensures Descendant(u, u.cmap[x], k) <==> Descendant(t, x, k)
    {
      NodeTreeDescendant(t, x, k);
    }
  }

  /** The subtree sum of a weight of one per node is the number of nodes in the subtree. */
  lemma {:induction false} TotalCountsNodes(t: CTree, k: int)
    requires Shaped(t) && 0 <= k < |t.nodes|
    ensures Total(t, seq(|t.nodes|, j => 1.0), k) == |SubtreeNodes(t, k)| as real
  {
    var u, n := NodeTree(t), |t.nodes|;
    var g := seq(n, j => 1.0);
    NodeTreeWellFormed(t);
    forall j | 0 <= j < n
      ensures SumOver(g, u.nodes[j].elementIndices) == g[j]
    {
      assert u.nodes[j].elementIndices == [j];
      assert u.nodes[j].elementIndices[1..] == [];
    }
    assert NodeWeights(u, g) == g;
    NodeTreeTotal(t, g, k);
    TotalIsSumOverReconstruct(u, g, k);
    SumOverOnes(g, Reconstruct(u, k));
  }
}

=== FILE: union_find.dfy ===
/**
 * The `zpar` forest of the union-find tree builder and its path-compressing
 * `findRoot`.  Every visited element points to a visited element that was
 * processed no earlier than itself, so following `zpar` ends in a self-loop.
 * The processing order is given as `rank`: `rank[x]` is the position of `x`
 * in the sorted indices.
 */
module UnionFind {
  import opened Permutations

  /** The `UNDEF` mark of an element not yet visited. */
  const Undef := -1

  /** A visited element's link points to a visited element ranked no lower, strictly higher unless it is a self-loop. */
  predicate Forest(zpar: seq<int>, rank: seq<int>) {
    |rank| == |zpar| && AllBelow(rank, |zpar|) &&
    forall x :: 0 <= x < |zpar| && zpar[x] != Undef ==>
      0 <= zpar[x] < |zpar| && zpar[zpar[x]] != Undef && (zpar[x] == x || rank[x] < rank[zpar[x]])
  }

  predicate Visited(zpar: seq<int>, x: int) {
    0 <= x < |zpar| && zpar[x] != Undef
  }

  /** The self-loop reached by following `zpar` from `x`, without changing anything. */
  function Root(zpar: seq<int>, rank: seq<int>, x: int): int
    requires Forest(zpar, rank) && Visited(zpar, x)
    decreases |zpar| - rank[x]
  {
    if zpar[x] == x then x else Root(zpar, rank, zpar[x])
  }

  /** `y` lies on the path followed from `x`. */
  predicate OnPath(zpar: seq<int>, rank: seq<int>, x: int, y: int)
    requires Forest(zpar, rank) && Visited(zpar, x)
    decreases |zpar| - rank[x]
  {
    y == x || (zpar[x] != x && OnPath(zpar, rank, zpar[x], y))
  }

  /** The root is a visited self-loop, ranked at least as high as `x`, and strictly higher unless `x` is the root. */
  lemma {:induction false} RootFacts(zpar: seq<int>, rank: seq<int>, x: int)
    requires Forest(zpar, rank) && Visited(zpar, x)
    ensures Visited(zpar, Root(zpar, rank, x)) && zpar[Root(zpar, rank, x)] == Root(zpar, rank, x)
    ensures Root(zpar, rank, x) == x || rank[x] < rank[Root(zpar, rank, x)]
    ensures Root(zpar, rank, x) == x <==> zpar[x] == x
    decreases |zpar| - rank[x]
  {
    if zpar[x] != x {
      RootFacts(zpar, rank, zpar[x]);
    }
  }

  /** Every element on the path from `x` has the same root as `x`. */
  lemma {:induction false} OnPathSameRoot(zpar: seq<int>, rank: seq<int>, x: int, y: int)
    requires Forest(zpar, rank) && Visited(zpar, x) && OnPath(zpar, rank, x, y)
    ensures Visited(zpar, y) && Root(zpar, rank, y) == Root(zpar, rank, x)
    decreases |zpar| - rank[x]
  {
    if y != x {
      OnPathSameRoot(zpar, rank, zpar[x], y);
    }
  }

  /**
   * `findRoot(zpar, p)`: returns the root of `p` and the forest in which every
   * element on the path from `p` now points directly at that root.
   */
  function FindRoot(zpar: seq<int>, ghost rank: seq<int>, x: int): (res: (int, seq<int>))
    requires Forest(zpar, rank) && Visited(zpar, x)
    ensures res.0 == Root(zpar, rank, x)
    ensures Visited(zpar, res.0) && zpar[res.0] == res.0
    ensures |res.1| == |zpar| && Forest(res.1, rank)
    ensures res.1[x] == res.0 && res.1[res.0] == res.0
    ensures forall y :: 0 <= y < |zpar| && OnPath(zpar, rank, x, y) ==> res.1[y] == res.0
    ensures forall y :: 0 <= y < |zpar| && !OnPath(zpar, rank, x, y) ==> res.1[y] == zpar[y]
    decreases |zpar| - rank[x]
  {
    RootFacts(zpar, rank, x);
    if zpar[x] == x then (x, zpar)
    else
      var (r, z) := FindRoot(zpar, rank, zpar[x]);
      (r, z[x := r])
  }

  /**
   * Re-pointing visited elements at their own roots changes no element's
   * root: the forest describes the same partition before and after.
   */
  lemma {:induction false} RedirectPreservesRoot(zpar: seq<int>, z: seq<int>, rank: seq<int>, y: int)
    requires Forest(zpar, rank) && Forest(z, rank) && |z| == |zpar|
    requires forall w :: 0 <= w < |zpar| ==> (z[w] == Undef <==> zpar[w] == Undef)
    requires forall w :: Visited(zpar, w) ==> z[w] == zpar[w] || z[w] == Root(zpar, rank, w)
    requires Visited(zpar, y)
    ensures Root(z, rank, y) == Root(zpar, rank, y)
    decreases |zpar| - rank[y]
  {
    RootFacts(zpar, rank, y);
    var r := Root(zpar, rank, y);
    if z[y] == zpar[y] {
      if zpar[y] != y {
        RedirectPreservesRoot(zpar, z, rank, zpar[y]);
      }
    } else {
      RootFacts(zpar, rank, r);
      RedirectPreservesRoot(zpar, z, rank, r);
    }
  }

  /** Path compression keeps every element's root and every element's visited mark. */
  lemma {:induction false} FindRootPreservesRoots(zpar: seq<int>, rank: seq<int>, x: int)
    requires Forest(zpar, rank) && Visited(zpar, x)
    ensures forall y :: 0 <= y < |zpar| ==> (Visited(FindRoot(zpar, rank, x).1, y) <==> Visited(zpar, y))
    ensures forall y :: 0 <= y < |zpar| ==> (FindRoot(zpar, rank, x).1[y] == y <==> zpar[y] == y)
    ensures forall y :: Visited(zpar, y) ==> Root(FindRoot(zpar, rank, x).1, rank, y) == Root(zpar, rank, y)
  {
    var z := FindRoot(zpar, rank, x).1;
    forall w | Visited(zpar, w)
      ensures z[w] == zpar[w] || z[w] == Root(zpar, rank, w)
    {
      if OnPath(zpar, rank, x, w) {
        OnPathSameRoot(zpar, rank, x, w);
      }
    }
    forall w | 0 <= w < |zpar|
      ensures z[w] == Undef <==> zpar[w] == Undef
      ensures z[w] == w <==> zpar[w] == w
    {
      if OnPath(zpar, rank, x, w) {
        OnPathSameRoot(zpar, rank, x, w);
        RootFacts(zpar, rank, w);
      }
    }
    forall y | Visited(zpar, y)
      ensures Root(z, rank, y) == Root(zpar, rank, y)
    {
      RedirectPreservesRoot(zpar, z, rank, y);
    }
  }

  /** Linking root `r` under root `p` (`zpar[r] = p`) keeps the forest well formed. */
  lemma {:induction false} LinkKeepsForest(zpar: seq<int>, rank: seq<int>, r: int, p: int)
    requires Forest(zpar, rank) && Visited(zpar, r) && Visited(zpar, p)
    requires zpar[r] == r && zpar[p] == p && rank[r] < rank[p]
    ensures Forest(zpar[r := p], rank)
  {
  }

  /** After linking root `r` under root `p`, the elements of `r`'s tree have root `p` and the others keep theirs. */
  lemma {:induction false} LinkRoot(zpar: seq<int>, rank: seq<int>, r: int, p: int, y: int)
    requires Forest(zpar, rank) && Visited(zpar, r) && Visited(zpar, p)
    requires zpar[r] == r && zpar[p] == p && rank[r] < rank[p]
    requires Visited(zpar, y)
    ensures Forest(zpar[r := p], rank)
    ensures Root(zpar[r := p], rank, y) == if Root(zpar, rank, y) == r then p else Root(zpar, rank, y)
    decreases |zpar| - rank[y]
  {
    LinkKeepsForest(zpar, rank, r, p);
    if y != r && zpar[y] != y {
      LinkRoot(zpar, rank, r, p, zpar[y]);
    }
  }
}
